=== FILE: README.md ===
# NetHub core, modelled in Dafny

NetHub runs a Wi-Fi hotspot with a captive portal and a small web
application. This project models the parts of it that carry logic of their own:

- **The access-point manager** (`backend/hotspotmanager`):
  - the recursive inter-process mutex;
  - signal dispatch;
  - the no-clobber copy;
  - the JSON configuration merge;
  - the stand-alone hotspot manager's configuration and dependency rules;
  - the NetworkManager `unmanaged-devices=` editing;
  - the helpers of `ap_manager.py`: frequency to channel, MAC checks, interface-name and MAC allocation, hostapd.conf rendering, and the running-instance entries;
  - the teardown plan of `cleanup.py`;
  - the command-line validation of `ap_cli.py`.
- **The captive-portal utilities** (`backend/util`):
  - the file of authenticated MAC addresses;
  - the parsing of `arp` and `ip neigh` output;
  - the vendor lookup key and the client address.
- **The Django views**:
  - the portal's device reports, grant and revoke, `connect`, and access codes;
  - payment start, queueing and M-Pesa callbacks;
  - the service directory's listing, pagination and favourite counters;
  - the publish-once and advertisement rules of the service models;
  - the settings diff.
- **Two React pages**:
  - the payment page's state machine;
  - the discover page's filtering, category counts and favourite toggle.

Each core source file is one Dafny module, in a file of the same name. Four shared modules support them:

- `Wrappers` (Option and Result);
- `Text` (the Python string operations the source uses);
- `PyValues` (Python truthiness and `str()` of JSON values);
- `OrderedDict` (insertion-ordered dicts), with `Lists` and `Patterns` for filtering and regular-expression matching.

The models follow the source's own form:

- Objects whose fields the source updates are classes; for example, `LockManager`, `ConfigManager`, `HotspotManager`, `NetworkManager`, `CleanupManager`, `Args`, the auth file, `Payments`, `Directory`, `SettingsStore` and the payment `Page`.
- Loops are methods with invariants.
- Each method is tied by its postcondition to a specification function, and the promised properties are proved as lemmas about that function.
- Commands, file systems, clocks and remote answers are parameters or fields that the environment fills in.
- Commands that `cleanup.py` runs are emitted as an ordered list of actions.

## Model

| member | source | states |
|---|---|---|
| Lock.AfterLock | backend/hotspotmanager/lock.py:83-88 | a successful lock raises the nesting depth by one and leaves the global lock held, keeping "global lock held iff depth > 0" |
| Lock.AfterUnlock | backend/hotspotmanager/lock.py:121-134 | a successful unlock keeps that invariant and leaves the global lock held iff the depth was above 1; an unlock at depth 0 or below changes nothing |
| Lock.UnlockUndoesLock | backend/hotspotmanager/lock.py:64-143 | an unlock right after a lock restores any consistent state |
| Lock.NestedLocksBalance | backend/hotspotmanager/lock.py:64-143 | n nested locks raise the depth by n and n unlocks restore the original state |
| Lock.HeldWhileNested | backend/hotspotmanager/lock.py:64-143 | the global lock stays held while fewer unlocks than locks have happened, at depth start + n - k |
| Lock.AllocBracketAsWritten | backend/hotspotmanager/ap_manager.py:827-844 | as written, the lock/unlock/unlock bracket of `alloc_new_iface` lowers the depth by one |
| Lock.AllocBracketReleasesCallersLock | backend/hotspotmanager/ap_manager.py:827-844 | a caller holding the mutex once loses both its hold and the global lock when the bracket runs |
| Lock.AllocBracket | backend/hotspotmanager/ap_manager.py:827-844 | one lock and one unlock leave every consistent state unchanged |
| Lock.LockManager.constructor | backend/hotspotmanager/lock.py:6-11 | a fresh manager: no counter file, no descriptors, global lock not held |
| Lock.LockManager.GetAvailFd | backend/hotspotmanager/lock.py:45-54 | returns the lowest descriptor from 3 below the limit that is not open, and None exactly when every such descriptor is open |
| Lock.LockManager.CleanupLock | backend/hotspotmanager/lock.py:56-62 | the counter file no longer exists afterwards |
| Lock.LockManager.InitLock | backend/hotspotmanager/lock.py:13-43 | succeeds exactly when a free descriptor exists, the global lock file opens and the rest succeeds; then the counter file holds 0 and the descriptor is kept, otherwise no counter file |
| Lock.LockManager.MutexLock | backend/hotspotmanager/lock.py:64-102 | returns True exactly when a descriptor is free, the counter file holds an integer and the global lock file is open when needed; raises TypeError exactly when a descriptor is free, the counter is 0 and the lock file is not open; after True the counter and the global lock are those of AfterLock, otherwise unchanged |
| Lock.LockManager.MutexUnlock | backend/hotspotmanager/lock.py:104-143 | returns True under the same conditions (the lock file is needed only at depth 1); raises TypeError exactly when a descriptor is free, the counter is 1 and the lock file is not open; after True the state is that of AfterUnlock, otherwise unchanged |
| Signals.Dispatch | backend/hotspotmanager/signals.py:23-71 | SIGINT/SIGUSR1 end with exit 0 and SIGUSR2 with exit 1; other signals do nothing; handlers are restored once, then the cleanup runs once, then the exit; only a clean exit of a child process sends SIGUSR2 to the parent |
| Signals.CountAppend | backend/hotspotmanager/signals.py:33-71 | event counts add up over concatenated trails (used by Dispatch) |
| Signals.SignalHandler.constructor | backend/hotspotmanager/signals.py:8-9 | construction installs `handle_signal` for SIGINT, SIGUSR1 and SIGUSR2 and stores it as the "original" handlers; no events yet |
| Signals.SignalHandler.SetupSignalHandlers | backend/hotspotmanager/signals.py:11-21 | installs `handle_signal` for the three signals and then stores `handle_signal` itself as their originals, since the getsignal calls come after the installs |
| Signals.SignalHandler.RestoreOriginals | backend/hotspotmanager/signals.py:42-45 | puts the stored handlers back for the three signals and records it |
| Signals.SignalHandler.CleanExit | backend/hotspotmanager/signals.py:33-51 | restores the stored handlers and appends the clean-exit trail (SIGUSR2 to the parent when pid != ppid, restore, cleanup, exit 0) |
| Signals.SignalHandler.Die | backend/hotspotmanager/signals.py:53-71 | restores the stored handlers and appends the fatal trail (restore, cleanup, exit 1), without signalling the parent |
| Signals.SignalHandler.HandleSignalCall | backend/hotspotmanager/signals.py:23-28 | appends the trail of the signal's route; an unhandled signal changes no handler; after set-up an exit path reinstalls `handle_signal` |
| Copy.CopyNoClobber | backend/hotspotmanager/ap_utils/copy.py:6-22 | succeeds exactly when the target is missing, the source exists and the I/O succeeds, and then the target holds the source's contents; on failure nothing changes; no existing file ever changes |
| Copy.CopyViaCommand | backend/hotspotmanager/ap_utils/copy.py:25-39 | a missing target is handled as `cp_n` would handle it; an existing target is left alone, and True is reported only when `cp` exists and exits 0 on the skip |
| Copy.CopySafe | backend/hotspotmanager/ap_utils/copy.py:42-62 | a missing target as `cp_n`; an existing target is never touched, and True is reported only when `cp --help` mentions `--no-clobber` and `cp -n` exits 0 on the skip |
| Copy.FileSystem.CpN | backend/hotspotmanager/ap_utils/copy.py:6-22 | the result and the new file system are those of CopyNoClobber |
| Copy.FileSystem.CpNBusyboxFallback | backend/hotspotmanager/ap_utils/copy.py:25-39 | the result and the new file system are those of CopyViaCommand |
| Copy.FileSystem.CpNSafe | backend/hotspotmanager/ap_utils/copy.py:42-62 | the result and the new file system are those of CopySafe |
| Config.ChosenBinding | backend/hotspotmanager/ap_utils/config.py:40-49 | a key gets a value from the command line exactly when some entry whose key lower-cases to it is truthy and is one of the global keys; the value is that of the last such entry |
| Config.Selected | backend/hotspotmanager/ap_utils/config.py:49 | the dict comprehension yields distinct keys |
| Config.MergeLookup | backend/hotspotmanager/ap_utils/config.py:40-49 | after the update a key holds its last selected value, and a key nothing was selected for keeps its value |
| Config.Str | backend/hotspotmanager/ap_utils/config.py:37-38 | an empty config has no rendering (None), any other has one |
| Config.StrLines | backend/hotspotmanager/ap_utils/config.py:37-38 | splitting the rendering at newlines gives back one `k=v` line per entry, in order, when no entry holds a newline and the strip removes nothing |
| Config.ConfigManager.Open | backend/hotspotmanager/ap_utils/config.py:8-10 | a manager is made exactly when its file exists, and it then holds a fresh dict with that file's contents |
| Config.ConfigManager.LoadConfig | backend/hotspotmanager/ap_utils/config.py:16-24 | a present file yields a fresh dict with its contents; a missing one yields the "Config file not found" error and keeps the old dict |
| Config.ConfigManager.DictUpdate | backend/hotspotmanager/ap_utils/config.py:40-49 | an empty or missing target falls back to the manager's config; with both dicts non-empty the target is updated in place with the selected entries and None is returned; otherwise nothing changes and `d1 or {}` is returned |
| HotspotManager.MergedLookup | backend/hotspotmanager/hotspot_manager.py:34 | in `{**default_config, **user_config}` a key of the user's file takes the file's (last) value and every other key keeps its default |
| HotspotManager.MergedKeys | backend/hotspotmanager/hotspot_manager.py:34 | the merged dict holds exactly the keys of the defaults and of the file |
| HotspotManager.MergedHasDefaultKeys | backend/hotspotmanager/hotspot_manager.py:18-34 | every default key is present after the merge, so every later `self.config[...]` lookup succeeds |
| HotspotManager.MergedKeepsDefaultOrder | backend/hotspotmanager/hotspot_manager.py:34 | the default keys come first in the merged dict, in their own order |
| HotspotManager.RequiredTools | backend/hotspotmanager/hotspot_manager.py:46-50 | iptables and dnsmasq are always required; nmcli exactly in nmcli mode; systemctl and hostapd exactly otherwise |
| HotspotManager.Missing | backend/hotspotmanager/hotspot_manager.py:52-55 | the missing tools are exactly the required ones that are not installed |
| HotspotManager.MissingNone | backend/hotspotmanager/hotspot_manager.py:57-60 | nothing is missing exactly when every required tool is installed |
| HotspotManager.IfName | backend/hotspotmanager/hotspot_manager.py:69 | the second `:`-field exists exactly when the line holds a `:` |
| HotspotManager.UpInterfaces | backend/hotspotmanager/hotspot_manager.py:67-70 | the collected names are no more than the lines |
| HotspotManager.UpInterfacesFails | backend/hotspotmanager/hotspot_manager.py:67-73 | the scan fails (IndexError, caught) exactly when some line mentioning `wl` and `state UP` has no `:` |
| HotspotManager.UpInterfacesNames | backend/hotspotmanager/hotspot_manager.py:67-71 | when the scan succeeds, a name is listed exactly when some selected line yields it |
| HotspotManager.AvailableInterfaces | backend/hotspotmanager/hotspot_manager.py:62-74 | no output gives []; a successful scan gives its names; a failed scan gives [] |
| HotspotManager.ConfigureDict | backend/hotspotmanager/hotspot_manager.py:219-228 | the four assignments keep the dict's keys |
| HotspotManager.ConfigureLookup | backend/hotspotmanager/hotspot_manager.py:219-228 | a truthy ssid, password or interface and a mode of `nmcli`/`systemd` become the new settings; every other key keeps its value |
| HotspotManager.HotspotManager.constructor | backend/hotspotmanager/hotspot_manager.py:16-27 | the config is the file merged over the defaults, or the defaults, which are then written out when there is no file |
| HotspotManager.HotspotManager.LoadConfig | backend/hotspotmanager/hotspot_manager.py:29-37 | the same, for a later reload |
| HotspotManager.HotspotManager.SaveConfig | backend/hotspotmanager/hotspot_manager.py:39-42 | the file afterwards holds the current config |
| HotspotManager.HotspotManager.CheckDependencies | backend/hotspotmanager/hotspot_manager.py:44-60 | returns False exactly when a required tool of the configured mode is missing; the missing list is Missing of the required tools |
| HotspotManager.HotspotManager.GetAvailableInterfaces | backend/hotspotmanager/hotspot_manager.py:62-74 | the loop returns AvailableInterfaces of the `ip link show` output |
| HotspotManager.HotspotManager.StartHotspot | backend/hotspotmanager/hotspot_manager.py:168-185 | raises exactly when `nmcli con up` fails after a successful nmcli setup; otherwise succeeds exactly when the dependencies are there and the mode's setup succeeds; a missing tool runs nothing; the status is shown exactly on success; `nmcli con up` runs exactly after a successful nmcli setup |
| HotspotManager.HotspotManager.Configure | backend/hotspotmanager/hotspot_manager.py:219-231 | the config becomes ConfigureDict of the old one and is saved to the file |
| NetManager.VersionCmp | backend/hotspotmanager/netmanager.py:26-54 | raises (Err) exactly when either string is not dot-separated digits (a final newline allowed, as `$` allows); otherwise answers 0, 1 or 2 |
| NetManager.CmpEqualIffPaddedEqual | backend/hotspotmanager/netmanager.py:43-54 | the answer is 0 exactly when the versions agree in every component once the shorter is padded with zeros |
| NetManager.CmpSwap | backend/hotspotmanager/netmanager.py:45-54 | swapping the arguments swaps 1 ("older") and 2 ("newer") and keeps 0 |
| NetManager.CmpOlderTransitive | backend/hotspotmanager/netmanager.py:45-54 | "older than" is transitive |
| NetManager.CmpReflexive | backend/hotspotmanager/netmanager.py:45-54 | every version compares equal to itself |
| NetManager.CmpExamples | backend/hotspotmanager/netmanager.py:71 | 0.9.8 is older than 0.9.9, 1.0 newer, and 1.2 equals 1.2.0 |
| NetManager.IfaceIsUnmanaged | backend/hotspotmanager/netmanager.py:95-120 | a non-interface is managed (False); an interface unknown to NetworkManager is unmanaged (True); otherwise True exactly when a `DEVICE:STATE` line starts with `<iface>:unmanaged` |
| NetManager.ParseEntries | backend/hotspotmanager/netmanager.py:156 | the parsed device specs are non-empty and hold no whitespace |
| NetManager.EntriesRoundTrip | backend/hotspotmanager/netmanager.py:156-177 | joining plain specs with `;` into an `unmanaged-devices=` line and parsing it back gives the same specs |
| NetManager.DropUnmanaged | backend/hotspotmanager/netmanager.py:303-316 | the kept lines are lines of the file and none is an `unmanaged-devices=` line |
| NetManager.DropUnmanagedIdempotent | backend/hotspotmanager/netmanager.py:303-316 | fixing twice is fixing once, and a file without such lines is kept as it is |
| NetManager.ReplaceUnmanaged | backend/hotspotmanager/netmanager.py:280-284 | the rewrite keeps the number of lines |
| NetManager.ReplaceInKeyfile | backend/hotspotmanager/netmanager.py:198-206 | the second pass keeps the number of lines |
| NetManager.AddAsWrittenDuplicatesFile | backend/hotspotmanager/netmanager.py:183-206 | as written, a file with a `[keyfile]` section and an unmanaged line is written out a second time after the first copy |
| NetManager.AddAsWrittenWithoutKeyfileLosesEntries | backend/hotspotmanager/netmanager.py:192-193 | as written, without a `[keyfile]` section the rewrite lists nothing: the new spec is never written and the old ones are lost |
| NetManager.AddListsTarget | backend/hotspotmanager/netmanager.py:122-209 | the intended add lists the old specs followed by the new one and keeps every other line, adding a `[keyfile]` section when there is none |
| NetManager.RemoveFirst | backend/hotspotmanager/netmanager.py:259-260 | `list.remove` takes exactly one occurrence off the list, the first one: the elements before it keep their places and those after it move up by one |
| NetManager.RmUnlistsTarget | backend/hotspotmanager/netmanager.py:240-284 | with an unmanaged line present, the rewrite lists the old specs with the first occurrence of the target removed and the rest in their order (so one occurrence fewer), and keeps every other line |
| NetManager.AddThenRmRestores | backend/hotspotmanager/netmanager.py:122-301 | adding a new spec (intended add) and removing it again restores the listed specs |
| NetManager.KeepManagedLines | backend/hotspotmanager/netmanager.py:313-316 | the write loop keeps exactly DropUnmanaged of the lines |
| NetManager.EffectiveMac | backend/hotspotmanager/netmanager.py:137-141 | there is no usable MAC exactly when NetworkManager is older, none was given and the lookup is empty |
| NetManager.NetworkManager.constructor | backend/hotspotmanager/netmanager.py:10-16 | the configuration as found; nothing added yet; version flag clear |
| NetManager.NetworkManager.NetworkManagerExists | backend/hotspotmanager/netmanager.py:56-76 | found exactly when a version was reported, and the "older than 0.9.9" flag is then set from VersionCmp; `nmcliVersion` is the text the version search at line 69 found, which always has the version format |
| NetManager.NetworkManager.AddUnmanaged | backend/hotspotmanager/netmanager.py:122-222 | False without NetworkManager or without a usable MAC (the file is then created empty if missing); otherwise an already listed spec changes nothing, else the file becomes the as-written rewrite and the interface is recorded as added |
| NetManager.NetworkManager.AddKnownVersion | backend/hotspotmanager/netmanager.py:129-222 | once the version is known: the missing file is created empty; False iff no usable MAC; otherwise an already listed spec changes nothing, else the file becomes the as-written rewrite and the interface is recorded as added |
| NetManager.NetworkManager.RmUnmanaged | backend/hotspotmanager/netmanager.py:224-301 | True exactly when NetworkManager exists, the file exists, a usable MAC exists and the file has an unmanaged line; then the file becomes RmRewrite and the interface is no longer recorded; otherwise nothing changes |
| NetManager.NetworkManager.FixUnmanaged | backend/hotspotmanager/netmanager.py:303-327 | a missing file stays missing; otherwise every unmanaged line is dropped |
| NetManager.NetworkManager.RmUnmanagedIfNeeded | backend/hotspotmanager/netmanager.py:329-333 | an interface this process did not add is left alone (False); for one it added, the answer, the new configuration and the tracking set are those of RmUnmanaged |
| Text.ParseInt | backend/hotspotmanager/ap_manager.py:745 | `int(t)` in base 10: a parse needs non-blank text, and text whose stripped form starts with a digit reads as a non-negative number |
| Text.ParseIntOfIntToString | backend/hotspotmanager/ap_manager.py:745 | every integer's decimal rendering parses back to that integer, the minus sign included |
| Text.ParseIntSkipsUnderscore | backend/services/views.py:46-47 | an underscore between two digit groups does not change the number `int` reads |
| ApManager.FrequencyToChannel | backend/hotspotmanager/ap_manager.py:747-764 | frequencies below 1000 MHz give channel 0 |
| ApManager.ChannelOf | backend/hotspotmanager/ap_manager.py:741-745 | the conversion, on the argument or else on the configured band, fails exactly when the integer part of that text does not parse |
| ApManager.ChannelExamples | backend/hotspotmanager/ap_manager.py:747-764 | 2412→1, 2437→6, 2484→14, 5180→36, the special 5935→2, 999→0 |
| ApManager.Band24Channels | backend/hotspotmanager/ap_manager.py:753-756 | every 2.4 GHz channel 1..13 is recovered from its centre frequency 2407 + 5·ch |
| ApManager.Band5Channels | backend/hotspotmanager/ap_manager.py:757-760 | every 5 GHz channel is recovered from 5000 + 5·ch, apart from 5935 |
| ApManager.Band49Channels | backend/hotspotmanager/ap_manager.py:757-758 | the 4.9 GHz channels 182..196 are recovered from 4000 + 5·ch |
| ApManager.Band6Channels | backend/hotspotmanager/ap_manager.py:761-762 | the 6 GHz channels are recovered from 5950 + 5·ch up to 45 GHz |
| ApManager.Band60Channels | backend/hotspotmanager/ap_manager.py:763-764 | the 60 GHz channels 1..6 are recovered from 56160 + 2160·ch |
| ApManager.Band24RoundsDown | backend/hotspotmanager/ap_manager.py:755-756 | a 2.4 GHz frequency between two centres maps to the lower channel |
| ApManager.HexValue | backend/hotspotmanager/ap_manager.py:801 | `int(s, 16)` succeeds exactly on non-empty hexadecimal text, and two digits give an octet |
| ApManager.UnicastIffIndividualBit | backend/hotspotmanager/ap_manager.py:789-802 | an address is unicast exactly when it is a well-formed MAC whose first octet has its individual/group bit clear |
| ApManager.AfterLastColon | backend/hotspotmanager/ap_manager.py:1023 | `split(':')[-1]` is the colon-free suffix after the last ':' |
| ApManager.BeforeLastColon | backend/hotspotmanager/ap_manager.py:1030 | `rsplit(':', 1)[0]` and the last field put back together give the address |
| ApManager.Hex2 | backend/hotspotmanager/ap_manager.py:1030 | `f"{n:02x}"` is two hexadecimal digits that read back as n |
| ApManager.GetNewMacaddr | backend/hotspotmanager/ap_manager.py:1015-1040 | no address gives None; a last octet that is not hexadecimal raises; an answer is the first candidate (last octet + i mod 256, i from 1) not in use; None otherwise means all 255 candidates are in use |
| ApManager.FindFreeCandidate | backend/hotspotmanager/ap_manager.py:1027-1035 | the loop finds the first free candidate, or reports that all of them are in use |
| ApManager.CandidateOfMac | backend/hotspotmanager/ap_manager.py:1027-1030 | for a well-formed address every candidate is well-formed, keeps the first five octets and differs from the old address |
| ApManager.LastOctetOfMac | backend/hotspotmanager/ap_manager.py:1022-1023 | the last octet of a well-formed address is its final two characters and parses as hexadecimal |
| ApManager.CandidateIsNotOldMac | backend/hotspotmanager/ap_manager.py:1027-1030 | no candidate equals the old address, whatever its shape |
| ApManager.TakenIndexBound | backend/hotspotmanager/ap_manager.py:834-842 | only finitely many indices give a taken name, so the search of `alloc_new_iface` ends |
| ApManager.DallocAsWritten | backend/hotspotmanager/ap_manager.py:846-861 | as written, `dalloc_iface` raises FileNotFoundError exactly when `iface + "0"` is neither a live interface nor a marker, and removes nothing |
| ApManager.DallocLeavesAllocatedMarker | backend/hotspotmanager/ap_manager.py:846-861 | releasing a just-allocated name with `dalloc_iface` raises when its "0" extension is free, and its marker stays |
| ApManager.ReleaseIface | backend/hotspotmanager/ap_manager.py:846-861 | the intended release removes the name's marker and keeps every other marker |
| ApManager.AllocThenRelease | backend/hotspotmanager/ap_manager.py:827-861 | allocating a fresh name and releasing it as intended restores the markers |
| ApManager.IfaceAllocator.constructor | backend/hotspotmanager/ap_manager.py:35-66 | the allocator starts from the given interfaces, markers, mutex state and configured interface |
| ApManager.IfaceAllocator.AllocNewIface | backend/hotspotmanager/ap_manager.py:827-844 | returns prefix + i for the least i whose name is neither live nor marked (the configured interface when no prefix), creates its marker, and leaves the mutex as the lock/unlock/unlock bracket does |
| ApManager.IfaceAllocator.DallocIface | backend/hotspotmanager/ap_manager.py:846-861 | answers DallocAsWritten and locks and unlocks the mutex once each |
| ApManager.HostapdHeader | backend/hotspotmanager/ap_manager.py:397-400 | the file opens with `beacon_int=100` and then the SSID |
| ApManager.BaseKeys | backend/hotspotmanager/ap_manager.py:397-407 | the base lines set only the nine base keys |
| ApManager.WpaKeys | backend/hotspotmanager/ap_manager.py:450-480 | the security block sets only WPA keys and `bridge`, and `bridge` only for bridge sharing |
| ApManager.RadioKeys | backend/hotspotmanager/ap_manager.py:410-449 | the radio blocks set only radio keys; `hw_mode` follows the band and a country code needs a country |
| ApManager.RadioHas | backend/hotspotmanager/ap_manager.py:410-422 | the radio blocks always set `hw_mode`, and the country code with `ieee80211d=1` when a country is set |
| ApManager.InSettings | backend/hotspotmanager/ap_manager.py:395-481 | every line of the file comes from the base lines, a radio block or (when guarded in) the security block |
| ApManager.SettingsHas | backend/hotspotmanager/ap_manager.py:395-481 | every radio line, and every security line when the guard holds, is in the file |
| ApManager.HostapdHwMode | backend/hotspotmanager/ap_manager.py:415-422 | `hw_mode=g` exactly on the 2.4 GHz band and `hw_mode=a` otherwise |
| ApManager.HostapdCountry | backend/hotspotmanager/ap_manager.py:410-414 | a country code is written exactly when a country is set, together with `ieee80211d=1` |
| ApManager.WpaHas | backend/hotspotmanager/ap_manager.py:451-480 | the WPA lines name the key type (`wpa_psk` with `use_psk`, else `wpa_passphrase`); version 3 writes `wpa=2`, SAE and `ieee80211w=1`, any other version writes itself and WPA-PSK |
| ApManager.HostapdSecurity | backend/hotspotmanager/ap_manager.py:450-480 | the `wpa` key appears exactly when the guard holds, with the key type and version lines of WpaHas, and `bridge` exactly with the guard and bridge sharing |
| ApManager.PasswordGivesOpenNetwork | backend/hotspotmanager/ap_manager.py:450 | as written, a configured password produces a file with no `wpa` and no passphrase line: an open network |
| ApManager.PasswordGivesSecuredNetwork | backend/hotspotmanager/ap_manager.py:450-476 | with the guard as intended, a password is written as the WPA passphrase (or PSK) and no password gives an open network |
| ApManager.BlocksInOrder | backend/hotspotmanager/ap_manager.py:408-480 | the blocks, written one guarded write at a time, make up the file as written |
| ApManager.RadioWrites | backend/hotspotmanager/ap_manager.py:410-449 | each guarded write produces its radio block |
| ApManager.HostapdWriter.constructor | backend/hotspotmanager/ap_manager.py:35-66 | the writer holds the configuration and directory and no file yet |
| ApManager.HostapdWriter.SecurityWrites | backend/hotspotmanager/ap_manager.py:451-480 | a "1+2" WPA version is rewritten to 2 in the configuration, then the WPA lines and the bridge line are produced |
| ApManager.HostapdWriter.ConfigHostapd | backend/hotspotmanager/ap_manager.py:395-481 | returns True, writes HostapdAsWritten, and rewrites "1+2" to 2 in the configuration exactly when the security block runs |
| ApManager.RunningEntries | backend/hotspotmanager/ap_manager.py:1267-1285 | one `pid iface` or `pid iface (wifi_iface)` entry per running instance, in order |
| ApManager.ListRunning | backend/hotspotmanager/ap_manager.py:1267-1285 | the loop yields exactly RunningEntries |
| ApManager.EntryFields | backend/hotspotmanager/ap_manager.py:1280-1283 | `split()` finds pid and iface, plus the parenthesised wifi interface when it differs |
| ApManager.EntriesOfPlain | backend/hotspotmanager/ap_manager.py:1267-1285 | every entry of plain instances has fields to split |
| ApManager.LastFieldStripped | backend/hotspotmanager/ap_manager.py:1100 | stripping ')' from the last field leaves the iface, or '(' + wifi iface; stripping '(' too leaves the wifi iface |
| ApManager.LookupFirst | backend/hotspotmanager/ap_manager.py:1093-1101 | both lookups answer from the first entry whose pid matches |
| ApManager.WifiIfaceOfPid | backend/hotspotmanager/ap_manager.py:1093-1101 | as written the lookup by pid returns the iface, or '(' + wifi iface when the two differ; the corrected lookup returns the wifi iface |
| ApManager.WifiIfaceFromPidKeepsParen | backend/hotspotmanager/ap_manager.py:1100 | an instance whose wifi interface differs from its name is reported with a stray '(' |
| ApManager.LastFieldNamesWifi | backend/hotspotmanager/ap_manager.py:1280-1283 | the last field of an entry contains the wifi interface |
| ApManager.PidFound | backend/hotspotmanager/ap_manager.py:1103-1110 | the search by wifi interface stops at the first entry whose last field contains the name |
| ApManager.PidOfWifiIface | backend/hotspotmanager/ap_manager.py:1103-1110 | every running instance is found by its wifi interface; the pid returned is its own or that of an earlier instance whose last field also contains the name |
| Cleanup.RuleArgv | backend/hotspotmanager/cleanup.py:131-210 | every deleted rule is an `iptables -w` command line |
| Cleanup.RuleNetPosition | backend/hotspotmanager/cleanup.py:131-203 | a rule that names a network names it right after `-s` or `-d` |
| Cleanup.Net24 | backend/hotspotmanager/cleanup.py:133 | the gateway's "/24" network exists exactly when the gateway has at least three dotted fields (otherwise the indexing raises) |
| Cleanup.Net24OfAddress | backend/hotspotmanager/cleanup.py:133 | for a dotted address the network keeps its first three octets and ends in ".0/24" |
| Cleanup.IgnoreSignals | backend/hotspotmanager/cleanup.py:43-46 | the opening step only sets signals to be ignored |
| Cleanup.HavegedKill | backend/hotspotmanager/cleanup.py:55-59 | the haveged step only sends signals |
| Cleanup.PidKills | backend/hotspotmanager/cleanup.py:61-71 | the pid-file loop only sends SIGKILL |
| Cleanup.PidKillsMember | backend/hotspotmanager/cleanup.py:61-71 | a SIGKILL is sent to p exactly when some ".pid" file holds text that parses to p, except pid 0 where it is skipped |
| Cleanup.ProcDirBlock | backend/hotspotmanager/cleanup.py:62-74 | the instance directory step only kills processes and removes the directory |
| Cleanup.ForwardingBlock | backend/hotspotmanager/cleanup.py:76-92 | the forwarding step only restores the interface's forwarding file and removes the saved copy |
| Cleanup.CommonBlock | backend/hotspotmanager/cleanup.py:94-125 | the last-instance step only kills, removes files or the common directory, and restores ip_forward and bridge-nf-call-iptables |
| Cleanup.CleanAddr | backend/hotspotmanager/cleanup.py:162-163 | a cleaned address entry has no whitespace at either end |
| Cleanup.CleanAddrOfInet | backend/hotspotmanager/cleanup.py:162-163 | a saved "inet ..." entry is cleaned to the stripped rest |
| Cleanup.AddrRestores | backend/hotspotmanager/cleanup.py:161-164 | one `ip addr add` per saved address, in order |
| Cleanup.RoutesOfKind | backend/hotspotmanager/cleanup.py:168-175 | the selected routes are non-empty saved routes of the asked kind (default or not) |
| Cleanup.RoutesOfKindSnoc | backend/hotspotmanager/cleanup.py:168-175 | one more saved route extends the selection by itself exactly when it is non-empty and of the kind |
| Cleanup.ReplayIsPermutation | backend/hotspotmanager/cleanup.py:166-175 | the replay puts back every non-empty saved route exactly as often as it was saved |
| Cleanup.ReplayDefaultsLast | backend/hotspotmanager/cleanup.py:172-175 | in the replay no default route comes before a non-default one |
| Cleanup.RouteAdds | backend/hotspotmanager/cleanup.py:168-175 | one `ip route add` per replayed route, in order |
| Cleanup.BridgeBlock | backend/hotspotmanager/cleanup.py:148-178 | dismantling the bridge runs only `ip` commands, the bridge release and the unmanaged-list removal |
| Cleanup.ShareBlock | backend/hotspotmanager/cleanup.py:127-178 | the sharing step raises exactly for NAT sharing with a gateway that has no network; NAT deletes exactly its three rules; other methods delete no rule |
| Cleanup.DnsBlock | backend/hotspotmanager/cleanup.py:180-203 | the DNS step raises exactly when it is due and the gateway has no network, after deleting the two INPUT rules of the DNS port; it is empty for bridge sharing or with DNS off, else it deletes the four DNS rules |
| Cleanup.DhcpBlock | backend/hotspotmanager/cleanup.py:205-210 | the DHCP step deletes only the port-67 rule |
| Cleanup.IfaceBlock | backend/hotspotmanager/cleanup.py:212-225 | the interface step runs only `ip`/`iw` commands, the release and the unmanaged-list removal |
| Cleanup.FinallyBlock | backend/hotspotmanager/cleanup.py:227-233 | the `finally` step unlocks the mutex, removes the lock file, and then at most removes the daemon pid file |
| Cleanup.HeadBlock | backend/hotspotmanager/cleanup.py:51-125 | the steps before the sharing method start with `disown` and only kill, copy or remove |
| Cleanup.CleanupBody | backend/hotspotmanager/cleanup.py:50-225 | the body of the `try` starts with `disown` |
| Cleanup.PlanBracket | backend/hotspotmanager/cleanup.py:40-233 | the plan ignores the signals and takes the mutex first, and ends with the `finally` step also when the body raises |
| Cleanup.PlanMember | backend/hotspotmanager/cleanup.py:40-233 | an action is in the plan exactly when one of its steps produces it and the steps before it did not raise; a raising DNS step still contributes the deletions it ran before the raise |
| Cleanup.PlanDeletes | backend/hotspotmanager/cleanup.py:127-210 | a deleted rule comes only from the sharing, DNS or DHCP steps |
| Cleanup.PlanNonNetwork | backend/hotspotmanager/cleanup.py:40-125 | an action that is no network step comes from the signal bracket, the head or the `finally` step |
| Cleanup.ForwardingRestoredIff | backend/hotspotmanager/cleanup.py:76-92 | the interface's forwarding is restored exactly when the interface is set, no running instance shares through it and a saved copy exists |
| Cleanup.HeadMember | backend/hotspotmanager/cleanup.py:51-125 | an action of the head comes from disown, haveged, the instance directory, forwarding or the last-instance step |
| Cleanup.CommonRestoredOnlyWhenLast | backend/hotspotmanager/cleanup.py:94-125 | the common directory is removed exactly when no instance is running, and ip_forward is restored exactly when none is running and it was saved |
| Cleanup.CommonMembers | backend/hotspotmanager/cleanup.py:94-125 | the same two facts of the last-instance step on its own |
| Cleanup.ProcDirKills | backend/hotspotmanager/cleanup.py:62-74 | the instance's pid files are killed (pid 0 excepted) and the directory is then removed |
| Cleanup.NatTeardown | backend/hotspotmanager/cleanup.py:129-147 | the three NAT rules of the gateway's network are deleted exactly under NAT sharing, and no other NAT rule ever is |
| Cleanup.NatRuleOnlyInShareBlock | backend/hotspotmanager/cleanup.py:129-147 | a NAT rule can come only from the sharing step |
| Cleanup.PortIsNot67 | backend/hotspotmanager/cleanup.py:184-209 | a DNS port other than 67 renders differently from "67" |
| Cleanup.DnsAndDhcpTeardown | backend/hotspotmanager/cleanup.py:180-210 | the DNS rules are deleted exactly when the method is not bridge and DNS is on; the DHCP rule exactly when the method is not bridge |
| Cleanup.DnsRuleDeleted | backend/hotspotmanager/cleanup.py:180-203 | each DNS rule is deleted exactly when DNS is served |
| Cleanup.DnsRuleOnlyInDnsBlock | backend/hotspotmanager/cleanup.py:180-203 | a DNS rule can come only from the DNS step |
| Cleanup.DhcpRuleDeleted | backend/hotspotmanager/cleanup.py:205-210 | the DHCP rule is deleted exactly when the method is not bridge |
| Cleanup.DhcpOnlyInDhcpBlock | backend/hotspotmanager/cleanup.py:205-210 | the DHCP rule comes only from the DHCP step |
| Cleanup.EveryRuleUsesNet24 | backend/hotspotmanager/cleanup.py:131-203 | every deleted rule that names a network names the gateway's "/24" network |
| Cleanup.RaisingPlanStops | backend/hotspotmanager/cleanup.py:133-225 | when building the network raises, the network steps carried out are nothing under NAT and exactly the two INPUT deletions of the DNS port otherwise; the interface step and a separate DHCP deletion are not carried out |
| Cleanup.CleanupManager.constructor | backend/hotspotmanager/cleanup.py:11-38 | empty directory settings fall back to `/etc/ap_manager/conf` and `/etc/ap_manager/proc`; nothing has been done yet |
| Cleanup.CleanupManager.KillPidFiles | backend/hotspotmanager/cleanup.py:63-71 | the loop sends exactly PidKills |
| Cleanup.CleanupManager.FindInternetUse | backend/hotspotmanager/cleanup.py:77-84 | `found` holds exactly when some running instance's saved internet interface, stripped, is this one |
| Cleanup.CleanupManager.ReplayRoutes | backend/hotspotmanager/cleanup.py:166-175 | the two route loops add the routes in replay order |
| Cleanup.CleanupManager.SelectRoutes | backend/hotspotmanager/cleanup.py:168-175 | one route loop selects RoutesOfKind |
| Cleanup.CleanupManager.RestoreAddrs | backend/hotspotmanager/cleanup.py:161-164 | the address loop yields AddrRestores |
| Cleanup.CleanupManager.Bridge | backend/hotspotmanager/cleanup.py:148-178 | the bridge branch yields BridgeBlock |
| Cleanup.CleanupManager.CommonSteps | backend/hotspotmanager/cleanup.py:94-125 | the last-instance branch yields CommonBlock |
| Cleanup.CleanupManager.DoCleanup | backend/hotspotmanager/cleanup.py:40-233 | `_cleanup` appends exactly the plan, including the deletions run before a raise, and returns normally exactly when the network can be built |
| Cleanup.CleanupManager.HeadSteps | backend/hotspotmanager/cleanup.py:51-125 | the steps before the sharing method yield HeadBlock |
| Cleanup.CleanupManager.NetworkSteps | backend/hotspotmanager/cleanup.py:127-225 | the steps from the sharing method on yield NetworkBlock, cut short exactly where the network cannot be built, after the DNS deletions already run |
| Cleanup.CleanupManager.DnsSteps | backend/hotspotmanager/cleanup.py:180-203 | the DNS commands run in order yield DnsBlock: the two INPUT deletions, then the raise or the two redirect deletions |
| Cleanup.CleanupManager.HasRunningInstance | backend/hotspotmanager/cleanup.py:257-259 | an instance runs exactly when the running list is non-empty |
| Cleanup.CleanupManager.DieExit | backend/hotspotmanager/cleanup.py:241-248 | a child process sends SIGUSR2 to its parent, then the process exits with status 1 |
| Cleanup.CleanupManager.CleanExitNow | backend/hotspotmanager/cleanup.py:250-255 | a child process sends SIGUSR1 to its parent, then the process exits with status 0 |
| ApCli.SsidExit | backend/hotspotmanager/ap_cli.py:195-198 | a given SSID ends the program exactly when it is longer than 32 characters (an empty one is falsy and passes) |
| ApCli.MacExit | backend/hotspotmanager/ap_cli.py:183-193 | as written, a given address passes exactly when it is well-formed and NOT unicast; an address in use only warns |
| ApCli.MacExitRefusesUnicast | backend/hotspotmanager/ap_cli.py:189-190 | every well-formed unicast address, the kind the message asks for, is refused as written and accepted by the intended check |
| ApCli.MacExitIntended | backend/hotspotmanager/ap_cli.py:183-193 | as intended, a given address passes exactly when it is unicast (well-formed with an even first octet) |
| ApCli.MacIntendedAcceptsIndividual | backend/hotspotmanager/ap_cli.py:189-190 | the intended check accepts exactly the well-formed addresses whose individual/group bit is clear |
| ApCli.RtlExit | backend/hotspotmanager/ap_cli.py:170-181 | only the rtl8192/8723 modules can end the program, and for them it goes on exactly when the hostapd binary is readable and carries `rtl871xdrv` |
| ApCli.InternetExit | backend/hotspotmanager/ap_cli.py:227-230 | sharing through something that is not an interface ends the program |
| ApCli.VirtualExit | backend/hotspotmanager/ap_cli.py:240-246 | `--no-virt` with the WiFi interface as internet interface ends the program |
| ApCli.PromptLimits | backend/hotspotmanager/ap_cli.py:208-225 | the password prompt accepts 8 to 63 characters and the psk prompt exactly 64 |
| ApCli.Prompt | backend/hotspotmanager/ap_cli.py:248-262 | at most three prompts: the first acceptable line is returned after rejecting every earlier one; None after three rejections; the end of input raises |
| ApCli.EarlyExit | backend/hotspotmanager/ap_cli.py:135-198 | the validators up to the SSID let the program go on exactly when no version was asked for, the interface is WiFi and can be an AP, there is no station conflict, hostapd exists, and the rtl, MAC and SSID checks pass |
| ApCli.LateExit | backend/hotspotmanager/ap_cli.py:200-246 | the later validators let the program go on exactly when no due prompt hits the end of input and the internet-interface and virtual-interface checks pass |
| ApCli.ValidatedChangesOnly | backend/hotspotmanager/ap_cli.py:127-246 | validation assigns only the channel, password, psk and WPA version, and the channel becomes 5 exactly when a truthy non-5 band comes with a channel above 14 |
| ApCli.StaApNeverEnablesNoVirt | backend/hotspotmanager/ap_cli.py:156-163 | as written, an adapter that cannot be station and AP, while not connected, passes with `no_virt` still False; the intended step sets it |
| ApCli.StaApStepIntended | backend/hotspotmanager/ap_cli.py:156-163 | as intended, `no_virt` becomes True exactly in that case and nothing else changes |
| ApCli.StoredPasswordFirst | backend/hotspotmanager/ap_cli.py:200-206 | a stored password is used before any prompt and nothing is read |
| ApCli.StoredPskGoesToPassword | backend/hotspotmanager/ap_cli.py:214-220 | a stored psk is assigned to `password`, `psk` stays as it was, and nothing is read |
| ApCli.PromptedPassword | backend/hotspotmanager/ap_cli.py:208-212 | a prompted password is the first of the first three typed lines with 8 to 63 characters; None exactly when all three fail |
| ApCli.NoBraceNoRealtekWarning | backend/hotspotmanager/ap_cli.py:234 | the realtek pattern needs a literal `{`, so a module name without one never draws the warning |
| ApCli.MacInUseOnlyWarns | backend/hotspotmanager/ap_cli.py:192-193 | which addresses are in use never changes the outcome or the arguments |
| ApCli.Args.constructor | backend/hotspotmanager/ap_cli.py:42-104 | the namespace holds the parsed values |
| ApCli.ArgumentValidator.constructor | backend/hotspotmanager/ap_cli.py:107-125 | the validator holds the manager's answers and the typed input |
| ApCli.ArgumentValidator.GetPasswordInput | backend/hotspotmanager/ap_cli.py:248-262 | the outcome is Prompt's and exactly the lines it read are consumed |
| ApCli.ArgumentValidator.ValidateFreqBand | backend/hotspotmanager/ap_cli.py:140-144 | the arguments become FreqBandStep of the old ones |
| ApCli.ArgumentValidator.ValidatePassword | backend/hotspotmanager/ap_cli.py:200-212 | ends the program exactly when a due prompt hits the end of input; otherwise the arguments become PasswordStep; only a due prompt reads input |
| ApCli.ArgumentValidator.ValidatePsk | backend/hotspotmanager/ap_cli.py:214-225 | the same for the psk |
| ApCli.ArgumentValidator.ValidateRealtekWarning | backend/hotspotmanager/ap_cli.py:232-238 | the arguments become RealtekStep of the old ones |
| ApCli.ArgumentValidator.ValidateEarly | backend/hotspotmanager/ap_cli.py:135-198 | answers EarlyExit; when it goes on, only the frequency step has changed the arguments |
| ApCli.ArgumentValidator.ValidateLate | backend/hotspotmanager/ap_cli.py:200-246 | answers LateExit; when it goes on, the arguments are the password, psk and realtek steps applied in turn, and the read lines are consumed |
| ApCli.ArgumentValidator.Validate | backend/hotspotmanager/ap_cli.py:127-133 | ends the program with FirstExit, and otherwise leaves the arguments Validated and the read lines consumed |
| Helpers.StrippedLinesMembers | backend/util/helpers.py:50 | an entry of the read set is a non-empty stripped line, and every line with a non-empty strip gives one |
| Helpers.Authenticated | backend/util/helpers.py:41-57 | after a successful `authenticate_mac` the file exists, and a file of whole lines stays one |
| Helpers.AuthenticateLists | backend/util/helpers.py:41-57 | authenticating a MAC appends it exactly when it was not listed, lists nothing else, and the MAC then reads as authenticated |
| Helpers.AuthenticateIdempotent | backend/util/helpers.py:53-57 | authenticating the same MAC twice leaves the file as one call does |
| Helpers.AuthFile.constructor | backend/util/helpers.py:44 | the file holds the given text, or is missing |
| Helpers.AuthFile.AuthenticateMac | backend/util/helpers.py:41-62 | returns True exactly when the existing file can be read and, for a new MAC, the append succeeds; then the file is Authenticated, otherwise unchanged |
| Helpers.LowerMacText | backend/util/helpers.py:20-22 | a lower-cased MAC match is still a MAC match, lower-casing is idempotent, and it can be stored on a line |
| Helpers.FirstMac | backend/util/helpers.py:20-22 | a match exists exactly when the output contains the MAC pattern, and it comes back lower-cased |
| Helpers.ClientMac | backend/util/helpers.py:11-38 | a MAC is found exactly when the first `arp -n` succeeds and it, or the retry after the ping, holds one; the first output wins |
| Helpers.ArpDevice | backend/util/helpers.py:74-93 | a device comes only from a captive-network line, with a 192.168.12.x address, a 17-character lower-cased MAC, an interface name, and `authenticated` as `is_mac_authenticated` says |
| Helpers.ConnectedDevicesMembers | backend/util/helpers.py:74-93 | a device is listed exactly when some line describes it |
| Helpers.GetConnectedDevices | backend/util/helpers.py:65-98 | a failing `arp -a` gives no devices; otherwise the devices of its lines, in order |
| DeviceScanner.ArpEntry | backend/util/device_scanner.py:45-58 | an ARP entry comes only from a line naming the interface and the captive network, with a 192.168.12.x address and a 17-character lower-cased MAC |
| DeviceScanner.NeighEntry | backend/util/device_scanner.py:68-78 | a neighbour entry's MAC is lower-cased |
| DeviceScanner.ArpEntriesMembers | backend/util/device_scanner.py:45-58 | a device is among the ARP entries exactly when some line gives it |
| DeviceScanner.NeighEntriesMembers | backend/util/device_scanner.py:68-78 | a device is among the neighbour entries exactly when some line gives it |
| DeviceScanner.LowerAll | backend/util/device_scanner.py:90-92 | every listed MAC is lower-cased, in order |
| DeviceScanner.ExactImpliesCaseInsensitive | backend/util/device_scanner.py:85-97 | every MAC the helpers' exact check accepts is accepted by the scanner in any letter case |
| DeviceScanner.NewDevicesMembers | backend/util/device_scanner.py:99-120 | a device is new exactly when it was scanned and is not authenticated |
| DeviceScanner.DeviceScanner.constructor | backend/util/device_scanner.py:14-18 | the scanner keeps its subnet and interface |
| DeviceScanner.DeviceScanner.GetConnectedDevices | backend/util/device_scanner.py:32-83 | returns Scan: the ARP entries then the neighbour entries; a failing `arp` gives none, a failing `ip neigh` keeps the ARP entries |
| DeviceScanner.DeviceScanner.ScanArp | backend/util/device_scanner.py:45-58 | the first loop yields the ARP entries |
| DeviceScanner.DeviceScanner.ScanNeigh | backend/util/device_scanner.py:68-78 | the second loop yields the neighbour entries |
| DeviceScanner.DeviceScanner.ScanAndLog | backend/util/device_scanner.py:99-120 | returns the scanned devices that are not authenticated, in scan order |
| DeviceScanner.DeviceScanner.SelectNew | backend/util/device_scanner.py:106-115 | the loop keeps exactly the unauthenticated devices, in order |
| DeviceUtils.Unseparated | backend/util/device_utils.py:153 | removing the separators leaves no ':' or '-' and never lengthens the text |
| DeviceUtils.UnseparatedPair | backend/util/device_utils.py:153 | an octet followed by a separator keeps the octet and drops the separator |
| DeviceUtils.MacPrefix | backend/util/device_utils.py:153 | the lookup key has at most six characters and no separator |
| DeviceUtils.MacPrefixIsOui | backend/util/device_utils.py:153 | for a MAC address the key is exactly its first three octets, upper-cased |
| DeviceUtils.LocalOuiLookup | backend/util/device_utils.py:214-311 | a prefix in the table names a known vendor; any other prefix gives the misspelt "UNKOWN" |
| DeviceUtils.ManufacturerFromMac | backend/util/device_utils.py:147-172 | an empty MAC gives "UNKNOWN"; the first vendor service that answers 200 gives its answer, stripped; without one the local table decides on the six-character key |
| DeviceUtils.UnknownVendorMisspelt | backend/util/device_utils.py:311 | a MAC unknown to the table is reported with a different word than an empty MAC |
| DeviceUtils.LocalOuiLookupIntended | backend/util/device_utils.py:214-311 | the corrected lookup answers "UNKNOWN" for a prefix missing from the table |
| DeviceUtils.ManufacturerIntendedUnknown | backend/util/device_utils.py:147-172 | with the corrected lookup, "UNKNOWN" comes exactly from an empty or unknown MAC, and a known one names its vendor |
| DeviceUtils.ClientIp | backend/util/device_utils.py:205-212 | a present, non-empty X-Forwarded-For gives its first comma-separated field (a prefix without commas); otherwise REMOTE_ADDR |
| DeviceUtils.FirstFieldIsPrefix | backend/util/device_utils.py:209 | the first field of a split is a prefix of the text |
| DeviceUtils.MacToken | backend/util/device_utils.py:139-141 | a token is returned only when it starts with a MAC address |
| DeviceUtils.MacLinux | backend/util/device_utils.py:126-145 | a result is a token starting with a MAC on a line mentioning the address; no result means no such token on any such line |
| DeviceUtils.MacWindows | backend/util/device_utils.py:106-124 | a result is MAC address text, and a failing command gives none |
| DeviceUtils.MacWindowsFirstLine | backend/util/device_utils.py:116-121 | a MAC is found exactly when a line that mentions the address holds one; it is the leftmost match on the first such line |
| DeviceUtils.MacLinuxFirstLine | backend/util/device_utils.py:136-142 | a MAC is found exactly when a line that mentions the address has a token starting with one; it is the first such token of the first such line, and a failing command finds none |
| DeviceUtils.LinuxLineMacNone | backend/util/device_utils.py:137-141 | one line yields nothing exactly when it does not mention the address or none of its tokens starts with a MAC |
| DeviceUtils.WindowsLineMacNone | backend/util/device_utils.py:117-120 | one line yields nothing exactly when it does not mention the address or holds no MAC |
| DeviceUtils.MacAddress | backend/util/device_utils.py:93-104 | the MAC of the ARP lookup with retry wins; otherwise any MAC comes from the platform's scan |
| Portal.Status | backend/portal/views.py:35-50 | the report lists the connected devices of `arp -a` and the non-blank stripped lines of the auth file, each total being the length of its list |
| Portal.GrantCount | backend/portal/views.py:49 | granting a MAC raises `total_authenticated` by one exactly when it was not yet listed |
| Portal.MarkAll | backend/portal/views.py:59-60 | marking keeps one entry per scanned device |
| Portal.MarkDevices | backend/portal/views.py:59-60 | the loop adds `authenticated` to every device, in order |
| Portal.MarkAllDevices | backend/portal/views.py:59-60 | each marked device keeps its address and MAC and carries the scanner's case-insensitive check |
| Portal.AdminDevices | backend/portal/views.py:53-72 | the counts are the number of devices, the authenticated ones and the others, and the last two add up to the first |
| Portal.FindDevice | backend/portal/views.py:81 | the result is the first device with exactly that MAC, and None exactly when no device has it |
| Portal.AdminCheckAccess | backend/portal/views.py:75-92 | the device is found by exact comparison, `authenticated` is the case-insensitive check, and the status is 'authenticated' or 'blocked' accordingly |
| Portal.ScannedLower | backend/portal/views.py:79-81 | every MAC the scanner reports is lower-case |
| Portal.UpperCaseQueryFindsNoDevice | backend/portal/views.py:81 | a MAC asked for with an upper-case letter never finds its device |
| Portal.StrippedKept | backend/portal/views.py:116-119 | keeping lines whose stripped text differs from the MAC, then stripping, is stripping, then dropping the MAC |
| Portal.KeptAreLines | backend/portal/views.py:116-119 | every kept line of a well-terminated file is a whole line |
| Portal.RevokeLists | backend/portal/views.py:108-119 | the listed MACs after a revoke are the former ones without the revoked MAC, in order, and the file stays well terminated |
| Portal.RevokeUnlists | backend/portal/views.py:108-119 | after a revoke the MAC is not authenticated and every other MAC is as authenticated as before |
| Portal.RevokeCount | backend/portal/views.py:108-119 | the number of listed MACs drops by the number of entries equal to the revoked MAC |
| Portal.RevokeAbsent | backend/portal/views.py:108-119 | revoking a MAC the file does not list leaves the file's text unchanged |
| Portal.RevokeUndoesGrant | backend/portal/views.py:108-119 | revoking a newly granted MAC gives back the file as it was before the grant |
| Portal.AdminRevokeAccess | backend/portal/views.py:108-128 | a missing file is left alone; otherwise the file becomes the revoked text, or stays as it was when I/O fails, which is the 500 answer |
| Portal.WriteKept | backend/portal/views.py:116-119 | the writing loop writes exactly the kept lines, in order |
| Portal.KeptStep | backend/portal/views.py:117-119 | one turn of the writing loop appends the line exactly when its stripped text is not the MAC |
| Portal.AdminGrantAccess | backend/portal/views.py:95-105 | success exactly when `authenticate_mac` succeeds; the file is then Authenticated and the MAC authenticated |
| Portal.Connect | backend/portal/views.py:151-178 | a POST is granted exactly when a client MAC is found and authenticated; the file then lists it, otherwise it is unchanged and the answer is the 400 error |
| Portal.AlphabetChar | backend/portal/views.py:289 | each position of the alphabet is an upper-case letter or a digit |
| Portal.AlphabetIndex | backend/portal/views.py:289 | each upper-case letter or digit has a position in the 36-character alphabet |
| Portal.AlphabetRoundTrip | backend/portal/views.py:289 | positions and characters of the alphabet are inverse |
| Portal.Chars | backend/portal/views.py:290 | the code's characters are those at the chosen positions |
| Portal.AccessCode | backend/portal/views.py:290 | a generated code is "NET-" followed by eight upper-case letters or digits |
| Portal.Picks | backend/portal/views.py:290 | the choices read back from a code are eight alphabet positions |
| Portal.AccessCodeRoundTrip | backend/portal/views.py:290 | generating a code and reading back its choices are inverse in both directions |
| Portal.GrantedRow | backend/portal/views.py:352-355 | a granted row keeps its address and is authenticated with the status 'authenticated' |
| Portal.BlockedRow | backend/portal/views.py:381-384 | a blocked row keeps its address and is not authenticated, with the status 'blocked' |
| Portal.LastActionWins | backend/portal/views.py:346-406 | only the last of a grant and a revoke matters, and repeating either changes nothing |
| Portal.DeviceTable.constructor | backend/portal/views.py:346-347 | the table starts with the given rows and an empty history |
| Portal.DeviceTable.Grant | backend/portal/views.py:349-376 | an unknown MAC is the 404 answer and changes nothing; a known one becomes authenticated and one 'access_granted' event is logged |
| Portal.DeviceTable.Revoke | backend/portal/views.py:378-405 | an unknown MAC is the 404 answer and changes nothing; a known one becomes blocked and one 'access_revoked' event is logged |
| Payments.Bandwidth | backend/payments/views.py:301-311 | every plan gets a limit of at least 10 |
| Payments.BandwidthMonotone | backend/payments/views.py:303-310 | among the known durations, a longer plan never gets a lower limit |
| Payments.BandwidthDefault | backend/payments/views.py:311 | an unknown duration gets the limit of the 30-minute plan |
| Payments.Prefix8 | backend/payments/views.py:129-130 | the first eight characters of the id, or all of a shorter one |
| Payments.NewEntry | backend/payments/views.py:159-168 | a new queue entry is unprocessed, belongs to the transaction, has a position of at least 1 and waits 30 seconds per position |
| Payments.NewEntryPosition | backend/payments/views.py:161-162 | right after it is added, an entry's position is the number of unprocessed entries, itself included |
| Payments.MarkProcessed | backend/payments/views.py:265-268 | marking an entry processed keeps the queue's length |
| Payments.MarkProcessedCount | backend/payments/views.py:265-268 | marking a transaction's entry processed removes exactly its unprocessed entries from the unprocessed count |
| Payments.MarkProcessedOthers | backend/payments/views.py:265-268 | the entries of other transactions are left as they were, and the transaction's own entry gains its processing time |
| Payments.Matches | backend/payments/views.py:254-256 | the matches are exactly the transactions whose checkout request id equals the callback's |
| Payments.UniqueMatchOfMatches | backend/payments/views.py:254-256 | a lookup with exactly one matching transaction finds that transaction |
| Payments.Completed | backend/payments/views.py:257-260 | a completed transaction has the status 'completed', the completion time and the receipt, and keeps its user, plan and checkout id |
| Payments.AccessFor | backend/payments/views.py:289-299 | the access belongs to the transaction's user and plan, ends the plan's length after now, and has the plan's bandwidth |
| Payments.NewTransaction | backend/payments/views.py:85-92 | a new transaction is pending, expires ten minutes after creation, costs the plan's price and records the phone only for M-Pesa |
| Payments.WithMpesaIds | backend/payments/views.py:127-135 | the saved ids start with 'ws_CO_2024_' and 'AG_2024_', and nothing else of the transaction changes |
| Payments.CheckoutIdsCollide | backend/payments/views.py:130 | two transactions whose ids share their first 8 characters get the same checkout request id |
| Payments.InitiateRejects | backend/payments/views.py:69-82 | an undecodable or falsy body is "Invalid JSON" and a missing or inactive plan "Invalid pricing plan", both with 400; a truthy body that is no object fails on `get` with 500; none of them writes anything |
| Payments.InitiateCreates | backend/payments/views.py:84-115 | a valid plan adds exactly one transaction, leaves the others alone, and it is failed exactly when the M-Pesa start failed; it carries the checkout id exactly for M-Pesa, also when the start failed |
| Payments.FailedStartStillMatchesCallback | backend/payments/views.py:112-115 | a failed M-Pesa start stores its row as failed with the request ids set before the save raised, so a callback with that checkout id finds it |
| Payments.InitiateQueues | backend/payments/views.py:100-110 | only a successful M-Pesa start is queued, one place behind the unprocessed entries, and the answer and the transaction carry that position |
| Payments.MissingCheckoutMatchesCard | backend/payments/views.py:254-256 | a callback without a CheckoutRequestID matches a transaction whose checkout id was never set |
| Payments.Payments.constructor | backend/payments/views.py:64-65 | the tables start empty over the given plans |
| Payments.Payments.InitiatePayment | backend/payments/views.py:67-117 | the answer and the transaction and queue tables are those of Initiate; plans, accesses and callbacks are unchanged |
| Payments.Payments.InitiateMpesaPayment | backend/payments/views.py:120-147 | the ids are set on the transaction object in every case; a successful save stores it and answers the instructions, a failing one answers the failure message and leaves the stored row unchanged |
| Payments.Payments.AddToPaymentQueue | backend/payments/views.py:159-173 | the position is one more than the unprocessed entries; the entry is appended and the transaction records its position |
| Payments.Payments.ProcessMpesaCallback | backend/payments/views.py:244-286 | result code 0 completes the one matching transaction, grants access and marks its queue entry processed; another code fails it; no match is "Transaction not found", several matches give `get()`'s message with their count, and both change nothing |
| Payments.Payments.MpesaCallback | backend/payments/views.py:220-241 | every callback is logged once, marked processed on success or given the error, and the answer is 200 or 400 accordingly |
| ServiceModels.Save | backend/services/models.py:162-165 | after a save a service has a publication time exactly when it had one or is published; an existing time is kept and nothing else changes |
| ServiceModels.PublishedOnce | backend/services/models.py:162-165 | a published service's time is the first save's, and later saves after any change of status keep it |
| ServiceModels.UnpublishedHasNoTime | backend/services/models.py:162-165 | a draft or archived service saved without a publication time keeps none |
| ServiceModels.AvailableIsPublished | backend/services/models.py:167-169 | an available service stays available when saved and then has a publication time |
| ServiceModels.ActiveTimesAreAnInterval | backend/services/models.py:279-285 | the times at which an advertisement is active form one interval |
| ServiceModels.MoreCountsNeverActivate | backend/services/models.py:279-285 | recording more clicks or impressions never turns an inactive advertisement active |
| ServiceModels.CapsEndCampaign | backend/services/models.py:279-285 | an advertisement that reached a non-zero cap is inactive at every time |
| ServiceModels.UncappedIgnoresCounts | backend/services/models.py:279-285 | with both caps 0 the click and impression counts never decide activity |
| Services.PageSize | backend/services/views.py:47 | the page size is the requested one, capped at 50 |
| Services.FloorDiv | backend/services/views.py:143 | the quotient rounds toward negative infinity, as Python's `//` does |
| Services.TotalPagesCeiling | backend/services/views.py:143 | for a positive page size the page count is the ceiling of the total over the size |
| Services.Slice | backend/services/views.py:80-82 | a negative bound is refused; otherwise the slice holds the rows from the start up to the clipped end, in order |
| Services.PageBounded | backend/services/views.py:79-82 | with a positive size every page from 1 on exists and holds at most that many rows |
| Services.RowOnPage | backend/services/views.py:79-82 | row i is on page i / size + 1 at position i % size, so the pages cover the listing |
| Services.PastLastPage | backend/services/views.py:79-82 | every page after the last one is empty |
| Services.ListedMembers | backend/services/views.py:50-66 | a service is listed exactly when it is published, active, in the category and matches the search |
| Services.SortKeys | backend/services/views.py:69-76 | each sort choice asks for its own database ordering |
| Services.UnknownSortIsDefault | backend/services/views.py:75-76 | an unknown sort choice orders as 'featured', which is the model's default ordering |
| Services.CategoryEntries | backend/services/views.py:115-125 | the category list has one entry per active category after the 'all' entry |
| Services.CategoryEntriesAt | backend/services/views.py:115-125 | the head entry is 'all' with the total; each category entry has its id and name, and its own count only when no category is selected |
| Services.SelectedCategoryFlattensCounts | backend/services/views.py:119 | with a category selected, every entry shows the size of the listing |
| Services.CategoryCounts | backend/services/views.py:117-125 | the loop builds exactly the category list |
| Services.Logged | backend/services/views.py:127-134 | a search is recorded exactly for a signed-in user with a non-empty query, with its category and the result count |
| Services.ShortTextIsNoUuid | backend/services/models.py:7 | a category value shorter than 32 characters, such as a slug, is not a UUID the category key accepts |
| Services.CanonicalUuidAccepted | backend/services/models.py:7 | the canonical 8-4-4-4-12 hexadecimal form is accepted as a category key |
| Services.Discover | backend/services/views.py:39-153 | a `page` or `page_size` text that `int` refuses, and then a category other than 'all' that is not a UUID, give a 500 error with no search recorded; past those checks it answers as ListPage |
| Services.ListPage | backend/services/views.py:60-150 | a negative page bound is an error with no record; a page size of 0 is an error after the search record; otherwise the answer holds the page of listed services, the ordering, the category list and the pagination |
| Services.ViewCountsOne | backend/services/views.py:192-205 | only an available service is shown, and showing it raises its view count by exactly one and changes nothing else |
| Services.FavoriteCountsNewOnly | backend/services/views.py:289-306 | adding a favourite makes the user a fan and raises the counter exactly when the favourite was new |
| Services.UnfavoriteCountsDeletedOnly | backend/services/views.py:315-333 | removing a favourite makes the user no fan and lowers the counter, never below 0, exactly when a favourite was deleted |
| Services.FavoriteIdempotent | backend/services/views.py:289-306 | favouriting twice leaves the store as favouriting once |
| Services.UnfavoriteIdempotent | backend/services/views.py:315-333 | unfavouriting twice leaves the store as unfavouriting once |
| Services.UnfavoriteUndoesFavorite | backend/services/views.py:289-333 | removing a favourite just added restores the services and the fans |
| Services.CountersStayInStep | backend/services/views.py:289-333 | both views keep every counter equal to its number of favourites, so the clamp at 0 never acts |
| Services.Directory.constructor | backend/services/views.py:190 | the directory starts with the given services and no favourites |
| Services.Directory.ViewDetail | backend/services/views.py:192-205 | the answer and the new rows are those of View |
| Services.Directory.AddFavorite | backend/services/views.py:289-312 | the answer and the new rows are those of Favorite |
| Services.Directory.RemoveFavorite | backend/services/views.py:315-338 | the answer and the new rows are those of Unfavorite |
| Management.ApplyAt | backend/management/views.py:69-79 | key by key: a key that is no field is ignored; an unnamed field or an equal value keeps the field and records nothing; a different value is taken and recorded with the old and new value; the set of fields never changes |
| Management.ApplyUnchanged | backend/management/views.py:69-79 | when every named field already holds an equal value, the loop changes nothing and records nothing |
| Management.ResubmitChangesNothing | backend/management/views.py:69-79 | submitting the same settings a second time changes nothing and records no change |
| Management.Get | backend/management/views.py:90 | `data.get(k, default)` is the value under k when present, the default otherwise |
| Management.Recorded | backend/management/views.py:84-91 | a history entry is written exactly for a signed-in user whose update changed something, holding that user and those changes |
| Management.ApplyData | backend/management/views.py:69-79 | the update loop computes Apply over the request's items in order |
| Management.SettingsStore.constructor | backend/management/views.py:16-19 | the store starts with no settings row and no history |
| Management.SettingsStore.Read | backend/management/views.py:13-58 | the settings are the existing row, or a new row with the defaults, which is then stored |
| Management.SettingsStore.Update | backend/management/views.py:60-98 | malformed JSON changes nothing; a body that is no object or a failing save answers 400 after the row is created; otherwise the row takes the changed values, records the user, and the history grows by Recorded |
| PaymentPage.LocalFormatAsWritten | frontend/src/pages/Payments.jsx:163-164 | as written, '07' passes the local format at any length while a '01' number needs ten characters, and any twelve-character text passes the international one |
| PaymentPage.LocalIntendedNeedsTenDigits | frontend/src/pages/Payments.jsx:163 | the corrected local format needs ten characters and agrees with the written one on ten-character numbers |
| PaymentPage.SelectPlanResets | frontend/src/pages/Payments.jsx:155-159 | selecting a plan clears the status and the transaction id and keeps everything else |
| PaymentPage.EmptyPhoneOnlyWarns | frontend/src/pages/Payments.jsx:162 | without a phone number only the 'required' warning appears |
| PaymentPage.PhoneDecidesStart | frontend/src/pages/Payments.jsx:161-195 | a number in neither format only warns; a number in either format ends pending or failed, and polls exactly when the start succeeded |
| PaymentPage.TickTransitions | frontend/src/pages/Payments.jsx:210-237 | a final status is recorded, clears the queue position and processing and stops polling; any other keeps polling; the message is always "Payment in progress" |
| PaymentPage.StoppedPollingIsFinal | frontend/src/pages/Payments.jsx:220-234 | once polling stopped, any run of ticks leaves the page as it is |
| PaymentPage.TickIntended | frontend/src/pages/Payments.jsx:216-228 | the corrected tick leaves "Payment completed" or "Payment failed" on screen for a final status |
| PaymentPage.TickIntendedOnlyMessage | frontend/src/pages/Payments.jsx:216-229 | the corrected tick differs from the written one only in the message |
| PaymentPage.Page.constructor | frontend/src/pages/Payments.jsx:19-26 | the page starts in its initial state |
| PaymentPage.Page.HandlePlanSelect | frontend/src/pages/Payments.jsx:155-159 | the new state is SelectPlan of the old one |
| PaymentPage.Page.InitiateMpesaPayment | frontend/src/pages/Payments.jsx:161-195 | the new state is InitiateMpesa of the old one and the start's answer |
| PaymentPage.Page.PollTick | frontend/src/pages/Payments.jsx:211-236 | the new state is Tick of the old one and the check's answer |
| PaymentPage.Page.HandlePayment | frontend/src/pages/Payments.jsx:249-262 | M-Pesa goes through InitiateMpesa; a card payment ends completed with a 'CARD' id once its timer fires |
| DiscoverPage.FilteredIsOrderedSelection | frontend/src/pages/DiscoverPage.jsx:183-189 | a card is listed exactly when it is in the active category and matches the search, and the list keeps the services' order |
| DiscoverPage.EmptySearchMatchesAll | frontend/src/pages/DiscoverPage.jsx:184-187 | an empty search matches every service |
| DiscoverPage.NoFilterShowsAll | frontend/src/pages/DiscoverPage.jsx:183-189 | with category 'all' and an empty search the list is every service |
| DiscoverPage.SearchIgnoresCase | frontend/src/pages/DiscoverPage.jsx:185-187 | the case of the query does not change which services match |
| DiscoverPage.Categories | frontend/src/pages/DiscoverPage.jsx:163-169 | there are five category buttons |
| DiscoverPage.ButtonCountIsListLength | frontend/src/pages/DiscoverPage.jsx:163-189 | each button's count is the length of the list shown when that button is active and the search is empty |
| DiscoverPage.FeaturedMembers | frontend/src/pages/DiscoverPage.jsx:286 | the featured strip holds exactly the featured services |
| DiscoverPage.ToggleFlipsOnlyId | frontend/src/pages/DiscoverPage.jsx:171-181 | a toggle flips the membership of its id only, so toggling twice restores the favourites |

## Left out

- External commands and OS effects are not performed: iptables, ip, iw, nmcli, systemctl, kill, hostapd, dnsmasq, and procfs/sysfs. Their outputs are parameters; the commands `cleanup.py` issues are action records.
- Bringing an access point up is not part of this model, because it is command I/O. This covers `_ap_init_`, `enable_internet_sharing`, `start_hostapd`, `start_dhcp_dns`, `init_wifi_iface`, `create_virt_iface`, and the nmcli and systemd set-up of `hotspot_manager.py`.
- `hotspot_manager.py`: `stop_hotspot` and `show_status` only run commands and print. They are not modelled beyond the dependency guard of `start_hotspot`.
- `config_dnsmaq` is not modelled: it reads an undefined name before writing anything, and its gateway format specification is invalid.
- OS locks and concurrency are not modelled:
  - the real `flock` semantics;
  - several processes interleaving;
  - the haveged watchdog thread;
  - the polling loop of `networkmanager_wait_until_unmanaged`.
- The mutex models one process's counter and the global lock flag.
- Crashes caused by undefined names are not modelled. Examples are `self.mutex_unlock` and `self.get_macaddr` in NetworkManager, `self.list_running_conf` and `self.dealloc_iface` in CleanupManager, and the module globals of `netmanager.py`. The list logic they guard is modelled, with the tracking set and the version flag as fields.
- `can_be_ap()` is called with an argument it does not take, and `get_all_macaddrs` is a property called as a function. The validators' logic is modelled on the answers those calls are meant to give.
- `ap_cli.py`: `config_update` and the action dispatch in `validate_arguments` are not modelled; they only forward to the manager.
- Messages printed to the console or a logger are not modelled.
- Floating point is not modelled:
  - `_get_interface_freq_` is not modelled;
  - a frequency is its integer part, as `int()` gives;
  - `freq_band` is a whole part with a flag for a fraction;
  - the decimal rate fields of the settings row are not modelled.
- JSON decoding is not modelled. A body or file is the value it decodes to, or a marker that it did not decode.
- The MAC vendor web services and the reverse DNS lookup of `device_utils.py` are network I/O. Their answer is a parameter.
- `DeviceUtils.MacAddress`: the case where `get_client_mac` raises is not modelled separately; it behaves as a command that found nothing.
- Time stamps in device records, log rows and `Date.now()` are not modelled, except as an explicit `now` parameter where a rule depends on the clock.
- The firewall script that the portal views start is not modelled; it is a subprocess.
- `backend/util/netscanner.py` is not part of this model; it is a broken duplicate of `device_scanner.py`.
- Django models, admin classes, URL configurations, forms, and the users, networks and devices views are not part of this model. They are plain create/read/update over the ORM.
- `backend/payments/models.py` defines only `Subscription`. `PricingPlan`, `PaymentTransaction`, `PaymentQueue`, `MpesaCallback` and `InternetAccess`, imported at `backend/payments/views.py:9-15`, are defined nowhere, so the payments module cannot be imported as written. The model gives the views the rows they use. The fields of those rows, the "pending" status of a new transaction, the link from a queue entry to its transaction and the shape of a transaction id are assumptions of the model.
- `Payments.Initiate`: on the failed M-Pesa start, the second `save()` that records the "failed" status is taken to succeed.
- `Payments.Initiate`: a body that is not valid UTF-8 makes `json.loads` raise `UnicodeDecodeError`, which the view answers with 500; this case is not modelled separately from "Invalid JSON".
- `AdvertisementsView` and `ServiceStatisticsView` are not part of this model: the first always fails on a missing import, and the second is plain aggregation.
- `Management.SettingsStore.Update`: `hasattr` is taken to hold exactly for the editable settings fields. It would also hold for `id`, `created_at`, `updated_at` and `updated_by`, and for the methods and managers of the model instance; a body naming those is not modelled.
- `Services.Discover`: the rows arrive already in the database's order for the chosen sort keys. The ordering itself is represented by the list of sort keys.
- `Services.Discover`: a category value is compared with a service's category id as text. Two spellings of one UUID (upper case, braces, no hyphens, a "urn:uuid:" prefix) are accepted as UUIDs but are not identified with each other.
- `Services.Discover`: `int(hex, 16)` inside `uuid.UUID` also accepts a sign, underscores and surrounding whitespace within the 32 characters; such category values are refused by the model.
- `Services.Discover`: the ValueError text quotes the parameter as `repr` does; quotes and backslashes inside it are not escaped in the model.
- `Services.Discover`: the service and provider fields of the database substring search are represented by the text fields of the row.
- The payment page's React state updates are modelled as taking effect at once and in order. Batching and re-rendering are not modelled.
- The page's answers from the simulated back end (`mockMpesaApiCall`, `mockStatusCheck`) are parameters, not random draws.
- The payment button's `disabled` rule (`Payments.jsx:489`) is presentation and is not modelled.
- The remaining frontend pages, components and configuration are not part of this model; they are rendering.
- Lower-casing in the models is ASCII-only; Unicode case mapping is not modelled.
- `Text.ParseInt`: reads ASCII digits only. Python's `int` also accepts other Unicode decimal digits (such as Arabic-Indic digits); for those the model answers None where the source reads a number.
- The regular-expression classes `\d` and `\w` are modelled as ASCII digits and ASCII word characters. Python's `re` also accepts other Unicode digits and letters in `str` patterns; those inputs are not modelled.
- `ApManager.IsMacaddr`: takes the address as its argument. The fallback of `is_macaddr` and `is_unicast_macaddr` to the configured `mac` when the argument is empty is not modelled (`backend/hotspotmanager/ap_manager.py:791`, `:798`).
- `Helpers.AuthFile.AuthenticateMac`: requires the auth file to be missing, empty or newline-terminated, as every writer in the source leaves it. On a hand-written file without a final newline, the appended MAC would be glued onto the last line; that case is not modelled.
- `Portal.AdminRevokeAccess`: requires the same newline-terminated auth file as `Helpers.AuthFile.AuthenticateMac`.
- `Portal.AdminGrantAccess`: requires the same newline-terminated auth file as `Helpers.AuthFile.AuthenticateMac`.
- `Portal.Connect`: requires the same newline-terminated auth file as `Helpers.AuthFile.AuthenticateMac`.
- `NetManager.NetworkManager.AddUnmanaged`: NetworkManager.conf is a list of lines, each taken to end with a newline. When the file's last line has none, the source's `"\n\n[keyfile]\n"` or unmanaged-devices line (netmanager.py:190-193) is glued onto that last line; the model writes a separate line.
- `NetManager.NetworkManager.RmUnmanaged`: takes NetworkManager.conf as newline-terminated lines, as for `AddUnmanaged`. When the replaced unmanaged-devices line is the file's last line and had no newline, the source's rewrite adds one; the model does not distinguish the two files.
- `NetManager.NetworkManager.FixUnmanaged`: takes NetworkManager.conf as newline-terminated lines, as for `AddUnmanaged`. It only drops lines, so the text it writes is the same either way.
- `ApManager.__init__` sets `self.config = {}` and then reads `self.config['proc_dir']` (ap_manager.py:38, 63), so constructing an ApManager raises KeyError before `__enter__` (ap_manager.py:68-69) can load the configuration. The `ApManager.*` members and the `ApCli.ArgumentValidator.*` validators, which reach the manager, are modelled as if the manager had been built with its configuration loaded.

## Findings

| source | as written | input that shows it | evidently intended | confidence | as-written member | corrected member |
|---|---|---|---|---|---|---|
| backend/hotspotmanager/ap_manager.py:827-844 | `alloc_new_iface` unlocks the mutex before returning and again in `finally`: two unlocks for one lock | called while the caller holds the mutex once (counter 1, global lock held): afterwards the counter is 0 and the global lock is released | one unlock per lock, leaving the caller's hold intact | high, not executed | Lock.AllocBracketAsWritten, Lock.AllocBracketReleasesCallersLock | Lock.AllocBracket |
| backend/hotspotmanager/netmanager.py:183-206 | the rewrite writes every line, then writes the `[keyfile]` section again; without a `[keyfile]` line it writes only a bare header | `[keyfile]` plus `unmanaged-devices=a`: the file comes out with the header twice; a file with no `[keyfile]` loses every entry and never gets the new one | one copy of the file with the updated `unmanaged-devices=` line in `[keyfile]` | high, not executed | NetManager.AddAsWrittenDuplicatesFile, NetManager.AddAsWrittenWithoutKeyfileLosesEntries | NetManager.AddListsTarget, NetManager.AddThenRmRestores |
| backend/hotspotmanager/ap_manager.py:450 | the WPA block is written only when no password is configured | any non-empty password: hostapd.conf has no `wpa` and no `wpa_passphrase` line, so the network is open | WPA settings exactly when a password is given | high, not executed | ApManager.PasswordGivesOpenNetwork | ApManager.PasswordGivesSecuredNetwork |
| backend/hotspotmanager/ap_manager.py:846-861 | `dalloc_iface` looks only at `iface + "0"` and calls `os.remove` exactly when that marker does not exist | release `wlan0` right after allocating it: `wlan00` is free, so the removal raises and the marker of `wlan0` stays | remove the released name's own marker | high, not executed | ApManager.DallocAsWritten, ApManager.DallocLeavesAllocatedMarker | ApManager.ReleaseIface, ApManager.AllocThenRelease |
| backend/hotspotmanager/ap_manager.py:1100 | `rstrip(')')` leaves the opening parenthesis of "pid iface (wifi_iface)" | entry `123 ap0 (wlan0)`: the reported wifi interface is `(wlan0` | `wlan0` | high, not executed | ApManager.WifiIfaceFromPidKeepsParen | ApManager.WifiIfaceOfPid |
| backend/hotspotmanager/ap_cli.py:189-190 | the MAC check exits when the address is unicast | `--mac 02:00:00:00:00:01` (even first octet) is refused with "must be even" | refuse an address whose first octet is odd | high, not executed | ApCli.MacExit, ApCli.MacExitRefusesUnicast | ApCli.MacExitIntended, ApCli.MacIntendedAcceptsIndividual |
| backend/hotspotmanager/ap_cli.py:161-163 | `no_virt` is set to False only when it is already False | an adapter without STA+AP support, not connected, without `--no-virt`: `no_virt` stays False although the warning says it is enabled | set `no_virt` to True | high, not executed | ApCli.StaApNeverEnablesNoVirt | ApCli.StaApStepIntended |
| backend/util/device_utils.py:311 | the table's default is the misspelt "UNKOWN" | MAC `00:00:00:00:00:01` without a vendor service answers "UNKOWN", while an empty MAC answers "UNKNOWN" | "UNKNOWN" in both cases | medium, not executed | DeviceUtils.LocalOuiLookup, DeviceUtils.UnknownVendorMisspelt | DeviceUtils.LocalOuiLookupIntended, DeviceUtils.ManufacturerIntendedUnknown |
| frontend/src/pages/Payments.jsx:216-229 | after "Payment completed" or "Payment failed" the message is overwritten with "Payment in progress" | a status check answering 'completed': the final banner reads "Payment in progress" | the final status's own message stays on screen | high, not executed | PaymentPage.TickTransitions | PaymentPage.TickIntended, PaymentPage.TickIntendedOnlyMessage |
| frontend/src/pages/Payments.jsx:163 | the AND binds tighter than the OR, so the length test applies to '01' numbers only | the phone number "07" passes the local format | both prefixes need ten characters | medium, not executed | PaymentPage.LocalFormatAsWritten | PaymentPage.LocalIntendedNeedsTenDigits |

=== FILE: ap_cli.dfy ===
/**
 * Argument validation of the command-line front end
 * (backend/hotspotmanager/ap_cli.py). `ArgumentValidator.validate` runs the
 * validators of its `validation_map` in insertion order; a validator either
 * returns, possibly after changing fields of the argument namespace, or
 * ends the program with `sys.exit`.
 *
 * The parsed arguments are an `Args` object whose fields the validators
 * assign. What the validators ask the access-point manager (is the
 * interface a WiFi interface, can it be an access point, the stored
 * defaults, ...) is an `Env` of answers, and what the user types at the
 * password prompts is the input stream `typed`.
 */
module ApCli {
  import opened Wrappers
  import opened Text
  import opened PyValues
  import ApManager

  /** `--freq-band`: an int or a float, kept as its integer part and whether it has a fraction. */
  datatype FreqBand = FreqBand(whole: int, hasFraction: bool)

  /** The argument namespace fields the validators read or assign. */
  datatype ArgsValue = ArgsValue(
    version: bool,
    freqBand: Option<FreqBand>,
    channel: int,
    wifiIface: string,
    internetIface: string,
    noVirt: bool,
    mac: Option<string>,
    ssid: Option<string>,
    password: PyVal,
    psk: PyVal,
    usePsk: bool,
    shareMethod: string,
    wpaVersion: PyVal)

  /** The answers the access-point manager and the system give the validators. */
  datatype Env = Env(
    isWifiIface: bool,
    canBeAp: bool,
    canBeStaAndAp: bool,
    wifiConnected: bool,
    hasHostapd: bool,
    kernelModule: string,
    /** Reading the hostapd binary: None when it fails, else whether it contains `rtl871xdrv`. */
    hostapdPatched: Option<bool>,
    allMacs: seq<string>,
    internetIsInterface: bool,
    /** `config.get('password', None)` and `config.get('psk', None)` */
    storedPassword: PyVal,
    storedPsk: PyVal)

  /** Why validation ended the program. */
  datatype ExitReason =
    | VersionRequested
    | NotWifiIface(iface: string)
    | NoApSupport
    | StaApConflict
    | NoHostapd
    | HostapdNotPatched
    | HostapdUnreadable
    | InvalidMac(mac: string)
    | MacNotEven(mac: string)
    | BadSsidLength(length: nat)
    /** `getpass` hit the end of the input; the exception ends the program. */
    | InputClosed
    | NotAnInterface(iface: string)
    | SameIfaceWithoutVirt

  // ---------------------------------------------------------------------
  // The checks that end the program

  predicate Present(s: Option<string>) { s.Some? && s.value != "" }

  /** `_validate_ssid`: a given SSID must have 1 to 32 characters. */
  function SsidExit(ssid: Option<string>): (r: Option<ExitReason>)
    ensures r.Some? <==> ssid.Some? && |ssid.value| > 32
    ensures r.Some? ==> r == Some(BadSsidLength(|ssid.value|))
  {
    if Present(ssid) && !(1 <= |ssid.value| <= 32) then Some(BadSsidLength(|ssid.value|)) else None
  }

  /**
   * `_validate_mac_address` as written: an address that is not `is_macaddr`
   * is refused, and so is one for which `is_unicast_macaddr` holds. An
   * address already in use only draws a warning.
   */
  function MacExit(mac: Option<string>): (r: Option<ExitReason>)
    ensures r.None? <==> !Present(mac) || (ApManager.IsMacaddr(mac.value) && !ApManager.IsUnicastMacaddr(mac.value))
  {
    if !Present(mac) then None
    else if !ApManager.IsMacaddr(mac.value) then Some(InvalidMac(mac.value))
    else if ApManager.IsUnicastMacaddr(mac.value) then Some(MacNotEven(mac.value))
    else None
  }

  /** Every well-formed unicast address, the kind the message asks for, is refused. */
  lemma MacExitRefusesUnicast(mac: string)
    requires ApManager.IsUnicastMacaddr(mac)
    ensures MacExit(Some(mac)) == Some(MacNotEven(mac))
    ensures MacExitIntended(Some(mac)).None?
  {
  }

  /** The MAC check as evidently intended: the first octet must be even. */
  function MacExitIntended(mac: Option<string>): (r: Option<ExitReason>)
    ensures r.None? <==> !Present(mac) || ApManager.IsUnicastMacaddr(mac.value)
  {
    if !Present(mac) then None
    else if !ApManager.IsMacaddr(mac.value) then Some(InvalidMac(mac.value))
    else if !ApManager.IsUnicastMacaddr(mac.value) then Some(MacNotEven(mac.value))
    else None
  }

  /** Accepted by the intended check: even first octet, the individual address bit clear. */
  lemma MacIntendedAcceptsIndividual(mac: string)
    requires mac != ""
    ensures MacExitIntended(Some(mac)).None? <==>
            ApManager.IsMacaddr(mac) && ApManager.HexDigitValue(mac[1]) % 2 == 0
  {
    ApManager.UnicastIffIndividualBit(mac);
  }

  /** `^(8192[cd][ue]|8723a[sue])$` without the optional trailing newline. */
  predicate RtlCore(m: string)
  {
    |m| == 6 &&
    ((m[..4] == "8192" && (m[4] == 'c' || m[4] == 'd') && (m[5] == 'u' || m[5] == 'e')) ||
     (m[..5] == "8723a" && (m[5] == 's' || m[5] == 'u' || m[5] == 'e')))
  }

  /** `re.match(r'^(8192[cd][ue]|8723a[sue])$', m)`: `$` also matches before one final newline. */
  predicate RtlModule(m: string)
  {
    RtlCore(m) || (|m| == 7 && m[6] == '\n' && RtlCore(m[..6]))
  }

  /** `validate_rtl871x`: those drivers need a hostapd carrying the rtl871xdrv patch. */
  function RtlExit(env: Env): (r: Option<ExitReason>)
    ensures r.Some? ==> RtlModule(env.kernelModule)
    ensures RtlModule(env.kernelModule) ==> (r.None? <==> env.hostapdPatched == Some(true))
  {
    if !RtlModule(env.kernelModule) then None
    else match env.hostapdPatched
      case None => Some(HostapdUnreadable)
      case Some(patched) => if patched then None else Some(HostapdNotPatched)
  }

  /** `_validate_internet_interface` */
  function InternetExit(a: ArgsValue, env: Env): (r: Option<ExitReason>)
    ensures r.Some? <==> a.shareMethod != "none" && !env.internetIsInterface
  {
    if a.shareMethod != "none" && !env.internetIsInterface then Some(NotAnInterface(a.internetIface)) else None
  }

  /**
   * `_validate_virtual_interface`: sharing the connection of the WiFi
   * interface itself needs a virtual interface. The two calls after
   * `sys.exit` in that branch are never reached.
   */
  function VirtualExit(a: ArgsValue): (r: Option<ExitReason>)
    ensures r.Some? <==> a.noVirt && a.wifiIface == a.internetIface
  {
    if a.noVirt && a.wifiIface == a.internetIface then Some(SameIfaceWithoutVirt) else None
  }

  // ---------------------------------------------------------------------
  // Password prompts

  /** The keyword limits of `_get_password_input`; 0 stands for the falsy default. */
  datatype Limits = Limits(minLength: nat, maxLength: nat, length: nat)

  const PasswordLimits := Limits(8, 63, 0)
  const PskLimits := Limits(0, 0, 64)

  /** The input passes the exact-length, minimum and maximum checks that are switched on. */
  predicate Accepts(l: Limits, pw: string)
  {
    (l.length == 0 || |pw| == l.length) &&
    (l.minLength == 0 || |pw| >= l.minLength) &&
    (l.maxLength == 0 || |pw| <= l.maxLength)
  }

  lemma PromptLimits(pw: string)
    ensures Accepts(PasswordLimits, pw) <==> 8 <= |pw| <= 63
    ensures Accepts(PskLimits, pw) <==> |pw| == 64
  {
  }

  datatype Prompted = Entered(pw: string) | GaveUp | EndOfInput

  /** The outcome of the prompts and how many typed lines they read. */
  datatype PromptResult = PromptResult(outcome: Prompted, consumed: nat)

  /** At most `attempts` prompts, returning the first acceptable input. */
  function Prompt(typed: seq<string>, l: Limits, attempts: nat): (r: PromptResult)
    ensures r.consumed <= attempts && r.consumed <= |typed|
    ensures r.outcome.Entered? ==>
              1 <= r.consumed && typed[r.consumed - 1] == r.outcome.pw && Accepts(l, r.outcome.pw) &&
              forall j :: 0 <= j < r.consumed - 1 ==> !Accepts(l, typed[j])
    ensures r.outcome.GaveUp? ==>
              r.consumed == attempts && forall j :: 0 <= j < attempts ==> !Accepts(l, typed[j])
    ensures r.outcome.EndOfInput? ==>
              r.consumed == |typed| < attempts && forall j :: 0 <= j < |typed| ==> !Accepts(l, typed[j])
    decreases attempts
  {
    if attempts == 0 then PromptResult(GaveUp, 0)
    else if typed == [] then PromptResult(EndOfInput, 0)
    else if Accepts(l, typed[0]) then PromptResult(Entered(typed[0]), 1)
    else
      var rest := Prompt(typed[1..], l, attempts - 1);
      PromptResult(rest.outcome, rest.consumed + 1)
  }

  /** What `_get_password_input` returns: the password, or None after three failures. */
  function PromptValue(p: Prompted): PyVal
  {
    if p.Entered? then PyStr(p.pw) else PyNone
  }

  predicate PromptsPassword(a: ArgsValue, env: Env)
  {
    !a.usePsk && !Truthy(a.password) && !Truthy(env.storedPassword)
  }

  predicate PromptsPsk(a: ArgsValue, env: Env)
  {
    a.usePsk && !Truthy(a.psk) && !Truthy(env.storedPsk)
  }

  // ---------------------------------------------------------------------
  // The steps that change the arguments

  predicate FreqBandTruthy(b: Option<FreqBand>)
  {
    b.Some? && (b.value.whole != 0 || b.value.hasFraction)
  }

  /** `_validate_freq_band`: a channel above 14 outside the 5 GHz band becomes channel 5. */
  function FreqBandStep(a: ArgsValue): ArgsValue
  {
    if FreqBandTruthy(a.freqBand) && a.freqBand.value.whole != 5 && a.channel > 14 then a.(channel := 5)
    else a
  }

  /** `_validate_password`: the stored default first, then the prompt. */
  function PasswordStep(a: ArgsValue, env: Env, typed: seq<string>): ArgsValue
  {
    if !a.usePsk && !Truthy(a.password) then
      if Truthy(env.storedPassword) then a.(password := env.storedPassword)
      else a.(password := PromptValue(Prompt(typed, PasswordLimits, 3).outcome))
    else a
  }

  /** `_validate_psk`: a stored default psk is assigned to `password`, not to `psk`. */
  function PskStep(a: ArgsValue, env: Env, typed: seq<string>): ArgsValue
  {
    if a.usePsk && !Truthy(a.psk) then
      if Truthy(env.storedPsk) then a.(password := env.storedPsk)
      else a.(psk := PromptValue(Prompt(typed, PskLimits, 3).outcome))
    else a
  }

  /** The literal text `{rtl[0-9]` the realtek pattern starts with. */
  const RealtekLead: string := "{rtl[0-9]"

  /** Zero or more '.' and then '}'. */
  predicate DotsThenBrace(t: string)
  {
    t != [] && (t[0] == '}' || (t[0] == '.' && DotsThenBrace(t[1..])))
  }

  /**
   * `re.search(r'{rtl\[0-9\]\.*}', m)`: the braces and the escaped brackets
   * are literal characters, so the pattern looks for the text `{rtl[0-9]`
   * followed by dots and a closing brace.
   */
  predicate HasRealtekMarker(m: string)
  {
    m != [] && ((StartsWith(m, RealtekLead) && DotsThenBrace(m[|RealtekLead|..])) || HasRealtekMarker(m[1..]))
  }

  /** A module name without '{', like every real kernel module name, never draws the warning. */
  lemma {:induction false} NoBraceNoRealtekWarning(m: string)
    requires '{' !in m
    ensures !HasRealtekMarker(m)
  {
    if m != [] {
      assert m[0] != '{';
      assert !StartsWith(m, RealtekLead) by {
        assert RealtekLead[0] == '{';
        assert |m| >= |RealtekLead| ==> m[..|RealtekLead|][0] == m[0];
      }
      assert '{' !in m[1..] by {
        forall j | 0 <= j < |m[1..]| ensures m[1..][j] != '{' {
          assert m[1..][j] == m[j + 1];
        }
      }
      NoBraceNoRealtekWarning(m[1..]);
    }
  }

  /** `_validate_realtek_warning`: with a password set, WPA version 2 is forced. */
  function RealtekStep(a: ArgsValue, env: Env): ArgsValue
  {
    if HasRealtekMarker(env.kernelModule) && Truthy(a.password) then a.(wpaVersion := PyInt(2)) else a
  }

  // ---------------------------------------------------------------------
  // The whole validation

  /** The validators up to `_validate_ssid` that end the program, in `validation_map` order. */
  function EarlyExit(a: ArgsValue, env: Env): (r: Option<ExitReason>)
    ensures r.None? <==>
              !a.version && env.isWifiIface && env.canBeAp && (env.canBeStaAndAp || !env.wifiConnected) &&
              env.hasHostapd && RtlExit(env).None? && MacExit(a.mac).None? && SsidExit(a.ssid).None?
  {
    if a.version then Some(VersionRequested)
    else if !env.isWifiIface then Some(NotWifiIface(a.wifiIface))
    else if !env.canBeAp then Some(NoApSupport)
    else if !env.canBeStaAndAp && env.wifiConnected then Some(StaApConflict)
    else if !env.hasHostapd then Some(NoHostapd)
    else if RtlExit(env).Some? then RtlExit(env)
    else if MacExit(a.mac).Some? then MacExit(a.mac)
    else SsidExit(a.ssid)
  }

  /** The prompts and the validators after them that end the program, in order. */
  function LateExit(a: ArgsValue, env: Env, typed: seq<string>): (r: Option<ExitReason>)
    ensures r.None? <==>
              !(PromptsPassword(a, env) && Prompt(typed, PasswordLimits, 3).outcome.EndOfInput?) &&
              !(PromptsPsk(a, env) && Prompt(typed, PskLimits, 3).outcome.EndOfInput?) &&
              InternetExit(a, env).None? && !(a.noVirt && a.wifiIface == a.internetIface)
  {
    if PromptsPassword(a, env) && Prompt(typed, PasswordLimits, 3).outcome.EndOfInput? then Some(InputClosed)
    else if PromptsPsk(a, env) && Prompt(typed, PskLimits, 3).outcome.EndOfInput? then Some(InputClosed)
    else if InternetExit(a, env).Some? then InternetExit(a, env)
    else VirtualExit(a)
  }

  /** The first validator, in `validation_map` order, that ends the program. */
  function FirstExit(a: ArgsValue, env: Env, typed: seq<string>): Option<ExitReason>
  {
    if EarlyExit(a, env).Some? then EarlyExit(a, env) else LateExit(a, env, typed)
  }

  /** The arguments after a validation that did not end the program. */
  function Validated(a: ArgsValue, env: Env, typed: seq<string>): ArgsValue
  {
    RealtekStep(PskStep(PasswordStep(FreqBandStep(a), env, typed), env, typed), env)
  }

  /** How many typed lines the validation read. */
  function Consumed(a: ArgsValue, env: Env, typed: seq<string>): nat
  {
    if PromptsPassword(a, env) then Prompt(typed, PasswordLimits, 3).consumed
    else if PromptsPsk(a, env) then Prompt(typed, PskLimits, 3).consumed
    else 0
  }

  /** Validation only ever assigns the channel, the password, the psk and the WPA version. */
  lemma ValidatedChangesOnly(a: ArgsValue, env: Env, typed: seq<string>)
    ensures var r := Validated(a, env, typed);
            r == a.(channel := r.channel, password := r.password, psk := r.psk, wpaVersion := r.wpaVersion)
    ensures Validated(a, env, typed).channel ==
            if FreqBandTruthy(a.freqBand) && a.freqBand.value.whole != 5 && a.channel > 14 then 5 else a.channel
  {
    var a1 := FreqBandStep(a);
    var a2 := PasswordStep(a1, env, typed);
    var a3 := PskStep(a2, env, typed);
    var a4 := RealtekStep(a3, env);
    assert a1 == a.(channel := a1.channel);
    assert a2 == a1.(password := a2.password);
    assert a3 == a2.(password := a3.password, psk := a3.psk);
    assert a4 == a3.(wpaVersion := a4.wpaVersion);
  }

  /** `no_virt` is assigned False only when it is already False, so it never changes. */
  lemma StaApNeverEnablesNoVirt(a: ArgsValue, env: Env, typed: seq<string>)
    requires !env.canBeStaAndAp && !env.wifiConnected && !a.noVirt
    ensures FirstExit(a, env, typed) != Some(StaApConflict)
    ensures !Validated(a, env, typed).noVirt
    ensures StaApStepIntended(a, env).noVirt
  {
  }

  /** `_validate_sta_ap_conflict` as evidently intended: fall back to `--no-virt`. */
  function StaApStepIntended(a: ArgsValue, env: Env): (r: ArgsValue)
    ensures r.noVirt <==> a.noVirt || (!env.canBeStaAndAp && !env.wifiConnected)
    ensures r == a.(noVirt := r.noVirt)
  {
    if !env.canBeStaAndAp && !env.wifiConnected && !a.noVirt then a.(noVirt := true) else a
  }

  /** A stored password is used before any prompt, and then nothing is read. */
  lemma StoredPasswordFirst(a: ArgsValue, env: Env, typed: seq<string>)
    requires !a.usePsk && !Truthy(a.password) && Truthy(env.storedPassword)
    ensures Validated(a, env, typed).password == env.storedPassword
    ensures Consumed(a, env, typed) == 0
  {
  }

  /** A stored psk ends up in `password`, and `psk` stays unset. */
  lemma StoredPskGoesToPassword(a: ArgsValue, env: Env, typed: seq<string>)
    requires a.usePsk && !Truthy(a.psk) && Truthy(env.storedPsk)
    ensures Validated(a, env, typed).password == env.storedPsk
    ensures Validated(a, env, typed).psk == a.psk
    ensures Consumed(a, env, typed) == 0
  {
  }

  /** A prompted password is the first typed line of 8 to 63 characters among the first three. */
  lemma {:induction false} PromptedPassword(a: ArgsValue, env: Env, typed: seq<string>)
    requires PromptsPassword(a, env) && FirstExit(a, env, typed).None?
    ensures var pw := Validated(a, env, typed).password;
            pw.PyNone? <==> |typed| >= 3 && forall j :: 0 <= j < 3 ==> !(8 <= |typed[j]| <= 63)
    ensures var pw := Validated(a, env, typed).password;
            pw.PyStr? ==> exists k :: 0 <= k < 3 && k < |typed| && pw.s == typed[k] && 8 <= |pw.s| <= 63 &&
                                      forall j :: 0 <= j < k ==> !(8 <= |typed[j]| <= 63)
  {
    var r := Prompt(typed, PasswordLimits, 3);
    assert FreqBandStep(a).password == a.password && FreqBandStep(a).usePsk == a.usePsk;
    assert Validated(a, env, typed).password == PromptValue(r.outcome);
    forall pw: string ensures Accepts(PasswordLimits, pw) <==> 8 <= |pw| <= 63 {
      PromptLimits(pw);
    }
    if r.outcome.Entered? {
      var k := r.consumed - 1;
      assert typed[k] == r.outcome.pw;
    }
  }

  /** Which addresses are already in use never decides whether validation ends the program. */
  lemma MacInUseOnlyWarns(a: ArgsValue, env: Env, typed: seq<string>, macs: seq<string>)
    ensures FirstExit(a, env.(allMacs := macs), typed) == FirstExit(a, env, typed)
    ensures Validated(a, env.(allMacs := macs), typed) == Validated(a, env, typed)
  {
    var e := env.(allMacs := macs);
    assert e.kernelModule == env.kernelModule && e.storedPassword == env.storedPassword && e.storedPsk == env.storedPsk;
    assert EarlyExit(a, e) == EarlyExit(a, env) by {
      assert RtlExit(e) == RtlExit(env);
    }
    assert LateExit(a, e, typed) == LateExit(a, env, typed) by {
      assert PromptsPassword(a, e) == PromptsPassword(a, env);
      assert PromptsPsk(a, e) == PromptsPsk(a, env);
      assert InternetExit(a, e) == InternetExit(a, env);
    }
    assert Validated(a, e, typed) == Validated(a, env, typed) by {
      var a1 := FreqBandStep(a);
      assert PasswordStep(a1, e, typed) == PasswordStep(a1, env, typed);
      var a2 := PasswordStep(a1, env, typed);
      assert PskStep(a2, e, typed) == PskStep(a2, env, typed);
      var a3 := PskStep(a2, env, typed);
      assert RealtekStep(a3, e) == RealtekStep(a3, env);
    }
  }

  /** The argument namespace, whose fields the validators assign. */
  class Args {
    var v: ArgsValue

    constructor (v: ArgsValue)
      ensures this.v == v
    {
      this.v := v;
    }
  }

  class ArgumentValidator {
    const env: Env
    /** The lines still to be typed at the password prompts. */
    var typed: seq<string>

    constructor (env: Env, typed: seq<string>)
      ensures this.env == env && this.typed == typed
    {
      this.env := env;
      this.typed := typed;
    }

    /** `_get_password_input`: at most three prompts. */
    method GetPasswordInput(l: Limits) returns (p: Prompted)
      modifies this`typed
      ensures var r := Prompt(old(typed), l, 3);
              p == r.outcome && typed == old(typed)[r.consumed..]
    {
      var retries := 0;
      while retries < 3
        invariant 0 <= retries <= 3 && retries <= |old(typed)|
        invariant typed == old(typed)[retries..]
        invariant var r := Prompt(typed, l, 3 - retries);
                  Prompt(old(typed), l, 3) == PromptResult(r.outcome, r.consumed + retries)
      {
        if typed == [] {
          return EndOfInput;
        }
        var password := typed[0];
        typed := typed[1..];
        if Accepts(l, password) {
          return Entered(password);
        }
        retries := retries + 1;
      }
      return GaveUp;
    }

    /** `_validate_freq_band` */
    method ValidateFreqBand(args: Args)
      modifies args
      ensures args.v == FreqBandStep(old(args.v))
    {
      if FreqBandTruthy(args.v.freqBand) && args.v.freqBand.value.whole != 5 && args.v.channel > 14 {
        args.v := args.v.(channel := 5);
      }
    }

    /** `_validate_password`; `closed` when the prompt hit the end of the input. */
    method ValidatePassword(args: Args) returns (closed: bool)
      modifies args, this`typed
      ensures closed <==> PromptsPassword(old(args.v), env) &&
                          Prompt(old(typed), PasswordLimits, 3).outcome.EndOfInput?
      ensures !closed ==> args.v == PasswordStep(old(args.v), env, old(typed))
      ensures typed == old(typed)[if PromptsPassword(old(args.v), env)
                                  then Prompt(old(typed), PasswordLimits, 3).consumed else 0..]
    {
      if !args.v.usePsk && !Truthy(args.v.password) {
        if Truthy(env.storedPassword) {
          args.v := args.v.(password := env.storedPassword);
          return false;
        }
        var p := GetPasswordInput(PasswordLimits);
        if p.EndOfInput? {
          return true;
        }
        args.v := args.v.(password := PromptValue(p));
      }
      return false;
    }

    /** `_validate_psk`; `closed` when the prompt hit the end of the input. */
    method ValidatePsk(args: Args) returns (closed: bool)
      modifies args, this`typed
      ensures closed <==> PromptsPsk(old(args.v), env) && Prompt(old(typed), PskLimits, 3).outcome.EndOfInput?
      ensures !closed ==> args.v == PskStep(old(args.v), env, old(typed))
      ensures typed == old(typed)[if PromptsPsk(old(args.v), env)
                                  then Prompt(old(typed), PskLimits, 3).consumed else 0..]
    {
      if args.v.usePsk && !Truthy(args.v.psk) {
        if Truthy(env.storedPsk) {
          args.v := args.v.(password := env.storedPsk);
          return false;
        }
        var p := GetPasswordInput(PskLimits);
        if p.EndOfInput? {
          return true;
        }
        args.v := args.v.(psk := PromptValue(p));
      }
      return false;
    }

    /** `_validate_realtek_warning` */
    method ValidateRealtekWarning(args: Args)
      modifies args
      ensures args.v == RealtekStep(old(args.v), env)
    {
      if HasRealtekMarker(env.kernelModule) && Truthy(args.v.password) {
        args.v := args.v.(wpaVersion := PyInt(2));
      }
    }

    /** The validators up to `_validate_ssid`; only `_validate_freq_band` assigns a field. */
    method ValidateEarly(args: Args) returns (exit: Option<ExitReason>)
      modifies args
      ensures exit == EarlyExit(old(args.v), env)
      ensures exit.None? ==> args.v == FreqBandStep(old(args.v))
    {
      if args.v.version {
        return Some(VersionRequested);
      }
      ValidateFreqBand(args);
      if !env.isWifiIface {
        return Some(NotWifiIface(args.v.wifiIface));
      }
      if !env.canBeAp {
        return Some(NoApSupport);
      }
      if !env.canBeStaAndAp && env.wifiConnected {
        return Some(StaApConflict);
      }
      if !env.hasHostapd {
        return Some(NoHostapd);
      }
      exit := RtlExit(env);
      if exit.Some? {
        return;
      }
      exit := MacExit(args.v.mac);
      if exit.Some? {
        return;
      }
      exit := SsidExit(args.v.ssid);
    }

    /** The validators from `_validate_password` on. */
    method ValidateLate(args: Args) returns (exit: Option<ExitReason>)
      modifies args, this`typed
      ensures exit == LateExit(old(args.v), env, old(typed))
      ensures exit.None? ==>
                args.v == RealtekStep(PskStep(PasswordStep(old(args.v), env, old(typed)), env, old(typed)), env)
      ensures exit.None? ==> typed == old(typed)[Consumed(old(args.v), env, old(typed))..]
    {
      var closed := ValidatePassword(args);
      if closed {
        return Some(InputClosed);
      }
      closed := ValidatePsk(args);
      if closed {
        return Some(InputClosed);
      }
      exit := InternetExit(args.v, env);
      if exit.Some? {
        return;
      }
      ValidateRealtekWarning(args);
      exit := VirtualExit(args.v);
    }

    /** `validate`: every validator in `validation_map` order, until one ends the program. */
    method Validate(args: Args) returns (exit: Option<ExitReason>)
      modifies args, this`typed
      ensures exit == FirstExit(old(args.v), env, old(typed))
      ensures exit.None? ==> args.v == Validated(old(args.v), env, old(typed))
      ensures exit.None? ==> typed == old(typed)[Consumed(old(args.v), env, old(typed))..]
    {
      exit := ValidateEarly(args);
      if exit.Some? {
        return;
      }
      exit := ValidateLate(args);
    }
  }
}

=== FILE: ap_manager.dfy ===
/**
 * The helpers of the access-point manager (backend/hotspotmanager/ap_manager.py)
 * that carry logic of their own: frequency to channel conversion, MAC
 * address checks, allocation of virtual interface names, the search for
 * a fresh MAC address, the settings written to hostapd.conf and the
 * "pid iface (wifi_iface)" entries that describe running instances.
 */
module ApManager {
  import opened Wrappers
  import opened Text
  import opened PyValues
  import Lock

  // ---------------------------------------------------------------------
  // Frequency to channel (the table of iw's util.c)

  /** The integer part the conversion works on: `int(freq.split('.')[0])`. */
  function FreqIntegerPart(freq: string): Option<int>
  {
    ParseInt(SplitOn(freq, '.')[0])
  }

  /** `ieee80211_frequency_to_channel` on the integer frequency in MHz. */
  function FrequencyToChannel(freq: int): (ch: int)
    ensures freq < 1000 ==> ch == 0
  {
    if freq < 1000 then 0
    else if freq == 2484 then 14
    else if freq == 5935 then 2
    else if freq < 2484 then (freq - 2407) / 5
    else if 4910 <= freq <= 4980 then (freq - 4000) / 5
    else if freq < 5950 then (freq - 5000) / 5
    else if freq <= 45000 then (freq - 5950) / 5
    else if 58320 <= freq <= 70200 then (freq - 56160) / 2160
    else 0
  }

  /**
   * The conversion called with the frequency text `freqArg`, or, when that
   * is empty, with the configured `freq_band`; None where `int` raises.
   */
  function ChannelOf(freqArg: string, configuredBand: string): (r: Option<int>)
    ensures r.Some? <==> FreqIntegerPart(if freqArg != "" then freqArg else configuredBand).Some?
  {
    var f := FreqIntegerPart(if freqArg != "" then freqArg else configuredBand);
    if f.None? then None else Some(FrequencyToChannel(f.value))
  }

  lemma ChannelExamples()
    ensures FrequencyToChannel(2412) == 1 && FrequencyToChannel(2437) == 6
    ensures FrequencyToChannel(2484) == 14 && FrequencyToChannel(5180) == 36
    ensures FrequencyToChannel(5935) == 2 && FrequencyToChannel(999) == 0
  {
  }

  /** Every 2.4 GHz channel 1..13 is found again from its centre frequency 2407 + 5·ch. */
  lemma Band24Channels(ch: int)
    requires 1 <= ch <= 13
    ensures FrequencyToChannel(2407 + 5 * ch) == ch
  {
  }

  /** 5 GHz channels: centre frequency 5000 + 5·ch outside the 4.9 GHz range and 5935. */
  lemma Band5Channels(ch: int)
    requires 0 <= ch < 190 && 5000 + 5 * ch != 5935
    ensures FrequencyToChannel(5000 + 5 * ch) == ch
  {
  }

  /** 4.9 GHz public-safety channels 182..196 at 4000 + 5·ch. */
  lemma Band49Channels(ch: int)
    requires 182 <= ch <= 196
    ensures FrequencyToChannel(4000 + 5 * ch) == ch
  {
  }

  /** 6 GHz channels at 5950 + 5·ch, up to the 45 GHz limit. */
  lemma Band6Channels(ch: int)
    requires 1 <= ch <= 7810
    ensures FrequencyToChannel(5950 + 5 * ch) == ch
  {
  }

  /** 60 GHz (DMG) channels 1..6 at 56160 + 2160·ch. */
  lemma Band60Channels(ch: int)
    requires 1 <= ch <= 6
    ensures FrequencyToChannel(56160 + 2160 * ch) == ch
  {
  }

  /** A frequency between two channel centres maps to the lower channel. */
  lemma Band24RoundsDown(freq: int)
    requires 2412 <= freq < 2484
    ensures 2407 + 5 * FrequencyToChannel(freq) <= freq < 2412 + 5 * FrequencyToChannel(freq)
  {
  }

  // ---------------------------------------------------------------------
  // MAC addresses

  /** Six groups of two hexadecimal digits joined by ':'. */
  predicate MacShape(s: string)
  {
    |s| == 17 &&
    forall i :: 0 <= i < 17 ==> if i % 3 == 2 then s[i] == ':' else IsHexDigit(s[i])
  }

  /**
   * `is_macaddr`: the pattern is anchored with `$`, which `re.match` also
   * accepts just before one trailing newline. The empty string is refused.
   */
  predicate IsMacaddr(mac: string)
  {
    MacShape(mac) || (|mac| == 18 && mac[17] == '\n' && MacShape(mac[..17]))
  }

  function HexDigitValue(c: char): (d: nat)
    requires IsHexDigit(c)
    ensures d < 16
  {
    if '0' <= c <= '9' then c as int - '0' as int
    else if 'a' <= c <= 'f' then c as int - 'a' as int + 10
    else c as int - 'A' as int + 10
  }

  predicate AllHex(s: string)
  {
    forall i :: 0 <= i < |s| ==> IsHexDigit(s[i])
  }

  function HexDigitsValue(s: string): nat
    requires AllHex(s)
  {
    if s == [] then 0 else HexDigitsValue(s[..|s| - 1]) * 16 + HexDigitValue(s[|s| - 1])
  }

  /** `int(s, 16)` for a string of hexadecimal digits; None where `int` raises. */
  function HexValue(s: string): (r: Option<nat>)
    ensures r.Some? <==> s != [] && AllHex(s)
    ensures |s| == 2 && r.Some? ==> r.value < 256
  {
    if s != [] && AllHex(s) then
      (if |s| == 2 then HexDigitsValueTwo(s); Some(HexDigitsValue(s))
       else Some(HexDigitsValue(s)))
    else None
  }

  lemma HexDigitsValueTwo(s: string)
    requires |s| == 2 && AllHex(s)
    ensures HexDigitsValue(s) == HexDigitValue(s[0]) * 16 + HexDigitValue(s[1])
  {
    var head := s[..1];
    assert head[..0] == [] && head[0] == s[0];
    assert HexDigitsValue(head) == HexDigitsValue(head[..0]) * 16 + HexDigitValue(head[0]);
    assert s[..|s| - 1] == head;
  }

  /** `is_unicast_macaddr`: the first octet, read as hexadecimal, is even. */
  predicate IsUnicastMacaddr(mac: string)
  {
    IsMacaddr(mac) && HexValue(mac[..2]).Some? && HexValue(mac[..2]).value % 2 == 0
  }

  /**
   * Unicast is the individual/group bit of IEEE Std 802-2014 clause 8.2:
   * the least significant bit of the first octet, carried by the second
   * hexadecimal digit.
   */
  lemma UnicastIffIndividualBit(mac: string)
    ensures IsUnicastMacaddr(mac) <==> IsMacaddr(mac) && HexDigitValue(mac[1]) % 2 == 0
  {
    if IsMacaddr(mac) {
      var first := mac[..2];
      assert IsHexDigit(mac[0]) && IsHexDigit(mac[1]);
      HexDigitsValueTwo(first);
    }
  }

  // ---------------------------------------------------------------------
  // Fresh MAC address

  /** `s.split(':')[-1]`: the text after the last ':' (all of `s` without one). */
  function AfterLastColon(s: string): (r: string)
    ensures |r| <= |s| && r == s[|s| - |r|..] && ':' !in r
    ensures |r| < |s| ==> s[|s| - |r| - 1] == ':'
    ensures ':' in s ==> |r| < |s|
  {
    if s == [] || s[|s| - 1] == ':' then []
    else
      var init, last := s[..|s| - 1], s[|s| - 1];
      assert s == init + [last];
      assert ':' in s ==> ':' in init by {
        if ':' in s {
          var k :| 0 <= k < |s| && s[k] == ':';
          assert k < |init| && init[k] == ':';
        }
      }
      var t := AfterLastColon(init);
      assert t + [last] == s[|s| - |t| - 1..] by {
        assert init[|init| - |t|..] == s[|s| - |t| - 1..|s| - 1];
      }
      assert ':' !in t + [last] by {
        forall i | 0 <= i < |t| + 1 ensures (t + [last])[i] != ':' {
          if i < |t| { assert (t + [last])[i] == t[i]; }
        }
      }
      t + [last]
  }

  /** `s.rsplit(':', 1)[0]`: the text before the last ':' (all of `s` without one). */
  function BeforeLastColon(s: string): (r: string)
    ensures ':' in s ==> s == r + ":" + AfterLastColon(s)
    ensures ':' !in s ==> r == s
  {
    if ':' in s then
      var a := AfterLastColon(s);
      assert s == s[..|s| - |a| - 1] + ":" + a;
      s[..|s| - |a| - 1]
    else s
  }

  function HexChar(d: nat): (c: char)
    requires d < 16
    ensures IsHexDigit(c) && HexDigitValue(c) == d
  {
    if d < 10 then ('0' as int + d) as char else ('a' as int + d - 10) as char
  }

  /** `f"{n:02x}"` for an octet: two lower-case hexadecimal digits. */
  function Hex2(n: nat): (r: string)
    requires n < 256
    ensures |r| == 2 && AllHex(r) && HexValue(r) == Some(n)
  {
    var r := [HexChar(n / 16), HexChar(n % 16)];
    HexDigitsValueTwo(r);
    r
  }

  /** The i-th candidate `get_new_macaddr` tries: the last octet advanced by i modulo 256. */
  function Candidate(oldMac: string, lastByte: nat, i: nat): string
  {
    BeforeLastColon(oldMac) + ":" + Hex2((lastByte + i) % 256)
  }

  datatype NewMac = NewMacFound(mac: string) | NoNewMac | LastOctetNotHex

  /** Candidate i is free and every earlier candidate is in use. */
  predicate FirstFree(oldMac: string, lastByte: nat, usedMacs: seq<string>, i: nat)
  {
    1 <= i <= 255 && Candidate(oldMac, lastByte, i) !in usedMacs &&
    forall j :: 1 <= j < i ==> Candidate(oldMac, lastByte, j) in usedMacs
  }

  /**
   * `get_new_macaddr`. `oldMac` is what `get_macaddr` returns for the
   * interface and `usedMacs` what `get_all_macaddrs` lists.
   */
  method GetNewMacaddr(oldMac: Option<string>, usedMacs: seq<string>) returns (r: NewMac)
    ensures oldMac.None? || oldMac.value == "" ==> r == NoNewMac
    ensures oldMac.Some? && oldMac.value != "" && HexValue(AfterLastColon(oldMac.value)).None? ==>
              r == LastOctetNotHex
    ensures r.NewMacFound? ==>
              oldMac.Some? && HexValue(AfterLastColon(oldMac.value)).Some? &&
              exists i :: FirstFree(oldMac.value, HexValue(AfterLastColon(oldMac.value)).value, usedMacs, i) &&
                          r.mac == Candidate(oldMac.value, HexValue(AfterLastColon(oldMac.value)).value, i)
    ensures r == NoNewMac && oldMac.Some? && oldMac.value != "" ==>
              HexValue(AfterLastColon(oldMac.value)).Some? &&
              forall i :: 1 <= i <= 255 ==>
                Candidate(oldMac.value, HexValue(AfterLastColon(oldMac.value)).value, i) in usedMacs
  {
    if oldMac.None? || oldMac.value == "" {
      return NoNewMac;
    }
    var mac := oldMac.value;
    var lastByte := HexValue(AfterLastColon(mac));
    if lastByte.None? {
      return LastOctetNotHex;
    }
    var b := lastByte.value;
    var free := FindFreeCandidate(mac, b, usedMacs);
    if free.Some? {
      return NewMacFound(Candidate(mac, b, free.value));
    }
    return NoNewMac;
  }

  /** The loop of `get_new_macaddr` over the candidates 1..255. */
  method FindFreeCandidate(mac: string, b: nat, usedMacs: seq<string>) returns (free: Option<nat>)
    ensures free.Some? ==> FirstFree(mac, b, usedMacs, free.value)
    ensures free.None? ==> forall i :: 1 <= i <= 255 ==> Candidate(mac, b, i) in usedMacs
  {
    var i := 1;
    while i < 256
      invariant 1 <= i <= 256
      invariant forall j :: 1 <= j < i ==> Candidate(mac, b, j) in usedMacs
    {
      if Candidate(mac, b, i) !in usedMacs {
        return Some(i);
      }
      i := i + 1;
    }
    return None;
  }

  /**
   * For a well-formed address the candidates keep the first five octets,
   * are well-formed themselves and differ from the old address.
   */
  lemma CandidateOfMac(oldMac: string, i: nat)
    requires MacShape(oldMac) && 1 <= i <= 255
    ensures HexValue(AfterLastColon(oldMac)).Some?
    ensures var c := Candidate(oldMac, HexValue(AfterLastColon(oldMac)).value, i);
            MacShape(c) && c[..15] == oldMac[..15] && c != oldMac
  {
    LastOctetOfMac(oldMac);
    var b := HexValue(oldMac[15..]).value;
    var c := Candidate(oldMac, b, i);
    assert ':' in oldMac by { assert oldMac[14] == ':'; }
    assert BeforeLastColon(oldMac) == oldMac[..14];
    assert c == oldMac[..14] + ":" + Hex2((b + i) % 256);
    assert c[15..] == Hex2((b + i) % 256);
    assert HexValue(c[15..]) != HexValue(oldMac[15..]) by {
      assert (b + i) % 256 != b;
    }
  }

  /** The last octet of a well-formed address is the text after its last ':'. */
  lemma LastOctetOfMac(mac: string)
    requires MacShape(mac)
    ensures AfterLastColon(mac) == mac[15..]
    ensures HexValue(mac[15..]).Some?
  {
    assert mac[..16][..15] == mac[..15];
    assert AfterLastColon(mac[..15]) == [];
    assert AfterLastColon(mac[..16]) == [mac[15]];
    assert mac[..17] == mac;
    assert mac[15..] == [mac[15], mac[16]];
  }

  /** No candidate equals the old address, whatever its shape. */
  lemma CandidateIsNotOldMac(oldMac: string, i: nat)
    requires 1 <= i <= 255 && HexValue(AfterLastColon(oldMac)).Some?
    ensures Candidate(oldMac, HexValue(AfterLastColon(oldMac)).value, i) != oldMac
  {
    var a := AfterLastColon(oldMac);
    var b := HexValue(a).value;
    var h := Hex2((b + i) % 256);
    var c := Candidate(oldMac, b, i);
    if ':' in oldMac {
      var n := |BeforeLastColon(oldMac)| + 1;
      assert c[n..] == h && oldMac[n..] == a;
      assert HexValue(h) != HexValue(a) by {
        assert (b + i) % 256 != b;
      }
      assert c[n..] != oldMac[n..];
    } else {
      assert |c| > |oldMac|;
    }
  }

  // ---------------------------------------------------------------------
  // Interface names for virtual interfaces

  /** The i-th name `alloc_new_iface` tries: `f"{prefix}{i}"`. */
  function IfaceName(prefix: string, i: nat): string
  {
    prefix + NatToString(i)
  }

  /** A name is taken when it is a live interface or already has a marker file. */
  predicate Taken(live: set<string>, markers: set<string>, name: string)
  {
    name in live || name in markers
  }

  /** The length of the longest name in a finite set. */
  ghost function MaxLen(names: set<string>): (m: nat)
    ensures forall x :: x in names ==> |x| <= m
    decreases |names|
  {
    if names == {} then 0
    else
      var x :| x in names;
      var rest := MaxLen(names - {x});
      if |x| > rest then |x| else rest
  }

  /** Only finitely many indices give a taken name: all of them lie below 10^MaxLen. */
  lemma TakenIndexBound(live: set<string>, markers: set<string>, prefix: string, i: nat)
    requires Taken(live, markers, IfaceName(prefix, i))
    ensures i < Pow10(MaxLen(live + markers))
  {
    var name := IfaceName(prefix, i);
    assert name in live + markers;
    NumeralBound(i);
    Pow10Monotone(|NatToString(i)|, MaxLen(live + markers));
  }

  /** What `dalloc_iface` does, as written: see `DallocIface`. */
  datatype DallocOutcome = ReturnedNone | RaisedFileNotFound

  /**
   * `dalloc_iface` as written: it examines only `iface + "0"` and calls
   * `os.remove` exactly when that name is neither a live interface nor a
   * marker, so the removal always raises FileNotFoundError; otherwise it
   * returns None. No marker is ever removed.
   */
  function DallocAsWritten(live: set<string>, markers: set<string>, iface: string): (r: DallocOutcome)
    ensures r == RaisedFileNotFound <==> !Taken(live, markers, IfaceName(iface, 0))
  {
    if !Taken(live, markers, IfaceName(iface, 0)) then RaisedFileNotFound else ReturnedNone
  }

  /**
   * A name just allocated keeps its marker: releasing it with
   * `dalloc_iface` never removes the marker, and raises when its "0"
   * extension is free.
   */
  lemma DallocLeavesAllocatedMarker(live: set<string>, markers: set<string>, name: string)
    requires name in markers && IfaceName(name, 0) !in live && IfaceName(name, 0) !in markers
    ensures DallocAsWritten(live, markers, name) == RaisedFileNotFound
  {
  }

  /** Releasing a name as evidently intended: its marker file is removed. */
  function ReleaseIface(markers: set<string>, name: string): (r: set<string>)
    ensures name !in r && r <= markers
    ensures forall x :: x in markers && x != name ==> x in r
  {
    markers - {name}
  }

  /** Allocation followed by the intended release restores the markers. */
  lemma AllocThenRelease(markers: set<string>, name: string)
    requires name !in markers
    ensures ReleaseIface(markers + {name}, name) == markers
  {
  }

  class IfaceAllocator {
    /** Interfaces that exist (`is_interface`). */
    var live: set<string>
    /** Marker files under `<common_conf_dir>/ifaces`. */
    var markers: set<string>
    /** The lock manager's counter and global lock. */
    var mutex: Lock.MutexState
    /** The configured `wifi_iface`, used when no prefix is given. */
    var wifiIface: string

    constructor (live: set<string>, markers: set<string>, mutex: Lock.MutexState, wifiIface: string)
      ensures this.live == live && this.markers == markers && this.mutex == mutex
      ensures this.wifiIface == wifiIface
    {
      this.live := live;
      this.markers := markers;
      this.mutex := mutex;
      this.wifiIface := wifiIface;
    }

    /**
     * `alloc_new_iface`: the least i such that prefix + str(i) is free;
     * its marker file is created. The mutex is locked once and unlocked
     * twice (before the return and again in `finally`).
     */
    method AllocNewIface(prefix: string) returns (name: string)
      modifies this`markers, this`mutex
      ensures var p := if prefix != "" then prefix else wifiIface;
              exists i: nat :: name == IfaceName(p, i) && !Taken(live, old(markers), name) &&
                               forall j: nat :: j < i ==> Taken(live, old(markers), IfaceName(p, j))
      ensures markers == old(markers) + {name}
      ensures mutex == Lock.AllocBracketAsWritten(old(mutex))
    {
      var p := if prefix != "" then prefix else wifiIface;
      var existing, made := live, markers;
      ghost var bound := Pow10(MaxLen(existing + made));
      var i: nat := 0;
      while Taken(existing, made, IfaceName(p, i))
        invariant i <= bound && mutex == old(mutex)
        invariant forall j: nat :: j < i ==> Taken(existing, made, IfaceName(p, j))
        decreases bound - i
      {
        TakenIndexBound(existing, made, p, i);
        i := i + 1;
      }
      name := IfaceName(p, i);
      markers := made + {name};
      mutex := Lock.AllocBracketAsWritten(mutex);
      assert name == IfaceName(p, i) && !Taken(live, made, name) &&
             forall j: nat :: j < i ==> Taken(live, made, IfaceName(p, j));
    }

    /** `dalloc_iface`: locks and unlocks once; never changes the markers. */
    method DallocIface(iface: string) returns (out: DallocOutcome)
      modifies this`mutex
      ensures out == DallocAsWritten(live, markers, if iface != "" then iface else wifiIface)
      ensures mutex == Lock.AllocBracket(old(mutex))
    {
      var p := if iface != "" then iface else wifiIface;
      mutex := Lock.AfterLock(mutex);
      var name := IfaceName(p, 0);
      if !Taken(live, markers, name) {
        out := RaisedFileNotFound;
      } else {
        out := ReturnedNone;
      }
      mutex := Lock.AfterUnlock(mutex);
    }
  }

  // ---------------------------------------------------------------------
  // hostapd.conf

  /** The configuration entries `config_hostapd` reads. */
  datatype HostapdConfig = HostapdConfig(
    ssid: PyVal, driver: PyVal, channel: PyVal, hidden: PyVal, isolateClients: PyVal,
    country: PyVal,
    /** Whether `float(freq_band) == 2.4`. */
    band24: bool,
    macFilter: PyVal, macFilterAccept: PyVal, ieee80211n: PyVal, htCapab: PyVal,
    ieee80211ac: PyVal, ieee80211ax: PyVal, vhtCapab: PyVal, wmmEnabled: PyVal,
    password: PyVal, wpaVersion: PyVal, usePsk: PyVal, shareMethod: PyVal, bridgeIface: PyVal)

  /**
   * One `key=value` piece of hostapd.conf. `newline` is false for the
   * three pieces the source writes without a line break
   * (`interface={WIFI_IFACE}`, `ieee80211ax=1` and `bridge=...`), which
   * therefore run into whatever follows them.
   */
  datatype Setting = Setting(key: string, value: string, newline: bool)

  function RenderSetting(e: Setting): string
  {
    e.key + "=" + e.value + if e.newline then "\n" else ""
  }

  /** The text of the file. */
  function RenderConf(conf: seq<Setting>): string
  {
    if conf == [] then "" else RenderSetting(conf[0]) + RenderConf(conf[1..])
  }

  function HasKey(conf: seq<Setting>, key: string): bool
  {
    exists e :: e in conf && e.key == key
  }

  /** `os.path.join(a, b)` for a relative `b`. */
  function PathJoin(a: string, b: string): string
  {
    if a == "" then b else if a[|a| - 1] == '/' then a + b else a + "/" + b
  }

  function Line(key: string, value: string): Setting
  {
    Setting(key, value, true)
  }

  function BaseSettings(c: HostapdConfig, confDir: string): seq<Setting>
  {
    [Line("beacon_int", "100"), Line("ssid", Render(c.ssid)),
     Setting("interface", "{WIFI_IFACE}", false), Line("driver", Render(c.driver)),
     Line("channel", Render(c.channel)),
     Line("ctrl_interface", PathJoin(confDir, "hostapd_ctrl")), Line("ctrl_interface_group", "0"),
     Line("ignore_broadcast_ssid", Render(c.hidden)), Line("ap_isolate", Render(c.isolateClients))]
  }

  function CountryBlock(c: HostapdConfig): seq<Setting>
  {
    if Truthy(c.country) then [Line("country_code", Render(c.country)), Line("ieee80211d", "1")] else []
  }

  function HwModeBlock(c: HostapdConfig): seq<Setting>
  {
    [Line("hw_mode", if c.band24 then "g" else "a")]
  }

  function MacFilterBlock(c: HostapdConfig): seq<Setting>
  {
    if Truthy(c.macFilter) then
      [Line("macaddr_acl", Render(c.macFilter)), Line("accept_mac_file", Render(c.macFilterAccept))]
    else []
  }

  function HtBlock(c: HostapdConfig): seq<Setting>
  {
    if Truthy(c.ieee80211n) then [Line("ieee80211n", "1"), Line("ht_capab", Render(c.htCapab))] else []
  }

  function AcBlock(c: HostapdConfig): seq<Setting>
  {
    if Truthy(c.ieee80211ac) then [Line("ieee80211ac", "1")] else []
  }

  function AxBlock(c: HostapdConfig): seq<Setting>
  {
    if Truthy(c.ieee80211ax) then [Setting("ieee80211ax", "1", false)] else []
  }

  function VhtBlock(c: HostapdConfig): seq<Setting>
  {
    if Truthy(c.vhtCapab) then [Line("vht_capab", Render(c.vhtCapab))] else []
  }

  function WmmBlock(c: HostapdConfig): seq<Setting>
  {
    if Truthy(c.wmmEnabled) then [Line("wmm_enabled", "1")] else []
  }

  /** An entry written by one of the radio blocks between the base lines and the security block. */
  predicate InRadio(c: HostapdConfig, e: Setting)
  {
    e in CountryBlock(c) || e in HwModeBlock(c) || e in MacFilterBlock(c) || e in HtBlock(c) ||
    e in AcBlock(c) || e in AxBlock(c) || e in VhtBlock(c) || e in WmmBlock(c)
  }

  /** The "1+2" setting is rewritten to WPA2 before the block is written. */
  function EffectiveWpaVersion(v: PyVal): PyVal
  {
    if v == PyStr("1+2") then PyInt(2) else v
  }

  /** The WPA lines; `v` is the WPA version after the "1+2" rewrite. */
  function WpaBlock(c: HostapdConfig, v: PyVal): seq<Setting>
  {
    var keyLine := Line(if !Truthy(c.usePsk) then "wpa_passphrase" else "wpa_psk", Render(c.password));
    if PyEq(v, PyInt(3)) then
      [Line("wpa", "2"), keyLine, Line("wpa_key_mgmt", "WPA-PSK SAE"), Line("wpa_pairwise", "CCMP"),
       Line("rsn_pairwise", "CCMP"), Line("ieee80211w", "1")]
    else
      [Line("wpa", Render(v)), keyLine, Line("wpa_key_mgmt", "WPA-PSK"), Line("wpa_pairwise", "CCMP"),
       Line("rsn_pairwise", "CCMP")]
  }

  /** The bridge line, written inside the security block. */
  function BridgeBlock(c: HostapdConfig): seq<Setting>
  {
    if c.shareMethod == PyStr("bridge") then [Setting("bridge", Render(c.bridgeIface), false)] else []
  }

  /** An entry of the security block. */
  predicate InSecurity(c: HostapdConfig, v: PyVal, e: Setting)
  {
    e in WpaBlock(c, v) || e in BridgeBlock(c)
  }

  /**
   * The settings `config_hostapd` writes when the security block is
   * guarded by `secured`: as written the guard is `not password`
   * (`HostapdAsWritten`); evidently intended is `password` (`Hostapd`).
   */
  function HostapdSettings(c: HostapdConfig, confDir: string, secured: bool): seq<Setting>
  {
    Flatten(HostapdBlocks(c, confDir, secured))
  }

  /** The blocks in the order the writes happen. */
  function HostapdBlocks(c: HostapdConfig, confDir: string, secured: bool): seq<seq<Setting>>
  {
    [BaseSettings(c, confDir), CountryBlock(c), HwModeBlock(c), MacFilterBlock(c),
     HtBlock(c), AcBlock(c), AxBlock(c), VhtBlock(c), WmmBlock(c),
     if secured then WpaBlock(c, EffectiveWpaVersion(c.wpaVersion)) else [],
     if secured then BridgeBlock(c) else []]
  }

  function HostapdAsWritten(c: HostapdConfig, confDir: string): seq<Setting>
  {
    HostapdSettings(c, confDir, !Truthy(c.password))
  }

  function Hostapd(c: HostapdConfig, confDir: string): seq<Setting>
  {
    HostapdSettings(c, confDir, Truthy(c.password))
  }

  /** The file opens with the beacon interval and then the SSID. */
  lemma HostapdHeader(c: HostapdConfig, confDir: string, secured: bool)
    ensures var s := HostapdSettings(c, confDir, secured);
            |s| >= 2 && s[0] == Line("beacon_int", "100") && s[1] == Line("ssid", Render(c.ssid))
  {
  }

  lemma BaseKeys(c: HostapdConfig, confDir: string, e: Setting)
    requires e in BaseSettings(c, confDir)
    ensures e.key in {"beacon_int", "ssid", "interface", "driver", "channel", "ctrl_interface",
                      "ctrl_interface_group", "ignore_broadcast_ssid", "ap_isolate"}
  {
  }

  lemma WpaKeys(c: HostapdConfig, v: PyVal, e: Setting)
    requires InSecurity(c, v, e)
    ensures e.key in {"wpa", "wpa_passphrase", "wpa_psk", "wpa_key_mgmt", "wpa_pairwise",
                      "rsn_pairwise", "ieee80211w", "bridge"}
    ensures e.key == "bridge" ==> c.shareMethod == PyStr("bridge")
  {
  }

  lemma RadioKeys(c: HostapdConfig, e: Setting)
    requires InRadio(c, e)
    ensures e.key in {"country_code", "ieee80211d", "hw_mode", "macaddr_acl", "accept_mac_file",
                      "ieee80211n", "ht_capab", "ieee80211ac", "ieee80211ax", "vht_capab", "wmm_enabled"}
    ensures e.key == "hw_mode" ==> e == Line("hw_mode", if c.band24 then "g" else "a")
    ensures e.key == "country_code" ==> Truthy(c.country)
  {
  }

  lemma RadioHas(c: HostapdConfig)
    ensures InRadio(c, Line("hw_mode", if c.band24 then "g" else "a"))
    ensures Truthy(c.country) ==>
              InRadio(c, Line("country_code", Render(c.country))) && InRadio(c, Line("ieee80211d", "1"))
  {
  }

  /** Where an entry of the file comes from. */
  lemma InSettings(c: HostapdConfig, confDir: string, secured: bool, e: Setting)
    requires e in HostapdSettings(c, confDir, secured)
    ensures e in BaseSettings(c, confDir) || InRadio(c, e) ||
            (secured && InSecurity(c, EffectiveWpaVersion(c.wpaVersion), e))
  {
    FlattenMember(HostapdBlocks(c, confDir, secured), e);
  }

  /** The three blocks all end up in the file. */
  lemma SettingsHas(c: HostapdConfig, confDir: string, secured: bool, e: Setting)
    requires InRadio(c, e) || (secured && InSecurity(c, EffectiveWpaVersion(c.wpaVersion), e))
    ensures e in HostapdSettings(c, confDir, secured)
  {
    var blocks := HostapdBlocks(c, confDir, secured);
    FlattenMember(blocks, e);
    if e in CountryBlock(c) { assert e in blocks[1]; }
    else if e in HwModeBlock(c) { assert e in blocks[2]; }
    else if e in MacFilterBlock(c) { assert e in blocks[3]; }
    else if e in HtBlock(c) { assert e in blocks[4]; }
    else if e in AcBlock(c) { assert e in blocks[5]; }
    else if e in AxBlock(c) { assert e in blocks[6]; }
    else if e in VhtBlock(c) { assert e in blocks[7]; }
    else if e in WmmBlock(c) { assert e in blocks[8]; }
    else if e in WpaBlock(c, EffectiveWpaVersion(c.wpaVersion)) { assert e in blocks[9]; }
    else { assert e in blocks[10]; }
  }

  /** `hw_mode=g` exactly for the 2.4 GHz band, `hw_mode=a` otherwise. */
  lemma HostapdHwMode(c: HostapdConfig, confDir: string, secured: bool)
    ensures var s := HostapdSettings(c, confDir, secured);
            (Line("hw_mode", "g") in s <==> c.band24) && (Line("hw_mode", "a") in s <==> !c.band24)
  {
    var s := HostapdSettings(c, confDir, secured);
    var hw := Line("hw_mode", if c.band24 then "g" else "a");
    RadioHas(c);
    SettingsHas(c, confDir, secured, hw);
    forall e | e in s && e.key == "hw_mode"
      ensures e == hw
    {
      InSettings(c, confDir, secured, e);
      if e in BaseSettings(c, confDir) {
        BaseKeys(c, confDir, e);
      } else if InRadio(c, e) {
        RadioKeys(c, e);
      } else {
        WpaKeys(c, EffectiveWpaVersion(c.wpaVersion), e);
      }
    }
  }

  /** The country code and 802.11d lines are written exactly when a country is set. */
  lemma HostapdCountry(c: HostapdConfig, confDir: string, secured: bool)
    ensures var s := HostapdSettings(c, confDir, secured);
            (HasKey(s, "country_code") <==> Truthy(c.country)) &&
            (Truthy(c.country) ==> Line("country_code", Render(c.country)) in s && Line("ieee80211d", "1") in s)
  {
    var s := HostapdSettings(c, confDir, secured);
    RadioHas(c);
    if Truthy(c.country) {
      SettingsHas(c, confDir, secured, Line("country_code", Render(c.country)));
      SettingsHas(c, confDir, secured, Line("ieee80211d", "1"));
    }
    forall e | e in s && e.key == "country_code"
      ensures Truthy(c.country)
    {
      InSettings(c, confDir, secured, e);
      if e in BaseSettings(c, confDir) {
        BaseKeys(c, confDir, e);
      } else if InRadio(c, e) {
        RadioKeys(c, e);
      } else {
        WpaKeys(c, EffectiveWpaVersion(c.wpaVersion), e);
      }
    }
  }

  lemma WpaHas(c: HostapdConfig, v: PyVal)
    ensures var w := WpaBlock(c, v);
            w[0].key == "wpa" &&
            Line(if Truthy(c.usePsk) then "wpa_psk" else "wpa_passphrase", Render(c.password)) in w &&
            (PyEq(v, PyInt(3)) ==> Line("wpa", "2") in w && Line("wpa_key_mgmt", "WPA-PSK SAE") in w &&
                                   Line("ieee80211w", "1") in w) &&
            (!PyEq(v, PyInt(3)) ==> Line("wpa", Render(v)) in w && Line("wpa_key_mgmt", "WPA-PSK") in w)
    ensures c.shareMethod == PyStr("bridge") ==> BridgeBlock(c) == [Setting("bridge", Render(c.bridgeIface), false)]
  {
  }

  /**
   * The security block appears exactly when the guard holds; it then
   * names the key type (`wpa_passphrase` unless `use_psk`), and WPA3
   * (version 3) selects the SAE transition mode with management-frame
   * protection.
   */
  lemma HostapdSecurity(c: HostapdConfig, confDir: string, secured: bool)
    ensures var s := HostapdSettings(c, confDir, secured);
            var v := EffectiveWpaVersion(c.wpaVersion);
            (HasKey(s, "wpa") <==> secured) &&
            (secured ==>
               Line(if Truthy(c.usePsk) then "wpa_psk" else "wpa_passphrase", Render(c.password)) in s &&
               (PyEq(v, PyInt(3)) ==> Line("wpa", "2") in s && Line("wpa_key_mgmt", "WPA-PSK SAE") in s &&
                                      Line("ieee80211w", "1") in s) &&
               (!PyEq(v, PyInt(3)) ==> Line("wpa", Render(v)) in s && Line("wpa_key_mgmt", "WPA-PSK") in s)) &&
            (HasKey(s, "bridge") <==> secured && c.shareMethod == PyStr("bridge"))
  {
    var s := HostapdSettings(c, confDir, secured);
    var v := EffectiveWpaVersion(c.wpaVersion);
    WpaHas(c, v);
    if secured {
      forall e | InSecurity(c, v, e)
        ensures e in s
      {
        SettingsHas(c, confDir, secured, e);
      }
    }
    forall e | e in s && (e.key == "wpa" || e.key == "bridge")
      ensures secured && InSecurity(c, v, e)
    {
      InSettings(c, confDir, secured, e);
      if e in BaseSettings(c, confDir) {
        BaseKeys(c, confDir, e);
      } else if InRadio(c, e) {
        RadioKeys(c, e);
      }
    }
    forall e | InSecurity(c, v, e) && e.key == "bridge"
      ensures c.shareMethod == PyStr("bridge")
    {
      WpaKeys(c, v, e);
    }
  }

  /**
   * As written, a configured password produces an open network: no WPA
   * setting at all is written.
   */
  lemma PasswordGivesOpenNetwork(c: HostapdConfig, confDir: string)
    requires Truthy(c.password)
    ensures !HasKey(HostapdAsWritten(c, confDir), "wpa")
    ensures !HasKey(HostapdAsWritten(c, confDir), "wpa_passphrase")
  {
    HostapdSecurity(c, confDir, false);
    var s := HostapdAsWritten(c, confDir);
    forall e | e in s
      ensures e.key != "wpa_passphrase"
    {
      InSettings(c, confDir, false, e);
      if e in BaseSettings(c, confDir) {
        BaseKeys(c, confDir, e);
      } else {
        RadioKeys(c, e);
      }
    }
  }

  /**
   * With the guard as intended, a password is written as the passphrase
   * (or PSK) of a WPA network, and no password gives an open network.
   */
  lemma PasswordGivesSecuredNetwork(c: HostapdConfig, confDir: string)
    ensures Truthy(c.password) ==>
              HasKey(Hostapd(c, confDir), "wpa") &&
              Line(if Truthy(c.usePsk) then "wpa_psk" else "wpa_passphrase", Render(c.password)) in Hostapd(c, confDir)
    ensures !Truthy(c.password) ==> !HasKey(Hostapd(c, confDir), "wpa")
  {
    HostapdSecurity(c, confDir, Truthy(c.password));
  }

  /** Blocks computed one guarded write at a time make up the file as specified. */
  lemma BlocksInOrder(c: HostapdConfig, confDir: string,
                      country: seq<Setting>, hwMode: seq<Setting>, macFilter: seq<Setting>, ht: seq<Setting>,
                      ac: seq<Setting>, ax: seq<Setting>, vht: seq<Setting>, wmm: seq<Setting>,
                      wpa: seq<Setting>, bridge: seq<Setting>)
    requires country == CountryBlock(c) && hwMode == HwModeBlock(c) && macFilter == MacFilterBlock(c)
    requires ht == HtBlock(c) && ac == AcBlock(c) && ax == AxBlock(c) && vht == VhtBlock(c) && wmm == WmmBlock(c)
    requires wpa == if !Truthy(c.password) then WpaBlock(c, EffectiveWpaVersion(c.wpaVersion)) else []
    requires bridge == if !Truthy(c.password) then BridgeBlock(c) else []
    ensures Flatten([BaseSettings(c, confDir), country, hwMode, macFilter, ht, ac, ax, vht, wmm, wpa, bridge]) ==
            HostapdAsWritten(c, confDir)
  {
    assert [BaseSettings(c, confDir), country, hwMode, macFilter, ht, ac, ax, vht, wmm, wpa, bridge] ==
           HostapdBlocks(c, confDir, !Truthy(c.password));
  }

  /** The guarded writes between the base lines and the security block, one block per write. */
  method RadioWrites(c: HostapdConfig)
    returns (country: seq<Setting>, hwMode: seq<Setting>, macFilter: seq<Setting>, ht: seq<Setting>,
             ac: seq<Setting>, ax: seq<Setting>, vht: seq<Setting>, wmm: seq<Setting>)
    ensures country == CountryBlock(c) && hwMode == HwModeBlock(c) && macFilter == MacFilterBlock(c)
    ensures ht == HtBlock(c) && ac == AcBlock(c) && ax == AxBlock(c) && vht == VhtBlock(c) && wmm == WmmBlock(c)
  {
    country, hwMode, macFilter := [], [], [];
    if Truthy(c.country) {
      country := [Line("country_code", Render(c.country)), Line("ieee80211d", "1")];
    }
    if c.band24 {
      hwMode := [Line("hw_mode", "g")];
    } else {
      hwMode := [Line("hw_mode", "a")];
    }
    if Truthy(c.macFilter) {
      macFilter := [Line("macaddr_acl", Render(c.macFilter)), Line("accept_mac_file", Render(c.macFilterAccept))];
    }
    ht, ac, ax, vht, wmm := [], [], [], [], [];
    if Truthy(c.ieee80211n) {
      ht := [Line("ieee80211n", "1"), Line("ht_capab", Render(c.htCapab))];
    }
    if Truthy(c.ieee80211ac) {
      ac := [Line("ieee80211ac", "1")];
    }
    if Truthy(c.ieee80211ax) {
      ax := [Setting("ieee80211ax", "1", false)];
    }
    if Truthy(c.vhtCapab) {
      vht := [Line("vht_capab", Render(c.vhtCapab))];
    }
    if Truthy(c.wmmEnabled) {
      wmm := [Line("wmm_enabled", "1")];
    }
  }

  /** The part of the access-point manager that writes hostapd.conf. */
  class HostapdWriter {
    var config: HostapdConfig
    var confDir: string
    /** hostapd.conf in `confDir`, as the settings written to it; None before it is written. */
    var hostapdConf: Option<seq<Setting>>

    constructor (config: HostapdConfig, confDir: string)
      ensures this.config == config && this.confDir == confDir && hostapdConf == None
    {
      this.config := config;
      this.confDir := confDir;
      hostapdConf := None;
    }

    /**
     * The security block: rewrites a "1+2" WPA version to 2 in the
     * configuration, then writes the WPA lines and, for bridge sharing,
     * the bridge line.
     */
    method SecurityWrites() returns (wpa: seq<Setting>, bridge: seq<Setting>)
      modifies this`config
      ensures config == old(config).(wpaVersion := EffectiveWpaVersion(old(config).wpaVersion))
      ensures wpa == WpaBlock(old(config), config.wpaVersion) && bridge == BridgeBlock(old(config))
    {
      var c := config;
      if config.wpaVersion == PyStr("1+2") {
        config := config.(wpaVersion := PyInt(2));
      }
      var v := config.wpaVersion;
      var keyType := if !Truthy(c.usePsk) then "passphrase" else "psk";
      assert "wpa_" + keyType == if !Truthy(c.usePsk) then "wpa_passphrase" else "wpa_psk";
      if PyEq(v, PyInt(3)) {
        wpa := [Line("wpa", "2"), Line("wpa_" + keyType, Render(c.password)),
                Line("wpa_key_mgmt", "WPA-PSK SAE"), Line("wpa_pairwise", "CCMP"),
                Line("rsn_pairwise", "CCMP"), Line("ieee80211w", "1")];
      } else {
        wpa := [Line("wpa", Render(v)), Line("wpa_" + keyType, Render(c.password)),
                Line("wpa_key_mgmt", "WPA-PSK"), Line("wpa_pairwise", "CCMP"),
                Line("rsn_pairwise", "CCMP")];
      }
      bridge := [];
      if c.shareMethod == PyStr("bridge") {
        bridge := [Setting("bridge", Render(c.bridgeIface), false)];
      }
    }

    /**
     * `config_hostapd`: writes the file piece by piece and, inside the
     * security block, replaces a "1+2" WPA version by 2 in the configuration.
     */
    method ConfigHostapd() returns (ok: bool)
      modifies this`config, this`hostapdConf
      ensures ok
      ensures hostapdConf == Some(HostapdAsWritten(old(config), confDir))
      ensures config == if !Truthy(old(config).password)
                        then old(config).(wpaVersion := EffectiveWpaVersion(old(config).wpaVersion))
                        else old(config)
    {
      var c := config;
      var country, hwMode, macFilter, ht, ac, ax, vht, wmm := RadioWrites(c);
      var wpa, bridge := [], [];
      if !Truthy(c.password) {
        wpa, bridge := SecurityWrites();
      }
      BlocksInOrder(c, confDir, country, hwMode, macFilter, ht, ac, ax, vht, wmm, wpa, bridge);
      var f := Flatten([BaseSettings(c, confDir), country, hwMode, macFilter, ht, ac, ax, vht, wmm, wpa, bridge]);
      hostapdConf := Some(f);
      return true;
    }
  }

  // ---------------------------------------------------------------------
  // Running instances

  /**
   * A running instance as `list_running` reads it: the base name of its
   * configuration directory, the stripped contents of its `pid` file and
   * of its `wifi_iface.pid` file.
   */
  datatype Instance = Instance(iface: string, pid: string, wifiIface: string)

  /** The entry `list_running` emits for an instance. */
  function RunningEntry(inst: Instance): string
  {
    if inst.iface == inst.wifiIface then inst.pid + " " + inst.iface
    else inst.pid + " " + inst.iface + " (" + inst.wifiIface + ")"
  }

  function RunningEntries(insts: seq<Instance>): (r: seq<string>)
    ensures |r| == |insts| && forall k :: 0 <= k < |insts| ==> r[k] == RunningEntry(insts[k])
  {
    seq(|insts|, k requires 0 <= k < |insts| => RunningEntry(insts[k]))
  }

  /** `list_running`, over the instances whose pid is alive. */
  method ListRunning(insts: seq<Instance>) returns (entries: seq<string>)
    ensures entries == RunningEntries(insts)
  {
    entries := [];
    var i := 0;
    while i < |insts|
      invariant 0 <= i <= |insts|
      invariant entries == RunningEntries(insts[..i])
    {
      entries := entries + [RunningEntry(insts[i])];
      i := i + 1;
    }
    assert insts[..i] == insts;
  }

  /** A single word: what a stripped file's contents and a base name are in practice. */
  predicate IsWord(s: string)
  {
    s != [] && NoWs(s)
  }

  /** Fields that do not carry the parentheses of the entry format at their edges. */
  predicate PlainInstance(inst: Instance)
  {
    IsWord(inst.pid) && IsWord(inst.iface) && IsWord(inst.wifiIface) &&
    inst.iface[|inst.iface| - 1] != ')' && inst.wifiIface[0] != '(' &&
    inst.wifiIface[|inst.wifiIface| - 1] != ')'
  }

  /** The fields `split()` finds in an entry. */
  lemma EntryFields(inst: Instance)
    requires IsWord(inst.pid) && IsWord(inst.iface) && IsWord(inst.wifiIface)
    ensures Words(RunningEntry(inst)) ==
            if inst.iface == inst.wifiIface then [inst.pid, inst.iface]
            else [inst.pid, inst.iface, "(" + inst.wifiIface + ")"]
  {
    if inst.iface == inst.wifiIface {
      WordsCons(inst.pid, inst.iface);
      WordsOfWord(inst.iface);
    } else {
      var last := "(" + inst.wifiIface + ")";
      assert NoWs(last) by {
        forall i | 0 <= i < |last|
          ensures !IsWs(last[i])
        {
          if 0 < i < |last| - 1 {
            assert last[i] == inst.wifiIface[i - 1];
          }
        }
      }
      assert RunningEntry(inst) == inst.pid + " " + (inst.iface + " " + last);
      WordsCons(inst.pid, inst.iface + " " + last);
      WordsCons(inst.iface, last);
      WordsOfWord(last);
    }
  }

  predicate EntriesHaveFields(entries: seq<string>)
  {
    forall k :: 0 <= k < |entries| ==> Words(entries[k]) != []
  }

  /**
   * `get_wifi_iface_from_pid` as written: the last field of the first
   * entry whose first field is `pid`, with trailing ')' removed.
   */
  function WifiIfaceFromPid(entries: seq<string>, pid: string): Option<string>
    requires EntriesHaveFields(entries)
  {
    if entries == [] then None
    else
      var parts := Words(entries[0]);
      if parts[0] == pid then Some(RStripChar(parts[|parts| - 1], ')'))
      else WifiIfaceFromPid(entries[1..], pid)
  }

  /** The lookup as evidently intended: the surrounding '(' is removed as well. */
  function WifiIfaceFromPidFixed(entries: seq<string>, pid: string): Option<string>
    requires EntriesHaveFields(entries)
  {
    if entries == [] then None
    else
      var parts := Words(entries[0]);
      if parts[0] == pid then Some(LStripChar(RStripChar(parts[|parts| - 1], ')'), '('))
      else WifiIfaceFromPidFixed(entries[1..], pid)
  }

  /**
   * `get_pid_from_wifi_iface`: the first field of the first entry whose
   * last field contains `wifiIface` as a substring.
   */
  function PidFromWifiIface(entries: seq<string>, wifiIface: string): Option<string>
    requires EntriesHaveFields(entries)
  {
    if entries == [] then None
    else
      var parts := Words(entries[0]);
      if Contains(parts[|parts| - 1], wifiIface) then Some(parts[0])
      else PidFromWifiIface(entries[1..], wifiIface)
  }

  lemma EntriesOfPlain(insts: seq<Instance>)
    requires forall k :: 0 <= k < |insts| ==> PlainInstance(insts[k])
    ensures EntriesHaveFields(RunningEntries(insts))
  {
    forall k | 0 <= k < |insts|
      ensures Words(RunningEntries(insts)[k]) != []
    {
      EntryFields(insts[k]);
    }
  }

  /** What the last field of an entry strips to, as written and as intended. */
  lemma LastFieldStripped(inst: Instance)
    requires PlainInstance(inst)
    ensures var parts := Words(RunningEntry(inst));
            RStripChar(parts[|parts| - 1], ')') ==
              (if inst.iface == inst.wifiIface then inst.iface else "(" + inst.wifiIface) &&
            LStripChar(RStripChar(parts[|parts| - 1], ')'), '(') == inst.wifiIface
  {
    EntryFields(inst);
    var w := inst.wifiIface;
    if inst.iface == w {
      RStripCharNone(w, ')');
      LStripCharNone(w, '(');
    } else {
      var front := "(" + w;
      assert front[|front| - 1] == w[|w| - 1];
      assert "(" + w + ")" == front + [')'];
      RStripCharOne(front, ')');
      LStripCharOne(w, '(');
    }
  }

  /**
   * Looking up the first instance with a given pid: as written the
   * result is the interface, or "(" followed by the wifi interface when
   * the two differ; as intended it is the wifi interface.
   */
  lemma WifiIfaceOfPid(insts: seq<Instance>, k: nat)
    requires forall j :: 0 <= j < |insts| ==> PlainInstance(insts[j])
    requires k < |insts| && forall j :: 0 <= j < k ==> insts[j].pid != insts[k].pid
    ensures EntriesHaveFields(RunningEntries(insts))
    ensures WifiIfaceFromPid(RunningEntries(insts), insts[k].pid) ==
            Some(if insts[k].iface == insts[k].wifiIface then insts[k].iface else "(" + insts[k].wifiIface)
    ensures WifiIfaceFromPidFixed(RunningEntries(insts), insts[k].pid) == Some(insts[k].wifiIface)
  {
    var entries := RunningEntries(insts);
    EntriesOfPlain(insts);
    forall j | 0 <= j < |insts|
      ensures Words(entries[j])[0] == insts[j].pid
    {
      EntryFields(insts[j]);
    }
    LookupFirst(entries, insts[k].pid, k);
    LastFieldStripped(insts[k]);
  }

  /** Both lookups answer from the first entry whose first field is `pid`. */
  lemma {:induction false} LookupFirst(entries: seq<string>, pid: string, k: nat)
    requires EntriesHaveFields(entries) && k < |entries|
    requires Words(entries[k])[0] == pid && forall j :: 0 <= j < k ==> Words(entries[j])[0] != pid
    ensures var parts := Words(entries[k]);
            WifiIfaceFromPid(entries, pid) == Some(RStripChar(parts[|parts| - 1], ')')) &&
            WifiIfaceFromPidFixed(entries, pid) == Some(LStripChar(RStripChar(parts[|parts| - 1], ')'), '('))
  {
    if k > 0 {
      LookupFirst(entries[1..], pid, k - 1);
    }
  }

  /** A wifi interface that differs from the base name is reported with a stray '('. */
  lemma WifiIfaceFromPidKeepsParen(inst: Instance)
    requires PlainInstance(inst) && inst.iface != inst.wifiIface
    ensures EntriesHaveFields([RunningEntry(inst)])
    ensures WifiIfaceFromPid([RunningEntry(inst)], inst.pid) == Some("(" + inst.wifiIface)
    ensures WifiIfaceFromPid([RunningEntry(inst)], inst.pid) != Some(inst.wifiIface)
  {
    WifiIfaceOfPid([inst], 0);
    assert RunningEntries([inst]) == [RunningEntry(inst)];
    assert |"(" + inst.wifiIface| != |inst.wifiIface|;
  }

  /** The last field of an entry names its wifi interface. */
  lemma LastFieldNamesWifi(inst: Instance)
    requires PlainInstance(inst)
    ensures var parts := Words(RunningEntry(inst));
            parts != [] && Contains(parts[|parts| - 1], inst.wifiIface)
  {
    EntryFields(inst);
    var w := inst.wifiIface;
    if inst.iface == w {
      assert w[0..|w|] == w;
      ContainsAt(w, w, 0);
    } else {
      var last := "(" + w + ")";
      assert last[1..1 + |w|] == w;
      ContainsAt(last, w, 1);
    }
  }

  /** The search stops at the first entry whose last field contains the name. */
  lemma {:induction false} PidFound(entries: seq<string>, w: string, k: nat)
    requires EntriesHaveFields(entries) && k < |entries|
    requires var parts := Words(entries[k]); Contains(parts[|parts| - 1], w)
    ensures var r := PidFromWifiIface(entries, w);
            r.Some? && exists j :: 0 <= j <= k && r.value == Words(entries[j])[0]
  {
    var parts := Words(entries[0]);
    if !Contains(parts[|parts| - 1], w) {
      assert k > 0;
      PidFound(entries[1..], w, k - 1);
      var j :| 0 <= j <= k - 1 && PidFromWifiIface(entries[1..], w).value == Words(entries[1..][j])[0];
      assert entries[1..][j] == entries[j + 1];
    }
  }

  /**
   * Every running instance is found by its wifi interface; the pid
   * returned belongs to that instance or to an earlier one whose last
   * field also contains the name.
   */
  lemma PidOfWifiIface(insts: seq<Instance>, k: nat)
    requires forall j :: 0 <= j < |insts| ==> PlainInstance(insts[j])
    requires k < |insts|
    ensures EntriesHaveFields(RunningEntries(insts))
    ensures var r := PidFromWifiIface(RunningEntries(insts), insts[k].wifiIface);
            r.Some? && exists j :: 0 <= j <= k && r.value == insts[j].pid
  {
    EntriesOfPlain(insts);
    var entries := RunningEntries(insts);
    LastFieldNamesWifi(insts[k]);
    PidFound(entries, insts[k].wifiIface, k);
    var j :| 0 <= j <= k && PidFromWifiIface(entries, insts[k].wifiIface).value == Words(entries[j])[0];
    EntryFields(insts[j]);
  }
}

=== FILE: cleanup.dfy ===
/**
 * Teardown of an access point (backend/hotspotmanager/cleanup.py). The
 * commands, signals and file operations `_cleanup` performs are emitted as
 * an ordered list of actions; what it finds on the system (directory
 * listings, saved settings, the other running instances) is an `Env`.
 */
module Cleanup {
  import opened Wrappers
  import opened Text
  import opened Signals
  import ApManager

  datatype Proto = Tcp | Udp

  /** The `share_method` setting; the teardown only tells "nat" and "bridge" from the rest. */
  datatype ShareMethod = NatShare | BridgeShare | OtherShare

  /** An iptables rule the teardown deletes. */
  datatype Rule =
    | Masquerade(net: string, wifiIface: string)
    | ForwardFrom(iface: string, net: string)
    | ForwardTo(iface: string, net: string)
    | InputAccept(proto: Proto, port: string)
    | DnsRedirect(proto: Proto, net: string, gateway: string, port: string)

  /** An `ip` or `iw` command. */
  datatype IpCmd =
    | LinkDown(dev: string)
    | LinkSetDown(dev: string)
    | LinkUp(dev: string)
    | PromiscOff(dev: string)
    | NoMaster(dev: string)
    | DeleteBridge(dev: string)
    | AddrFlush(dev: string)
    /** `ip addr add` of a saved address entry, which is cleaned on the command line. */
    | AddrRestore(saved: string, dev: string)
    | RouteFlush(dev: string)
    | RouteAdd(route: string, dev: string)
    | SetAddress(dev: string, mac: string)
    | IwDel(dev: string)

  datatype Action =
    | IgnoreSignal(sig: Sig)
    | MutexLock
    | MutexUnlock
    | CleanupLock
    | Disown
    | Kill(pid: int, sig: Sig)
    | RemoveTree(path: string)
    | CopyFile(src: string, dst: string)
    | RemoveFile(path: string)
    | DeleteRule(rule: Rule)
    | Ip(cmd: IpCmd)
    | RmUnmanagedIfNeeded(iface: string, mac: string)
    | DallocIface(iface: string)

  function ProtoName(p: Proto): string
  {
    match p
    case Tcp => "tcp"
    case Udp => "udp"
  }

  /** The command line that deletes a rule. */
  function RuleArgv(r: Rule): (argv: seq<string>)
    ensures |argv| >= 10 && argv[..2] == ["iptables", "-w"]
  {
    match r
    case Masquerade(net, wifi) =>
      ["iptables", "-w", "-t", "nat", "-D", "POSTROUTING", "-s", net, "!", "-o", wifi, "-j", "MASQUERADE"]
    case ForwardFrom(iface, net) => ["iptables", "-w", "-D", "FORWARD", "-i", iface, "-s", net, "-j", "ACCEPT"]
    case ForwardTo(iface, net) => ["iptables", "-w", "-D", "FORWARD", "-i", iface, "-d", net, "-j", "ACCEPT"]
    case InputAccept(proto, port) =>
      ["iptables", "-w", "-D", "INPUT", "-p", ProtoName(proto), "-m", ProtoName(proto), "--dport", port, "-j", "ACCEPT"]
    case DnsRedirect(proto, net, gateway, port) =>
      ["iptables", "-w", "-t", "nat", "-D", "PREROUTING", "-s", net, "-d", gateway,
       "-p", ProtoName(proto), "-m", ProtoName(proto), "--dport", "53", "-j", "REDIRECT", "--to-ports", port]
  }

  /** The command line of an `ip` or `iw` command. */
  function IpArgv(c: IpCmd): seq<string>
  {
    match c
    case LinkDown(dev) => ["ip", "link", "set", "dev", dev, "down"]
    case LinkSetDown(dev) => ["ip", "link", "set", "down", "dev", dev]
    case LinkUp(dev) => ["ip", "link", "set", "dev", dev, "up"]
    case PromiscOff(dev) => ["ip", "link", "set", "dev", dev, "promisc", "off"]
    case NoMaster(dev) => ["ip", "link", "set", "dev", dev, "nomaster"]
    case DeleteBridge(dev) => ["ip", "link", "delete", dev, "type", "bridge"]
    case AddrFlush(dev) => ["ip", "addr", "flush", dev]
    case AddrRestore(saved, dev) => ["ip", "addr", "add", CleanAddr(saved, dev), "dev", dev]
    case RouteFlush(dev) => ["ip", "route", "flush", "dev", dev]
    case RouteAdd(route, dev) => ["ip", "route", "add", route, "dev", dev]
    case SetAddress(dev, mac) => ["ip", "link", "set", "dev", dev, "address", mac]
    case IwDel(dev) => ["iw", "dev", dev, "del"]
  }

  /** Every rule that names a network names it right after "-s" or "-d", at position 7. */
  lemma RuleNetPosition(r: Rule)
    ensures !r.InputAccept? ==> RuleArgv(r)[6] in {"-s", "-d"} && RuleArgv(r)[7] == r.net
  {
  }

  /** A directory entry as `os.listdir` lists it, with the text it holds. */
  datatype NamedFile = NamedFile(name: string, contents: string)

  /** What the teardown finds on the system. */
  datatype Env = Env(
    /** The instance's configuration directory; None when it does not exist. */
    procListing: Option<seq<NamedFile>>,
    /** Per running configuration directory, its `nat_internet_iface` text (None when absent). */
    runningConfs: seq<Option<string>>,
    /** The common configuration directory; None when it does not exist. */
    commonListing: Option<seq<NamedFile>>,
    forwardingSaved: bool,
    ipForwardSaved: bool,
    bridgeNfSaved: bool,
    /** Whether /proc/sys/net/bridge/bridge-nf-call-iptables exists. */
    bridgeNfProc: bool,
    /** Whether the internet interface already was a bridge. */
    internetIsBridge: bool,
    daemonPidfileExists: bool)

  /** The configuration values `CleanupManager.__init__` reads. */
  datatype Settings = Settings(
    commonConfDir: string, confDir: string,
    internetIface: string, wifiIface: string, vwifiIface: string, bridgeIface: string,
    gateway: string, dnsPort: int, shareMethod: ShareMethod,
    noDns: bool, noVirt: bool, daemon: bool, pidfile: string,
    oldMac: string, newMac: string,
    ipAddrs: seq<string>, routeAddrs: seq<string>, havegedPid: string)

  const DefaultCommonConfDir := "/etc/ap_manager/conf"
  const DefaultConfDir := "/etc/ap_manager/proc"

  /** The "/24" network of the gateway: its first three dotted fields, then ".0/24". */
  function Net24(gateway: string): (r: Option<string>)
    ensures r.Some? <==> |SplitOn(gateway, '.')| >= 3
  {
    var parts := SplitOn(gateway, '.');
    if |parts| < 3 then None else Some(parts[0] + "." + parts[1] + "." + parts[2] + ".0/24")
  }

  /** For a dotted address the network keeps the first three octets. */
  lemma Net24OfAddress(a: string, b: string, c: string, d: string)
    requires '.' !in a && '.' !in b && '.' !in c
    ensures Net24(a + "." + b + "." + c + "." + d) == Some(a + "." + b + "." + c + ".0/24")
  {
    var g := a + "." + b + "." + c + "." + d;
    assert g == a + ['.'] + (b + ['.'] + (c + ['.'] + d));
    SplitOnCons(a, '.', b + ['.'] + (c + ['.'] + d));
    SplitOnCons(b, '.', c + ['.'] + d);
    SplitOnCons(c, '.', d);
  }

  // ---------------------------------------------------------------------
  // The steps of `_cleanup`

  function IgnoreSignals(): (r: seq<Action>)
    ensures forall a :: a in r ==> a.IgnoreSignal?
  {
    [IgnoreSignal(SIGINT), IgnoreSignal(SIGUSR1), IgnoreSignal(SIGUSR2), IgnoreSignal(SIGTERM)]
  }

  /** The haveged watchdog is sent SIGTERM when its pid is set and parses as an integer. */
  function HavegedKill(havegedPid: string): (r: seq<Action>)
    ensures forall a :: a in r ==> a.Kill?
  {
    if havegedPid != "" && ParseInt(havegedPid).Some? then
      [Kill(ParseInt(havegedPid).value, SIGTERM)]
    else []
  }

  /**
   * The SIGKILLs sent for the ".pid" files of a directory listing: files
   * whose text is not an integer are skipped, and so is pid 0 when
   * `skipZero` holds.
   */
  function PidKills(files: seq<NamedFile>, skipZero: bool): (r: seq<Action>)
    ensures forall a :: a in r ==> a.Kill? && a.sig == SIGKILL
  {
    if files == [] then []
    else
      var f := files[0];
      var pid := ParseInt(f.contents);
      (if EndsWith(f.name, ".pid") && pid.Some? && !(skipZero && pid.value == 0) then [Kill(pid.value, SIGKILL)] else [])
      + PidKills(files[1..], skipZero)
  }

  lemma {:induction false} PidKillsMember(files: seq<NamedFile>, skipZero: bool, a: Action)
    ensures a in PidKills(files, skipZero) <==>
            a.Kill? && a.sig == SIGKILL && !(skipZero && a.pid == 0) &&
            exists k :: 0 <= k < |files| && EndsWith(files[k].name, ".pid") &&
                        ParseInt(files[k].contents) == Some(a.pid)
  {
    if files != [] {
      PidKillsMember(files[1..], skipZero, a);
      if a.Kill? && exists k :: 0 <= k < |files| && EndsWith(files[k].name, ".pid") &&
                                ParseInt(files[k].contents) == Some(a.pid) {
        var k :| 0 <= k < |files| && EndsWith(files[k].name, ".pid") &&
                 ParseInt(files[k].contents) == Some(a.pid);
        if k > 0 {
          assert files[1..][k - 1] == files[k];
        }
      }
    }
  }

  function ProcDirBlock(s: Settings, env: Env): (r: seq<Action>)
    ensures forall a :: a in r ==> a.Kill? || a == RemoveTree(s.confDir)
  {
    if env.procListing.None? then []
    else PidKills(env.procListing.value, true) + [RemoveTree(s.confDir)]
  }

  /** Some running instance still shares through the internet interface. */
  predicate InternetIfaceInUse(runningConfs: seq<Option<string>>, internetIface: string)
  {
    runningConfs != [] &&
    (ConfUses(runningConfs[0], internetIface) || InternetIfaceInUse(runningConfs[1..], internetIface))
  }

  /** A running instance's saved internet interface, stripped, is `iface`. */
  predicate ConfUses(conf: Option<string>, iface: string)
  {
    conf.Some? && Strip(conf.value) == iface
  }

  function ForwardingFile(s: Settings): string
  {
    ApManager.PathJoin(s.commonConfDir, s.internetIface + "_forwarding")
  }

  function ForwardingProc(iface: string): string
  {
    "/proc/sys/net/ipv4/conf/" + iface + "/forwarding"
  }

  const IpForwardProc := "/proc/sys/net/ipv4/ip_forward"
  const BridgeNfProc := "/proc/sys/net/bridge/bridge-nf-call-iptables"

  function ForwardingBlock(s: Settings, env: Env): (r: seq<Action>)
    ensures forall a :: a in r ==> (a.CopyFile? && a.dst == ForwardingProc(s.internetIface)) || a.RemoveFile?
  {
    if !InternetIfaceInUse(env.runningConfs, s.internetIface) && s.internetIface != "" && env.forwardingSaved then
      [CopyFile(ForwardingFile(s), ForwardingProc(s.internetIface)), RemoveFile(ForwardingFile(s))]
    else []
  }

  /** What only the last instance restores; `has_running_instance` is a non-empty running list. */
  function CommonBlock(s: Settings, env: Env): (r: seq<Action>)
    ensures forall a :: a in r ==> a.Kill? || a.RemoveFile? || a == RemoveTree(s.commonConfDir) ||
                                   (a.CopyFile? && a.dst in {IpForwardProc, BridgeNfProc})
  {
    if |env.runningConfs| > 0 then []
    else
      var c := s.commonConfDir;
      (if env.commonListing.Some? then PidKills(env.commonListing.value, false) else []) +
      (if env.ipForwardSaved then
         [CopyFile(ApManager.PathJoin(c, "ip_forward"), IpForwardProc), RemoveFile(ApManager.PathJoin(c, "ip_forward"))]
       else []) +
      (if env.bridgeNfSaved then
         (if env.bridgeNfProc then [CopyFile(ApManager.PathJoin(c, "bridge-nf-call-iptables"), BridgeNfProc)] else []) +
         [RemoveFile(ApManager.PathJoin(c, "bridge-nf-call-iptables"))]
       else []) +
      [RemoveTree(c)]
  }

  /** The three NAT rules deleted for a network. */
  function NatRules(wifiIface: string, internetIface: string, net: string): seq<Action>
  {
    [DeleteRule(Masquerade(net, wifiIface)), DeleteRule(ForwardFrom(wifiIface, net)), DeleteRule(ForwardTo(internetIface, net))]
  }

  /** An `ip addr` entry with the words "inet", "secondary", "dynamic" and the interface name removed. */
  function CleanAddr(addr: string, iface: string): (r: string)
    ensures r == [] || (!IsWs(r[0]) && !IsWs(r[|r| - 1]))
  {
    var a := ReplaceAll(ReplaceAll(ReplaceAll(addr, "inet", ""), "secondary", ""), "dynamic", "");
    Strip(if iface == "" then a else ReplaceAll(a, iface, ""))
  }

  /** The leading "inet" of a saved entry is dropped. */
  lemma CleanAddrOfInet(rest: string, iface: string)
    requires !Contains(rest, "inet") && !Contains(rest, "secondary") && !Contains(rest, "dynamic")
    requires iface == "" || !Contains(rest, iface)
    ensures CleanAddr("inet" + rest, iface) == Strip(rest)
  {
    var s := "inet" + rest;
    assert s[..4] == "inet" && s[4..] == rest;
    ReplaceAbsent(rest, "inet", "");
    assert ReplaceAll(s, "inet", "") == rest;
    ReplaceAbsent(rest, "secondary", "");
    ReplaceAbsent(rest, "dynamic", "");
    if iface != "" {
      ReplaceAbsent(rest, iface, "");
    }
  }

  /** The `ip addr add` commands that put the saved addresses back. */
  function AddrRestores(addrs: seq<string>, iface: string): (r: seq<Action>)
    ensures |r| == |addrs|
    ensures forall k :: 0 <= k < |addrs| ==> r[k] == Ip(AddrRestore(addrs[k], iface))
    ensures forall a :: a in r ==> a.Ip?
  {
    if addrs == [] then [] else [Ip(AddrRestore(addrs[0], iface))] + AddrRestores(addrs[1..], iface)
  }

  predicate IsDefaultRoute(route: string)
  {
    StartsWith(route, "default")
  }

  /** The non-empty routes of `routes` that are default routes (`dflt`) or are not. */
  function RoutesOfKind(routes: seq<string>, dflt: bool): (r: seq<string>)
    ensures forall x :: x in r ==> x in routes && x != "" && IsDefaultRoute(x) == dflt
  {
    if routes == [] then []
    else
      (if routes[0] != "" && IsDefaultRoute(routes[0]) == dflt then [routes[0]] else []) + RoutesOfKind(routes[1..], dflt)
  }

  lemma {:induction false} RoutesOfKindSnoc(routes: seq<string>, r: string, dflt: bool)
    ensures RoutesOfKind(routes + [r], dflt) ==
            RoutesOfKind(routes, dflt) + (if r != "" && IsDefaultRoute(r) == dflt then [r] else [])
  {
    if routes == [] {
      assert [r][1..] == [];
    } else {
      assert (routes + [r])[1..] == routes[1..] + [r];
      RoutesOfKindSnoc(routes[1..], r, dflt);
    }
  }

  function NonEmpty(routes: seq<string>): seq<string>
  {
    if routes == [] then [] else (if routes[0] != "" then [routes[0]] else []) + NonEmpty(routes[1..])
  }

  /** The routes replayed: every non-default route, then every default route. */
  function ReplayOrder(routes: seq<string>): seq<string>
  {
    RoutesOfKind(routes, false) + RoutesOfKind(routes, true)
  }

  /** Replaying puts back each non-empty route exactly as often as it was saved. */
  lemma {:induction false} ReplayIsPermutation(routes: seq<string>)
    ensures multiset(ReplayOrder(routes)) == multiset(NonEmpty(routes))
  {
    if routes != [] {
      ReplayIsPermutation(routes[1..]);
      var r := routes[0];
      assert multiset(ReplayOrder(routes)) ==
             multiset(if r != "" && !IsDefaultRoute(r) then [r] else []) +
             multiset(if r != "" && IsDefaultRoute(r) then [r] else []) +
             multiset(ReplayOrder(routes[1..]));
    }
  }

  /** The replayed routes are default exactly from a point on, so no default route comes first. */
  lemma ReplayDefaultsLast(routes: seq<string>)
    ensures var p := ReplayOrder(routes);
            forall i, j :: 0 <= i < j < |p| && IsDefaultRoute(p[i]) ==> IsDefaultRoute(p[j])
  {
    var a, b := RoutesOfKind(routes, false), RoutesOfKind(routes, true);
    var p := a + b;
    forall k | 0 <= k < |p|
      ensures IsDefaultRoute(p[k]) <==> k >= |a|
    {
      if k < |a| {
        assert p[k] == a[k] && a[k] in a;
      } else {
        assert p[k] == b[k - |a|] && b[k - |a|] in b;
      }
    }
  }

  function RouteAdds(routes: seq<string>, iface: string): (r: seq<Action>)
    ensures |r| == |routes|
    ensures forall k :: 0 <= k < |routes| ==> r[k] == Ip(RouteAdd(routes[k], iface))
    ensures forall a :: a in r ==> a.Ip?
  {
    if routes == [] then [] else [Ip(RouteAdd(routes[0], iface))] + RouteAdds(routes[1..], iface)
  }

  /** Dismantling the bridge, unless the internet interface already was one. */
  function BridgeBlock(s: Settings, env: Env): (r: seq<Action>)
    ensures forall a :: a in r ==> a.Ip? || a.DallocIface? || a.RmUnmanagedIfNeeded?
  {
    var inet, br := s.internetIface, s.bridgeIface;
    if env.internetIsBridge then []
    else
      [Ip(LinkDown(br)), Ip(LinkDown(inet)), Ip(PromiscOff(inet)), Ip(NoMaster(inet)),
       Ip(DeleteBridge(br)), Ip(AddrFlush(inet)), Ip(LinkUp(inet)), DallocIface(br)] +
      AddrRestores(s.ipAddrs, inet) +
      [Ip(RouteFlush(inet))] +
      RouteAdds(ReplayOrder(s.routeAddrs), inet) +
      [RmUnmanagedIfNeeded(inet, "")]
  }

  /** The kinds of action the steps that tear the network down consist of. */
  predicate NetworkStep(a: Action)
  {
    a.DeleteRule? || a.Ip? || a.DallocIface? || a.RmUnmanagedIfNeeded?
  }

  /** The sharing-method step; None when the gateway has no network and building it raises. */
  function ShareBlock(s: Settings, env: Env): (r: Option<seq<Action>>)
    ensures r.None? <==> s.shareMethod == NatShare && Net24(s.gateway).None?
    ensures r.Some? && s.shareMethod != NatShare ==> forall a :: a in r.value ==> !a.DeleteRule?
    ensures r.Some? && s.shareMethod == NatShare ==> r.value == NatRules(s.wifiIface, s.internetIface, Net24(s.gateway).value)
    ensures r.Some? ==> forall a :: a in r.value ==> NetworkStep(a)
  {
    if s.shareMethod == NatShare then
      (if Net24(s.gateway).None? then None
       else Some(NatRules(s.wifiIface, s.internetIface, Net24(s.gateway).value)))
    else if s.shareMethod == BridgeShare then Some(BridgeBlock(s, env))
    else Some([])
  }

  /** The two INPUT rules of the DNS port, whose commands need no network. */
  function DnsAccepts(dnsPort: int): seq<Action>
  {
    var port := IntToString(dnsPort);
    [DeleteRule(InputAccept(Tcp, port)), DeleteRule(InputAccept(Udp, port))]
  }

  function DnsRules(gateway: string, net: string, dnsPort: int): seq<Action>
  {
    var port := IntToString(dnsPort);
    DnsAccepts(dnsPort) +
    [DeleteRule(DnsRedirect(Tcp, net, gateway, port)), DeleteRule(DnsRedirect(Udp, net, gateway, port))]
  }

  /** What a step carried out, and whether it then raised. */
  datatype Partial = Partial(done: seq<Action>, raised: bool)

  /**
   * The DNS step. When it is due and the gateway has no network, the two
   * INPUT deletions run and building the third command then raises.
   */
  function DnsBlock(s: Settings): (r: Partial)
    ensures r.raised <==> s.shareMethod != BridgeShare && !s.noDns && Net24(s.gateway).None?
    ensures s.shareMethod == BridgeShare || s.noDns ==> r.done == []
    ensures r.raised ==> r.done == DnsAccepts(s.dnsPort)
    ensures !r.raised && s.shareMethod != BridgeShare && !s.noDns ==> r.done == DnsRules(s.gateway, Net24(s.gateway).value, s.dnsPort)
    ensures forall a :: a in r.done ==> a.DeleteRule? && (a.rule.InputAccept? || a.rule.DnsRedirect?)
  {
    if s.shareMethod != BridgeShare && !s.noDns then
      (if Net24(s.gateway).None? then Partial(DnsAccepts(s.dnsPort), true)
       else Partial(DnsRules(s.gateway, Net24(s.gateway).value, s.dnsPort), false))
    else Partial([], false)
  }

  const DhcpRule := DeleteRule(InputAccept(Udp, "67"))

  function DhcpBlock(s: Settings): (r: seq<Action>)
    ensures forall a :: a in r ==> a == DhcpRule
  {
    if s.shareMethod != BridgeShare then [DhcpRule] else []
  }

  /** The virtual interface is removed when there is one, else the main interface is reset. */
  function IfaceBlock(s: Settings): (r: seq<Action>)
    ensures forall a :: a in r ==> a.Ip? || a.DallocIface? || a.RmUnmanagedIfNeeded?
  {
    if !s.noVirt && s.vwifiIface != "" then
      var v := s.vwifiIface;
      [Ip(LinkSetDown(v)), Ip(AddrFlush(v)), RmUnmanagedIfNeeded(v, s.oldMac), Ip(IwDel(v)), DallocIface(v)]
    else
      var w := s.wifiIface;
      [Ip(LinkSetDown(w)), Ip(AddrFlush(w))] +
      (if s.newMac != "" then [Ip(SetAddress(w, s.oldMac))] else []) +
      [RmUnmanagedIfNeeded(w, s.oldMac)]
  }

  /** The `finally` step. */
  function FinallyBlock(s: Settings, env: Env): (r: seq<Action>)
    ensures |r| >= 2 && r[..2] == [MutexUnlock, CleanupLock]
    ensures forall a :: a in r ==> a == MutexUnlock || a == CleanupLock || a.RemoveFile?
  {
    [MutexUnlock, CleanupLock] +
    (if s.daemon && s.pidfile != "" && env.daemonPidfileExists then [RemoveFile(s.pidfile)] else [])
  }

  /** The steps before the sharing method, which cannot raise. */
  function HeadBlock(s: Settings, env: Env): (r: seq<Action>)
    ensures forall a :: a in r ==> a == Disown || a.Kill? || a.RemoveTree? || a.CopyFile? || a.RemoveFile?
    ensures |r| > 0 && r[0] == Disown
  {
    [Disown] + HavegedKill(s.havegedPid) + ProcDirBlock(s, env) + ForwardingBlock(s, env) + CommonBlock(s, env)
  }

  /** The body of the `try`, cut short where building the network raises. */
  function CleanupBody(s: Settings, env: Env): (r: seq<Action>)
    ensures |r| > 0 && r[0] == Disown
  {
    HeadBlock(s, env) + NetworkBlock(s, env)
  }

  /** The steps from the sharing method on; cut short where building the network raises. */
  function NetworkBlock(s: Settings, env: Env): seq<Action>
  {
    match ShareBlock(s, env)
    case None => []
    case Some(share) =>
      var dns := DnsBlock(s);
      if dns.raised then share + dns.done
      else share + dns.done + DhcpBlock(s) + IfaceBlock(s)
  }

  /** Everything `_cleanup` does, in order. */
  function CleanupPlan(s: Settings, env: Env): seq<Action>
  {
    IgnoreSignals() + [MutexLock] + CleanupBody(s, env) + FinallyBlock(s, env)
  }

  /** Whether `_cleanup` returns normally rather than raising IndexError. */
  predicate CleanupCompletes(s: Settings)
  {
    var needsNet := s.shareMethod == NatShare || (s.shareMethod != BridgeShare && !s.noDns);
    !needsNet || Net24(s.gateway).Some?
  }

  // ---------------------------------------------------------------------
  // Properties of the plan

  /**
   * The plan is bracketed: signals are ignored and the mutex taken first;
   * the mutex is released and the lock file removed at the end, also when
   * the teardown raises.
   */
  lemma PlanBracket(s: Settings, env: Env)
    ensures var p := CleanupPlan(s, env);
            |p| >= 8 && p[..5] == IgnoreSignals() + [MutexLock] && p[5] == Disown &&
            p[|p| - |FinallyBlock(s, env)|..] == FinallyBlock(s, env)
  {
    ThreeParts(IgnoreSignals() + [MutexLock], CleanupBody(s, env), FinallyBlock(s, env));
  }

  lemma ThreeParts<T>(pre: seq<T>, body: seq<T>, fin: seq<T>)
    requires |body| > 0
    ensures var p := pre + body + fin;
            p[..|pre|] == pre && p[|pre|] == body[0] && p[|p| - |fin|..] == fin
  {
    var p := pre + body + fin;
    assert p[..|pre|] == pre;
    assert p[|p| - |fin|..] == fin;
  }

  lemma ProcPathsDiffer(iface: string)
    ensures ForwardingProc(iface) != IpForwardProc && ForwardingProc(iface) != BridgeNfProc
  {
    var dst := ForwardingProc(iface);
    assert dst[19] == 'c' && IpForwardProc[19] == 'i';
    assert dst[14] == 'i' && BridgeNfProc[14] == 'b';
  }

  /** Which steps an action of the plan can come from. */
  lemma PlanMember(s: Settings, env: Env, a: Action)
    ensures a in CleanupPlan(s, env) <==>
            a in IgnoreSignals() || a == MutexLock || a in HeadBlock(s, env) || a in FinallyBlock(s, env) ||
            (ShareBlock(s, env).Some? && (a in ShareBlock(s, env).value || a in DnsBlock(s).done)) ||
            (ShareBlock(s, env).Some? && !DnsBlock(s).raised && (a in DhcpBlock(s) || a in IfaceBlock(s)))
  {
  }

  /** Which steps a deleted rule of the plan can come from. */
  lemma PlanDeletes(s: Settings, env: Env, a: Action)
    requires a.DeleteRule?
    ensures a in CleanupPlan(s, env) <==>
            (ShareBlock(s, env).Some? && (a in ShareBlock(s, env).value || a in DnsBlock(s).done)) ||
            (ShareBlock(s, env).Some? && !DnsBlock(s).raised && a in DhcpBlock(s))
  {
    PlanMember(s, env, a);
  }

  /** An action that is no network step comes from the head, the bracket or the `finally` step. */
  lemma PlanNonNetwork(s: Settings, env: Env, a: Action)
    requires !NetworkStep(a)
    ensures a in CleanupPlan(s, env) <==>
            a in IgnoreSignals() || a == MutexLock || a in HeadBlock(s, env) || a in FinallyBlock(s, env)
  {
    PlanMember(s, env, a);
  }

  /**
   * The forwarding of the internet interface is restored, and its saved
   * copy removed, exactly when the interface is set, no running instance
   * shares through it and a saved copy exists.
   */
  lemma ForwardingRestoredIff(s: Settings, env: Env)
    ensures CopyFile(ForwardingFile(s), ForwardingProc(s.internetIface)) in CleanupPlan(s, env) <==>
            s.internetIface != "" && !InternetIfaceInUse(env.runningConfs, s.internetIface) && env.forwardingSaved
  {
    var a := CopyFile(ForwardingFile(s), ForwardingProc(s.internetIface));
    ProcPathsDiffer(s.internetIface);
    PlanNonNetwork(s, env, a);
    HeadMember(s, env, a);
    assert a !in HavegedKill(s.havegedPid);
    assert a !in ProcDirBlock(s, env);
    assert a !in CommonBlock(s, env);
    assert a !in FinallyBlock(s, env);
  }

  /** Which step of the head an action comes from. */
  lemma HeadMember(s: Settings, env: Env, a: Action)
    ensures a in HeadBlock(s, env) <==>
            a == Disown || a in HavegedKill(s.havegedPid) || a in ProcDirBlock(s, env) ||
            a in ForwardingBlock(s, env) || a in CommonBlock(s, env)
  {
  }

  /** The system-wide settings are restored and the common directory removed only by the last instance. */
  lemma CommonRestoredOnlyWhenLast(s: Settings, env: Env)
    requires s.confDir != s.commonConfDir
    ensures RemoveTree(s.commonConfDir) in CleanupPlan(s, env) <==> env.runningConfs == []
    ensures CopyFile(ApManager.PathJoin(s.commonConfDir, "ip_forward"), IpForwardProc) in CleanupPlan(s, env) <==>
            env.runningConfs == [] && env.ipForwardSaved
  {
    var t := RemoveTree(s.commonConfDir);
    var c := CopyFile(ApManager.PathJoin(s.commonConfDir, "ip_forward"), IpForwardProc);
    PlanNonNetwork(s, env, t);
    PlanNonNetwork(s, env, c);
    HeadMember(s, env, t);
    HeadMember(s, env, c);
    ProcPathsDiffer(s.internetIface);
    assert t !in HavegedKill(s.havegedPid) && c !in HavegedKill(s.havegedPid);
    assert t !in ProcDirBlock(s, env) && c !in ProcDirBlock(s, env);
    assert t !in ForwardingBlock(s, env) && c !in ForwardingBlock(s, env);
    assert t !in FinallyBlock(s, env) && c !in FinallyBlock(s, env);
    CommonMembers(s, env);
  }

  /** The common block removes the common directory, and restores ip_forward when it was saved. */
  lemma CommonMembers(s: Settings, env: Env)
    ensures RemoveTree(s.commonConfDir) in CommonBlock(s, env) <==> env.runningConfs == []
    ensures CopyFile(ApManager.PathJoin(s.commonConfDir, "ip_forward"), IpForwardProc) in CommonBlock(s, env) <==>
            env.runningConfs == [] && env.ipForwardSaved
  {
    var c := s.commonConfDir;
    var cp := CopyFile(ApManager.PathJoin(c, "ip_forward"), IpForwardProc);
    assert IpForwardProc[14] == 'i' && BridgeNfProc[14] == 'b';
    if |env.runningConfs| == 0 {
      var kills := if env.commonListing.Some? then PidKills(env.commonListing.value, false) else [];
      var fwd := if env.ipForwardSaved then [cp, RemoveFile(ApManager.PathJoin(c, "ip_forward"))] else [];
      var nf := if env.bridgeNfSaved then
                  (if env.bridgeNfProc then [CopyFile(ApManager.PathJoin(c, "bridge-nf-call-iptables"), BridgeNfProc)] else []) +
                  [RemoveFile(ApManager.PathJoin(c, "bridge-nf-call-iptables"))]
                else [];
      assert CommonBlock(s, env) == kills + fwd + nf + [RemoveTree(c)];
      assert cp !in kills && cp !in nf;
      assert RemoveTree(c) in [RemoveTree(c)];
    }
  }

  /**
   * Only the ".pid" files of the instance's directory are read, a pid of 0
   * is not signalled, and the directory is then removed.
   */
  lemma ProcDirKills(s: Settings, env: Env, pid: int)
    requires env.procListing.Some?
    ensures Kill(pid, SIGKILL) in ProcDirBlock(s, env) <==>
            pid != 0 && exists k :: 0 <= k < |env.procListing.value| &&
                          EndsWith(env.procListing.value[k].name, ".pid") &&
                          ParseInt(env.procListing.value[k].contents) == Some(pid)
    ensures ProcDirBlock(s, env)[|ProcDirBlock(s, env)| - 1] == RemoveTree(s.confDir)
  {
    PidKillsMember(env.procListing.value, true, Kill(pid, SIGKILL));
  }

  /**
   * NAT sharing deletes exactly the three rules for the gateway's network;
   * with any other method none of them is deleted.
   */
  lemma NatTeardown(s: Settings, env: Env)
    requires Net24(s.gateway).Some?
    ensures var rules := NatRules(s.wifiIface, s.internetIface, Net24(s.gateway).value);
            forall r :: r in rules ==> (r in CleanupPlan(s, env) <==> s.shareMethod == NatShare)
    ensures forall a :: a in CleanupPlan(s, env) && a.DeleteRule? && (a.rule.Masquerade? || a.rule.ForwardFrom? || a.rule.ForwardTo?) ==>
              s.shareMethod == NatShare && a in NatRules(s.wifiIface, s.internetIface, Net24(s.gateway).value)
  {
    var rules := NatRules(s.wifiIface, s.internetIface, Net24(s.gateway).value);
    forall a: Action | a.DeleteRule? && (a.rule.Masquerade? || a.rule.ForwardFrom? || a.rule.ForwardTo?)
      ensures a in CleanupPlan(s, env) <==> s.shareMethod == NatShare && a in rules
    {
      PlanDeletes(s, env, a);
      NatRuleOnlyInShareBlock(s, env, a);
    }
  }

  lemma NatRuleOnlyInShareBlock(s: Settings, env: Env, a: Action)
    requires Net24(s.gateway).Some?
    requires a.DeleteRule? && (a.rule.Masquerade? || a.rule.ForwardFrom? || a.rule.ForwardTo?)
    ensures ShareBlock(s, env).Some? &&
            (a in ShareBlock(s, env).value <==> s.shareMethod == NatShare && a in NatRules(s.wifiIface, s.internetIface, Net24(s.gateway).value))
    ensures a !in DnsBlock(s).done
    ensures a !in DhcpBlock(s)
  {
  }

  lemma PortIsNot67(port: int)
    requires port != 67
    ensures IntToString(port) != "67"
  {
    assert DigitsValue("67") == 67;
    if port >= 0 {
      DigitsValueOfNatToString(port);
    } else {
      assert IntToString(port)[0] == '-';
    }
  }

  /**
   * DNS rules are deleted only when the method is not bridge and DNS is
   * on; the DHCP rule only when the method is not bridge.
   */
  lemma DnsAndDhcpTeardown(s: Settings, env: Env)
    requires Net24(s.gateway).Some? && s.dnsPort != 67
    ensures var dns := DnsRules(s.gateway, Net24(s.gateway).value, s.dnsPort);
            forall r :: r in dns ==> (r in CleanupPlan(s, env) <==> s.shareMethod != BridgeShare && !s.noDns)
    ensures DhcpRule in CleanupPlan(s, env) <==> s.shareMethod != BridgeShare
  {
    PortIsNot67(s.dnsPort);
    forall r | r in DnsRules(s.gateway, Net24(s.gateway).value, s.dnsPort)
      ensures r in CleanupPlan(s, env) <==> s.shareMethod != BridgeShare && !s.noDns
    {
      DnsRuleDeleted(s, env, r);
    }
    DhcpRuleDeleted(s, env);
  }

  /** The deletion of a DNS rule, with the network known, is due exactly when DNS is served. */
  lemma DnsRuleDeleted(s: Settings, env: Env, r: Action)
    requires Net24(s.gateway).Some? && IntToString(s.dnsPort) != "67"
    requires r in DnsRules(s.gateway, Net24(s.gateway).value, s.dnsPort)
    ensures r in CleanupPlan(s, env) <==> s.shareMethod != BridgeShare && !s.noDns
  {
    PlanDeletes(s, env, r);
    DnsRuleOnlyInDnsBlock(s, env, r);
  }

  lemma DnsRuleOnlyInDnsBlock(s: Settings, env: Env, r: Action)
    requires Net24(s.gateway).Some? && IntToString(s.dnsPort) != "67"
    requires r in DnsRules(s.gateway, Net24(s.gateway).value, s.dnsPort)
    ensures ShareBlock(s, env).Some? && r !in ShareBlock(s, env).value
    ensures !DnsBlock(s).raised && (r in DnsBlock(s).done <==> s.shareMethod != BridgeShare && !s.noDns)
    ensures r !in DhcpBlock(s)
  {
    assert r.rule.InputAccept? || r.rule.DnsRedirect?;
  }

  /** The DHCP rule, with the network known, is deleted exactly when the method is not bridge. */
  lemma DhcpRuleDeleted(s: Settings, env: Env)
    requires Net24(s.gateway).Some? && IntToString(s.dnsPort) != "67"
    ensures DhcpRule in CleanupPlan(s, env) <==> s.shareMethod != BridgeShare
  {
    PlanDeletes(s, env, DhcpRule);
    DhcpOnlyInDhcpBlock(s, env);
  }

  lemma DhcpOnlyInDhcpBlock(s: Settings, env: Env)
    requires Net24(s.gateway).Some? && IntToString(s.dnsPort) != "67"
    ensures ShareBlock(s, env).Some? && DhcpRule !in ShareBlock(s, env).value
    ensures !DnsBlock(s).raised && DhcpRule !in DnsBlock(s).done
  {
  }

  /** Every deleted rule that names a network names the gateway's "/24" network. */
  lemma EveryRuleUsesNet24(s: Settings, env: Env)
    ensures forall a :: a in CleanupPlan(s, env) && a.DeleteRule? && !a.rule.InputAccept? ==>
              Net24(s.gateway).Some? && a.rule.net == Net24(s.gateway).value
  {
    forall a | a in CleanupPlan(s, env) && a.DeleteRule? && !a.rule.InputAccept?
      ensures Net24(s.gateway).Some? && a.rule.net == Net24(s.gateway).value
    {
      PlanDeletes(s, env, a);
      assert a !in DhcpBlock(s);
      if ShareBlock(s, env).Some? && a in ShareBlock(s, env).value {
        ShareRuleUsesNet24(s, env, a);
      } else {
        DnsRedirectUsesNet24(s, a);
      }
    }
  }

  /** A NAT rule of the sharing step names the gateway's network. */
  lemma ShareRuleUsesNet24(s: Settings, env: Env, a: Action)
    requires ShareBlock(s, env).Some? && a in ShareBlock(s, env).value && a.DeleteRule?
    ensures Net24(s.gateway).Some? && a.rule.net == Net24(s.gateway).value
  {
    assert s.shareMethod == NatShare;
    assert a in NatRules(s.wifiIface, s.internetIface, Net24(s.gateway).value);
  }

  /** A redirect rule of the DNS step names the gateway's network. */
  lemma DnsRedirectUsesNet24(s: Settings, a: Action)
    requires a in DnsBlock(s).done && !a.rule.InputAccept?
    ensures Net24(s.gateway).Some? && a.rule.net == Net24(s.gateway).value
  {
    var dns := DnsBlock(s);
    assert !dns.raised;
    assert a in DnsRules(s.gateway, Net24(s.gateway).value, s.dnsPort);
  }

  /**
   * When building the network raises, the network steps carried out are
   * at most the two INPUT deletions of the DNS port: none under NAT, which
   * raises first, and both otherwise. Neither the interface step nor a
   * separate DHCP deletion is carried out; the `finally` step still is.
   */
  lemma RaisingPlanStops(s: Settings, env: Env)
    requires !CleanupCompletes(s)
    ensures NetworkBlock(s, env) == (if s.shareMethod == NatShare then [] else DnsAccepts(s.dnsPort))
    ensures forall a :: a in IfaceBlock(s) ==> a !in CleanupBody(s, env)
    ensures IntToString(s.dnsPort) != "67" ==> DhcpRule !in CleanupBody(s, env)
  {
    var body := CleanupBody(s, env);
    forall a | a in IfaceBlock(s) || (a == DhcpRule && IntToString(s.dnsPort) != "67")
      ensures a !in body
    {
      assert a !in HeadBlock(s, env);
      assert a !in NetworkBlock(s, env);
    }
  }

  // ---------------------------------------------------------------------
  // The manager

  class CleanupManager {
    const settings: Settings
    /** What the manager has done, in order. */
    var actions: seq<Action>
    var events: seq<Event>

    /** `__init__`: the directories fall back to their defaults when unset. */
    constructor (raw: Settings)
      ensures settings == raw.(commonConfDir := if raw.commonConfDir == "" then DefaultCommonConfDir else raw.commonConfDir,
                               confDir := if raw.confDir == "" then DefaultConfDir else raw.confDir)
      ensures actions == [] && events == []
    {
      settings := raw.(commonConfDir := if raw.commonConfDir == "" then DefaultCommonConfDir else raw.commonConfDir,
                       confDir := if raw.confDir == "" then DefaultConfDir else raw.confDir);
      actions := [];
      events := [];
    }

    /** The loop over a directory listing that kills the processes of its ".pid" files. */
    static method KillPidFiles(files: seq<NamedFile>, skipZero: bool) returns (acts: seq<Action>)
      ensures acts == PidKills(files, skipZero)
    {
      var i := |files|;
      acts := [];
      while i > 0
        invariant 0 <= i <= |files|
        invariant acts == PidKills(files[i..], skipZero)
      {
        i := i - 1;
        var f := files[i];
        var pid := ParseInt(f.contents);
        assert files[i..][1..] == files[i + 1..];
        if EndsWith(f.name, ".pid") && pid.Some? && !(skipZero && pid.value == 0) {
          acts := [Kill(pid.value, SIGKILL)] + acts;
        }
      }
      assert files[0..] == files;
    }

    /** The `found` loop: whether a running instance shares through `iface`. */
    static method FindInternetUse(runningConfs: seq<Option<string>>, iface: string) returns (found: bool)
      ensures found <==> InternetIfaceInUse(runningConfs, iface)
    {
      var i := 0;
      while i < |runningConfs|
        invariant 0 <= i <= |runningConfs|
        invariant InternetIfaceInUse(runningConfs, iface) == InternetIfaceInUse(runningConfs[i..], iface)
      {
        if ConfUses(runningConfs[i], iface) {
          return true;
        }
        assert runningConfs[i..][1..] == runningConfs[i + 1..];
        i := i + 1;
      }
      return false;
    }

    /** The two route loops: non-default routes first, then default routes. */
    static method ReplayRoutes(routes: seq<string>, iface: string) returns (acts: seq<Action>)
      ensures acts == RouteAdds(ReplayOrder(routes), iface)
    {
      var firsts := SelectRoutes(routes, false);
      var lasts := SelectRoutes(routes, true);
      acts := RouteAdds(firsts + lasts, iface);
    }

    /** One of the two route loops: the non-empty routes that are default routes, or are not. */
    static method SelectRoutes(routes: seq<string>, dflt: bool) returns (selected: seq<string>)
      ensures selected == RoutesOfKind(routes, dflt)
    {
      selected := [];
      var i := 0;
      while i < |routes|
        invariant 0 <= i <= |routes|
        invariant selected == RoutesOfKind(routes[..i], dflt)
      {
        RoutesOfKindSnoc(routes[..i], routes[i], dflt);
        assert routes[..i + 1] == routes[..i] + [routes[i]];
        if routes[i] != "" && IsDefaultRoute(routes[i]) == dflt {
          selected := selected + [routes[i]];
        }
        i := i + 1;
      }
      assert routes[..|routes|] == routes;
    }

    /** The address loop. */
    static method RestoreAddrs(addrs: seq<string>, iface: string) returns (acts: seq<Action>)
      ensures acts == AddrRestores(addrs, iface)
    {
      acts := [];
      var i := 0;
      while i < |addrs|
        invariant 0 <= i <= |addrs|
        invariant |acts| == i && forall k :: 0 <= k < i ==> acts[k] == Ip(AddrRestore(addrs[k], iface))
      {
        acts := acts + [Ip(AddrRestore(addrs[i], iface))];
        i := i + 1;
      }
    }

    method Bridge(env: Env) returns (acts: seq<Action>)
      ensures acts == BridgeBlock(settings, env)
    {
      var inet, br := settings.internetIface, settings.bridgeIface;
      if env.internetIsBridge {
        return [];
      }
      acts := [Ip(LinkDown(br)), Ip(LinkDown(inet)), Ip(PromiscOff(inet)), Ip(NoMaster(inet)),
               Ip(DeleteBridge(br)), Ip(AddrFlush(inet)), Ip(LinkUp(inet)), DallocIface(br)];
      var addrs := RestoreAddrs(settings.ipAddrs, inet);
      acts := acts + addrs;
      acts := acts + [Ip(RouteFlush(inet))];
      var routes := ReplayRoutes(settings.routeAddrs, inet);
      acts := acts + routes;
      acts := acts + [RmUnmanagedIfNeeded(inet, "")];
    }

    /** The steps only the last instance takes, with the loop over the common directory. */
    method CommonSteps(env: Env) returns (acts: seq<Action>)
      ensures acts == CommonBlock(settings, env)
    {
      if |env.runningConfs| > 0 {
        return [];
      }
      var c := settings.commonConfDir;
      acts := [];
      if env.commonListing.Some? {
        acts := KillPidFiles(env.commonListing.value, false);
      }
      var ipForward: seq<Action> := [];
      if env.ipForwardSaved {
        ipForward := [CopyFile(ApManager.PathJoin(c, "ip_forward"), IpForwardProc), RemoveFile(ApManager.PathJoin(c, "ip_forward"))];
      }
      acts := acts + ipForward;
      var bridgeNf: seq<Action> := [];
      if env.bridgeNfSaved {
        if env.bridgeNfProc {
          bridgeNf := [CopyFile(ApManager.PathJoin(c, "bridge-nf-call-iptables"), BridgeNfProc)];
        }
        bridgeNf := bridgeNf + [RemoveFile(ApManager.PathJoin(c, "bridge-nf-call-iptables"))];
      }
      acts := acts + bridgeNf;
      acts := acts + [RemoveTree(c)];
    }

    /** `_cleanup`; returns false when it raises. */
    method DoCleanup(env: Env) returns (completed: bool)
      modifies this`actions
      ensures actions == old(actions) + CleanupPlan(settings, env)
      ensures completed <==> CleanupCompletes(settings)
    {
      var head := HeadSteps(env);
      var network;
      network, completed := NetworkSteps(env);
      actions := actions + (IgnoreSignals() + [MutexLock] + (head + network) + FinallyBlock(settings, env));
    }

    /** The steps of the `try` before the sharing method. */
    method HeadSteps(env: Env) returns (acts: seq<Action>)
      ensures acts == HeadBlock(settings, env)
    {
      var s := settings;
      acts := [Disown] + HavegedKill(s.havegedPid);
      var procBlock: seq<Action> := [];
      if env.procListing.Some? {
        var kills := KillPidFiles(env.procListing.value, true);
        procBlock := kills + [RemoveTree(s.confDir)];
      }
      acts := acts + procBlock;
      var found := FindInternetUse(env.runningConfs, s.internetIface);
      var forwarding: seq<Action> := [];
      if !found && s.internetIface != "" && env.forwardingSaved {
        forwarding := [CopyFile(ForwardingFile(s), ForwardingProc(s.internetIface)), RemoveFile(ForwardingFile(s))];
      }
      acts := acts + forwarding;
      var common := CommonSteps(env);
      acts := acts + common;
    }

    /** The steps of the `try` from the sharing method on, cut short where the network cannot be built. */
    method NetworkSteps(env: Env) returns (acts: seq<Action>, completed: bool)
      ensures acts == NetworkBlock(settings, env)
      ensures completed <==> CleanupCompletes(settings)
    {
      var s := settings;
      var share: seq<Action> := [];
      if s.shareMethod == NatShare {
        var net := Net24(s.gateway);
        if net.None? {
          return [], false;
        }
        share := NatRules(s.wifiIface, s.internetIface, net.value);
      } else if s.shareMethod == BridgeShare {
        share := Bridge(env);
      }
      var dns, raised := DnsSteps();
      acts := share + dns;
      if raised {
        return acts, false;
      }
      acts := acts + DhcpBlock(s) + IfaceBlock(s);
      completed := true;
    }

    /** The DNS step: the deletions it runs, and whether building a command then raised. */
    method DnsSteps() returns (acts: seq<Action>, raised: bool)
      ensures Partial(acts, raised) == DnsBlock(settings)
    {
      var s := settings;
      acts, raised := [], false;
      if s.shareMethod != BridgeShare && !s.noDns {
        var port := IntToString(s.dnsPort);
        acts := acts + [DeleteRule(InputAccept(Tcp, port))];
        acts := acts + [DeleteRule(InputAccept(Udp, port))];
        var net := Net24(s.gateway);
        if net.None? {
          return acts, true;
        }
        acts := acts + [DeleteRule(DnsRedirect(Tcp, net.value, s.gateway, port))];
        acts := acts + [DeleteRule(DnsRedirect(Udp, net.value, s.gateway, port))];
      }
    }

    /** `has_running_instance` */
    static method HasRunningInstance(env: Env) returns (running: bool)
      ensures running <==> env.runningConfs != []
    {
      running := |env.runningConfs| > 0;
    }

    /** `_die_`: a child process tells its parent with SIGUSR2, then exits with status 1. */
    method DieExit(pid: int, ppid: int)
      modifies this`events
      ensures events == old(events) + (if pid != ppid then [SendSignal(ppid, SIGUSR2)] else []) + [Exit(1)]
    {
      if pid != ppid {
        events := events + [SendSignal(ppid, SIGUSR2)];
      }
      events := events + [Exit(1)];
    }

    /** `_clean_exit_`: a child process tells its parent with SIGUSR1, then exits with status 0. */
    method CleanExitNow(pid: int, ppid: int)
      modifies this`events
      ensures events == old(events) + (if pid != ppid then [SendSignal(ppid, SIGUSR1)] else []) + [Exit(0)]
    {
      if pid != ppid {
        events := events + [SendSignal(ppid, SIGUSR1)];
      }
      events := events + [Exit(0)];
    }
  }
}

=== FILE: config.dfy ===
/**
 * The JSON configuration files of the access-point manager
 * (backend/hotspotmanager/ap_utils/config.py). A `ConfigManager` holds the
 * dict loaded from its file; `_dict_update` merges selected command-line
 * values into a target dict in place.
 *
 * Dicts are objects: a caller holding the same dict sees the update. The
 * files are a map from path to the dict their JSON text decodes to; JSON
 * decoding itself is not part of this model.
 */
module Config {
  import opened Wrappers
  import opened Text
  import opened PyValues
  import opened OrderedDict

  /** A Python dict object. */
  class PyDict {
    var items: Dict<PyVal>

    constructor (items: Dict<PyVal>)
      ensures this.items == items
    {
      this.items := items;
    }
  }

  /** The bindings the comprehension of `_dict_update` produces, in source order, before keys collide. */
  function Chosen(src: Dict<PyVal>, keys: seq<string>): (r: Dict<PyVal>)
    ensures |r| <= |src|
  {
    if src == [] then []
    else
      (if Truthy(src[0].1) && src[0].0 in keys then [(Lower(src[0].0), src[0].1)] else []) +
      Chosen(src[1..], keys)
  }

  /**
   * A key `q` gets a value from `src` exactly when some entry of `src`
   * whose key lowers to `q` has a truthy value and a key of `keys`; the
   * value is that of the last such entry.
   */
  lemma {:induction false} ChosenBinding(src: Dict<PyVal>, keys: seq<string>, q: string)
    ensures LastBinding(Chosen(src, keys), q).None? <==>
            forall i :: 0 <= i < |src| && Lower(src[i].0) == q ==> !(Truthy(src[i].1) && src[i].0 in keys)
    ensures LastBinding(Chosen(src, keys), q).Some? ==>
            exists i :: 0 <= i < |src| && Lower(src[i].0) == q && Truthy(src[i].1) && src[i].0 in keys &&
                        LastBinding(Chosen(src, keys), q) == Some(src[i].1) &&
                        forall j :: i < j < |src| && Lower(src[j].0) == q ==> !(Truthy(src[j].1) && src[j].0 in keys)
  {
    if src != [] {
      ChosenBinding(src[1..], keys, q);
      var head := if Truthy(src[0].1) && src[0].0 in keys then [(Lower(src[0].0), src[0].1)] else [];
      var tail := Chosen(src[1..], keys);
      assert Chosen(src, keys) == head + tail;
      LastBindingAppend(head, tail, q);
      if LastBinding(tail, q).Some? {
        var i :| 0 <= i < |src[1..]| && Lower(src[1..][i].0) == q && Truthy(src[1..][i].1) && src[1..][i].0 in keys &&
                 LastBinding(tail, q) == Some(src[1..][i].1) &&
                 forall j :: i < j < |src[1..]| && Lower(src[1..][j].0) == q ==> !(Truthy(src[1..][j].1) && src[1..][j].0 in keys);
        assert src[i + 1] == src[1..][i];
        forall j | i + 1 < j < |src| && Lower(src[j].0) == q
          ensures !(Truthy(src[j].1) && src[j].0 in keys)
        {
          assert src[j] == src[1..][j - 1];
        }
      } else {
        forall j | 1 <= j < |src| && Lower(src[j].0) == q
          ensures !(Truthy(src[j].1) && src[j].0 in keys)
        {
          assert src[j] == src[1..][j - 1];
        }
      }
    }
  }

  lemma {:induction false} LastBindingAppend(a: Dict<PyVal>, b: Dict<PyVal>, q: string)
    ensures LastBinding(a + b, q) == if LastBinding(b, q).Some? then LastBinding(b, q) else LastBinding(a, q)
    decreases |a|
  {
    if a == [] {
      assert a + b == b;
    } else {
      assert (a + b)[1..] == a[1..] + b;
      LastBindingAppend(a[1..], b, q);
    }
  }

  /** In a dict with distinct keys the last binding is the only one. */
  lemma {:induction false} LastBindingOfDistinct<V>(d: Dict<V>, q: string)
    requires KeysDistinct(d)
    ensures LastBinding(d, q) == Lookup(d, q)
  {
    if d != [] {
      LastBindingOfDistinct(d[1..], q);
      if d[0].0 == q {
        assert q !in Keys(d[1..]) by {
          forall i | 0 <= i < |d[1..]| ensures Keys(d[1..])[i] != q {
            assert d[1..][i] == d[i + 1];
          }
        }
      }
    }
  }

  /** `{k.lower(): v for k, v in src.items() if v and k in keys}` */
  function Selected(src: Dict<PyVal>, keys: seq<string>): (r: Dict<PyVal>)
    ensures KeysDistinct(r)
  {
    UpdateDistinct([], Chosen(src, keys));
    Update([], Chosen(src, keys))
  }

  /**
   * After `target.update(Selected(src, keys))` a key holds the value of the
   * last selected entry for it, and every key nothing was selected for keeps
   * its value.
   */
  lemma MergeLookup(target: Dict<PyVal>, src: Dict<PyVal>, keys: seq<string>, q: string)
    ensures Lookup(Update(target, Selected(src, keys)), q) ==
            if LastBinding(Chosen(src, keys), q).Some? then LastBinding(Chosen(src, keys), q)
            else Lookup(target, q)
  {
    var sel := Selected(src, keys);
    UpdateLookup(target, sel, q);
    LastBindingOfDistinct(sel, q);
    UpdateLookup([], Chosen(src, keys), q);
  }

  /** The text of one entry in `__str__`. */
  function EntryLine(e: (string, PyVal)): string
  {
    e.0 + "=" + Render(e.1)
  }

  lemma EntryLineFirst(e: (string, PyVal))
    requires e.0 == [] || !IsWs(e.0[0])
    ensures EntryLine(e) != [] && !IsWs(EntryLine(e)[0])
  {
    if e.0 != [] { assert EntryLine(e)[0] == e.0[0]; }
  }

  lemma EntryLineLast(e: (string, PyVal))
    requires var v := Render(e.1); v == [] || !IsWs(v[|v| - 1])
    ensures var l := EntryLine(e); l != [] && !IsWs(l[|l| - 1])
  {
    var v := Render(e.1);
    var l := EntryLine(e);
    if v != [] { assert l[|l| - 1] == v[|v| - 1]; }
  }

  function EntryLines(d: Dict<PyVal>): (r: seq<string>)
    ensures |r| == |d| && forall i :: 0 <= i < |d| ==> r[i] == EntryLine(d[i])
  {
    if d == [] then [] else [EntryLine(d[0])] + EntryLines(d[1..])
  }

  /** `__str__`: the `k=v` lines joined by newlines and stripped, or None for an empty config. */
  function Str(d: Dict<PyVal>): (r: Option<string>)
    ensures r.None? <==> d == []
  {
    if d == [] then None else Some(Strip(Join(EntryLines(d), "\n")))
  }

  /**
   * Splitting the rendering at its newlines gives back one `k=v` line per
   * entry, in order, when no key or value holds a newline and the strip
   * finds no whitespace at either end.
   */
  lemma StrLines(d: Dict<PyVal>)
    requires d != []
    requires forall i :: 0 <= i < |d| ==> '\n' !in EntryLine(d[i])
    requires d[0].0 == [] || !IsWs(d[0].0[0])
    requires var last := Render(d[|d| - 1].1); last == [] || !IsWs(last[|last| - 1])
    ensures SplitOn(Str(d).value, '\n') == EntryLines(d)
  {
    var lines := EntryLines(d);
    EntryLineFirst(d[0]);
    EntryLineLast(d[|d| - 1]);
    SplitStrippedJoin(lines, '\n');
  }

  /** What `_dict_update` returns: None after an update, or the dict `d1 or {}`. */
  datatype Returned = ReturnedNone | ReturnedDict(d: PyDict)

  class ConfigManager {
    var configFile: string
    var config: PyDict

    /** `__init__`: loading a missing file raises, so no manager is made. */
    static method Open(configFile: string, files: map<string, Dict<PyVal>>) returns (r: Option<ConfigManager>)
      ensures r.Some? <==> configFile in files
      ensures r.Some? ==> fresh(r.value) && fresh(r.value.config) &&
                          r.value.configFile == configFile && r.value.config.items == files[configFile]
    {
      if configFile !in files {
        return None;
      }
      var cm := new ConfigManager.Init(configFile, files[configFile]);
      return Some(cm);
    }

    constructor Init(configFile: string, items: Dict<PyVal>)
      ensures this.configFile == configFile && fresh(config) && config.items == items
    {
      this.configFile := configFile;
      config := new PyDict(items);
    }

    /** `load_config`: a fresh dict from the file, or the exception for a missing file. */
    method LoadConfig(files: map<string, Dict<PyVal>>) returns (r: Result<PyDict, string>)
      modifies this`config
      ensures r.Ok? <==> configFile in files
      ensures r.Ok? ==> fresh(config) && r.value == config && config.items == files[configFile]
      ensures r.Err? ==> config == old(config) && r.error == "Config file not found " + configFile
    {
      if configFile !in files {
        return Err("Config file not found " + configFile);
      }
      config := new PyDict(files[configFile]);
      return Ok(config);
    }

    /**
     * `_dict_update(d1, d2)`. A missing or empty `d1` is replaced by the
     * manager's own config. When both dicts are non-empty the target is
     * updated in place with the selected entries of `d2` and None is
     * returned; otherwise nothing changes and `d1 or {}` is returned.
     * `globalKeys` are the keys of the module-level `config_manager`.
     */
    method DictUpdate(d1: PyDict?, d2: Dict<PyVal>, globalKeys: seq<string>) returns (r: Returned)
      modifies d1, config
      ensures var target := if d1 != null && old(d1.items) != [] then d1 else config;
              if old(target.items) != [] && d2 != [] then
                r == ReturnedNone && target.items == Update(old(target.items), Selected(d2, globalKeys))
              else
                target.items == old(target.items) &&
                (old(target.items) != [] ==> r == ReturnedDict(target)) &&
                (old(target.items) == [] ==> r.ReturnedDict? && fresh(r.d) && r.d.items == [])
      ensures d1 != null && old(d1.items) == [] && d1 != config ==> d1.items == []
      ensures d1 != null && old(d1.items) != [] && d1 != config ==> config.items == old(config.items)
    {
      var target := if d1 != null && d1.items != [] then d1 else config;
      if target.items != [] && d2 != [] {
        target.items := Update(target.items, Selected(d2, globalKeys));
        return ReturnedNone;
      }
      if target.items != [] {
        return ReturnedDict(target);
      }
      var empty := new PyDict([]);
      return ReturnedDict(empty);
    }
  }
}

=== FILE: copy.dfy ===
/**
 * Copying a file without overwriting an existing target
 * (backend/hotspotmanager/ap_utils/copy.py). The file system is a map from
 * path to contents; whether the copy itself can read and write is a
 * parameter, and so is the behaviour of the system's `cp` program.
 */
module Copy {
  import opened Wrappers
  import opened Text

  type Files = map<string, string>

  /** What a copy returned and the file system it left. */
  datatype Copied = Copied(ok: bool, files: Files)

  /** The system's `cp`: whether it exists, its `--help` text (None when that exits non-zero), and the exit status of `cp -n` on an existing target. */
  datatype CpProgram = CpProgram(found: bool, help: Option<string>, skipExitsZero: bool)

  /** No file that existed before changes, and at most `dst` is added. */
  predicate Preserves(before: Files, after: Files, dst: string)
  {
    (forall p :: p in before ==> p in after && after[p] == before[p]) &&
    (forall p :: p in after ==> p in before || p == dst)
  }

  /**
   * `cp_n`: an existing target makes it return False; otherwise the copy
   * succeeds exactly when the source exists and the I/O succeeds.
   */
  function CopyNoClobber(files: Files, src: string, dst: string, ioOk: bool): (r: Copied)
    ensures Preserves(files, r.files, dst)
    ensures r.ok <==> dst !in files && src in files && ioOk
    ensures r.ok ==> dst in r.files && r.files[dst] == files[src]
    ensures !r.ok ==> r.files == files
  {
    if dst in files then Copied(false, files)
    else if src in files && ioOk then Copied(true, files[dst := files[src]])
    else Copied(false, files)
  }

  /**
   * `cp_n_busybox_fallback`: `cp -n src dst`, falling back to `cp_n` when
   * `cp` is missing or exits non-zero. An existing target is skipped by
   * `cp -n`, with the exit status the program gives for that.
   */
  function CopyViaCommand(files: Files, src: string, dst: string, cp: CpProgram, ioOk: bool): (r: Copied)
    ensures Preserves(files, r.files, dst)
    ensures dst !in files ==> r == CopyNoClobber(files, src, dst, ioOk)
    ensures dst in files ==> r.files == files && (r.ok <==> cp.found && cp.skipExitsZero)
  {
    if !cp.found then CopyNoClobber(files, src, dst, ioOk)
    else if dst in files then
      if cp.skipExitsZero then Copied(true, files) else CopyNoClobber(files, src, dst, ioOk)
    else if src in files && ioOk then Copied(true, files[dst := files[src]])
    else CopyNoClobber(files, src, dst, ioOk)
  }

  /**
   * `cp_n_safe`: use `cp -n` only when `cp --help` mentions `--no-clobber`.
   * Whichever way it goes, a missing target ends up as `cp_n` would leave
   * it, and an existing target is never touched; success is then reported
   * only through a `cp -n` that exits zero on a skip.
   */
  function CopySafe(files: Files, src: string, dst: string, cp: CpProgram, ioOk: bool): (r: Copied)
    ensures Preserves(files, r.files, dst)
    ensures dst !in files ==> r == CopyNoClobber(files, src, dst, ioOk)
    ensures dst in files ==> r.files == files
    ensures dst in files ==> (r.ok <==> cp.found && cp.help.Some? && Contains(cp.help.value, "--no-clobber") && cp.skipExitsZero)
  {
    if cp.found && cp.help.Some? && Contains(cp.help.value, "--no-clobber") then
      CopyViaCommand(files, src, dst, cp, ioOk)
    else CopyNoClobber(files, src, dst, ioOk)
  }

  class FileSystem {
    var files: Files

    constructor (files: Files)
      ensures this.files == files
    {
      this.files := files;
    }

    /** `cp_n` */
    method CpN(src: string, dst: string, ioOk: bool) returns (ok: bool)
      modifies this
      ensures Copied(ok, files) == CopyNoClobber(old(files), src, dst, ioOk)
    {
      if dst in files {
        return false;
      }
      if src !in files || !ioOk {
        return false;
      }
      files := files[dst := files[src]];
      return true;
    }

    /** `cp_n_busybox_fallback` */
    method CpNBusyboxFallback(src: string, dst: string, cp: CpProgram, ioOk: bool) returns (ok: bool)
      modifies this
      ensures Copied(ok, files) == CopyViaCommand(old(files), src, dst, cp, ioOk)
    {
      var exitZero: bool;
      if !cp.found {
        ok := CpN(src, dst, ioOk);
        return;
      }
      if dst in files {
        exitZero := cp.skipExitsZero;
      } else if src in files && ioOk {
        files := files[dst := files[src]];
        exitZero := true;
      } else {
        exitZero := false;
      }
      if exitZero {
        return true;
      }
      ok := CpN(src, dst, ioOk);
    }

    /** `cp_n_safe` */
    method CpNSafe(src: string, dst: string, cp: CpProgram, ioOk: bool) returns (ok: bool)
      modifies this
      ensures Copied(ok, files) == CopySafe(old(files), src, dst, cp, ioOk)
    {
      if !cp.found || cp.help.None? {
        ok := CpN(src, dst, ioOk);
      } else if Contains(cp.help.value, "--no-clobber") {
        ok := CpNBusyboxFallback(src, dst, cp, ioOk);
      } else {
        ok := CpN(src, dst, ioOk);
      }
    }
  }
}

=== FILE: device_scanner.dfy ===
/**
 * The captive portal's device scanner (backend/util/device_scanner.py).
 * The outputs of `arp -a -i <iface>` and `ip neigh show dev <iface>` are
 * parameters, None when the command fails; the auth file is its text, None
 * when it is missing or cannot be read.
 */
module DeviceScanner {
  import opened Wrappers
  import opened Text
  import opened Patterns
  import opened Lists
  import Helpers

  /** A scanned device: its address and lower-cased MAC (the timestamp is not modelled). */
  datatype Scanned = Scanned(ip: string, mac: string)

  /** An `arp -a` line naming the interface and an address of the captive network. */
  function ArpEntry(iface: string, line: string): (r: Option<Scanned>)
    ensures r.Some? ==> Contains(line, iface) && Contains(line, "192.168.12.")
    ensures r.Some? ==> StartsWith(r.value.ip, "192.168.12.") && |r.value.mac| == 17 && Lower(r.value.mac) == r.value.mac
  {
    if Contains(line, iface) && Contains(line, "192.168.12.") then
      var ip := Search(line, ArpIpAt);
      var mac := Search(line, ArpMacAt);
      if ip.Some? && mac.Some? then
        LowerIdempotent(mac.value);
        Some(Scanned(ip.value, Lower(mac.value)))
      else None
    else None
  }

  /** An `ip neigh` line of the captive network in state REACHABLE with at least five fields. */
  function NeighEntry(line: string): (r: Option<Scanned>)
    ensures r.Some? ==> Lower(r.value.mac) == r.value.mac
  {
    var parts := Words(line);
    if Contains(line, "192.168.12.") && Contains(line, "REACHABLE") && |parts| >= 5 then
      LowerIdempotent(parts[4]);
      Some(Scanned(parts[0], Lower(parts[4])))
    else None
  }

  /**
   * What `get_connected_devices` returns: every ARP entry, then every
   * neighbour entry, with no deduplication. A failing `arp` raises before
   * anything is collected; a failing `ip neigh` keeps the ARP entries.
   */
  function Scan(iface: string, arpOut: Option<string>, neighOut: Option<string>): seq<Scanned>
  {
    if arpOut.None? then []
    else
      ArpEntries(iface, SplitOn(arpOut.value, '\n')) +
      (if neighOut.None? then [] else NeighEntries(SplitOn(neighOut.value, '\n')))
  }

  function ArpEntries(iface: string, lines: seq<string>): seq<Scanned>
  {
    FilterMap(lines, line => ArpEntry(iface, line))
  }

  function NeighEntries(lines: seq<string>): seq<Scanned>
  {
    FilterMap(lines, NeighEntry)
  }

  lemma ArpEntriesMembers(iface: string, lines: seq<string>, d: Scanned)
    ensures d in ArpEntries(iface, lines) <==> exists i :: 0 <= i < |lines| && ArpEntry(iface, lines[i]) == Some(d)
  {
    FilterMapMembers(lines, line => ArpEntry(iface, line), d);
  }

  lemma NeighEntriesMembers(lines: seq<string>, d: Scanned)
    ensures d in NeighEntries(lines) <==> exists i :: 0 <= i < |lines| && NeighEntry(lines[i]) == Some(d)
  {
    FilterMapMembers(lines, NeighEntry, d);
  }

  /** `line.strip().lower()` for every listed MAC. */
  function LowerAll(macs: seq<string>): (r: seq<string>)
    ensures |r| == |macs| && forall i :: 0 <= i < |macs| ==> r[i] == Lower(macs[i])
  {
    if macs == [] then [] else [Lower(macs[0])] + LowerAll(macs[1..])
  }

  /** `is_authenticated`: case-insensitive membership; False for a missing or unreadable file. */
  predicate IsAuthenticated(file: Option<string>, mac: string)
  {
    file.Some? && Lower(mac) in LowerAll(Helpers.AuthLines(file.value))
  }

  /** The scanner accepts every MAC the exact check of the helpers accepts, and any case of it. */
  lemma ExactImpliesCaseInsensitive(file: Option<string>, mac: string, other: string)
    requires Helpers.IsMacAuthenticated(file, mac)
    requires Lower(other) == Lower(mac)
    ensures IsAuthenticated(file, other)
  {
    var listed := Helpers.AuthLines(file.value);
    var i :| 0 <= i < |listed| && listed[i] == mac;
    assert LowerAll(listed)[i] == Lower(other);
  }

  /** The devices of `devices` that are not authenticated, in order. */
  function NewDevices(devices: seq<Scanned>, file: Option<string>): seq<Scanned>
  {
    Filter(devices, (d: Scanned) => !IsAuthenticated(file, d.mac))
  }

  /** A device is new exactly when it was scanned and is not authenticated. */
  lemma NewDevicesMembers(devices: seq<Scanned>, file: Option<string>, d: Scanned)
    ensures d in NewDevices(devices, file) <==> d in devices && !IsAuthenticated(file, d.mac)
  {
    FilterMembers(devices, (d: Scanned) => !IsAuthenticated(file, d.mac), d);
  }

  class DeviceScanner {
    const subnet: string
    const iface: string

    constructor (subnet: string, iface: string)
      ensures this.subnet == subnet && this.iface == iface
    {
      this.subnet := subnet;
      this.iface := iface;
    }

    /** `get_connected_devices` */
    method GetConnectedDevices(arpOut: Option<string>, neighOut: Option<string>) returns (devices: seq<Scanned>)
      ensures devices == Scan(iface, arpOut, neighOut)
    {
      devices := [];
      if arpOut.None? {
        return;
      }
      devices := ScanArp(SplitOn(arpOut.value, '\n'));
      if neighOut.None? {
        return;
      }
      var neighbours := ScanNeigh(SplitOn(neighOut.value, '\n'));
      devices := devices + neighbours;
    }

    /** The first loop of `get_connected_devices`, over the lines of `arp -a`. */
    method ScanArp(lines: seq<string>) returns (devices: seq<Scanned>)
      ensures devices == ArpEntries(iface, lines)
    {
      devices := [];
      for i := 0 to |lines|
        invariant devices == ArpEntries(iface, lines[..i])
      {
        assert lines[..i + 1][..i] == lines[..i];
        var entry := ArpEntry(iface, lines[i]);
        if entry.Some? {
          devices := devices + [entry.value];
        }
      }
      assert lines[..|lines|] == lines;
    }

    /** The second loop of `get_connected_devices`, over the lines of `ip neigh`. */
    method ScanNeigh(lines: seq<string>) returns (devices: seq<Scanned>)
      ensures devices == NeighEntries(lines)
    {
      devices := [];
      for i := 0 to |lines|
        invariant devices == NeighEntries(lines[..i])
      {
        assert lines[..i + 1][..i] == lines[..i];
        var entry := NeighEntry(lines[i]);
        if entry.Some? {
          devices := devices + [entry.value];
        }
      }
      assert lines[..|lines|] == lines;
    }

    /** `scan_and_log`: the scanned devices that are not authenticated, in scan order. */
    method ScanAndLog(arpOut: Option<string>, neighOut: Option<string>, file: Option<string>)
      returns (newDevices: seq<Scanned>)
      ensures newDevices == NewDevices(Scan(iface, arpOut, neighOut), file)
    {
      var devices := GetConnectedDevices(arpOut, neighOut);
      newDevices := SelectNew(devices, file);
    }

    /** The loop of `scan_and_log` over the scanned devices. */
    method SelectNew(devices: seq<Scanned>, file: Option<string>) returns (newDevices: seq<Scanned>)
      ensures newDevices == NewDevices(devices, file)
    {
      newDevices := [];
      for i := 0 to |devices|
        invariant newDevices == NewDevices(devices[..i], file)
      {
        assert devices[..i + 1][..i] == devices[..i];
        if !IsAuthenticated(file, devices[i].mac) {
          newDevices := newDevices + [devices[i]];
        }
      }
      assert devices[..|devices|] == devices;
    }
  }
}

=== FILE: device_utils.dfy ===
/**
 * The address and vendor helpers of `DeviceUtil`
 * (backend/util/device_utils.py): the manufacturer prefix of a MAC, the
 * local OUI table, the client address of a request and the line scans over
 * ARP output. Command outputs and the answers of the vendor web services
 * are parameters.
 */
module DeviceUtils {
  import opened Wrappers
  import opened Text
  import opened Patterns
  import opened Lists
  import Helpers

  /** `s.replace(':', '').replace('-', '')`: the text without its separators. */
  function Unseparated(s: string): (r: string)
    ensures |r| <= |s| && ':' !in r && '-' !in r
  {
    if s == [] then []
    else (if s[0] == ':' || s[0] == '-' then [] else [s[0]]) + Unseparated(s[1..])
  }

  /** A pair of characters then a separator: the pair is kept and the separator dropped. */
  lemma UnseparatedPair(s: string)
    requires |s| >= 3 && s[0] != ':' && s[0] != '-' && s[1] != ':' && s[1] != '-'
    requires s[2] == ':' || s[2] == '-'
    ensures Unseparated(s) == s[..2] + Unseparated(s[3..])
  {
    var t1, t2, rest := s[1..], s[2..], s[3..];
    assert t1[1..] == t2 && t2[1..] == rest;
    assert t1[0] == s[1] && t2[0] == s[2];
    calc {
      Unseparated(s);
    == { UnseparatedKeep(s); }
      [s[0]] + Unseparated(t1);
    == { UnseparatedKeep(t1); }
      [s[0]] + ([s[1]] + Unseparated(t2));
    == { UnseparatedDrop(t2); }
      [s[0]] + ([s[1]] + Unseparated(rest));
    == { assert s[..2] == [s[0]] + [s[1]]; }
      s[..2] + Unseparated(rest);
    }
  }

  lemma UnseparatedKeep(s: string)
    requires s != [] && s[0] != ':' && s[0] != '-'
    ensures Unseparated(s) == [s[0]] + Unseparated(s[1..])
  {
  }

  lemma UnseparatedDrop(s: string)
    requires s != [] && (s[0] == ':' || s[0] == '-')
    ensures Unseparated(s) == Unseparated(s[1..])
  {
  }

  /** The lookup key: the MAC without separators, upper-cased, cut to six characters. */
  function MacPrefix(mac: string): (r: string)
    ensures |r| <= 6 && ':' !in r && '-' !in r
  {
    var u := Upper(Unseparated(mac));
    assert forall i :: 0 <= i < |u| ==> u[i] != ':' && u[i] != '-' by {
      forall i | 0 <= i < |u| ensures u[i] != ':' && u[i] != '-' {
        assert Unseparated(mac)[i] in Unseparated(mac);
      }
    }
    if |u| <= 6 then u else u[..6]
  }

  /** For a MAC address the key is its first three octets, upper-cased: the OUI. */
  lemma MacPrefixIsOui(mac: string)
    requires IsMacText(mac)
    ensures MacPrefix(mac) == Upper(mac[0..2] + mac[3..5] + mac[6..8])
  {
    var head := mac[0..2] + mac[3..5] + mac[6..8];
    var tail := Unseparated(mac[9..]);
    assert Unseparated(mac) == head + tail by {
      assert Unseparated(mac[6..]) == mac[6..8] + tail by {
        assert IsHexDigit(mac[6]) && IsHexDigit(mac[7]) && (mac[8] == ':' || mac[8] == '-');
        assert mac[6..][..2] == mac[6..8] && mac[6..][3..] == mac[9..];
        UnseparatedPair(mac[6..]);
      }
      assert Unseparated(mac[3..]) == mac[3..5] + (mac[6..8] + tail) by {
        assert IsHexDigit(mac[3]) && IsHexDigit(mac[4]) && (mac[5] == ':' || mac[5] == '-');
        assert mac[3..][..2] == mac[3..5] && mac[3..][3..] == mac[6..];
        UnseparatedPair(mac[3..]);
      }
      assert IsHexDigit(mac[0]) && IsHexDigit(mac[1]) && (mac[2] == ':' || mac[2] == '-');
      UnseparatedPair(mac);
    }
    UpperPrefix(head, tail);
  }

  /** Upper-casing, then cutting, is cutting, then upper-casing. */
  lemma UpperPrefix(a: string, b: string)
    ensures Upper(a + b)[..|a|] == Upper(a)
  {
  }

  /** The prefixes the local table maps to "Cisco". */
  const CiscoOuis: set<string> := {
    "001C14", "001122", "00163E", "001B21", "001C0E", "001F6B", "0021A8", "002436", "0025BC",
    "14CC20", "18A9F8", "1C1AC0", "1C1B68", "283CE4", "3C970E", "3CB15B", "3CB72B", "3CB87A",
    "3CBBFD", "3CC1F6", "3CD0F8", "40F2E9", "443839", "4C60DE", "5C0A5B", "6C2056", "6C416A",
    "6CF373", "78BC1A", "885395", "9C1D58", "A4B1E9", "A89D21", "B41489", "B83861", "BC16F5",
    "BC67AB", "C0335E", "C83D97", "CC46D6", "DCA5F4", "E8B748", "F87B20", "FC45C4", "001C23",
    "001D45", "001E13", "001E4A", "001E7D", "001F9C", "0021D8", "0023EB", "00255E", "0026F2",
    "0026F3", "54724F", "C8D719", "F87B8C", "FC4DD4", "FCE998", "000E38", "0012F2", "00142B",
    "0015F2", "0016C4", "0016F6", "0017DF", "00183F", "0018B9", "0019A6", "0019E2", "0019E3",
    "001B0D", "001B2A", "001BD4", "001C0F", "001C57", "001D70", "001E49", "001F6C", "001FF3",
    "0021A1", "0021F2", "0022BD", "0022FC", "0023BD", "0024F7", "0024FC"
  }

  /** The local OUI table of `_local_oui_lookup`. */
  function OuiDatabase(): map<string, string>
  {
    (map p | p in CiscoOuis :: "Cisco")["000C29" := "VMware"]["0050F2" := "Microsoft"]
  }

  /** The vendors the table knows. */
  predicate KnownVendor(v: string)
  {
    v == "Cisco" || v == "VMware" || v == "Microsoft"
  }

  /** `_local_oui_lookup` as written: a prefix missing from the table gives the literal "UNKOWN". */
  function LocalOuiLookup(prefix: string): (r: string)
    ensures prefix in OuiDatabase() ==> KnownVendor(r)
    ensures prefix !in OuiDatabase() ==> r == "UNKOWN"
  {
    if prefix in OuiDatabase() then OuiDatabase()[prefix] else "UNKOWN"
  }

  /**
   * `get_manufacturer_from_mac`. `vendorAnswer` is the body of the first
   * vendor web service that answered with status 200, None when neither did.
   */
  function ManufacturerFromMac(mac: string, vendorAnswer: Option<string>): (r: string)
    ensures mac == [] ==> r == "UNKNOWN"
    ensures mac != [] && vendorAnswer.None? ==> r == LocalOuiLookup(MacPrefix(mac))
    ensures mac != [] && vendorAnswer.Some? ==> r == Strip(vendorAnswer.value)
  {
    if mac == [] then "UNKNOWN"
    else if vendorAnswer.Some? then Strip(vendorAnswer.value)
    else LocalOuiLookup(MacPrefix(mac))
  }

  /**
   * Without a vendor service, a MAC the table does not know and an empty MAC
   * are reported with two different words: the misspelt default of the table
   * lookup and "UNKNOWN".
   */
  lemma UnknownVendorMisspelt(mac: string)
    requires mac != [] && MacPrefix(mac) !in OuiDatabase()
    ensures ManufacturerFromMac(mac, None) != ManufacturerFromMac([], None)
  {
    assert "UNKOWN" != "UNKNOWN" by {
      assert "UNKOWN"[3] != "UNKNOWN"[3];
    }
  }

  /** The table lookup as evidently intended: "UNKNOWN", as for an empty MAC. */
  function LocalOuiLookupIntended(prefix: string): (r: string)
    ensures prefix in OuiDatabase() ==> KnownVendor(r)
    ensures prefix !in OuiDatabase() ==> r == "UNKNOWN"
  {
    if prefix in OuiDatabase() then OuiDatabase()[prefix] else "UNKNOWN"
  }

  /** `get_manufacturer_from_mac` over the intended lookup. */
  function ManufacturerFromMacIntended(mac: string, vendorAnswer: Option<string>): (r: string)
  {
    if mac == [] then "UNKNOWN"
    else if vendorAnswer.Some? then Strip(vendorAnswer.value)
    else LocalOuiLookupIntended(MacPrefix(mac))
  }

  /** With the intended lookup, an unknown MAC reads like an empty one and a known one names its vendor. */
  lemma ManufacturerIntendedUnknown(mac: string)
    ensures mac == [] || MacPrefix(mac) !in OuiDatabase() <==> ManufacturerFromMacIntended(mac, None) == "UNKNOWN"
    ensures mac != [] && MacPrefix(mac) in OuiDatabase() ==> KnownVendor(ManufacturerFromMacIntended(mac, None))
  {
    if mac != [] && MacPrefix(mac) in OuiDatabase() {
      var v := ManufacturerFromMacIntended(mac, None);
      assert KnownVendor(v);
      assert v != "UNKNOWN" by {
        if v == "Cisco" { assert v[0] != "UNKNOWN"[0]; }
        else if v == "VMware" { assert v[0] != "UNKNOWN"[0]; }
        else { assert v[0] != "UNKNOWN"[0]; }
      }
    }
  }

  /**
   * `get_client_ip`: the first comma-separated field of X-Forwarded-For, not
   * stripped, when the header is present and not empty; otherwise
   * REMOTE_ADDR. None stands for a missing META key.
   */
  function ClientIp(forwardedFor: Option<string>, remoteAddr: Option<string>): (r: Option<string>)
    ensures forwardedFor.None? || forwardedFor.value == [] ==> r == remoteAddr
    ensures forwardedFor.Some? && forwardedFor.value != [] ==>
              r.Some? && StartsWith(forwardedFor.value, r.value) && ',' !in r.value
    ensures forwardedFor.Some? && forwardedFor.value != [] && ',' !in forwardedFor.value ==> r == forwardedFor
  {
    if forwardedFor.Some? && forwardedFor.value != [] then
      FirstFieldIsPrefix(forwardedFor.value, ',');
      Some(SplitOn(forwardedFor.value, ',')[0])
    else remoteAddr
  }

  lemma FirstFieldIsPrefix(s: string, sep: char)
    ensures StartsWith(s, SplitOn(s, sep)[0])
  {
    if sep in s {
      var i := FirstIndex(s, sep);
      assert SplitOn(s, sep)[0] == s[..i];
    }
  }

  /** A token `re.match` accepts with the MAC pattern. */
  function MacToken(part: string): (r: Option<string>)
    ensures r.Some? ==> r.value == part && MatchesMac(part)
  {
    if MatchesMac(part) then Some(part) else None
  }

  /** On a line that mentions the address, its first whitespace token that starts with a MAC. */
  function LinuxLineMac(ip: string, line: string): Option<string>
  {
    if Contains(line, ip) then FirstSome(Words(line), MacToken) else None
  }

  /**
   * `_get_mac_linux`: the first token starting with a MAC on the first line
   * of `arp -n` that mentions the address and has one; None when the
   * command fails.
   */
  function MacLinux(arpOut: Option<string>, ip: string): (r: Option<string>)
    ensures r.Some? ==> arpOut.Some? && MatchesMac(r.value) &&
                        exists line :: line in SplitOn(arpOut.value, '\n') && Contains(line, ip) && r.value in Words(line)
    ensures r.None? && arpOut.Some? ==>
              forall line :: line in SplitOn(arpOut.value, '\n') && Contains(line, ip) ==>
                forall part :: part in Words(line) ==> !MatchesMac(part)
  {
    if arpOut.None? then None
    else
      var lines := SplitOn(arpOut.value, '\n');
      var r := FirstSome(lines, LinuxLine(ip));
      if r.None? then
        assert forall k :: 0 <= k < |lines| ==> LinuxLineMac(ip, lines[k]).None?;
        r
      else
        var i :| 0 <= i < |lines| && LinuxLineMac(ip, lines[i]) == r;
        var parts := Words(lines[i]);
        var k :| 0 <= k < |parts| && MacToken(parts[k]) == r;
        r
  }

  function LinuxLine(ip: string): string -> Option<string>
  {
    line => LinuxLineMac(ip, line)
  }

  /** Some whitespace token of the line starts with a MAC. */
  predicate HasMacToken(line: string)
  {
    exists k :: 0 <= k < |Words(line)| && MatchesMac(Words(line)[k])
  }

  /**
   * `m` is the first token starting with a MAC on line `i`, which mentions
   * the address, and no earlier line that mentions it has such a token.
   */
  predicate FirstLinuxMac(lines: seq<string>, ip: string, m: string)
  {
    exists i, k :: 0 <= i < |lines| && Contains(lines[i], ip) && 0 <= k < |Words(lines[i])| &&
      Words(lines[i])[k] == m && MatchesMac(m) &&
      (forall j :: 0 <= j < k ==> !MatchesMac(Words(lines[i])[j])) &&
      forall l :: 0 <= l < i ==> !(Contains(lines[l], ip) && HasMacToken(lines[l]))
  }

  /** No line that mentions the address has a token starting with a MAC. */
  predicate NoLinuxLineWithMac(lines: seq<string>, ip: string)
  {
    forall line :: line in lines && Contains(line, ip) ==> !HasMacToken(line)
  }

  /** A line yields no MAC exactly when it does not mention the address or has no MAC-led token. */
  lemma LinuxLineMacNone(ip: string, line: string)
    ensures LinuxLineMac(ip, line).None? <==> !(Contains(line, ip) && HasMacToken(line))
  {
    var parts := Words(line);
    if Contains(line, ip) && HasMacToken(line) {
      var k :| 0 <= k < |parts| && MatchesMac(parts[k]);
      assert MacToken(parts[k]).Some?;
    }
  }

  /** The scan finds the first MAC-led token of the first line that mentions the address and has one. */
  lemma LinuxFirstLine(ip: string, lines: seq<string>)
    ensures var r := FirstSome(lines, LinuxLine(ip));
            (r.Some? ==> FirstLinuxMac(lines, ip, r.value)) &&
            (r.None? ==> NoLinuxLineWithMac(lines, ip))
  {
    var r := FirstSome(lines, LinuxLine(ip));
    if r.Some? {
      var i :| 0 <= i < |lines| && LinuxLineMac(ip, lines[i]) == r &&
               forall l :: 0 <= l < i ==> LinuxLineMac(ip, lines[l]).None?;
      LinuxFoundOnLine(ip, lines, i);
    } else {
      forall line | line in lines && Contains(line, ip)
        ensures !HasMacToken(line)
      {
        var l :| 0 <= l < |lines| && lines[l] == line;
        assert LinuxLineMac(ip, lines[l]).None?;
        LinuxLineMacNone(ip, line);
      }
    }
  }

  /** The MAC that line `i` yields, when no earlier line yields one, is the first of FirstLinuxMac. */
  lemma LinuxFoundOnLine(ip: string, lines: seq<string>, i: nat)
    requires i < |lines| && LinuxLineMac(ip, lines[i]).Some?
    requires forall l :: 0 <= l < i ==> LinuxLineMac(ip, lines[l]).None?
    ensures FirstLinuxMac(lines, ip, LinuxLineMac(ip, lines[i]).value)
  {
    var m := LinuxLineMac(ip, lines[i]).value;
    forall l | 0 <= l < i
      ensures !(Contains(lines[l], ip) && HasMacToken(lines[l]))
    {
      LinuxLineMacNone(ip, lines[l]);
    }
    var parts := Words(lines[i]);
    var k :| 0 <= k < |parts| && MacToken(parts[k]) == Some(m) &&
             forall j :: 0 <= j < k ==> MacToken(parts[j]).None?;
    assert parts[k] == m && MatchesMac(m);
    assert forall j :: 0 <= j < k ==> !MatchesMac(parts[j]);
  }

  /**
   * A MAC is found exactly when some line mentions the address and has a
   * token starting with one; it is the first such token of the first such
   * line. A failing command finds none.
   */
  lemma MacLinuxFirstLine(arpOut: Option<string>, ip: string)
    ensures arpOut.None? ==> MacLinux(arpOut, ip).None?
    ensures arpOut.Some? ==>
              var r := MacLinux(arpOut, ip);
              (r.Some? ==> FirstLinuxMac(SplitOn(arpOut.value, '\n'), ip, r.value)) &&
              (r.None? ==> NoLinuxLineWithMac(SplitOn(arpOut.value, '\n'), ip))
  {
    if arpOut.Some? {
      LinuxFirstLine(ip, SplitOn(arpOut.value, '\n'));
    }
  }

  /** On a line that mentions the address, the first MAC found anywhere in it. */
  function WindowsLineMac(ip: string, line: string): Option<string>
  {
    if Contains(line, ip) then Search(line, MacAt) else None
  }

  /** The MAC pattern matches somewhere in the line. */
  predicate HoldsMac(line: string)
  {
    exists j :: 0 <= j <= |line| && MacAt(line[j..]).Some?
  }

  /** A line yields no MAC exactly when it does not mention the address or holds no MAC. */
  lemma WindowsLineMacNone(ip: string, line: string)
    ensures WindowsLineMac(ip, line).None? <==> !(Contains(line, ip) && HoldsMac(line))
  {
    if Contains(line, ip) && HoldsMac(line) {
      var j :| 0 <= j <= |line| && MacAt(line[j..]).Some?;
      assert Search(line, MacAt).Some?;
    }
  }

  /** `_get_mac_windows`: the MAC of the first line of `arp -a` that mentions the address and holds one. */
  function MacWindows(arpOut: Option<string>, ip: string): (r: Option<string>)
    ensures r.Some? ==> arpOut.Some? && IsMacText(r.value)
  {
    if arpOut.None? then None
    else
      var lines := SplitOn(arpOut.value, '\n');
      WindowsFirstLine(ip, lines);
      FirstSome(lines, WindowsLine(ip))
  }

  /**
   * `m` is the leftmost MAC match of a line that mentions the address, and
   * no earlier such line holds a MAC.
   */
  predicate OnFirstLineWithMac(lines: seq<string>, ip: string, m: string)
  {
    exists i, j :: 0 <= i < |lines| && Contains(lines[i], ip) && 0 <= j <= |lines[i]| &&
      MacAt(lines[i][j..]) == Some(m) && (forall j' :: 0 <= j' < j ==> MacAt(lines[i][j'..]).None?) &&
      forall k :: 0 <= k < i ==> !(Contains(lines[k], ip) && HoldsMac(lines[k]))
  }

  /** No line that mentions the address holds a MAC. */
  predicate NoLineWithMac(lines: seq<string>, ip: string)
  {
    forall line :: line in lines && Contains(line, ip) ==> !HoldsMac(line)
  }

  /**
   * A MAC is found exactly when some line mentions the address and holds
   * one, and it is the MAC of the first such line; a failing command finds
   * none.
   */
  lemma MacWindowsFirstLine(arpOut: Option<string>, ip: string)
    ensures arpOut.None? ==> MacWindows(arpOut, ip).None?
    ensures arpOut.Some? ==>
              var r := MacWindows(arpOut, ip);
              (r.Some? ==> IsMacText(r.value) && OnFirstLineWithMac(SplitOn(arpOut.value, '\n'), ip, r.value)) &&
              (r.None? ==> NoLineWithMac(SplitOn(arpOut.value, '\n'), ip))
  {
    if arpOut.Some? {
      WindowsFirstLine(ip, SplitOn(arpOut.value, '\n'));
    }
  }

  function WindowsLine(ip: string): string -> Option<string>
  {
    line => WindowsLineMac(ip, line)
  }

  /** The scan over the lines finds the leftmost MAC of the first line that mentions the address and holds one. */
  lemma WindowsFirstLine(ip: string, lines: seq<string>)
    ensures var r := FirstSome(lines, WindowsLine(ip));
            (r.Some? ==> IsMacText(r.value) && OnFirstLineWithMac(lines, ip, r.value)) &&
            (r.None? ==> NoLineWithMac(lines, ip))
  {
    var r := FirstSome(lines, WindowsLine(ip));
    if r.Some? {
      var i :| 0 <= i < |lines| && WindowsLineMac(ip, lines[i]) == r &&
               forall k :: 0 <= k < i ==> WindowsLineMac(ip, lines[k]).None?;
      forall k | 0 <= k < i
        ensures !(Contains(lines[k], ip) && HoldsMac(lines[k]))
      {
        WindowsLineMacNone(ip, lines[k]);
      }
      var line := lines[i];
      var j :| 0 <= j <= |line| && MacAt(line[j..]) == r && forall j' :: 0 <= j' < j ==> MacAt(line[j'..]).None?;
    } else {
      forall line | line in lines && Contains(line, ip)
        ensures !HoldsMac(line)
      {
        var l :| 0 <= l < |lines| && lines[l] == line;
        assert WindowsLineMac(ip, lines[l]).None?;
        WindowsLineMacNone(ip, line);
      }
    }
  }

  /**
   * `get_mac_address`: the MAC `get_client_mac` finds, and otherwise the
   * platform's own ARP scan.
   */
  function MacAddress(ip: string, first: Option<string>, retry: Option<string>, windows: bool, arpOut: Option<string>)
    : (r: Option<string>)
    ensures Helpers.ClientMac(first, retry).Some? ==> r == Helpers.ClientMac(first, retry)
    ensures Helpers.ClientMac(first, retry).None? && r.Some? ==> MatchesMac(r.value)
  {
    var mac := Helpers.ClientMac(first, retry);
    if mac.Some? && mac.value != [] then mac
    else if windows then MacWindows(arpOut, ip)
    else MacLinux(arpOut, ip)
  }
}

=== FILE: discover_page.dfy ===
/**
 * The client-side rules of the discover page
 * (frontend/src/pages/DiscoverPage.jsx): which services the list shows for
 * the active category and the search box, the count on each category
 * button, the featured strip and the favourite toggle. Lower-casing is
 * ASCII-only here.
 */
module DiscoverPage {
  import opened Text
  import opened Lists

  /** The fields of a service card the rules read. */
  datatype Card = Card(id: string, name: string, description: string, category: string, tags: seq<string>, featured: bool)

  predicate MatchesCategory(active: string, s: Card)
  {
    active == "all" || s.category == active
  }

  /** Some tag contains the (lower-cased) query, ignoring case. */
  predicate SomeTagContains(tags: seq<string>, q: string)
  {
    exists i :: 0 <= i < |tags| && Contains(Lower(tags[i]), q)
  }

  /** The query is a case-insensitive substring of the name, the description or some tag. */
  predicate MatchesSearch(query: string, s: Card)
  {
    var q := Lower(query);
    Contains(Lower(s.name), q) || Contains(Lower(s.description), q) || SomeTagContains(s.tags, q)
  }

  /** The test `filteredServices` applies. */
  function Shown(active: string, query: string): Card -> bool
  {
    s => MatchesCategory(active, s) && MatchesSearch(query, s)
  }

  /** `filteredServices` */
  function FilteredServices(services: seq<Card>, active: string, query: string): (r: seq<Card>)
    ensures |r| <= |services|
  {
    Filter(services, Shown(active, query))
  }

  /** A card is listed iff it is in the category and matches the search; the list keeps the services' order. */
  lemma FilteredIsOrderedSelection(services: seq<Card>, active: string, query: string) returns (idx: seq<nat>)
    ensures var r := FilteredServices(services, active, query);
      && |idx| == |r|
      && (forall k :: 0 <= k < |idx| ==> idx[k] < |services| && r[k] == services[idx[k]])
      && (forall k, l :: 0 <= k < l < |idx| ==> idx[k] < idx[l])
      && (forall i :: 0 <= i < |services| ==>
            (i in idx <==> MatchesCategory(active, services[i]) && MatchesSearch(query, services[i])))
  {
    idx := FilterIndices(services, Shown(active, query));
  }

  lemma EmptyContained(s: string)
    ensures Contains(s, "")
  {
    assert s[..0] == "";
  }

  /** An empty search matches every service. */
  lemma EmptySearchMatchesAll(s: Card)
    ensures MatchesSearch("", s)
  {
    EmptyContained(Lower(s.name));
  }

  /** With category 'all' and an empty search, every service is listed. */
  lemma NoFilterShowsAll(services: seq<Card>)
    ensures FilteredServices(services, "all", "") == services
  {
    forall i | 0 <= i < |services|
      ensures Shown("all", "")(services[i])
    {
      EmptySearchMatchesAll(services[i]);
    }
    FilterAll(services, Shown("all", ""));
  }

  /** The case of the query does not matter. */
  lemma SearchIgnoresCase(query: string, s: Card)
    ensures MatchesSearch(query, s) == MatchesSearch(Lower(query), s)
  {
    LowerIdempotent(query);
  }

  // ---------------------------------------------------------------------
  // Category buttons

  datatype CategoryButton = CategoryButton(id: string, name: string, count: nat)

  function InCategory(id: string): Card -> bool
  {
    (s: Card) => s.category == id
  }

  /** The buttons: 'all' with every service, then the four fixed categories with their own services. */
  function Categories(services: seq<Card>): (r: seq<CategoryButton>)
    ensures |r| == 5
  {
    [CategoryButton("all", "All Services", |services|),
     CategoryButton("food", "Food & Drink", Count(services, InCategory("food"))),
     CategoryButton("services", "Services", Count(services, InCategory("services"))),
     CategoryButton("entertainment", "Entertainment", Count(services, InCategory("entertainment"))),
     CategoryButton("shopping", "Shopping", Count(services, InCategory("shopping")))]
  }

  /**
   * Each button's count is the number of cards the list shows when that
   * button is active and the search box is empty.
   */
  lemma ButtonCountIsListLength(services: seq<Card>, i: int)
    requires 0 <= i < 5
    ensures Categories(services)[i].count == |FilteredServices(services, Categories(services)[i].id, "")|
  {
    var id := Categories(services)[i].id;
    if i == 0 {
      NoFilterShowsAll(services);
    } else {
      forall s | true
        ensures InCategory(id)(s) == Shown(id, "")(s)
      {
        EmptySearchMatchesAll(s);
      }
      CountSame(services, InCategory(id), Shown(id, ""));
      CountIsFilterLength(services, Shown(id, ""));
    }
  }

  // ---------------------------------------------------------------------
  // Featured strip and favourites

  function IsFeatured(): Card -> bool
  {
    (s: Card) => s.featured
  }

  /** The featured strip: the featured services, whatever the category or search. */
  function FeaturedServices(services: seq<Card>): (r: seq<Card>)
    ensures |r| <= |services|
  {
    Filter(services, IsFeatured())
  }

  lemma FeaturedMembers(services: seq<Card>, s: Card)
    ensures s in FeaturedServices(services) <==> s in services && s.featured
  {
    FilterMembers(services, IsFeatured(), s);
  }

  /** `toggleFavorite`: a copy of the set with `id` removed if present, added otherwise. */
  function Toggle(favorites: set<string>, id: string): set<string>
  {
    if id in favorites then favorites - {id} else favorites + {id}
  }

  /** A toggle flips the membership of its id only, so toggling twice restores the set. */
  lemma ToggleFlipsOnlyId(favorites: set<string>, id: string)
    ensures id in Toggle(favorites, id) <==> id !in favorites
    ensures forall other :: other != id ==> (other in Toggle(favorites, id) <==> other in favorites)
    ensures Toggle(Toggle(favorites, id), id) == favorites
  {
  }
}

=== FILE: helpers.dfy ===
/**
 * The captive portal's authorised-MAC list and ARP parsing
 * (backend/util/helpers.py). The list is the text file
 * `auth/authenticated_macs`, one MAC per line; it is modelled as
 * `Option<string>`, None while the file does not exist. The output of the
 * `arp` command is a parameter, None when the command fails.
 */
module Helpers {
  import opened Wrappers
  import opened Text
  import opened Patterns
  import opened Lists

  /** `line.strip()`, kept only when it is not empty. */
  function NonBlank(line: string): Option<string>
  {
    if Strip(line) != [] then Some(Strip(line)) else None
  }

  /** `line.strip()` for every line whose stripped text is not empty, in file order. */
  function StrippedLines(lines: seq<string>): seq<string>
  {
    FilterMap(lines, NonBlank)
  }

  /** A stripped entry comes from a line, and every line with a non-blank strip gives one. */
  lemma StrippedLinesMembers(lines: seq<string>, m: string)
    ensures m in StrippedLines(lines) <==> m != [] && exists i :: 0 <= i < |lines| && Strip(lines[i]) == m
  {
    FilterMapMembers(lines, NonBlank, m);
  }

  /** The MACs the auth file lists: its stripped non-empty lines. */
  function AuthLines(text: string): seq<string>
  {
    StrippedLines(FileLines(text))
  }

  /** What a reader of the file sees: nothing while it does not exist. */
  function Existing(file: Option<string>): seq<string>
  {
    if file.None? then [] else AuthLines(file.value)
  }

  /** `is_mac_authenticated`: exact, case-sensitive membership; False without a file. */
  predicate IsMacAuthenticated(file: Option<string>, mac: string)
  {
    file.Some? && mac in AuthLines(file.value)
  }

  /** Empty, or ending with a newline: the file only ever grows by whole lines. */
  predicate WellTerminated(text: string)
  {
    text == [] || text[|text| - 1] == '\n'
  }

  /** A MAC that, written on a line of its own, reads back as itself. */
  predicate Storable(mac: string)
  {
    mac != [] && '\n' !in mac && !IsWs(mac[0]) && !IsWs(mac[|mac| - 1])
  }

  /** The file after `authenticate_mac` succeeds: "mac\n" appended unless the MAC is already listed. */
  function Authenticated(file: Option<string>, mac: string): (r: Option<string>)
    ensures r.Some?
    ensures file.None? || WellTerminated(file.value) ==> WellTerminated(r.value)
  {
    if mac in Existing(file) then file
    else Some((if file.None? then "" else file.value) + mac + "\n")
  }

  /**
   * Authenticating a storable MAC lists it, and adds nothing else: the
   * listed MACs grow by exactly that MAC when it was missing.
   */
  lemma AuthenticateLists(file: Option<string>, mac: string)
    requires file.None? || WellTerminated(file.value)
    requires Storable(mac)
    ensures Existing(Authenticated(file, mac)) ==
            if mac in Existing(file) then Existing(file) else Existing(file) + [mac]
    ensures IsMacAuthenticated(Authenticated(file, mac), mac)
  {
    if mac !in Existing(file) {
      var text := if file.None? then "" else file.value;
      assert Existing(file) == AuthLines(text);
      FileLinesAppend(text, mac);
      StripNewline(mac);
      FilterMapSnoc(FileLines(text), mac + "\n", NonBlank);
    }
  }

  /** `authenticate_mac` twice leaves the file as one call does. */
  lemma AuthenticateIdempotent(file: Option<string>, mac: string)
    requires file.None? || WellTerminated(file.value)
    requires Storable(mac)
    ensures Authenticated(Authenticated(file, mac), mac) == Authenticated(file, mac)
  {
    AuthenticateLists(file, mac);
  }

  /** The authorised-MAC file. */
  class AuthFile {
    var text: Option<string>

    predicate Valid()
      reads this
    {
      text.None? || WellTerminated(text.value)
    }

    constructor (text: Option<string>)
      ensures this.text == text
    {
      this.text := text;
    }

    /**
     * `authenticate_mac`. `readOk` and `writeOk` say whether reading the
     * existing file and appending to it succeed; a failure is an exception,
     * caught and reported as False with the file as it was.
     */
    method AuthenticateMac(mac: string, readOk: bool, writeOk: bool) returns (ok: bool)
      requires Valid()
      modifies this
      ensures Valid()
      ensures ok <==> (old(text).None? || readOk) && (mac in Existing(old(text)) || writeOk)
      ensures text == if ok then Authenticated(old(text), mac) else old(text)
    {
      var existing: seq<string> := [];
      if text.Some? {
        if !readOk {
          return false;
        }
        existing := AuthLines(text.value);
      }
      if mac !in existing {
        if !writeOk {
          return false;
        }
        text := Some((if text.None? then "" else text.value) + mac + "\n");
      }
      return true;
    }
  }

  /** Somewhere in `s` the MAC pattern matches. */
  predicate HasMac(s: string)
  {
    exists i :: 0 <= i <= |s| && MacAt(s[i..]).Some?
  }

  lemma LowerMacText(m: string)
    requires IsMacText(m)
    ensures IsMacText(Lower(m)) && Lower(Lower(m)) == Lower(m) && Storable(Lower(m))
  {
    LowerIdempotent(m);
    var l := Lower(m);
    assert l[0] == LowerChar(m[0]) && l[16] == LowerChar(m[16]);
    assert '\n' !in l by {
      forall k | 0 <= k < 17 ensures l[k] != '\n' {
        assert m[k] == ':' || m[k] == '-' || IsHexDigit(m[k]);
      }
    }
  }

  /** The first match of the MAC pattern in `s`, lower-cased. */
  function FirstMac(s: string): (r: Option<string>)
    ensures r.Some? <==> HasMac(s)
    ensures r.Some? ==> IsMacText(r.value) && Lower(r.value) == r.value && Storable(r.value)
  {
    match Search(s, MacAt)
    case None => None
    case Some(m) => LowerMacText(m); Some(Lower(m))
  }

  /**
   * `get_client_mac`: the first MAC in the `arp -n` output, lower-cased;
   * without one, the output of a second `arp -n` after a ping. A failing
   * `arp` (None) ends the search with None.
   */
  function ClientMac(first: Option<string>, retry: Option<string>): (r: Option<string>)
    ensures r.Some? <==> first.Some? && (HasMac(first.value) || (retry.Some? && HasMac(retry.value)))
    ensures r.Some? ==> IsMacText(r.value) && Lower(r.value) == r.value && Storable(r.value)
    ensures first.Some? && HasMac(first.value) ==> r == FirstMac(first.value)
  {
    if first.None? then None
    else if FirstMac(first.value).Some? then FirstMac(first.value)
    else if retry.None? then None
    else FirstMac(retry.value)
  }

  /** One entry of `get_connected_devices`. */
  datatype Device = Device(ip: string, mac: string, iface: string, authenticated: bool)

  /** The device a line of `arp -a` describes, if it is one of the captive network's. */
  function ArpDevice(line: string, file: Option<string>): (r: Option<Device>)
    ensures r.Some? ==> Contains(line, "192.168.12.") && StartsWith(r.value.ip, "192.168.12.")
    ensures r.Some? ==> Lower(r.value.mac) == r.value.mac && |r.value.mac| == 17
    ensures r.Some? ==> r.value.authenticated == IsMacAuthenticated(file, r.value.mac)
    ensures r.Some? ==> r.value.iface != []
  {
    if !Contains(line, "192.168.12.") then None
    else
      var ip := Search(line, ArpIpAt);
      var mac := Search(line, ArpMacAt);
      if ip.None? || mac.None? then None
      else
        var m := Lower(mac.value);
        LowerIdempotent(mac.value);
        var iface := Search(line, OnIfaceAt);
        Some(Device(ip.value, m, if iface.Some? then iface.value else "unknown", IsMacAuthenticated(file, m)))
  }

  /** The devices of the lines, in line order. */
  function ConnectedDevices(lines: seq<string>, file: Option<string>): seq<Device>
  {
    FilterMap(lines, line => ArpDevice(line, file))
  }

  /** A device is listed exactly when some line describes it. */
  lemma ConnectedDevicesMembers(lines: seq<string>, file: Option<string>, d: Device)
    ensures d in ConnectedDevices(lines, file) <==> exists i :: 0 <= i < |lines| && ArpDevice(lines[i], file) == Some(d)
  {
    FilterMapMembers(lines, line => ArpDevice(line, file), d);
  }

  /**
   * `get_connected_devices`: `arpOut` is the output of `arp -a`, None when
   * the command fails, which leaves the list empty.
   */
  method GetConnectedDevices(arpOut: Option<string>, file: Option<string>) returns (devices: seq<Device>)
    ensures arpOut.None? ==> devices == []
    ensures arpOut.Some? ==> devices == ConnectedDevices(SplitOn(arpOut.value, '\n'), file)
  {
    devices := [];
    if arpOut.None? {
      return;
    }
    var lines := SplitOn(arpOut.value, '\n');
    for i := 0 to |lines|
      invariant devices == ConnectedDevices(lines[..i], file)
    {
      assert lines[..i + 1][..i] == lines[..i];
      var d := ArpDevice(lines[i], file);
      if d.Some? {
        devices := devices + [d.value];
      }
    }
    assert lines[..|lines|] == lines;
  }
}

=== FILE: hotspot_manager.dfy ===
/**
 * The stand-alone hotspot manager (backend/hotspotmanager/hotspot_manager.py).
 * It keeps a configuration dict, merged from built-in defaults and the
 * user's JSON file, checks that the tools its mode needs are installed,
 * lists the wireless interfaces `ip link show` reports as up, and applies
 * configuration changes.
 *
 * The JSON file is a field holding the dict it decodes to (None when the
 * file does not exist); `which` is a set of installed tool names; the output
 * of `ip link show` is a parameter.
 */
module HotspotManager {
  import opened Wrappers
  import opened Text
  import opened PyValues
  import opened OrderedDict

  const DefaultConfig: Dict<PyVal> := [
    ("ssid", PyStr("MyCustomHotspot")),
    ("password", PyStr("StrongPassword123")),
    ("interface", PyStr("wlan0")),
    ("mode", PyStr("nmcli")),
    ("channel", PyStr("6")),
    ("ip_range", PyStr("192.168.100.0/24")),
    ("gateway", PyStr("192.168.100.1"))
  ]

  const DefaultKeys: seq<string> := ["ssid", "password", "interface", "mode", "channel", "ip_range", "gateway"]

  lemma DefaultKeysInOrder()
    ensures Keys(DefaultConfig) == DefaultKeys
  {
  }

  /** The keys `configure` assigns to. */
  predicate HasSettingKeys(d: Dict<PyVal>)
  {
    "ssid" in Keys(d) && "password" in Keys(d) && "interface" in Keys(d) && "mode" in Keys(d)
  }

  /** `{**default_config, **user_config}` */
  function Merged(user: Dict<PyVal>): Dict<PyVal>
  {
    Update(DefaultConfig, user)
  }

  /** A key of the user's file overrides the default; every other key keeps its default. */
  lemma MergedLookup(user: Dict<PyVal>, q: string)
    ensures Lookup(Merged(user), q) == if q in Keys(user) then LastBinding(user, q) else Lookup(DefaultConfig, q)
  {
    UpdateLookup(DefaultConfig, user, q);
    LastBindingPresent(user, q);
  }

  /** The merged dict holds every key of both dicts and no other. */
  lemma MergedKeys(user: Dict<PyVal>, q: string)
    ensures q in Keys(Merged(user)) <==> q in Keys(DefaultConfig) || q in Keys(user)
  {
    MergedLookup(user, q);
    LastBindingPresent(user, q);
  }

  lemma MergedHasDefaultKeys(user: Dict<PyVal>)
    ensures forall i :: 0 <= i < |DefaultKeys| ==> DefaultKeys[i] in Keys(Merged(user))
  {
    forall i | 0 <= i < |DefaultKeys| ensures DefaultKeys[i] in Keys(Merged(user)) {
      DefaultKeysInOrder();
      MergedKeys(user, DefaultKeys[i]);
    }
  }

  /** The default keys come first in the merged dict, in their own order. */
  lemma MergedKeepsDefaultOrder(user: Dict<PyVal>)
    ensures |DefaultConfig| <= |Merged(user)| && Keys(Merged(user))[..|DefaultConfig|] == Keys(DefaultConfig)
  {
    UpdateKeepsOrder(DefaultConfig, user);
  }

  /** The programs `check_dependencies` looks up with `which`. */
  datatype Tool = Iptables | Dnsmasq | Nmcli | Systemctl | Hostapd

  function ToolName(t: Tool): string
  {
    match t
    case Iptables => "iptables"
    case Dnsmasq => "dnsmasq"
    case Nmcli => "nmcli"
    case Systemctl => "systemctl"
    case Hostapd => "hostapd"
  }

  /** The tools `check_dependencies` requires. */
  function RequiredTools(nmcliMode: bool): (r: seq<Tool>)
    ensures Iptables in r && Dnsmasq in r
    ensures Nmcli in r <==> nmcliMode
    ensures Systemctl in r <==> !nmcliMode
    ensures Hostapd in r <==> !nmcliMode
  {
    [Iptables, Dnsmasq] + if nmcliMode then [Nmcli] else [Systemctl, Hostapd]
  }

  /** The tools of `tools` that are not installed, in order. */
  function Missing(tools: seq<Tool>, installed: set<Tool>): (r: seq<Tool>)
    ensures forall t :: t in r <==> t in tools && t !in installed
    ensures |r| <= |tools|
  {
    if tools == [] then []
    else (if tools[0] in installed then [] else [tools[0]]) + Missing(tools[1..], installed)
  }

  /** Nothing is missing exactly when every tool is installed. */
  lemma MissingNone(tools: seq<Tool>, installed: set<Tool>)
    ensures Missing(tools, installed) == [] <==> forall t :: t in tools ==> t in installed
  {
    if Missing(tools, installed) != [] {
      assert Missing(tools, installed)[0] in Missing(tools, installed);
    }
  }

  lemma {:induction false} MissingAppend(tools: seq<Tool>, t: Tool, installed: set<Tool>)
    ensures Missing(tools + [t], installed) == Missing(tools, installed) + if t in installed then [] else [t]
  {
    if tools != [] {
      assert (tools + [t])[1..] == tools[1..] + [t];
      MissingAppend(tools[1..], t, installed);
    }
  }

  /** A line of `ip link show` that names a wireless interface that is up. */
  predicate IsUpWireless(line: string)
  {
    Contains(line, "wl") && Contains(line, "state UP")
  }

  /** `line.split(':')[1].strip()`, or None where the index is out of range. */
  function IfName(line: string): (r: Option<string>)
    ensures r.Some? <==> ':' in line
  {
    var fields := SplitOn(line, ':');
    if |fields| < 2 then None else Some(Strip(fields[1]))
  }

  /**
   * The interface names of the selected lines, in order, or None where a
   * selected line has no second field (the IndexError the caller catches).
   */
  function UpInterfaces(lines: seq<string>): (r: Option<seq<string>>)
    ensures r.Some? ==> |r.value| <= |lines|
  {
    if lines == [] then Some([])
    else
      var init := UpInterfaces(lines[..|lines| - 1]);
      var last := lines[|lines| - 1];
      if init.None? then None
      else if !IsUpWireless(last) then init
      else if ':' !in last then None
      else Some(init.value + [IfName(last).value])
  }

  /** The interface names `get_available_interfaces` returns for the output of `ip link show`. */
  function AvailableInterfaces(stdout: Option<string>): (r: seq<string>)
    ensures stdout.None? ==> r == []
    ensures stdout.Some? && UpInterfaces(SplitOn(stdout.value, '\n')).Some? ==> r == UpInterfaces(SplitOn(stdout.value, '\n')).value
    ensures stdout.Some? && UpInterfaces(SplitOn(stdout.value, '\n')).None? ==> r == []
  {
    if stdout.None? then []
    else
      var found := UpInterfaces(SplitOn(stdout.value, '\n'));
      if found.None? then [] else found.value
  }

  /** The arguments of `configure`; None is an argument left out. */
  datatype Changes = Changes(ssid: Option<string>, password: Option<string>, interface: Option<string>, mode: Option<string>)

  /** An argument of `configure` that replaces the setting. */
  predicate Given(arg: Option<string>)
  {
    arg.Some? && arg.value != []
  }

  predicate KnownMode(mode: Option<string>)
  {
    Given(mode) && (mode.value == "nmcli" || mode.value == "systemd")
  }

  /** The setting a `configure` call leaves under key `q`. */
  function Configured(before: Option<PyVal>, q: string, ch: Changes): Option<PyVal>
  {
    if q == "ssid" && Given(ch.ssid) then Some(PyStr(ch.ssid.value))
    else if q == "password" && Given(ch.password) then Some(PyStr(ch.password.value))
    else if q == "interface" && Given(ch.interface) then Some(PyStr(ch.interface.value))
    else if q == "mode" && KnownMode(ch.mode) then Some(PyStr(ch.mode.value))
    else before
  }

  /** `if cond: d[k] = v` on a dict that already has key `k`. */
  function SetIf(d: Dict<PyVal>, k: string, cond: bool, v: Option<string>): (r: Dict<PyVal>)
    requires cond ==> v.Some?
    ensures k in Keys(d) ==> Keys(r) == Keys(d)
  {
    if cond then SetKeys(d, k, PyStr(v.value)); Set(d, k, PyStr(v.value)) else d
  }

  lemma SetIfLookup(d: Dict<PyVal>, k: string, cond: bool, v: Option<string>, q: string)
    requires cond ==> v.Some?
    ensures Lookup(SetIf(d, k, cond, v), q) == if cond && q == k then Some(PyStr(v.value)) else Lookup(d, q)
  {
    if cond { SetLookup(d, k, PyStr(v.value), q); }
  }

  /** The four conditional assignments of `configure`, in order. */
  function ConfigureDict(d: Dict<PyVal>, ch: Changes): (r: Dict<PyVal>)
    ensures HasSettingKeys(d) ==> Keys(r) == Keys(d)
  {
    var d1 := SetIf(d, "ssid", Given(ch.ssid), ch.ssid);
    var d2 := SetIf(d1, "password", Given(ch.password), ch.password);
    var d3 := SetIf(d2, "interface", Given(ch.interface), ch.interface);
    SetIf(d3, "mode", KnownMode(ch.mode), ch.mode)
  }

  /**
   * After `configure` a given ssid, password or interface and a known mode
   * are the new settings; every other key keeps its value.
   */
  lemma ConfigureLookup(d: Dict<PyVal>, ch: Changes, q: string)
    ensures Lookup(ConfigureDict(d, ch), q) == Configured(Lookup(d, q), q, ch)
  {
    var d1 := SetIf(d, "ssid", Given(ch.ssid), ch.ssid);
    var d2 := SetIf(d1, "password", Given(ch.password), ch.password);
    var d3 := SetIf(d2, "interface", Given(ch.interface), ch.interface);
    SetIfLookup(d, "ssid", Given(ch.ssid), ch.ssid, q);
    SetIfLookup(d1, "password", Given(ch.password), ch.password, q);
    SetIfLookup(d2, "interface", Given(ch.interface), ch.interface, q);
    SetIfLookup(d3, "mode", KnownMode(ch.mode), ch.mode, q);
  }

  /** What `start_hotspot` did. */
  datatype Step = SetupNmcli | ConnectionUp | SetupSystemd | ShowStatus

  class HotspotManager {
    /** The decoded `~/.hotspot_config.json`, None while the file does not exist. */
    var configFile: Option<Dict<PyVal>>
    var config: Dict<PyVal>

    /** Every default key is present, so every `self.config[...]` lookup succeeds. */
    predicate Valid()
      reads this
    {
      forall i :: 0 <= i < |DefaultKeys| ==> DefaultKeys[i] in Keys(config)
    }

    predicate NmcliMode()
      reads this
    {
      Lookup(config, "mode") == Some(PyStr("nmcli"))
    }

    /** `__init__`: the defaults, then `load_config`. */
    constructor (configFile: Option<Dict<PyVal>>)
      ensures Valid()
      ensures configFile.Some? ==> config == Merged(configFile.value) && this.configFile == configFile
      ensures configFile.None? ==> config == DefaultConfig && this.configFile == Some(DefaultConfig)
    {
      this.configFile := configFile;
      config := DefaultConfig;
      new;
      LoadConfig();
    }

    /** `load_config`: merge the file over the defaults, or write the defaults out when there is no file. */
    method LoadConfig()
      modifies this
      ensures Valid()
      ensures old(configFile).Some? ==> config == Merged(old(configFile).value) && configFile == old(configFile)
      ensures old(configFile).None? ==> config == DefaultConfig && configFile == Some(DefaultConfig)
    {
      if configFile.Some? {
        config := Merged(configFile.value);
        MergedHasDefaultKeys(configFile.value);
      } else {
        config := DefaultConfig;
        SaveConfig();
      }
    }

    /** `save_config` */
    method SaveConfig()
      modifies this`configFile
      ensures configFile == Some(config)
    {
      configFile := Some(config);
    }

    /**
     * `check_dependencies`: the result is False exactly when some required
     * tool is missing; `missing` lists those tools in order.
     */
    method CheckDependencies(installed: set<Tool>) returns (ok: bool, missing: seq<Tool>)
      requires Valid()
      ensures missing == Missing(RequiredTools(NmcliMode()), installed)
      ensures ok <==> forall t :: t in RequiredTools(NmcliMode()) ==> t in installed
    {
      var required := [Iptables, Dnsmasq];
      if Lookup(config, "mode") == Some(PyStr("nmcli")) {
        required := required + [Nmcli];
      } else {
        required := required + [Systemctl, Hostapd];
      }
      missing := [];
      for i := 0 to |required|
        invariant missing == Missing(required[..i], installed)
      {
        MissingAppend(required[..i], required[i], installed);
        assert required[..i + 1] == required[..i] + [required[i]];
        if required[i] !in installed {
          missing := missing + [required[i]];
        }
      }
      assert required[..|required|] == required;
      assert required == RequiredTools(NmcliMode());
      MissingNone(required, installed);
      ok := missing == [];
    }

    /** `get_available_interfaces`; `stdout` is None when `ip` cannot be run. */
    method GetAvailableInterfaces(stdout: Option<string>) returns (interfaces: seq<string>)
      ensures interfaces == AvailableInterfaces(stdout)
    {
      if stdout.None? {
        return [];
      }
      var lines := SplitOn(stdout.value, '\n');
      interfaces := [];
      for i := 0 to |lines|
        invariant UpInterfaces(lines[..i]) == Some(interfaces)
      {
        assert lines[..i + 1][..i] == lines[..i];
        if Contains(lines[i], "wl") && Contains(lines[i], "state UP") {
          var fields := SplitOn(lines[i], ':');
          if |fields| < 2 {
            UpInterfacesFails(lines);
            return [];
          }
          interfaces := interfaces + [Strip(fields[1])];
        }
      }
      assert lines[..|lines|] == lines;
    }

    /**
     * `start_hotspot`. `nmcliSetupOk` and `systemdSetupOk` are what the
     * setup for each mode returns, and `upOk` whether `nmcli con up hotspot`
     * exits with status 0; `steps` records what was run. A failing
     * `nmcli con up` raises CalledProcessError out of `start_hotspot`
     * (`raised`), and then nothing is returned.
     */
    method StartHotspot(installed: set<Tool>, nmcliSetupOk: bool, systemdSetupOk: bool, upOk: bool)
      returns (success: bool, raised: bool, steps: seq<Step>)
      requires Valid()
      ensures raised <==> (forall t :: t in RequiredTools(NmcliMode()) ==> t in installed) &&
                          NmcliMode() && nmcliSetupOk && !upOk
      ensures success <==> !raised && (forall t :: t in RequiredTools(NmcliMode()) ==> t in installed) &&
                           (if NmcliMode() then nmcliSetupOk else systemdSetupOk)
      ensures (exists t :: t in RequiredTools(NmcliMode()) && t !in installed) ==> steps == []
      ensures ShowStatus in steps <==> success
      ensures ConnectionUp in steps <==> (success && NmcliMode()) || raised
    {
      raised := false;
      var ok, _ := CheckDependencies(installed);
      if !ok {
        return false, false, [];
      }
      if Lookup(config, "mode") == Some(PyStr("nmcli")) {
        success := nmcliSetupOk;
        steps := [SetupNmcli];
        if success {
          steps := steps + [ConnectionUp];
          if !upOk {
            return false, true, steps;
          }
        }
      } else {
        success := systemdSetupOk;
        steps := [SetupSystemd];
      }
      if success {
        steps := steps + [ShowStatus];
      }
    }

    /**
     * `configure`: the four conditional assignments, then `save_config`.
     * What they leave under each key is `ConfigureLookup`.
     */
    method Configure(ch: Changes)
      requires Valid()
      modifies this
      ensures Valid()
      ensures config == ConfigureDict(old(config), ch)
      ensures configFile == Some(config)
    {
      ghost var c0 := config;
      assert HasSettingKeys(c0) by {
        assert DefaultKeys[0] == "ssid" && DefaultKeys[1] == "password";
        assert DefaultKeys[2] == "interface" && DefaultKeys[3] == "mode";
      }
      config := SetIf(config, "ssid", Given(ch.ssid), ch.ssid);
      config := SetIf(config, "password", Given(ch.password), ch.password);
      config := SetIf(config, "interface", Given(ch.interface), ch.interface);
      var knownMode := Given(ch.mode) && (ch.mode.value == "nmcli" || ch.mode.value == "systemd");
      config := SetIf(config, "mode", knownMode, ch.mode);
      assert Keys(config) == Keys(c0);
      SaveConfig();
    }
  }

  /** The search gives up exactly when a selected line has no ':' to split at. */
  lemma {:induction false} UpInterfacesFails(lines: seq<string>)
    ensures UpInterfaces(lines).None? <==> exists i :: 0 <= i < |lines| && IsUpWireless(lines[i]) && ':' !in lines[i]
  {
    if lines != [] {
      var init := lines[..|lines| - 1];
      UpInterfacesFails(init);
      assert forall i :: 0 <= i < |init| ==> lines[i] == init[i];
    }
  }

  /** Every selected line contributes its name, and every name comes from a selected line. */
  lemma {:induction false} UpInterfacesNames(lines: seq<string>, n: string)
    requires UpInterfaces(lines).Some?
    ensures n in UpInterfaces(lines).value <==> exists i :: 0 <= i < |lines| && IsUpWireless(lines[i]) && IfName(lines[i]) == Some(n)
  {
    if lines != [] {
      var init := lines[..|lines| - 1];
      UpInterfacesNames(init, n);
      assert forall i :: 0 <= i < |init| ==> lines[i] == init[i];
    }
  }


}

=== FILE: lists.dfy ===
/**
 * Order-preserving list comprehensions: `[f(x) for x in xs if ...]` as a
 * partial map that drops the elements it sends to None, a plain filter, and
 * a count. Each is defined on the last element, as a loop that appends
 * builds it.
 */
module Lists {
  import opened Wrappers

  /** The Some results of `f` over `xs`, in order. */
  function FilterMap<A, B>(xs: seq<A>, f: A -> Option<B>): (r: seq<B>)
    ensures |r| <= |xs|
  {
    if xs == [] then []
    else
      var y := f(xs[|xs| - 1]);
      FilterMap(xs[..|xs| - 1], f) + (if y.Some? then [y.value] else [])
  }

  lemma FilterMapSnoc<A, B>(xs: seq<A>, x: A, f: A -> Option<B>)
    ensures FilterMap(xs + [x], f) == FilterMap(xs, f) + (if f(x).Some? then [f(x).value] else [])
  {
    assert (xs + [x])[..|xs|] == xs;
  }

  /** An element is produced exactly when some input maps to it. */
  lemma {:induction false} FilterMapMembers<A, B>(xs: seq<A>, f: A -> Option<B>, y: B)
    ensures y in FilterMap(xs, f) <==> exists i :: 0 <= i < |xs| && f(xs[i]) == Some(y)
  {
    if xs != [] {
      var init := xs[..|xs| - 1];
      FilterMapMembers(init, f, y);
      assert xs == init + [xs[|xs| - 1]];
      if exists i :: 0 <= i < |xs| && f(xs[i]) == Some(y) {
        var i :| 0 <= i < |xs| && f(xs[i]) == Some(y);
        if i < |init| {
          assert init[i] == xs[i];
        }
      }
      if exists i :: 0 <= i < |init| && f(init[i]) == Some(y) {
        var i :| 0 <= i < |init| && f(init[i]) == Some(y);
        assert xs[i] == init[i];
      }
    }
  }

  /** The first Some result of `f` over `xs`: a loop that returns early. */
  function FirstSome<A, B>(xs: seq<A>, f: A -> Option<B>): (r: Option<B>)
    ensures r.Some? ==> exists i :: 0 <= i < |xs| && f(xs[i]) == r && forall j :: 0 <= j < i ==> f(xs[j]).None?
    ensures r.None? ==> forall i :: 0 <= i < |xs| ==> f(xs[i]).None?
  {
    if xs == [] then None
    else if f(xs[0]).Some? then f(xs[0])
    else
      var rest := FirstSome(xs[1..], f);
      assert forall i :: 1 <= i < |xs| ==> xs[i] == xs[1..][i - 1];
      rest
  }

  /** The elements of `xs` that satisfy `p`, in order. */
  function Filter<A>(xs: seq<A>, p: A -> bool): (r: seq<A>)
    ensures |r| <= |xs|
  {
    if xs == [] then []
    else Filter(xs[..|xs| - 1], p) + (if p(xs[|xs| - 1]) then [xs[|xs| - 1]] else [])
  }

  /** Filtering keeps exactly the elements that satisfy the test. */
  lemma {:induction false} FilterMembers<A>(xs: seq<A>, p: A -> bool, x: A)
    ensures x in Filter(xs, p) <==> x in xs && p(x)
  {
    if xs != [] {
      var init := xs[..|xs| - 1];
      FilterMembers(init, p, x);
      assert xs == init + [xs[|xs| - 1]];
    }
  }

  /** Filtering with a test every element passes changes nothing. */
  lemma {:induction false} FilterAll<A>(xs: seq<A>, p: A -> bool)
    requires forall i :: 0 <= i < |xs| ==> p(xs[i])
    ensures Filter(xs, p) == xs
  {
    if xs != [] {
      var init := xs[..|xs| - 1];
      FilterAll(init, p);
      assert xs == init + [xs[|xs| - 1]];
    }
  }

  lemma FilterSnoc<A>(xs: seq<A>, x: A, p: A -> bool)
    ensures Filter(xs + [x], p) == Filter(xs, p) + (if p(x) then [x] else [])
  {
    assert (xs + [x])[..|xs|] == xs;
  }

  /** How many elements of `xs` satisfy `p`. */
  function Count<A>(xs: seq<A>, p: A -> bool): (n: nat)
    ensures n <= |xs|
  {
    if xs == [] then 0 else Count(xs[..|xs| - 1], p) + (if p(xs[|xs| - 1]) then 1 else 0)
  }

  /** The negation of a test. */
  function Not<A>(p: A -> bool): A -> bool
  {
    x => !p(x)
  }

  /** The elements that pass and those that fail together are all of them. */
  lemma {:induction false} CountComplement<A>(xs: seq<A>, p: A -> bool)
    ensures Count(xs, p) + Count(xs, Not(p)) == |xs|
  {
    if xs != [] {
      CountComplement(xs[..|xs| - 1], p);
    }
  }

  /** Counting with two tests that agree everywhere gives the same number. */
  lemma {:induction false} CountSame<A>(xs: seq<A>, p: A -> bool, q: A -> bool)
    requires forall x :: p(x) == q(x)
    ensures Count(xs, p) == Count(xs, q)
  {
    if xs != [] {
      CountSame(xs[..|xs| - 1], p, q);
    }
  }

  /** The count is the length of the filtered list. */
  lemma {:induction false} CountIsFilterLength<A>(xs: seq<A>, p: A -> bool)
    ensures Count(xs, p) == |Filter(xs, p)|
  {
    if xs != [] {
      CountIsFilterLength(xs[..|xs| - 1], p);
    }
  }

  /**
   * The filtered list is an order-preserving selection: the positions it
   * takes its elements from increase, and they are exactly the positions
   * whose element passes the test.
   */
  lemma {:induction false} FilterIndices<A>(xs: seq<A>, p: A -> bool) returns (idx: seq<nat>)
    ensures |idx| == |Filter(xs, p)|
    ensures forall k :: 0 <= k < |idx| ==> idx[k] < |xs| && Filter(xs, p)[k] == xs[idx[k]]
    ensures forall k, l :: 0 <= k < l < |idx| ==> idx[k] < idx[l]
    ensures forall i :: 0 <= i < |xs| ==> (p(xs[i]) <==> i in idx)
  {
    if xs == [] {
      idx := [];
    } else {
      var init := xs[..|xs| - 1];
      var last := |xs| - 1;
      var prev := FilterIndices(init, p);
      var extra: seq<nat> := if p(xs[last]) then [last] else [];
      idx := prev + extra;
      assert Filter(xs, p) == Filter(init, p) + (if p(xs[last]) then [xs[last]] else []);
      forall k | 0 <= k < |idx|
        ensures idx[k] < |xs| && Filter(xs, p)[k] == xs[idx[k]]
      {
        if k < |prev| {
          assert idx[k] == prev[k] && init[prev[k]] == xs[prev[k]];
        }
      }
      forall i | 0 <= i < |xs|
        ensures p(xs[i]) <==> i in idx
      {
        if i < last {
          assert init[i] == xs[i] && i !in extra;
        }
      }
    }
  }
}

=== FILE: lock.dfy ===
/**
 * The recursive inter-process mutex of the hotspot manager
 * (backend/hotspotmanager/lock.py). A per-process counter file counts how
 * deeply the current process holds the mutex; the first lock takes an
 * exclusive flock on the global lock file and the matching last unlock
 * releases it.
 *
 * The file system is abstracted: the counter file is Missing, Garbled (its
 * text is not an integer) or Holds(n), and `globalHeld` records whether this
 * process holds the flock on the global lock file. The descriptors the
 * process already has open, and the descriptor limit, are fields the
 * environment fills in.
 */
module Lock {
  import opened Wrappers

  datatype CounterFile = Missing | Garbled | Holds(n: int)

  /** What a call did: returned a boolean, or raised an exception nobody catches. */
  datatype Outcome = Returned(ok: bool) | RaisedTypeError

  /** The state the counter file and the global flock describe together. */
  datatype MutexState = MutexState(counter: int, globalHeld: bool)

  /** The global lock is held exactly while the nesting depth is positive. */
  predicate Consistent(s: MutexState)
  {
    s.counter >= 0 && (s.globalHeld <==> s.counter > 0)
  }

  /** Effect of a successful `mutex_lock` on the counter and the global lock. */
  function AfterLock(s: MutexState): (r: MutexState)
    ensures Consistent(s) ==> Consistent(r) && r.globalHeld && r.counter == s.counter + 1
  {
    MutexState(s.counter + 1, if s.counter == 0 then true else s.globalHeld)
  }

  /** Effect of a successful `mutex_unlock`: a surplus unlock at depth 0 changes nothing. */
  function AfterUnlock(s: MutexState): (r: MutexState)
    ensures Consistent(s) ==> Consistent(r) && (r.globalHeld <==> s.counter > 1)
    ensures s.counter <= 0 ==> r == s
  {
    if s.counter > 0 then
      MutexState(s.counter - 1, if s.counter - 1 == 0 then false else s.globalHeld)
    else s
  }

  function Locks(n: nat, s: MutexState): MutexState
  {
    if n == 0 then s else AfterLock(Locks(n - 1, s))
  }

  function Unlocks(n: nat, s: MutexState): MutexState
  {
    if n == 0 then s else Unlocks(n - 1, AfterUnlock(s))
  }

  lemma UnlockUndoesLock(s: MutexState)
    requires Consistent(s)
    ensures AfterUnlock(AfterLock(s)) == s
  {
  }

  /** Nesting n locks and then n unlocks leaves the mutex as it was. */
  lemma {:induction false} NestedLocksBalance(n: nat, s: MutexState)
    requires Consistent(s)
    ensures Consistent(Locks(n, s)) && Locks(n, s).counter == s.counter + n
    ensures Unlocks(n, Locks(n, s)) == s
  {
    if n > 0 {
      NestedLocksBalance(n - 1, s);
      var inner := Locks(n - 1, s);
      UnlockUndoesLock(inner);
      assert Unlocks(n, Locks(n, s)) == Unlocks(n - 1, inner);
    }
  }

  /** While any lock is outstanding the global lock stays held. */
  lemma {:induction false} HeldWhileNested(n: nat, k: nat, s: MutexState)
    requires Consistent(s) && k < n
    ensures Unlocks(k, Locks(n, s)).globalHeld
    ensures Unlocks(k, Locks(n, s)).counter == s.counter + n - k
    decreases k
  {
    NestedLocksBalance(n, s);
    if k > 0 {
      HeldWhileNested(n - 1, k - 1, s);
      assert Unlocks(k, Locks(n, s)) == Unlocks(k - 1, AfterUnlock(AfterLock(Locks(n - 1, s))));
      UnlockUndoesLock(Locks(n - 1, s));
    }
  }

  /**
   * The lock bracket `alloc_new_iface` puts around its search, as written:
   * one lock, an unlock before returning and a second unlock in `finally`.
   */
  function AllocBracketAsWritten(s: MutexState): (r: MutexState)
    ensures Consistent(s) ==> Consistent(r) && r.counter == if s.counter > 0 then s.counter - 1 else 0
  {
    AfterUnlock(AfterUnlock(AfterLock(s)))
  }

  /** Called while the caller already holds the mutex once, the bracket releases the caller's hold. */
  lemma AllocBracketReleasesCallersLock()
    ensures AllocBracketAsWritten(MutexState(1, true)) == MutexState(0, false)
  {
  }

  /** The bracket as evidently intended: one lock, one unlock. */
  function AllocBracket(s: MutexState): (r: MutexState)
    ensures Consistent(s) ==> r == s
  {
    AfterUnlock(AfterLock(s))
  }

  class LockManager {
    /** The per-process counter file `/tmp/create_ap.<pid>.lock`. */
    var counterFile: CounterFile
    /** Whether this process holds the exclusive flock on `/tmp/create_ap.all.lock`. */
    var globalHeld: bool
    /** The descriptor of the global lock file, once opened. */
    var lockFd: Option<int>
    var counterMutexFd: Option<int>
    /** Descriptor numbers listed under `/proc/<pid>/fd`. */
    var openFds: set<int>
    /** `os.sysconf('SC_OPEN_MAX')` */
    var maxFds: int

    constructor (openFds: set<int>, maxFds: int)
      ensures this.openFds == openFds && this.maxFds == maxFds
      ensures lockFd == None && counterMutexFd == None
      ensures counterFile == Missing && !globalHeld
    {
      this.openFds := openFds;
      this.maxFds := maxFds;
      lockFd := None;
      counterMutexFd := None;
      counterFile := Missing;
      globalHeld := false;
    }

    /** The lowest descriptor number from 3 below the limit that is not open. */
    method GetAvailFd() returns (fd: Option<int>)
      ensures fd.Some? ==> 3 <= fd.value < maxFds && fd.value !in openFds
      ensures fd.Some? ==> forall x :: 3 <= x < fd.value ==> x in openFds
      ensures fd.None? <==> forall x :: 3 <= x < maxFds ==> x in openFds
    {
      var x := 3;
      while x < maxFds
        invariant 3 <= x
        invariant forall y :: 3 <= y < x && y < maxFds ==> y in openFds
        decreases maxFds - x
      {
        if x !in openFds {
          return Some(x);
        }
        x := x + 1;
      }
      return None;
    }

    /** `cleanup_lock`: remove the counter file if there is one. */
    method CleanupLock()
      modifies this`counterFile
      ensures counterFile == Missing
    {
      counterFile := Missing;
    }

    /**
     * `__init_lock__`. `lockFileFd` is the descriptor the kernel returns for the
     * global lock file (None when opening it fails); `restOk` says whether
     * the ownership change and the write of the counter file succeed.
     */
    method InitLock(lockFileFd: Option<int>, restOk: bool) returns (ok: bool)
      modifies this`counterFile, this`lockFd
      ensures ok <==> (exists x :: 3 <= x < maxFds && x !in openFds) && lockFileFd.Some? && restOk
      ensures counterFile == if ok then Holds(0) else Missing
      ensures ok ==> lockFd == lockFileFd
    {
      CleanupLock();
      var fd := GetAvailFd();
      lockFd := fd;
      if fd.None? {
        return false;
      }
      ghost var free := fd.value;
      if lockFileFd.None? {
        return false;
      }
      lockFd := lockFileFd;
      if !restOk {
        return false;
      }
      counterFile := Holds(0);
      assert 3 <= free < maxFds && free !in openFds;
      return true;
    }

    /** `mutex_lock` */
    method MutexLock() returns (out: Outcome)
      modifies this`counterFile, this`globalHeld, this`counterMutexFd
      ensures out == Returned(true) <==>
              (exists x :: 3 <= x < maxFds && x !in openFds) && old(counterFile).Holds? &&
              (old(counterFile).n != 0 || lockFd.Some?)
      ensures out == RaisedTypeError <==>
              (exists x :: 3 <= x < maxFds && x !in openFds) && old(counterFile) == Holds(0) && lockFd.None?
      ensures out == Returned(true) ==>
              var after := AfterLock(MutexState(old(counterFile).n, old(globalHeld)));
              counterFile == Holds(after.counter) && globalHeld == after.globalHeld
      ensures out != Returned(true) ==> counterFile == old(counterFile) && globalHeld == old(globalHeld)
    {
      var fd := GetAvailFd();
      counterMutexFd := fd;
      if fd.None? {
        return Returned(false);
      }
      ghost var free := fd.value;
      match counterFile {
        case Missing => return Returned(false);
        case Garbled => return Returned(false);
        case Holds(c) =>
          if c == 0 {
            if lockFd.None? {
              assert 3 <= free < maxFds && free !in openFds;
              return RaisedTypeError;
            }
            globalHeld := true;
          }
          counterFile := Holds(c + 1);
          assert 3 <= free < maxFds && free !in openFds;
          return Returned(true);
      }
    }

    /** `mutex_unlock` */
    method MutexUnlock() returns (out: Outcome)
      modifies this`counterFile, this`globalHeld, this`counterMutexFd
      ensures out == Returned(true) <==>
              (exists x :: 3 <= x < maxFds && x !in openFds) && old(counterFile).Holds? &&
              (old(counterFile).n != 1 || lockFd.Some?)
      ensures out == RaisedTypeError <==>
              (exists x :: 3 <= x < maxFds && x !in openFds) && old(counterFile) == Holds(1) && lockFd.None?
      ensures out == Returned(true) ==>
              var after := AfterUnlock(MutexState(old(counterFile).n, old(globalHeld)));
              counterFile == Holds(after.counter) && globalHeld == after.globalHeld
      ensures out != Returned(true) ==> counterFile == old(counterFile) && globalHeld == old(globalHeld)
    {
      var fd := GetAvailFd();
      counterMutexFd := fd;
      if fd.None? {
        return Returned(false);
      }
      ghost var free := fd.value;
      match counterFile {
        case Missing => return Returned(false);
        case Garbled => return Returned(false);
        case Holds(c) =>
          var n := c;
          if n > 0 {
            n := n - 1;
            if n == 0 {
              if lockFd.None? {
                assert 3 <= free < maxFds && free !in openFds;
                return RaisedTypeError;
              }
              globalHeld := false;
            }
          }
          counterFile := Holds(n);
          assert 3 <= free < maxFds && free !in openFds;
          return Returned(true);
      }
    }
  }
}

=== FILE: management.dfy ===
/**
 * The system-settings endpoint (backend/management/views.py): reading the
 * single settings row, creating it with its defaults when there is none,
 * and an update that records which fields it changed. The row's fields are
 * a map from field name to value; a request body is a JSON object, as an
 * ordered dict.
 */
module Management {
  import opened Wrappers
  import opened PyValues
  import opened OrderedDict

  type Fields = map<string, PyVal>

  /** The field defaults of a freshly created settings row (the decimal rates are not modelled). */
  const DefaultSettings: Fields := map[
    "network_name" := PyStr("NetHub"), "max_devices_per_user" := PyInt(5),
    "session_timeout" := PyInt(24), "bandwidth_limit" := PyInt(1000),
    "allow_guest_network" := PyBool(true), "free_internet_enabled" := PyBool(false),
    "paid_mode_enabled" := PyBool(true), "payment_gateway" := PyStr("stripe"),
    "currency" := PyStr("USD"), "require_authentication" := PyBool(true),
    "enable_captive_portal" := PyBool(true), "block_vpn_connections" := PyBool(false),
    "enable_mac_filtering" := PyBool(true), "log_retention_days" := PyInt(90),
    "email_notifications" := PyBool(true), "sms_notifications" := PyBool(false),
    "low_balance_alerts" := PyBool(true), "security_alerts" := PyBool(true),
    "monthly_reports" := PyBool(true), "maintenance_mode" := PyBool(false),
    "auto_backup" := PyBool(true), "backup_frequency" := PyStr("daily"),
    "system_logs" := PyBool(true), "debug_mode" := PyBool(false)]

  const DefaultReason := PyStr("Settings updated via admin panel")

  /** One entry of `changes`: the value a field had and the value it was given. */
  datatype Change = Change(before: PyVal, after: PyVal)

  /** One turn of the update loop: a field whose value differs takes the new value and is recorded. */
  function Step(state: (Fields, Dict<Change>), item: (string, PyVal)): (Fields, Dict<Change>)
  {
    var (fields, changes) := state;
    var (k, v) := item;
    if k in fields && !PyEq(fields[k], v) then (fields[k := v], Set(changes, k, Change(fields[k], v)))
    else state
  }

  /** The fields and the changes after the loop has gone over every item of the request. */
  function Apply(fields: Fields, data: Dict<PyVal>): (Fields, Dict<Change>)
  {
    if data == [] then (fields, []) else Step(Apply(fields, data[..|data| - 1]), data[|data| - 1])
  }

  /**
   * Key by key: a key that is no field is ignored; a field the request does
   * not name, or names with an equal value, keeps its value and is absent
   * from the changes; a field given a different value takes it, and the
   * change records the old and the new value.
   */
  lemma {:induction false} ApplyAt(fields: Fields, data: Dict<PyVal>, k: string)
    requires KeysDistinct(data)
    ensures var (after, changes) := Apply(fields, data);
      && after.Keys == fields.Keys
      && (k !in fields ==> Lookup(changes, k).None?)
      && (k in fields && (Lookup(data, k).None? || PyEq(fields[k], Lookup(data, k).value)) ==>
            after[k] == fields[k] && Lookup(changes, k).None?)
      && (k in fields && Lookup(data, k).Some? && !PyEq(fields[k], Lookup(data, k).value) ==>
            after[k] == Lookup(data, k).value &&
            Lookup(changes, k) == Some(Change(fields[k], Lookup(data, k).value)))
  {
    if data != [] {
      var init := data[..|data| - 1];
      var (k', v') := data[|data| - 1];
      assert data == init + [(k', v')];
      assert KeysDistinct(init);
      ApplyAt(fields, init, k);
      ApplyAt(fields, init, k');
      LookupSnoc(init, k', v', k);
      var (f0, c0) := Apply(fields, init);
      assert k' !in Keys(init) by {
        forall i | 0 <= i < |init|
          ensures Keys(init)[i] != k'
        {
          assert init[i] == data[i];
        }
      }
      if k' in f0 && !PyEq(f0[k'], v') {
        SetLookup(c0, k', Change(f0[k'], v'), k);
      }
    }
  }

  /** When every named field already holds an equal value, the loop changes nothing. */
  lemma {:induction false} ApplyUnchanged(fields: Fields, data: Dict<PyVal>)
    requires forall i :: 0 <= i < |data| && data[i].0 in fields ==> PyEq(fields[data[i].0], data[i].1)
    ensures Apply(fields, data) == (fields, [])
  {
    if data != [] {
      ApplyUnchanged(fields, data[..|data| - 1]);
    }
  }

  lemma PyEqReflexive(a: PyVal)
    ensures PyEq(a, a)
  {
  }

  /** Submitting the same settings a second time changes nothing and records no change. */
  lemma ResubmitChangesNothing(fields: Fields, data: Dict<PyVal>)
    requires KeysDistinct(data)
    ensures var after := Apply(fields, data).0; Apply(after, data) == (after, [])
  {
    var after := Apply(fields, data).0;
    forall i | 0 <= i < |data| && data[i].0 in after
      ensures PyEq(after[data[i].0], data[i].1)
    {
      var k := data[i].0;
      assert Lookup(data, k) == Some(data[i].1) by {
        LookupDistinct(data, i);
      }
      ApplyAt(fields, data, k);
      PyEqReflexive(data[i].1);
    }
    ApplyUnchanged(after, data);
  }

  lemma {:induction false} LookupDistinct<V>(d: Dict<V>, i: int)
    requires KeysDistinct(d) && 0 <= i < |d|
    ensures Lookup(d, d[i].0) == Some(d[i].1)
  {
    if i > 0 {
      assert KeysDistinct(d[1..]);
      assert d[1..][i - 1] == d[i];
      LookupDistinct(d[1..], i - 1);
    }
  }

  /** What the request body turned out to be. */
  datatype Body = Malformed | NotAnObject | Object(data: Dict<PyVal>)

  datatype PutResponse = Updated(changes: Dict<Change>) | BadRequest
  datatype HistoryEntry = HistoryEntry(changedBy: string, changes: Dict<Change>, reason: PyVal)

  /** `data.get(k, default)` */
  function Get(data: Dict<PyVal>, k: string, default: PyVal): (v: PyVal)
    ensures Lookup(data, k).Some? ==> v == Lookup(data, k).value
    ensures Lookup(data, k).None? ==> v == default
  {
    var found := Lookup(data, k);
    if found.Some? then found.value else default
  }

  /** The history record an update leaves: only for a signed-in user who changed something. */
  function Recorded(user: Option<string>, changes: Dict<Change>, data: Dict<PyVal>): (h: seq<HistoryEntry>)
    ensures |h| <= 1
    ensures h != [] <==> user.Some? && changes != []
    ensures h != [] ==> h[0].changes == changes && h[0].changedBy == user.value
  {
    if changes != [] && user.Some? then [HistoryEntry(user.value, changes, Get(data, "reason", DefaultReason))] else []
  }

  /** The loop of `put`. */
  method ApplyData(fields: Fields, data: Dict<PyVal>) returns (after: Fields, changes: Dict<Change>)
    ensures (after, changes) == Apply(fields, data)
  {
    after, changes := fields, [];
    var i := 0;
    while i < |data|
      invariant 0 <= i <= |data|
      invariant (after, changes) == Apply(fields, data[..i])
    {
      assert data[..i + 1][..i] == data[..i];
      var (k, v) := data[i];
      if k in after && !PyEq(after[k], v) {
        changes := Set(changes, k, Change(after[k], v));
        after := after[k := v];
      }
      i := i + 1;
    }
    assert data[..|data|] == data;
  }

  /** The settings table, holding at most one row, and the settings history. */
  class SettingsStore {
    var row: Option<Fields>
    var updatedBy: Option<string>
    var history: seq<HistoryEntry>

    constructor()
      ensures row == None && updatedBy == None && history == []
    {
      row := None;
      updatedBy := None;
      history := [];
    }

    /** `get`: the settings, creating the row with its defaults when there is none. */
    method Read() returns (fields: Fields)
      modifies this`row
      ensures row == Some(fields)
      ensures fields == if old(row).Some? then old(row).value else DefaultSettings
    {
      if row.None? {
        row := Some(DefaultSettings);
      }
      fields := row.value;
    }

    /**
     * `put`: the row (created first if missing) takes the changed values,
     * records who saved it, and a signed-in user's non-empty change set goes
     * to the history. A body that is no JSON object, or a save the database
     * refuses, answers 400 and keeps the row as it was.
     */
    method Update(body: Body, user: Option<string>, saveOk: bool) returns (r: PutResponse)
      modifies this
      ensures body.Malformed? ==> r == BadRequest && row == old(row) && updatedBy == old(updatedBy) && history == old(history)
      ensures !body.Malformed? ==>
        var before := if old(row).Some? then old(row).value else DefaultSettings;
        if body.NotAnObject? || !saveOk then
          r == BadRequest && row == Some(before) && updatedBy == old(updatedBy) && history == old(history)
        else
          var (after, changes) := Apply(before, body.data);
          r == Updated(changes) && row == Some(after) && updatedBy == user &&
          history == old(history) + Recorded(user, changes, body.data)
    {
      if body.Malformed? {
        return BadRequest;
      }
      var before := Read();
      if body.NotAnObject? {
        return BadRequest;
      }
      var after, changes := ApplyData(before, body.data);
      if !saveOk {
        return BadRequest;
      }
      row := Some(after);
      updatedBy := user;
      history := history + Recorded(user, changes, body.data);
      r := Updated(changes);
    }
  }
}

=== FILE: netmanager.dfy ===
/**
 * NetworkManager integration of the hotspot manager
 * (backend/hotspotmanager/netmanager.py): comparing version strings,
 * asking whether NetworkManager manages an interface, and editing the
 * `unmanaged-devices=` entry of NetworkManager.conf so that NetworkManager
 * leaves the access-point interface alone.
 *
 * NetworkManager.conf is a list of lines without their terminating
 * newline; every line of the file is taken to end with one, so text the
 * source appends after an unterminated last line is kept as a line of its
 * own here. The output of the `nmcli` queries is passed in as lines (None
 * when the command fails).
 */
module NetManager {
  import opened Wrappers
  import opened Text

  // ---------------------------------------------------------------------
  // version_cmp

  predicate IsDigits(s: string)
  {
    s != [] && forall i :: 0 <= i < |s| ==> IsDigit(s[i])
  }

  /** `^[0-9]+(\.[0-9]+)*` up to the end of `s`: dot-separated runs of digits. */
  predicate VersionCore(s: string)
  {
    forall k :: 0 <= k < |SplitOn(s, '.')| ==> IsDigits(SplitOn(s, '.')[k])
  }

  /** What `re.match(r'^[0-9]+(\.[0-9]+)*$', s)` accepts: `$` also matches before a final newline. */
  predicate VersionFormat(s: string)
  {
    VersionCore(s) || (|s| > 0 && s[|s| - 1] == '\n' && VersionCore(s[..|s| - 1]))
  }

  function PartValues(parts: seq<string>): (r: seq<nat>)
    requires forall k :: 0 <= k < |parts| ==> IsDigits(parts[k])
    ensures |r| == |parts|
  {
    if parts == [] then []
    else
      assert IsDigits(parts[0]);
      [DigitsValue(parts[0])] + PartValues(parts[1..])
  }

  /** `list(map(int, v.split('.')))`; `int` ignores the final newline. */
  function VersionParts(s: string): (r: seq<nat>)
    requires VersionFormat(s)
    ensures |r| >= 1
  {
    if VersionCore(s) then PartValues(SplitOn(s, '.'))
    else PartValues(SplitOn(s[..|s| - 1], '.'))
  }

  function Tail(s: seq<nat>): seq<nat> { if s == [] then [] else s[1..] }

  /** Component `i`, with missing components read as 0. */
  function Padded(s: seq<nat>, i: nat): nat { if i < |s| then s[i] else 0 }

  /** The comparison loop: 1 if `a` is older, 2 if newer, 0 if equal once padded with zeros. */
  function CmpParts(a: seq<nat>, b: seq<nat>): (r: int)
    ensures r == 0 || r == 1 || r == 2
    decreases |a| + |b|
  {
    if a == [] && b == [] then 0
    else
      var x := if a == [] then 0 else a[0];
      var y := if b == [] then 0 else b[0];
      if x < y then 1 else if x > y then 2 else CmpParts(Tail(a), Tail(b))
  }

  /** `version_cmp`: the wrong-format ValueError is the Err case. */
  function VersionCmp(v1: string, v2: string): (r: Result<int, string>)
    ensures r.Ok? <==> VersionFormat(v1) && VersionFormat(v2)
    ensures r.Ok? ==> r.value == 0 || r.value == 1 || r.value == 2
  {
    if !VersionFormat(v1) || !VersionFormat(v2) then Err("Wrong version format!")
    else Ok(CmpParts(VersionParts(v1), VersionParts(v2)))
  }

  /** Equal versions are exactly those whose zero-padded components all agree. */
  lemma {:induction false} CmpEqualIffPaddedEqual(a: seq<nat>, b: seq<nat>)
    ensures CmpParts(a, b) == 0 <==> forall i :: 0 <= i < |a| + |b| ==> Padded(a, i) == Padded(b, i)
    decreases |a| + |b|
  {
    if a != [] || b != [] {
      CmpEqualIffPaddedEqual(Tail(a), Tail(b));
      if CmpParts(a, b) == 0 {
        forall i | 0 <= i < |a| + |b| ensures Padded(a, i) == Padded(b, i) {
          if i > 0 {
            assert Padded(a, i) == Padded(Tail(a), i - 1);
            assert Padded(b, i) == Padded(Tail(b), i - 1);
          }
        }
      } else if forall i :: 0 <= i < |a| + |b| ==> Padded(a, i) == Padded(b, i) {
        assert Padded(a, 0) == Padded(b, 0);
        forall i | 0 <= i < |Tail(a)| + |Tail(b)| ensures Padded(Tail(a), i) == Padded(Tail(b), i) {
          assert Padded(a, i + 1) == Padded(b, i + 1);
        }
        assert false;
      }
    }
  }

  /** Swapping the arguments swaps "older" and "newer". */
  lemma {:induction false} CmpSwap(a: seq<nat>, b: seq<nat>)
    ensures CmpParts(a, b) == 1 <==> CmpParts(b, a) == 2
    ensures CmpParts(a, b) == 0 <==> CmpParts(b, a) == 0
    decreases |a| + |b|
  {
    if a != [] || b != [] {
      CmpSwap(Tail(a), Tail(b));
    }
  }

  /** "Older than" is transitive. */
  lemma {:induction false} CmpOlderTransitive(a: seq<nat>, b: seq<nat>, c: seq<nat>)
    requires CmpParts(a, b) == 1 && CmpParts(b, c) == 1
    ensures CmpParts(a, c) == 1
    decreases |a| + |b| + |c|
  {
    var x, y, z := Padded(a, 0), Padded(b, 0), Padded(c, 0);
    if x == y && y == z {
      CmpOlderTransitive(Tail(a), Tail(b), Tail(c));
    }
  }

  /** A version compares equal to itself. */
  lemma {:induction false} CmpReflexive(a: seq<nat>)
    ensures CmpParts(a, a) == 0
    decreases |a|
  {
    if a != [] { CmpReflexive(Tail(a)); }
  }

  lemma CmpExamples()
    ensures CmpParts([0, 9, 8], [0, 9, 9]) == 1
    ensures CmpParts([1, 0], [0, 9, 9]) == 2
    ensures CmpParts([1, 2], [1, 2, 0]) == 0
  {
  }

  // ---------------------------------------------------------------------
  // Interface queries

  /** `iface in stdout.splitlines()` for `nmcli -t -f DEVICE d`; False when the command fails. */
  predicate KnowsIface(deviceLines: Option<seq<string>>, iface: string)
  {
    deviceLines.Some? && iface in deviceLines.value
  }

  /**
   * `networkmanager_iface_is_unmanaged`: not an interface, False; unknown to
   * NetworkManager, True; otherwise whether a `DEVICE:STATE` line starts
   * with `<iface>:unmanaged`.
   */
  function IfaceIsUnmanaged(isInterface: bool, deviceLines: Option<seq<string>>,
                            stateLines: Option<seq<string>>, iface: string): (r: bool)
    ensures !isInterface ==> !r
    ensures isInterface && !KnowsIface(deviceLines, iface) ==> r
    ensures isInterface && KnowsIface(deviceLines, iface) ==>
            (r <==> stateLines.Some? &&
                    exists k :: 0 <= k < |stateLines.value| && StartsWith(stateLines.value[k], iface + ":unmanaged"))
  {
    if !isInterface then false
    else if !KnowsIface(deviceLines, iface) then true
    else stateLines.Some? && exists k :: 0 <= k < |stateLines.value| && StartsWith(stateLines.value[k], iface + ":unmanaged")
  }

  // ---------------------------------------------------------------------
  // The unmanaged-devices entry of NetworkManager.conf

  const UnmanagedKey: string := "unmanaged-devices="

  predicate IsUnmanagedLine(line: string) { StartsWith(line, UnmanagedKey) }

  predicate IsKeyfileHeader(line: string) { StartsWith(line, "[keyfile]") }

  predicate HasKeyfile(lines: seq<string>)
  {
    exists k :: 0 <= k < |lines| && IsKeyfileHeader(lines[k])
  }

  /** The first `unmanaged-devices=` line, stripped. */
  function FirstUnmanaged(lines: seq<string>): Option<string>
  {
    if lines == [] then None
    else if IsUnmanagedLine(lines[0]) then Some(Strip(lines[0]))
    else FirstUnmanaged(lines[1..])
  }

  /** The device specs of an unmanaged line: separated by ';', ',' or whitespace. */
  function ParseEntries(line: string): (r: seq<string>)
    ensures forall k :: 0 <= k < |r| ==> r[k] != [] && NoWs(r[k])
  {
    Words(ReplaceAll(ReplaceAll(ReplaceAll(line, UnmanagedKey, ""), ";", " "), ",", " "))
  }

  function FormatLine(entries: seq<string>): string
  {
    UnmanagedKey + Join(entries, ";")
  }

  /** The entries currently listed: those of the first unmanaged line. */
  function Listed(lines: seq<string>): seq<string>
  {
    match FirstUnmanaged(lines)
    case None => []
    case Some(l) => ParseEntries(l)
  }

  /** A device spec that survives a write and a re-read unchanged. */
  predicate PlainEntry(e: string)
  {
    e != [] && NoWs(e) && ';' !in e && ',' !in e && '=' !in e
  }

  predicate PlainEntries(es: seq<string>)
  {
    forall k :: 0 <= k < |es| ==> PlainEntry(es[k])
  }

  lemma FormatLineStripped(es: seq<string>)
    requires PlainEntries(es)
    ensures Strip(FormatLine(es)) == FormatLine(es)
  {
    var j := Join(es, ";");
    var line := FormatLine(es);
    JoinNoWs(es, ";");
    assert line[0] == 'u';
    assert line[|line| - 1] == if j == [] then '=' else j[|j| - 1];
    StripOfStripped(line);
  }

  lemma FormatLineDropKey(es: seq<string>)
    requires PlainEntries(es)
    ensures ReplaceAll(FormatLine(es), UnmanagedKey, "") == Join(es, ";")
  {
    var j := Join(es, ";");
    var line := FormatLine(es);
    JoinNoChar(es, ";", '=');
    assert line[..|UnmanagedKey|] == UnmanagedKey;
    assert line[|UnmanagedKey|..] == j;
    NotContainsChar(j, UnmanagedKey, '=');
    ReplaceAbsent(j, UnmanagedKey, "");
  }

  lemma JoinedWords(es: seq<string>)
    requires PlainEntries(es)
    ensures Words(ReplaceAll(ReplaceAll(Join(es, ";"), ";", " "), ",", " ")) == es
  {
    ReplaceJoin(es, ';', " ");
    JoinNoChar(es, " ", ',');
    NotContainsChar(Join(es, " "), ",", ',');
    ReplaceAbsent(Join(es, " "), ",", " ");
    WordsOfJoin(es);
  }

  /** Writing a list of plain entries and parsing the line back yields the same list. */
  lemma EntriesRoundTrip(es: seq<string>)
    requires PlainEntries(es)
    ensures ParseEntries(Strip(FormatLine(es))) == es
  {
    FormatLineStripped(es);
    FormatLineDropKey(es);
    JoinedWords(es);
  }

  /** `fix_unmanaged` and the emptied-list case of `rm_unmanaged`: every unmanaged line dropped. */
  function DropUnmanaged(lines: seq<string>): (r: seq<string>)
    ensures |r| <= |lines|
    ensures forall k :: 0 <= k < |r| ==> !IsUnmanagedLine(r[k])
    ensures forall k :: 0 <= k < |r| ==> r[k] in lines
  {
    if lines == [] then []
    else if IsUnmanagedLine(lines[0]) then DropUnmanaged(lines[1..])
    else [lines[0]] + DropUnmanaged(lines[1..])
  }

  /** Dropping twice is dropping once, and other lines keep their order. */
  lemma {:induction false} DropUnmanagedIdempotent(lines: seq<string>)
    ensures DropUnmanaged(DropUnmanaged(lines)) == DropUnmanaged(lines)
    ensures (forall k :: 0 <= k < |lines| ==> !IsUnmanagedLine(lines[k])) ==> DropUnmanaged(lines) == lines
  {
    if lines != [] {
      DropUnmanagedIdempotent(lines[1..]);
      if !IsUnmanagedLine(lines[0]) {
        assert DropUnmanaged(lines) == [lines[0]] + DropUnmanaged(lines[1..]);
      }
    }
  }

  /** Every unmanaged line replaced by `newLine` (the non-empty case of `rm_unmanaged`). */
  function ReplaceUnmanaged(lines: seq<string>, newLine: string): (r: seq<string>)
    ensures |r| == |lines|
  {
    if lines == [] then []
    else [if IsUnmanagedLine(lines[0]) then newLine else lines[0]] + ReplaceUnmanaged(lines[1..], newLine)
  }

  /**
   * The second pass of `add_unmanaged`: unmanaged lines inside the
   * `[keyfile]` section replaced by `newLine`, everything else copied.
   */
  function ReplaceInKeyfile(lines: seq<string>, inKeyfile: bool, newLine: string): (r: seq<string>)
    ensures |r| == |lines|
  {
    if lines == [] then []
    else
      var inside := if IsKeyfileHeader(lines[0]) then true
                    else if inKeyfile && StartsWith(lines[0], "[") then false
                    else inKeyfile;
      [if inside && IsUnmanagedLine(lines[0]) then newLine else lines[0]] +
      ReplaceInKeyfile(lines[1..], inside, newLine)
  }

  /** The spec `add_unmanaged` looks for: by MAC for NetworkManager older than 0.9.9, else by name. */
  function UnmanagedTarget(older: bool, iface: string, mac: string): string
  {
    if older then "mac:" + mac else "interface-name:" + iface
  }

  datatype AddOutcome = AlreadyListed | Written(lines: seq<string>)

  /** The new configuration `add_unmanaged` writes, as the source writes it. */
  function AddRewriteAsWritten(lines: seq<string>, target: string): AddOutcome
  {
    var first := FirstUnmanaged(lines);
    var entries := Listed(lines);
    if entries != [] && target in entries then AlreadyListed
    else
      var newLine := FormatLine(entries + [target]);
      var kept := DropUnmanaged(lines);
      Written(
        if !HasKeyfile(lines) then kept + ["", "", "[keyfile]"]
        else if first.None? then kept + [newLine]
        else kept + ReplaceInKeyfile(lines, false, newLine))
  }

  /**
   * With a `[keyfile]` section that already has an unmanaged line, the
   * whole file is written out a second time after the first copy.
   */
  lemma AddAsWrittenDuplicatesFile(es: seq<string>, target: string)
    requires es != [] && PlainEntries(es) && target !in es
    ensures AddRewriteAsWritten(["[keyfile]", FormatLine(es)], target)
         == Written(["[keyfile]", "[keyfile]", FormatLine(es + [target])])
  {
    var lines := ["[keyfile]", FormatLine(es)];
    var nl := FormatLine(es + [target]);
    assert AddRewriteAsWritten(lines, target) ==
           Written(DropUnmanaged(lines) + ReplaceInKeyfile(lines, false, nl)) by {
      ListedAfterHeader("[keyfile]", es);
      assert HasKeyfile(lines) by { assert IsKeyfileHeader(lines[0]); }
    }
    assert DropUnmanaged(lines) == ["[keyfile]"] by {
      ListedAfterHeader("[keyfile]", es);
    }
    SecondPassReplaces(es, nl);
  }

  lemma ListedAfterHeader(hdr: string, es: seq<string>)
    requires hdr != [] && hdr[0] != 'u' && PlainEntries(es)
    ensures FirstUnmanaged([hdr, FormatLine(es)]).Some?
    ensures Listed([hdr, FormatLine(es)]) == es
    ensures DropUnmanaged([hdr, FormatLine(es)]) == [hdr]
  {
    var b := FormatLine(es);
    var lines := [hdr, b];
    assert FirstUnmanaged(lines) == FirstUnmanaged([b]) && DropUnmanaged(lines) == [hdr] + DropUnmanaged([b]) by {
      NotStartsWith(hdr, UnmanagedKey);
      assert lines[1..] == [b];
    }
    assert FirstUnmanaged([b]) == Some(Strip(b)) && DropUnmanaged([b]) == [] by {
      FormatLineIsUnmanaged(es);
    }
    EntriesRoundTrip(es);
  }

  lemma SecondPassReplaces(es: seq<string>, nl: string)
    ensures ReplaceInKeyfile(["[keyfile]", FormatLine(es)], false, nl) == ["[keyfile]", nl]
  {
    var b := FormatLine(es);
    NotStartsWith(b, "[keyfile]");
    NotStartsWith(b, "[");
    FormatLineIsUnmanaged(es);
    assert ReplaceInKeyfile([b], true, nl) == [nl];
    assert ["[keyfile]", b][1..] == [b];
  }

  /**
   * Without a `[keyfile]` section, the rewrite lists nothing: the new entry
   * is never written and every existing entry is lost.
   */
  lemma AddAsWrittenWithoutKeyfileLosesEntries(lines: seq<string>, target: string)
    requires !HasKeyfile(lines) && target !in Listed(lines)
    ensures AddRewriteAsWritten(lines, target).Written?
    ensures Listed(AddRewriteAsWritten(lines, target).lines) == []
  {
    var kept := DropUnmanaged(lines);
    var out := kept + ["", "", "[keyfile]"];
    assert AddRewriteAsWritten(lines, target) == Written(out);
    NotStartsWith("[keyfile]", UnmanagedKey);
    NoUnmanagedLine(out);
  }

  lemma {:induction false} NoUnmanagedLine(lines: seq<string>)
    requires forall k :: 0 <= k < |lines| ==> !IsUnmanagedLine(lines[k])
    ensures FirstUnmanaged(lines) == None && Listed(lines) == []
  {
    if lines != [] {
      NoUnmanagedLine(lines[1..]);
    }
  }

  /** `kept` with `newLine` placed right after its first `[keyfile]` header. */
  function InsertAfterKeyfile(kept: seq<string>, newLine: string): (r: seq<string>)
    ensures |r| == |kept| + 1
  {
    if kept == [] then [newLine]
    else if IsKeyfileHeader(kept[0]) then [kept[0], newLine] + kept[1..]
    else [kept[0]] + InsertAfterKeyfile(kept[1..], newLine)
  }

  /**
   * `add_unmanaged` as evidently intended: all other lines once, and one
   * unmanaged line listing the old entries and the new one inside the
   * `[keyfile]` section (created when missing).
   */
  function AddRewrite(lines: seq<string>, target: string): AddOutcome
  {
    var entries := Listed(lines);
    if entries != [] && target in entries then AlreadyListed
    else
      var newLine := FormatLine(entries + [target]);
      var kept := DropUnmanaged(lines);
      Written(PlaceUnmanaged(kept, newLine))
  }

  /** Where the intended `add_unmanaged` puts the new line: in `[keyfile]`, created at the end if missing. */
  function PlaceUnmanaged(kept: seq<string>, newLine: string): seq<string>
  {
    if HasKeyfile(kept) then InsertAfterKeyfile(kept, newLine)
    else kept + ["", "", "[keyfile]", newLine]
  }

  lemma PlaceUnmanagedListing(kept: seq<string>, newLine: string)
    requires forall k :: 0 <= k < |kept| ==> !IsUnmanagedLine(kept[k])
    requires IsUnmanagedLine(newLine)
    ensures FirstUnmanaged(PlaceUnmanaged(kept, newLine)) == Some(Strip(newLine))
    ensures DropUnmanaged(PlaceUnmanaged(kept, newLine)) ==
            if HasKeyfile(kept) then kept else kept + ["", "", "[keyfile]"]
  {
    if HasKeyfile(kept) {
      assert PlaceUnmanaged(kept, newLine) == InsertAfterKeyfile(kept, newLine);
      FirstUnmanagedOfInsert(kept, newLine);
      DropUnmanagedOfInsert(kept, newLine);
    } else {
      var tail := ["", "", "[keyfile]", newLine];
      assert PlaceUnmanaged(kept, newLine) == kept + tail;
      FirstUnmanagedOfAppend(kept, tail);
      DropUnmanagedOfAppend(kept, tail);
      KeyfileTail(newLine);
    }
  }

  /** The lines appended when the `[keyfile]` section is missing. */
  lemma KeyfileTail(newLine: string)
    requires IsUnmanagedLine(newLine)
    ensures FirstUnmanaged(["", "", "[keyfile]", newLine]) == Some(Strip(newLine))
    ensures DropUnmanaged(["", "", "[keyfile]", newLine]) == ["", "", "[keyfile]"]
  {
    NotStartsWith("[keyfile]", UnmanagedKey);
    var t3 := [newLine];
    var t2 := ["[keyfile]"] + t3;
    var t1 := [""] + t2;
    assert ["", "", "[keyfile]", newLine] == [""] + t1;
    assert FirstUnmanaged(t3) == Some(Strip(newLine)) && DropUnmanaged(t3) == [];
    assert FirstUnmanaged(t2) == Some(Strip(newLine)) && DropUnmanaged(t2) == ["[keyfile]"];
    assert FirstUnmanaged(t1) == Some(Strip(newLine)) && DropUnmanaged(t1) == ["", "[keyfile]"];
  }

  lemma {:induction false} FirstUnmanagedOfInsert(kept: seq<string>, newLine: string)
    requires forall k :: 0 <= k < |kept| ==> !IsUnmanagedLine(kept[k])
    requires IsUnmanagedLine(newLine)
    ensures FirstUnmanaged(InsertAfterKeyfile(kept, newLine)) == Some(Strip(newLine))
  {
    if kept != [] {
      var r := InsertAfterKeyfile(kept, newLine);
      assert FirstUnmanaged(r) == FirstUnmanaged(r[1..]) by {
        assert !IsUnmanagedLine(kept[0]) && r[0] == kept[0];
      }
      if IsKeyfileHeader(kept[0]) {
        assert FirstUnmanaged(r[1..]) == Some(Strip(newLine)) by {
          assert r[1..][0] == newLine;
        }
      } else {
        assert FirstUnmanaged(r[1..]) == Some(Strip(newLine)) by {
          assert r[1..] == InsertAfterKeyfile(kept[1..], newLine);
          FirstUnmanagedOfInsert(kept[1..], newLine);
        }
      }
    }
  }

  lemma {:induction false} DropUnmanagedOfInsert(kept: seq<string>, newLine: string)
    requires forall k :: 0 <= k < |kept| ==> !IsUnmanagedLine(kept[k])
    requires IsUnmanagedLine(newLine)
    ensures DropUnmanaged(InsertAfterKeyfile(kept, newLine)) == kept
  {
    if kept != [] {
      var r := InsertAfterKeyfile(kept, newLine);
      assert !IsUnmanagedLine(kept[0]) && r[0] == kept[0];
      assert DropUnmanaged(r) == [kept[0]] + DropUnmanaged(r[1..]);
      if IsKeyfileHeader(kept[0]) {
        assert r[1..][0] == newLine && r[1..][1..] == kept[1..];
        assert DropUnmanaged(r[1..]) == DropUnmanaged(kept[1..]);
        DropUnmanagedIdempotent(kept[1..]);
      } else {
        assert r[1..] == InsertAfterKeyfile(kept[1..], newLine);
        DropUnmanagedOfInsert(kept[1..], newLine);
      }
      assert kept == [kept[0]] + kept[1..];
    }
  }

  lemma {:induction false} FirstUnmanagedOfAppend(kept: seq<string>, tail: seq<string>)
    requires forall k :: 0 <= k < |kept| ==> !IsUnmanagedLine(kept[k])
    ensures FirstUnmanaged(kept + tail) == FirstUnmanaged(tail)
  {
    if kept != [] {
      var r := kept + tail;
      assert !IsUnmanagedLine(kept[0]) && r[0] == kept[0];
      assert r[1..] == kept[1..] + tail;
      assert FirstUnmanaged(r) == FirstUnmanaged(r[1..]);
      FirstUnmanagedOfAppend(kept[1..], tail);
    } else {
      assert kept + tail == tail;
    }
  }

  lemma {:induction false} DropUnmanagedOfAppend(kept: seq<string>, tail: seq<string>)
    requires forall k :: 0 <= k < |kept| ==> !IsUnmanagedLine(kept[k])
    ensures DropUnmanaged(kept + tail) == kept + DropUnmanaged(tail)
  {
    if kept != [] {
      var r := kept + tail;
      assert !IsUnmanagedLine(kept[0]) && r[0] == kept[0];
      assert r[1..] == kept[1..] + tail;
      assert DropUnmanaged(r) == [kept[0]] + DropUnmanaged(r[1..]);
      DropUnmanagedOfAppend(kept[1..], tail);
      assert kept + DropUnmanaged(tail) == [kept[0]] + (kept[1..] + DropUnmanaged(tail));
    } else {
      assert kept + tail == tail;
    }
  }

  /**
   * After the intended `add_unmanaged` the configuration lists the old
   * entries followed by the new one, and every other line is as before.
   */
  lemma AddListsTarget(lines: seq<string>, target: string)
    requires PlainEntries(Listed(lines)) && PlainEntry(target)
    requires target !in Listed(lines)
    ensures AddRewrite(lines, target).Written?
    ensures Listed(AddRewrite(lines, target).lines) == Listed(lines) + [target]
    ensures DropUnmanaged(AddRewrite(lines, target).lines) ==
            DropUnmanaged(lines) + if HasKeyfile(lines) then [] else ["", "", "[keyfile]"]
  {
    var es := Listed(lines) + [target];
    var kept := DropUnmanaged(lines);
    AddRewriteShape(lines, target);
    assert PlainEntries(es);
    PlacedListing(kept, es);
    KeyfileSurvivesDrop(lines);
  }

  lemma AddRewriteShape(lines: seq<string>, target: string)
    requires target !in Listed(lines)
    ensures AddRewrite(lines, target) ==
            Written(PlaceUnmanaged(DropUnmanaged(lines), FormatLine(Listed(lines) + [target])))
  {
  }

  /** Placing the formatted entries lists exactly them and keeps the other lines. */
  lemma PlacedListing(kept: seq<string>, es: seq<string>)
    requires forall k :: 0 <= k < |kept| ==> !IsUnmanagedLine(kept[k])
    requires PlainEntries(es)
    ensures Listed(PlaceUnmanaged(kept, FormatLine(es))) == es
    ensures DropUnmanaged(PlaceUnmanaged(kept, FormatLine(es))) ==
            if HasKeyfile(kept) then kept else kept + ["", "", "[keyfile]"]
  {
    var newLine := FormatLine(es);
    EntriesRoundTrip(es);
    FormatLineIsUnmanaged(es);
    PlaceUnmanagedListing(kept, newLine);
  }

  lemma HeaderNotUnmanaged(l: string)
    ensures !(IsKeyfileHeader(l) && IsUnmanagedLine(l))
  {
    if IsKeyfileHeader(l) {
      assert l[0] == '[';
      NotStartsWith(l, UnmanagedKey);
    }
  }

  lemma {:induction false} HasKeyfileCons(lines: seq<string>)
    requires lines != []
    ensures HasKeyfile(lines) <==> IsKeyfileHeader(lines[0]) || HasKeyfile(lines[1..])
  {
    if HasKeyfile(lines) {
      var k :| 0 <= k < |lines| && IsKeyfileHeader(lines[k]);
      if k > 0 { assert IsKeyfileHeader(lines[1..][k - 1]); }
    }
    if HasKeyfile(lines[1..]) {
      var k :| 0 <= k < |lines[1..]| && IsKeyfileHeader(lines[1..][k]);
      assert IsKeyfileHeader(lines[k + 1]);
    }
  }

  /** Header lines are never unmanaged lines, so dropping keeps the `[keyfile]` section. */
  lemma {:induction false} KeyfileSurvivesDrop(lines: seq<string>)
    ensures HasKeyfile(DropUnmanaged(lines)) <==> HasKeyfile(lines)
  {
    if lines != [] {
      KeyfileSurvivesDrop(lines[1..]);
      HeaderNotUnmanaged(lines[0]);
      HasKeyfileCons(lines);
      var d := DropUnmanaged(lines);
      if !IsUnmanagedLine(lines[0]) {
        assert d == [lines[0]] + DropUnmanaged(lines[1..]);
        HasKeyfileCons(d);
        assert d[1..] == DropUnmanaged(lines[1..]);
      }
    }
  }

  lemma FormatLineIsUnmanaged(es: seq<string>)
    ensures IsUnmanagedLine(FormatLine(es))
  {
    assert FormatLine(es)[..|UnmanagedKey|] == UnmanagedKey;
  }

  /**
   * Python's `list.remove`: the first occurrence goes; the elements before
   * it stay where they are and those after it move up by one.
   */
  function RemoveFirst(xs: seq<string>, x: string): (r: seq<string>)
    requires x in xs
    ensures |r| == |xs| - 1
    ensures multiset(r) == multiset(xs) - multiset{x}
    ensures forall j :: 0 <= j < |r| ==> r[j] == if j < FirstIndex(xs, x) then xs[j] else xs[j + 1]
  {
    var k := FirstIndex(xs, x);
    DropOneMultiset(xs, k);
    xs[..k] + xs[k + 1..]
  }

  lemma DropOneMultiset(xs: seq<string>, k: nat)
    requires k < |xs|
    ensures multiset(xs[..k] + xs[k + 1..]) == multiset(xs) - multiset{xs[k]}
  {
    assert xs == xs[..k] + [xs[k]] + xs[k + 1..];
  }

  /**
   * The new configuration `rm_unmanaged` writes; None when there is no
   * unmanaged line (the call returns False).
   */
  function RmRewrite(lines: seq<string>, target: string): Option<seq<string>>
  {
    if FirstUnmanaged(lines).None? then None
    else
      var entries := Listed(lines);
      var rest := if target in entries then RemoveFirst(entries, target) else entries;
      Some(if rest == [] then DropUnmanaged(lines) else ReplaceUnmanaged(lines, FormatLine(rest)))
  }

  lemma {:induction false} FirstUnmanagedOfReplace(lines: seq<string>, newLine: string)
    requires FirstUnmanaged(lines).Some?
    ensures FirstUnmanaged(ReplaceUnmanaged(lines, newLine)) == Some(Strip(newLine)) || !IsUnmanagedLine(newLine)
    ensures DropUnmanaged(ReplaceUnmanaged(lines, newLine)) == DropUnmanaged(lines) || !IsUnmanagedLine(newLine)
  {
    if IsUnmanagedLine(newLine) {
      FirstUnmanagedOfReplace'(lines, newLine);
    }
  }

  lemma {:induction false} FirstUnmanagedOfReplace'(lines: seq<string>, newLine: string)
    requires IsUnmanagedLine(newLine)
    ensures FirstUnmanaged(lines).Some? ==> FirstUnmanaged(ReplaceUnmanaged(lines, newLine)) == Some(Strip(newLine))
    ensures DropUnmanaged(ReplaceUnmanaged(lines, newLine)) == DropUnmanaged(lines)
  {
    if lines != [] {
      FirstUnmanagedOfReplace'(lines[1..], newLine);
      assert ReplaceUnmanaged(lines, newLine)[1..] == ReplaceUnmanaged(lines[1..], newLine);
    }
  }

  /**
   * `rm_unmanaged` takes exactly one occurrence of the spec off the listed
   * entries and leaves every other line as it was.
   */
  lemma RmUnlistsTarget(lines: seq<string>, target: string)
    requires FirstUnmanaged(lines).Some?
    requires PlainEntries(Listed(lines))
    ensures RmRewrite(lines, target).Some?
    ensures multiset(Listed(RmRewrite(lines, target).value)) ==
            multiset(Listed(lines)) - multiset{target}
    ensures Listed(RmRewrite(lines, target).value) ==
            if target in Listed(lines) then RemoveFirst(Listed(lines), target) else Listed(lines)
    ensures DropUnmanaged(RmRewrite(lines, target).value) == DropUnmanaged(lines)
  {
    var entries := Listed(lines);
    var rest := if target in entries then RemoveFirst(entries, target) else entries;
    assert multiset(rest) == multiset(entries) - multiset{target};
    if rest == [] {
      DropUnmanagedIdempotent(lines);
      NoUnmanagedListsNothing(DropUnmanaged(lines));
    } else {
      assert PlainEntries(rest) by {
        forall k | 0 <= k < |rest| ensures PlainEntry(rest[k]) {
          assert rest[k] in multiset(rest);
        }
      }
      EntriesRoundTrip(rest);
      var newLine := FormatLine(rest);
      assert IsUnmanagedLine(newLine) by { assert newLine[..|UnmanagedKey|] == UnmanagedKey; }
      FirstUnmanagedOfReplace'(lines, newLine);
    }
  }

  lemma {:induction false} NoUnmanagedListsNothing(lines: seq<string>)
    requires forall k :: 0 <= k < |lines| ==> !IsUnmanagedLine(lines[k])
    ensures FirstUnmanaged(lines).None? && Listed(lines) == []
  {
    if lines != [] { NoUnmanagedListsNothing(lines[1..]); }
  }

  /** Adding a new spec and removing it again restores the listed entries (intended add). */
  lemma AddThenRmRestores(lines: seq<string>, target: string)
    requires PlainEntries(Listed(lines)) && PlainEntry(target)
    requires target !in Listed(lines)
    ensures AddRewrite(lines, target).Written?
    ensures RmRewrite(AddRewrite(lines, target).lines, target).Some?
    ensures Listed(RmRewrite(AddRewrite(lines, target).lines, target).value) == Listed(lines)
  {
    AddListsTarget(lines, target);
    var added := AddRewrite(lines, target).lines;
    var es := Listed(lines);
    assert Listed(added) == es + [target];
    assert Listed(added) != [];
    assert RemoveFirst(es + [target], target) == es by { RemoveLast(es, target); }
    if es == [] {
      DropUnmanagedIdempotent(added);
      NoUnmanagedListsNothing(DropUnmanaged(added));
    } else {
      EntriesRoundTrip(es);
      var newLine := FormatLine(es);
      assert IsUnmanagedLine(newLine) by { assert newLine[..|UnmanagedKey|] == UnmanagedKey; }
      FirstUnmanagedOfReplace'(added, newLine);
    }
  }

  lemma RemoveLast(es: seq<string>, x: string)
    requires x !in es
    ensures RemoveFirst(es + [x], x) == es
  {
    assert FirstIndex(es + [x], x) == |es| by {
      assert (es + [x])[..|es|] == es;
    }
  }


  // ---------------------------------------------------------------------
  // The NetworkManager helper object

  /** The lines `fix_unmanaged` writes back: every line that is not an unmanaged line. */
  method KeepManagedLines(lines: seq<string>) returns (kept: seq<string>)
    ensures kept == DropUnmanaged(lines)
  {
    kept := [];
    var i := 0;
    while i < |lines|
      invariant 0 <= i <= |lines|
      invariant kept == DropUnmanaged(lines[..i])
    {
      DropUnmanagedSnoc(lines[..i], lines[i]);
      assert lines[..i + 1] == lines[..i] + [lines[i]];
      if !IsUnmanagedLine(lines[i]) {
        kept := kept + [lines[i]];
      }
      i := i + 1;
    }
    assert lines[..i] == lines;
  }

  lemma {:induction false} DropUnmanagedSnoc(lines: seq<string>, line: string)
    ensures DropUnmanaged(lines + [line]) ==
            DropUnmanaged(lines) + if IsUnmanagedLine(line) then [] else [line]
  {
    if lines == [] {
      assert lines + [line] == [line];
    } else {
      assert (lines + [line])[1..] == lines[1..] + [line];
      DropUnmanagedSnoc(lines[1..], line);
    }
  }

  /**
   * The MAC `add_unmanaged` and `rm_unmanaged` use: the given one, or, for
   * NetworkManager older than 0.9.9 without one, what `get_macaddr`
   * returns (None when that is empty, which makes the call return False).
   */
  function EffectiveMac(older: bool, mac: Option<string>, macLookup: Option<string>): (r: Option<string>)
    ensures r.None? <==> older && mac.None? && (macLookup.None? || macLookup.value == "")
  {
    if older && mac.None? then
      (if macLookup.None? || macLookup.value == "" then None else macLookup)
    else Some(if mac.Some? then mac.value else "None")
  }

  function ConfLines(conf: Option<seq<string>>): seq<string>
  {
    if conf.Some? then conf.value else []
  }

  class NetworkManager {
    /** NetworkManager.conf; None while the file does not exist. */
    var conf: Option<seq<string>>
    /** Interfaces this process added to the unmanaged list. */
    var addedUnmanaged: set<string>
    /** Set by `networkmanager_exists`: NetworkManager is older than 0.9.9. */
    var nmOlderVersion: bool

    constructor (conf: Option<seq<string>>)
      ensures this.conf == conf && addedUnmanaged == {} && !nmOlderVersion
    {
      this.conf := conf;
      addedUnmanaged := {};
      nmOlderVersion := false;
    }

    /**
     * `networkmanager_exists`. `nmcliVersion` is the version `nmcli -v`
     * reports (None when nmcli is missing or prints no version).
     */
    method NetworkManagerExists(nmcliVersion: Option<string>) returns (found: bool)
      requires nmcliVersion.Some? ==> VersionFormat(nmcliVersion.value)
      modifies this`nmOlderVersion
      ensures found <==> nmcliVersion.Some?
      ensures found ==> nmOlderVersion == (VersionCmp(nmcliVersion.value, "0.9.9") == Ok(1))
      ensures !found ==> nmOlderVersion == old(nmOlderVersion)
    {
      if nmcliVersion.None? {
        return false;
      }
      var cmp := VersionCmp(nmcliVersion.value, "0.9.9");
      nmOlderVersion := cmp == Ok(1);
      return true;
    }

    /** `networkmanager_add_unmanaged` */
    method AddUnmanaged(iface: string, mac: Option<string>, nmcliVersion: Option<string>,
                        macLookup: Option<string>) returns (ok: bool)
      requires nmcliVersion.Some? ==> VersionFormat(nmcliVersion.value)
      modifies this
      ensures nmcliVersion.None? ==> !ok && conf == old(conf) && nmOlderVersion == old(nmOlderVersion)
      ensures nmcliVersion.Some? ==> nmOlderVersion == (VersionCmp(nmcliVersion.value, "0.9.9") == Ok(1))
      ensures ok <==> nmcliVersion.Some? && EffectiveMac(nmOlderVersion, mac, macLookup).Some?
      ensures !ok ==> addedUnmanaged == old(addedUnmanaged)
      ensures !ok && nmcliVersion.Some? ==> conf == Some(ConfLines(old(conf)))
      ensures ok ==>
        var outcome := AddRewriteAsWritten(ConfLines(old(conf)),
                         UnmanagedTarget(nmOlderVersion, iface, EffectiveMac(nmOlderVersion, mac, macLookup).value));
        if outcome.AlreadyListed? then conf == Some(ConfLines(old(conf))) && addedUnmanaged == old(addedUnmanaged)
        else conf == Some(outcome.lines) && addedUnmanaged == old(addedUnmanaged) + {iface}
    {
      var found := NetworkManagerExists(nmcliVersion);
      if !found {
        return false;
      }
      ok := AddKnownVersion(iface, mac, macLookup);
    }

    /** The part of `add_unmanaged` after NetworkManager's version is known. */
    method AddKnownVersion(iface: string, mac: Option<string>, macLookup: Option<string>) returns (ok: bool)
      modifies this`conf, this`addedUnmanaged
      ensures ok <==> EffectiveMac(nmOlderVersion, mac, macLookup).Some?
      ensures !ok ==> conf == Some(ConfLines(old(conf))) && addedUnmanaged == old(addedUnmanaged)
      ensures ok ==>
        var outcome := AddRewriteAsWritten(ConfLines(old(conf)),
                         UnmanagedTarget(nmOlderVersion, iface, EffectiveMac(nmOlderVersion, mac, macLookup).value));
        if outcome.AlreadyListed? then conf == Some(ConfLines(old(conf))) && addedUnmanaged == old(addedUnmanaged)
        else conf == Some(outcome.lines) && addedUnmanaged == old(addedUnmanaged) + {iface}
    {
      if conf.None? {
        conf := Some([]);
      }
      var m := EffectiveMac(nmOlderVersion, mac, macLookup);
      if m.None? {
        return false;
      }
      var outcome := AddRewriteAsWritten(conf.value, UnmanagedTarget(nmOlderVersion, iface, m.value));
      if outcome.Written? {
        conf := Some(outcome.lines);
        addedUnmanaged := addedUnmanaged + {iface};
      }
      return true;
    }

    /** `networkmanager_rm_unmanaged` */
    method RmUnmanaged(iface: string, mac: Option<string>, nmcliVersion: Option<string>,
                       macLookup: Option<string>) returns (ok: bool)
      requires nmcliVersion.Some? ==> VersionFormat(nmcliVersion.value)
      modifies this
      ensures nmcliVersion.None? ==> nmOlderVersion == old(nmOlderVersion)
      ensures nmcliVersion.Some? ==> nmOlderVersion == (VersionCmp(nmcliVersion.value, "0.9.9") == Ok(1))
      ensures ok <==> nmcliVersion.Some? && old(conf).Some? &&
                      EffectiveMac(nmOlderVersion, mac, macLookup).Some? &&
                      FirstUnmanaged(old(conf).value).Some?
      ensures !ok ==> conf == old(conf) && addedUnmanaged == old(addedUnmanaged)
      ensures ok ==>
        conf == RmRewrite(old(conf).value,
                  UnmanagedTarget(nmOlderVersion, iface, EffectiveMac(nmOlderVersion, mac, macLookup).value)) &&
        addedUnmanaged == old(addedUnmanaged) - {iface}
    {
      var found := NetworkManagerExists(nmcliVersion);
      if !found || conf.None? {
        return false;
      }
      var m := EffectiveMac(nmOlderVersion, mac, macLookup);
      if m.None? {
        return false;
      }
      var rewritten := RmRewrite(conf.value, UnmanagedTarget(nmOlderVersion, iface, m.value));
      if rewritten.None? {
        return false;
      }
      conf := rewritten;
      addedUnmanaged := addedUnmanaged - {iface};
      return true;
    }

    /** `networkmanager_fix_unmanaged`: drop every unmanaged line. */
    method FixUnmanaged()
      modifies this`conf
      ensures old(conf).None? ==> conf == old(conf)
      ensures old(conf).Some? ==> conf == Some(DropUnmanaged(old(conf).value))
    {
      if conf.None? {
        return;
      }
      var kept := KeepManagedLines(conf.value);
      conf := Some(kept);
    }

    /** `networkmanager_rm_unmanaged_if_needed`: only interfaces this process added. */
    method RmUnmanagedIfNeeded(iface: string, mac: Option<string>, nmcliVersion: Option<string>,
                               macLookup: Option<string>) returns (ok: bool)
      requires nmcliVersion.Some? ==> VersionFormat(nmcliVersion.value)
      modifies this
      ensures iface !in old(addedUnmanaged) ==>
                !ok && conf == old(conf) && addedUnmanaged == old(addedUnmanaged) &&
                nmOlderVersion == old(nmOlderVersion)
      ensures ok ==> iface in old(addedUnmanaged) && iface !in addedUnmanaged
      ensures iface in old(addedUnmanaged) ==>
        && (nmcliVersion.None? ==> nmOlderVersion == old(nmOlderVersion))
        && (nmcliVersion.Some? ==> nmOlderVersion == (VersionCmp(nmcliVersion.value, "0.9.9") == Ok(1)))
        && (ok <==> nmcliVersion.Some? && old(conf).Some? &&
                    EffectiveMac(nmOlderVersion, mac, macLookup).Some? &&
                    FirstUnmanaged(old(conf).value).Some?)
        && (!ok ==> conf == old(conf) && addedUnmanaged == old(addedUnmanaged))
        && (ok ==>
              conf == RmRewrite(old(conf).value,
                        UnmanagedTarget(nmOlderVersion, iface, EffectiveMac(nmOlderVersion, mac, macLookup).value)) &&
              addedUnmanaged == old(addedUnmanaged) - {iface})
    {
      if iface !in addedUnmanaged {
        return false;
      }
      ok := RmUnmanaged(iface, mac, nmcliVersion, macLookup);
    }
  }
}

=== FILE: ordered_dict.dfy ===
/**
 * Python dicts keep insertion order, and both the merged hotspot
 * configuration and `ConfigManager.__str__` depend on it. A dict is a list
 * of bindings with distinct keys; assigning to an existing key keeps its
 * position, a new key goes to the end.
 */
module OrderedDict {
  import opened Wrappers

  type Dict<V> = seq<(string, V)>

  function Keys<V>(d: Dict<V>): (ks: seq<string>)
    ensures |ks| == |d| && forall i :: 0 <= i < |d| ==> ks[i] == d[i].0
  {
    if d == [] then [] else [d[0].0] + Keys(d[1..])
  }

  predicate KeysDistinct<V>(d: Dict<V>)
  {
    forall i, j :: 0 <= i < j < |d| ==> d[i].0 != d[j].0
  }

  /** `d.get(k)` */
  function Lookup<V>(d: Dict<V>, k: string): (r: Option<V>)
    ensures r.Some? <==> k in Keys(d)
  {
    if d == [] then None else if d[0].0 == k then Some(d[0].1) else Lookup(d[1..], k)
  }

  /** `d[k] = v` */
  function Set<V>(d: Dict<V>, k: string, v: V): (r: Dict<V>)
  {
    if d == [] then [(k, v)]
    else if d[0].0 == k then [(k, v)] + d[1..]
    else [d[0]] + Set(d[1..], k, v)
  }

  /** `d.update(src)`: every binding of `src`, in order. */
  function Update<V>(d: Dict<V>, src: Dict<V>): Dict<V>
    decreases |src|
  {
    if src == [] then d else Update(Set(d, src[0].0, src[0].1), src[1..])
  }

  /** The value the last binding of `k` in `src` carries. */
  function LastBinding<V>(src: Dict<V>, k: string): Option<V>
  {
    if src == [] then None
    else if LastBinding(src[1..], k).Some? then LastBinding(src[1..], k)
    else if src[0].0 == k then Some(src[0].1)
    else None
  }

  lemma {:induction false} SetLookup<V>(d: Dict<V>, k: string, v: V, q: string)
    ensures Lookup(Set(d, k, v), q) == if q == k then Some(v) else Lookup(d, q)
  {
    if d != [] && d[0].0 != k {
      SetLookup(d[1..], k, v, q);
    }
  }

  /** Assigning a key keeps the existing order and appends only a new key. */
  lemma {:induction false} SetKeys<V>(d: Dict<V>, k: string, v: V)
    ensures Keys(Set(d, k, v)) == if k in Keys(d) then Keys(d) else Keys(d) + [k]
  {
    if d != [] && d[0].0 != k {
      SetKeys(d[1..], k, v);
      assert Keys(d) == [d[0].0] + Keys(d[1..]);
    }
  }

  lemma {:induction false} SetDistinct<V>(d: Dict<V>, k: string, v: V)
    requires KeysDistinct(d)
    ensures KeysDistinct(Set(d, k, v))
  {
    SetKeys(d, k, v);
    var r := Set(d, k, v);
    forall i, j | 0 <= i < j < |r| ensures r[i].0 != r[j].0 {
      assert Keys(r)[i] == r[i].0 && Keys(r)[j] == r[j].0;
      if k !in Keys(d) && j == |d| {
        assert Keys(r)[i] == Keys(d)[i];
      } else {
        assert Keys(r)[i] == Keys(d)[i] && Keys(r)[j] == Keys(d)[j];
      }
    }
  }

  /** After `d.update(src)`, a key holds its last value in `src`, or its old value. */
  lemma {:induction false} UpdateLookup<V>(d: Dict<V>, src: Dict<V>, q: string)
    ensures Lookup(Update(d, src), q) ==
            if LastBinding(src, q).Some? then LastBinding(src, q) else Lookup(d, q)
    decreases |src|
  {
    if src != [] {
      UpdateLookup(Set(d, src[0].0, src[0].1), src[1..], q);
      SetLookup(d, src[0].0, src[0].1, q);
    }
  }

  lemma {:induction false} UpdateDistinct<V>(d: Dict<V>, src: Dict<V>)
    requires KeysDistinct(d)
    ensures KeysDistinct(Update(d, src))
    decreases |src|
  {
    if src != [] {
      SetDistinct(d, src[0].0, src[0].1);
      UpdateDistinct(Set(d, src[0].0, src[0].1), src[1..]);
    }
  }

  /** Keys already present stay first and in their order. */
  lemma {:induction false} UpdateKeepsOrder<V>(d: Dict<V>, src: Dict<V>)
    ensures |Keys(d)| <= |Keys(Update(d, src))| && Keys(Update(d, src))[..|d|] == Keys(d)
    decreases |src|
  {
    if src != [] {
      var d1 := Set(d, src[0].0, src[0].1);
      SetKeys(d, src[0].0, src[0].1);
      UpdateKeepsOrder(d1, src[1..]);
      assert Keys(d1)[..|d|] == Keys(d);
    }
  }

  /** A key has a last binding exactly when it is bound at all. */
  lemma {:induction false} LastBindingPresent<V>(src: Dict<V>, k: string)
    ensures LastBinding(src, k).Some? <==> k in Keys(src)
  {
    if src != [] {
      LastBindingPresent(src[1..], k);
      assert Keys(src) == [src[0].0] + Keys(src[1..]);
    }
  }

  /** Looking up in a dict with one more binding at the end: an earlier binding wins. */
  lemma {:induction false} LookupSnoc<V>(d: Dict<V>, k: string, v: V, q: string)
    ensures Lookup(d + [(k, v)], q) ==
            if Lookup(d, q).Some? then Lookup(d, q) else if q == k then Some(v) else None
  {
    if d != [] {
      assert (d + [(k, v)])[1..] == d[1..] + [(k, v)];
      LookupSnoc(d[1..], k, v, q);
    }
  }
}

=== FILE: patterns.dfy ===
/**
 * The regular expressions the captive-portal utilities search ARP and
 * neighbour output with (backend/util/helpers.py,
 * backend/util/device_scanner.py, backend/util/device_utils.py), written
 * out as matchers. A matcher looks at the text from one position and
 * returns the captured group; `Search` is `re.search`, which tries every
 * position from the left. `\d` and `\w` are taken as ASCII; `\s` is the
 * whitespace of `str.isspace`.
 */
module Patterns {
  import opened Wrappers
  import opened Text

  /** `re.search`: the group the matcher captures at the leftmost position where it matches. */
  function Search(s: string, at: string -> Option<string>): (r: Option<string>)
    ensures r.Some? ==> exists i :: 0 <= i <= |s| && at(s[i..]) == r && forall j :: 0 <= j < i ==> at(s[j..]).None?
    ensures r.None? ==> forall i :: 0 <= i <= |s| ==> at(s[i..]).None?
    decreases |s|
  {
    if at(s).Some? then (assert s[0..] == s; at(s))
    else if s == [] then None
    else
      var rest := Search(s[1..], at);
      assert forall i :: 1 <= i <= |s| ==> s[i..] == s[1..][i - 1..];
      assert s[0..] == s;
      rest
  }

  predicate IsWordChar(c: char)
  {
    'a' <= c <= 'z' || 'A' <= c <= 'Z' || '0' <= c <= '9' || c == '_'
  }

  /** The length of the longest prefix of `s` whose characters all satisfy the class. */
  function DigitRun(s: string): (n: nat)
    ensures n <= |s| && (forall i :: 0 <= i < n ==> IsDigit(s[i])) && (n == |s| || !IsDigit(s[n]))
  {
    if s == [] || !IsDigit(s[0]) then 0 else 1 + DigitRun(s[1..])
  }

  function WsRun(s: string): (n: nat)
    ensures n <= |s| && (forall i :: 0 <= i < n ==> IsWs(s[i])) && (n == |s| || !IsWs(s[n]))
  {
    if s == [] || !IsWs(s[0]) then 0 else 1 + WsRun(s[1..])
  }

  function WordRun(s: string): (n: nat)
    ensures n <= |s| && (forall i :: 0 <= i < n ==> IsWordChar(s[i])) && (n == |s| || !IsWordChar(s[n]))
  {
    if s == [] || !IsWordChar(s[0]) then 0 else 1 + WordRun(s[1..])
  }

  /** `([0-9A-Fa-f]{2}[:-]){5}([0-9A-Fa-f]{2})`: six hex pairs, each of the five separators ':' or '-'. */
  predicate IsMacText(m: string)
  {
    |m| == 17 &&
    forall k :: 0 <= k < 17 ==> if k % 3 == 2 then m[k] == ':' || m[k] == '-' else IsHexDigit(m[k])
  }

  /** The MAC pattern matched at the start of `s`; the whole match. */
  function MacAt(s: string): (r: Option<string>)
    ensures r.Some? ==> IsMacText(r.value) && StartsWith(s, r.value)
  {
    if |s| >= 17 && IsMacText(s[..17]) then Some(s[..17]) else None
  }

  /** `\((192\.168\.12\.\d+)\)` at the start of `s`; the address inside the parentheses. */
  function ArpIpAt(s: string): (r: Option<string>)
    ensures r.Some? ==> StartsWith(r.value, "192.168.12.") && |r.value| > 11
  {
    if StartsWith(s, "(192.168.12.") then
      var n := DigitRun(s[12..]);
      if n > 0 && 12 + n < |s| && s[12 + n] == ')' then
        assert s[1..12 + n][..11] == s[..12][1..];
        Some(s[1..12 + n])
      else None
    else None
  }

  predicate IsMacOrColon(c: char)
  {
    IsHexDigit(c) || c == ':'
  }

  /** `at\s+([0-9A-Fa-f:]{17})` at the start of `s`; the 17 characters after the whitespace. */
  function ArpMacAt(s: string): (r: Option<string>)
    ensures r.Some? ==> |r.value| == 17 && forall i :: 0 <= i < 17 ==> IsMacOrColon(r.value[i])
  {
    if StartsWith(s, "at") then
      var w := WsRun(s[2..]);
      if w > 0 && 2 + w + 17 <= |s| && forall i :: 2 + w <= i < 2 + w + 17 ==> IsMacOrColon(s[i]) then
        Some(s[2 + w..2 + w + 17])
      else None
    else None
  }

  /** `on\s+(\w+)` at the start of `s`; the word after the whitespace. */
  function OnIfaceAt(s: string): (r: Option<string>)
    ensures r.Some? ==> r.value != [] && forall i :: 0 <= i < |r.value| ==> IsWordChar(r.value[i])
  {
    if StartsWith(s, "on") then
      var w := WsRun(s[2..]);
      var n := WordRun(s[2 + w..]);
      if w > 0 && n > 0 then Some(s[2 + w..2 + w + n]) else None
    else None
  }

  /** `re.match(mac_pattern, s)`: the MAC pattern at the start; `s` may go on after it. */
  predicate MatchesMac(s: string)
  {
    MacAt(s).Some?
  }
}

=== FILE: payments.dfy ===
/**
 * The payment views (backend/payments/views.py): starting a payment,
 * queueing M-Pesa payments, and applying M-Pesa callbacks, which complete
 * or fail a transaction and grant internet access.
 *
 * The database tables are fields of one `Payments` object: transactions
 * keyed by their UUID text, the queue and the logs in creation order.
 * Clock readings are a parameter `now` in seconds.
 */
module Payments {
  import opened Wrappers
  import opened Lists
  import Text

  /** A `PricingPlan` row. */
  datatype Plan = Plan(name: string, duration: string, durationMinutes: nat, price: int, isActive: bool)

  /** A `PaymentTransaction` row. */
  datatype Transaction = Transaction(
    user: string, planId: string, amount: int, paymentMethod: Option<string>, expiresAt: int,
    mpesaPhone: Option<string>, status: string, merchantRequestId: Option<string>,
    checkoutRequestId: Option<string>, queuePosition: Option<nat>, completedAt: Option<int>,
    mpesaTransactionId: Option<string>)

  /** A `PaymentQueue` row. */
  datatype QueueEntry = QueueEntry(txId: string, position: nat, estimatedWaitTime: nat, processedAt: Option<int>)

  /** An `InternetAccess` row. */
  datatype Access = Access(user: string, txId: string, planId: string, endTime: int, bandwidthLimit: nat)

  /** The fields of an M-Pesa callback the view reads: ResultCode, CheckoutRequestID and the first Item's Value. */
  datatype Callback = Callback(resultCode: Option<int>, checkoutRequestId: Option<string>, receipt: Option<string>)

  /** An `MpesaCallback` log row. */
  datatype CallbackRecord = CallbackRecord(data: Option<Callback>, processed: bool, processingError: Option<string>)

  /** The body of a payment request: plan_id, payment_method and phone_number. */
  datatype PaymentRequest = PaymentRequest(planId: Option<string>, paymentMethod: Option<string>, phoneNumber: Option<string>)

  /** What `parse_json_body` turned the request body into. */
  datatype RequestBody =
    /** `json.loads` raised JSONDecodeError, so the body parsed as None. */
    | Undecodable
    /** A falsy JSON value: `{}`, `[]`, `0`, `""`, `false` or `null`. */
    | Falsy
    /** Any other value that is not an object, of the named Python type; it has no `get`. */
    | NotAnObject(typeName: string)
    /** An object with at least one key. */
    | Object(req: PaymentRequest)

  datatype InitiateResponse =
    | Initiated(transactionId: string, queuePosition: Option<nat>, instructions: string)
    | InitiateError(message: string, status: nat)

  /** What `process_mpesa_callback` returns. */
  datatype Outcome = Success | Failure(error: string)

  /**
   * The status a new transaction starts in. No models file defines
   * `PaymentTransaction`, so this default is an assumption of the model.
   */
  const Pending := "pending"
  /** Ten minutes, in seconds, to complete a payment. */
  const PaymentWindow := 600
  /** Seconds of estimated wait per queue position. */
  const SecondsPerPosition := 30
  const NotFound := "Transaction not found"
  /** A set with two distinct members has at least two elements. */
  lemma TwoMembers<T>(s: set<T>, a: T, b: T)
    requires a in s && b in s && a != b
    ensures |s| >= 2
  {
    var rest := s - {a};
    assert b in rest;
    assert |s| == |rest| + 1;
  }

  /**
   * What `get()` reports when `n` rows match; Django counts at most 21 rows
   * and says "more than 20" beyond that.
   */
  function MultipleReturned(n: nat): string
  {
    "get() returned more than one PaymentTransaction -- it returned " +
    (if n < 21 then Text.IntToString(n) else "more than 20") + "!"
  }
  /** What Python reports when the callback body is null or absent (`get` on None). */
  const NoPayload := "'NoneType' object has no attribute 'get'"

  /** What Python reports when `get` is called on a value of the named type. */
  function NoGet(typeName: string): string
  {
    "'" + typeName + "' object has no attribute 'get'"
  }

  /** `get_bandwidth_for_plan`: the limit of each plan duration, 10 for any other. */
  function Bandwidth(duration: string): (limit: nat)
    ensures limit >= 10
  {
    if duration == "30min" then 10
    else if duration == "1hour" then 25
    else if duration == "4hours" then 50
    else if duration == "1day" then 100
    else if duration == "1week" then 200
    else if duration == "1month" then 1000
    else 10
  }

  /** The length of each known plan duration, in minutes. */
  function DurationLength(duration: string): Option<nat>
  {
    if duration == "30min" then Some(30)
    else if duration == "1hour" then Some(60)
    else if duration == "4hours" then Some(240)
    else if duration == "1day" then Some(1440)
    else if duration == "1week" then Some(10080)
    else if duration == "1month" then Some(43200)
    else None
  }

  /** Among the known durations, a longer plan never gets a lower bandwidth limit. */
  lemma BandwidthMonotone(d1: string, d2: string)
    requires DurationLength(d1).Some? && DurationLength(d2).Some?
    requires DurationLength(d1).value <= DurationLength(d2).value
    ensures Bandwidth(d1) <= Bandwidth(d2)
  {
  }

  /** An unknown duration gets the same limit as the shortest plan. */
  lemma BandwidthDefault(duration: string)
    requires DurationLength(duration).None?
    ensures Bandwidth(duration) == Bandwidth("30min")
  {
  }

  /** `str(transaction.id)[:8]` */
  function Prefix8(s: string): (r: string)
    ensures |r| <= 8 && |r| <= |s| && r == s[..|r|]
    ensures |s| >= 8 ==> |r| == 8
  {
    if |s| >= 8 then s[..8] else s
  }

  function IsPending(): QueueEntry -> bool
  {
    (e: QueueEntry) => e.processedAt.None?
  }

  /** `PaymentQueue.objects.filter(processed_at__isnull=True).count()` */
  function Unprocessed(queue: seq<QueueEntry>): nat
  {
    Count(queue, IsPending())
  }

  /** The entry `add_to_payment_queue` creates: one place behind every unprocessed entry. */
  function NewEntry(queue: seq<QueueEntry>, txId: string): (e: QueueEntry)
    ensures e.processedAt.None? && e.txId == txId
    ensures e.position >= 1 && e.estimatedWaitTime == SecondsPerPosition * e.position
  {
    var position := Unprocessed(queue) + 1;
    QueueEntry(txId, position, position * SecondsPerPosition, None)
  }

  /** Right after it is added, an entry's position is the number of unprocessed entries, itself included. */
  lemma NewEntryPosition(queue: seq<QueueEntry>, txId: string)
    ensures Unprocessed(queue + [NewEntry(queue, txId)]) == NewEntry(queue, txId).position
  {
    assert (queue + [NewEntry(queue, txId)])[..|queue|] == queue;
  }

  function MarkEntry(e: QueueEntry, txId: string, now: int): QueueEntry
  {
    if e.txId == txId then e.(processedAt := Some(now)) else e
  }

  /** The queue after the entry of `txId` is marked processed at `now`. */
  function MarkProcessed(queue: seq<QueueEntry>, txId: string, now: int): (r: seq<QueueEntry>)
    ensures |r| == |queue|
  {
    if queue == [] then []
    else MarkProcessed(queue[..|queue| - 1], txId, now) + [MarkEntry(queue[|queue| - 1], txId, now)]
  }

  function PendingFor(txId: string): QueueEntry -> bool
  {
    (e: QueueEntry) => e.processedAt.None? && e.txId == txId
  }

  /** Marking a transaction's entry processed removes exactly its unprocessed entries from the count. */
  lemma {:induction false} MarkProcessedCount(queue: seq<QueueEntry>, txId: string, now: int)
    ensures Unprocessed(MarkProcessed(queue, txId, now)) + Count(queue, PendingFor(txId)) == Unprocessed(queue)
  {
    if queue != [] {
      var init := queue[..|queue| - 1];
      MarkProcessedCount(init, txId, now);
      var marked := MarkProcessed(queue, txId, now);
      assert marked[..|init|] == MarkProcessed(init, txId, now);
    }
  }

  /** The entries of other transactions are left as they were. */
  lemma {:induction false} MarkProcessedOthers(queue: seq<QueueEntry>, txId: string, now: int, i: nat)
    requires i < |queue|
    ensures MarkProcessed(queue, txId, now)[i] ==
            if queue[i].txId == txId then queue[i].(processedAt := Some(now)) else queue[i]
  {
    if i < |queue| - 1 {
      MarkProcessedOthers(queue[..|queue| - 1], txId, now, i);
    }
  }

  /** `objects.get(mpesa_checkout_request_id=...)` finds exactly `id`; a missing id matches a null column. */
  predicate UniqueMatch(transactions: map<string, Transaction>, checkout: Option<string>, id: string)
  {
    id in transactions && transactions[id].checkoutRequestId == checkout &&
    forall other :: other in transactions && transactions[other].checkoutRequestId == checkout ==> other == id
  }

  /** The transactions whose checkout request id is `checkout`. */
  function Matches(transactions: map<string, Transaction>, checkout: Option<string>): (ids: set<string>)
    ensures forall id :: id in ids <==> id in transactions && transactions[id].checkoutRequestId == checkout
  {
    set id | id in transactions && transactions[id].checkoutRequestId == checkout
  }

  lemma UniqueMatchOfMatches(transactions: map<string, Transaction>, checkout: Option<string>, id: string)
    requires Matches(transactions, checkout) == {id}
    ensures UniqueMatch(transactions, checkout, id)
  {
    assert id in Matches(transactions, checkout);
  }

  /** A transaction after a successful M-Pesa callback. */
  function Completed(t: Transaction, now: int, receipt: Option<string>): (r: Transaction)
    ensures r.status == "completed" && r.completedAt == Some(now) && r.mpesaTransactionId == receipt
    ensures r.user == t.user && r.planId == t.planId && r.checkoutRequestId == t.checkoutRequestId
  {
    t.(status := "completed", completedAt := Some(now), mpesaTransactionId := receipt)
  }

  /** `create_internet_access`: access until `now` plus the plan's length, at the plan's bandwidth. */
  function AccessFor(id: string, t: Transaction, plan: Plan, now: int): (a: Access)
    ensures a.txId == id && a.user == t.user && a.planId == t.planId
    ensures a.endTime == now + 60 * plan.durationMinutes && a.bandwidthLimit == Bandwidth(plan.duration)
  {
    Access(t.user, id, t.planId, now + 60 * plan.durationMinutes, Bandwidth(plan.duration))
  }

  /** `PricingPlan.objects.get(id=plan_id, is_active=True)` finds a plan. */
  predicate ActivePlan(plans: map<string, Plan>, planId: Option<string>)
  {
    planId.Some? && planId.value in plans && plans[planId.value].isActive
  }

  const MpesaInstructions := "Check your phone for M-Pesa prompt and enter your PIN to complete payment"
  const CardInstructions := "Card payment initiated successfully"

  /**
   * The transaction `InitiatePaymentView.post` creates: it expires ten
   * minutes after creation and records the phone only for M-Pesa.
   */
  function NewTransaction(user: string, req: PaymentRequest, plan: Plan, now: int): (t: Transaction)
    requires req.planId.Some?
    ensures t.expiresAt == now + PaymentWindow && t.status == Pending
    ensures t.mpesaPhone == if req.paymentMethod == Some("mpesa") then req.phoneNumber else None
    ensures t.amount == plan.price && t.planId == req.planId.value && t.user == user
    ensures t.checkoutRequestId.None? && t.queuePosition.None? && t.completedAt.None?
  {
    Transaction(user, req.planId.value, plan.price, req.paymentMethod, now + PaymentWindow,
                if req.paymentMethod == Some("mpesa") then req.phoneNumber else None,
                Pending, None, None, None, None, None)
  }

  /** The M-Pesa request ids `initiate_mpesa_payment` saves: fixed prefixes and the first 8 characters of the id. */
  function WithMpesaIds(t: Transaction, txId: string): (r: Transaction)
    ensures r.checkoutRequestId.Some? && |r.checkoutRequestId.value| >= 11 && r.checkoutRequestId.value[..11] == "ws_CO_2024_"
    ensures r.merchantRequestId.Some? && |r.merchantRequestId.value| >= 8 && r.merchantRequestId.value[..8] == "AG_2024_"
    ensures r == t.(merchantRequestId := r.merchantRequestId, checkoutRequestId := r.checkoutRequestId)
  {
    var merchant := "AG_2024_" + Prefix8(txId);
    var checkout := "ws_CO_2024_" + Prefix8(txId);
    assert merchant[..8] == "AG_2024_";
    assert checkout[..11] == "ws_CO_2024_";
    t.(merchantRequestId := Some(merchant), checkoutRequestId := Some(checkout))
  }

  /**
   * Two transactions whose ids share their first 8 characters get the same
   * checkout request id, so a callback for either matches both.
   */
  lemma CheckoutIdsCollide(t1: Transaction, t2: Transaction, id1: string, id2: string)
    requires |id1| >= 8 && |id2| >= 8 && id1[..8] == id2[..8]
    ensures WithMpesaIds(t1, id1).checkoutRequestId == WithMpesaIds(t2, id2).checkoutRequestId
  {
  }

  /** A second write to a key replaces the first. */
  lemma UpdateTwice<K, V>(m: map<K, V>, k: K, a: V, b: V)
    ensures m[k := a][k := b] == m[k := b]
  {
  }

  /** The two tables a payment start writes. */
  datatype Tables = Tables(transactions: map<string, Transaction>, queue: seq<QueueEntry>)

  /** What `InitiatePaymentView.post` answers and leaves in the tables. */
  function Initiate(plans: map<string, Plan>, db: Tables, user: string, body: RequestBody,
                    txId: string, now: int, saveError: Option<string>): (InitiateResponse, Tables)
  {
    if body.Undecodable? || body.Falsy? then (InitiateError("Invalid JSON", 400), db)
    else if body.NotAnObject? then (InitiateError(NoGet(body.typeName), 500), db)
    else if !ActivePlan(plans, body.req.planId) then (InitiateError("Invalid pricing plan", 400), db)
    else
      var req := body.req;
      var t := NewTransaction(user, req, plans[req.planId.value], now);
      if req.paymentMethod != Some("mpesa") then
        (Initiated(txId, None, CardInstructions), db.(transactions := db.transactions[txId := t]))
      else if saveError.Some? then
        (InitiateError("M-Pesa payment initiation failed: " + saveError.value, 400),
         db.(transactions := db.transactions[txId := WithMpesaIds(t, txId).(status := "failed")]))
      else
        var position := Unprocessed(db.queue) + 1;
        (Initiated(txId, Some(position), MpesaInstructions),
         Tables(db.transactions[txId := WithMpesaIds(t, txId).(queuePosition := Some(position))],
                db.queue + [NewEntry(db.queue, txId)]))
  }

  /**
   * A body that is not JSON or is falsy is "Invalid JSON", and a missing or
   * inactive plan "Invalid pricing plan", both with 400; a truthy body that
   * is no object fails on `get` with 500. None of them writes anything.
   */
  lemma InitiateRejects(plans: map<string, Plan>, db: Tables, user: string, body: RequestBody,
                        txId: string, now: int, saveError: Option<string>)
    requires !body.Object? || !ActivePlan(plans, body.req.planId)
    ensures var (r, db') := Initiate(plans, db, user, body, txId, now, saveError);
            r.InitiateError? && db' == db &&
            (r.status == 500 <==> body.NotAnObject?) &&
            (body.Undecodable? || body.Falsy? ==> r.message == "Invalid JSON") &&
            (body.Object? ==> r.message == "Invalid pricing plan")
  {
  }

  /**
   * With a valid plan exactly one transaction is added: it expires ten
   * minutes after creation, records the phone only for M-Pesa, and is
   * failed exactly when the M-Pesa start failed. No other transaction
   * changes.
   */
  lemma InitiateCreates(plans: map<string, Plan>, db: Tables, user: string, body: RequestBody,
                        txId: string, now: int, saveError: Option<string>)
    requires body.Object? && ActivePlan(plans, body.req.planId)
    ensures var (r, db') := Initiate(plans, db, user, body, txId, now, saveError);
            var req := body.req;
            var mpesa := req.paymentMethod == Some("mpesa");
            db'.transactions.Keys == db.transactions.Keys + {txId} &&
            (forall id :: id in db.transactions && id != txId ==> db'.transactions[id] == db.transactions[id]) &&
            db'.transactions[txId].expiresAt == now + PaymentWindow &&
            db'.transactions[txId].mpesaPhone == (if mpesa then req.phoneNumber else None) &&
            db'.transactions[txId].amount == plans[req.planId.value].price &&
            (db'.transactions[txId].status == "failed" <==> mpesa && saveError.Some?) &&
            (r.Initiated? <==> !(mpesa && saveError.Some?)) &&
            (mpesa <==> db'.transactions[txId].checkoutRequestId == Some("ws_CO_2024_" + Prefix8(txId)))
  {
  }

  /**
   * An M-Pesa start whose save failed still stores the request ids with
   * the failed row, so a later callback carrying that checkout id finds it.
   */
  lemma FailedStartStillMatchesCallback(plans: map<string, Plan>, db: Tables, user: string, body: RequestBody,
                                        txId: string, now: int, err: string)
    requires body.Object? && ActivePlan(plans, body.req.planId) && body.req.paymentMethod == Some("mpesa")
    ensures var (r, db') := Initiate(plans, db, user, body, txId, now, Some(err));
            r.InitiateError? && db'.transactions[txId].status == "failed" &&
            txId in Matches(db'.transactions, Some("ws_CO_2024_" + Prefix8(txId)))
  {
  }

  /**
   * Only an M-Pesa payment whose start succeeded is queued: its entry goes
   * one place behind the unprocessed entries, waits 30 seconds per place,
   * and the answer and the transaction carry the same position.
   */
  lemma InitiateQueues(plans: map<string, Plan>, db: Tables, user: string, body: RequestBody,
                       txId: string, now: int, saveError: Option<string>)
    ensures var (r, db') := Initiate(plans, db, user, body, txId, now, saveError);
            var queued := body.Object? && ActivePlan(plans, body.req.planId) &&
                          body.req.paymentMethod == Some("mpesa") && saveError.None?;
            (queued ==> db'.queue == db.queue + [NewEntry(db.queue, txId)] &&
                        r.queuePosition == Some(Unprocessed(db.queue) + 1) &&
                        db'.transactions[txId].queuePosition == r.queuePosition &&
                        Unprocessed(db'.queue) == Unprocessed(db.queue) + 1) &&
            (!queued ==> db'.queue == db.queue && (r.Initiated? ==> r.queuePosition.None?))
  {
    NewEntryPosition(db.queue, txId);
  }

  class Payments {
    var plans: map<string, Plan>
    var transactions: map<string, Transaction>
    var queue: seq<QueueEntry>
    var accesses: seq<Access>
    var callbacks: seq<CallbackRecord>

    /** Every transaction refers to an existing plan. */
    predicate Valid()
      reads this
    {
      forall id :: id in transactions ==> transactions[id].planId in plans
    }

    constructor (plans: map<string, Plan>)
      ensures this.plans == plans && transactions == map[] && queue == [] && accesses == [] && callbacks == []
      ensures Valid()
    {
      this.plans := plans;
      transactions := map[];
      queue := [];
      accesses := [];
      callbacks := [];
    }

    /**
     * `InitiatePaymentView.post`. `body` is what the request body parsed to;
     * `txId` is the new transaction's UUID text; `saveError` is the message
     * of an exception while the M-Pesa ids are saved, None when saving
     * succeeds.
     */
    method InitiatePayment(user: string, body: RequestBody, txId: string, now: int,
                           saveError: Option<string>) returns (r: InitiateResponse)
      requires Valid() && txId !in transactions
      modifies this
      ensures Valid() && plans == old(plans) && accesses == old(accesses) && callbacks == old(callbacks)
      ensures (r, Tables(transactions, queue)) ==
              Initiate(plans, Tables(old(transactions), old(queue)), user, body, txId, now, saveError)
    {
      if body.Undecodable? || body.Falsy? {
        return InitiateError("Invalid JSON", 400);
      }
      if body.NotAnObject? {
        return InitiateError(NoGet(body.typeName), 500);
      }
      var req := body.req;
      if !ActivePlan(plans, req.planId) {
        return InitiateError("Invalid pricing plan", 400);
      }
      var t := NewTransaction(user, req, plans[req.planId.value], now);
      transactions := transactions[txId := t];
      if req.paymentMethod == Some("mpesa") {
        var result, updated := InitiateMpesaPayment(txId, t, saveError);
        if result.Err? {
          var failed := updated.(status := "failed");
          UpdateTwice(old(transactions), txId, t, failed);
          transactions := transactions[txId := failed];
          return InitiateError(result.error, 400);
        }
        UpdateTwice(old(transactions), txId, t, WithMpesaIds(t, txId));
        var position := AddToPaymentQueue(txId);
        UpdateTwice(old(transactions), txId, WithMpesaIds(t, txId), WithMpesaIds(t, txId).(queuePosition := Some(position)));
        return Initiated(txId, Some(position), result.value);
      }
      return Initiated(txId, None, CardInstructions);
    }

    /**
     * `initiate_mpesa_payment` on the view's transaction object `t`: the
     * simulated STK push always answers success, and the request ids are
     * set on the object before it is saved. The save may raise; then the
     * exception becomes the failure message, the stored row is unchanged,
     * and the object still carries the ids. `updated` is the object
     * afterwards.
     */
    method InitiateMpesaPayment(txId: string, t: Transaction, saveError: Option<string>)
      returns (result: Result<string, string>, updated: Transaction)
      requires Valid() && txId in transactions && t.planId in plans
      modifies this`transactions
      ensures Valid()
      ensures updated == WithMpesaIds(t, txId)
      ensures saveError.None? ==>
                result == Ok(MpesaInstructions) && transactions == old(transactions)[txId := updated]
      ensures saveError.Some? ==>
                result == Err("M-Pesa payment initiation failed: " + saveError.value) &&
                transactions == old(transactions)
    {
      updated := WithMpesaIds(t, txId);
      if saveError.Some? {
        return Err("M-Pesa payment initiation failed: " + saveError.value), updated;
      }
      transactions := transactions[txId := updated];
      return Ok(MpesaInstructions), updated;
    }

    /**
     * `add_to_payment_queue`: the new entry's position is one more than
     * the number of unprocessed entries, its wait 30 seconds per position,
     * and the transaction records its position.
     */
    method AddToPaymentQueue(txId: string) returns (position: nat)
      requires Valid() && txId in transactions
      modifies this`queue, this`transactions
      ensures Valid()
      ensures position == Unprocessed(old(queue)) + 1
      ensures queue == old(queue) + [NewEntry(old(queue), txId)]
      ensures Unprocessed(queue) == position
      ensures transactions == old(transactions)[txId := old(transactions)[txId].(queuePosition := Some(position))]
    {
      var entry := NewEntry(queue, txId);
      NewEntryPosition(queue, txId);
      queue := queue + [entry];
      transactions := transactions[txId := transactions[txId].(queuePosition := Some(entry.position))];
      return entry.position;
    }

    /**
     * `process_mpesa_callback`. ResultCode 0 completes the one transaction
     * with the callback's checkout request id, grants access and marks its
     * queue entry processed; any other code marks it failed. No matching
     * transaction is "Transaction not found"; several are an error too.
     * `matched` is the transaction that was updated.
     */
    method ProcessMpesaCallback(data: Option<Callback>, now: int) returns (r: Outcome, matched: Option<string>)
      requires Valid()
      modifies this
      ensures Valid() && plans == old(plans) && callbacks == old(callbacks)
      ensures data.None? ==> r == Failure(NoPayload) && matched.None?
      ensures data.Some? && Matches(old(transactions), data.value.checkoutRequestId) == {} ==>
                r == Failure(NotFound) && matched.None?
      ensures data.Some? && |Matches(old(transactions), data.value.checkoutRequestId)| >= 2 ==>
                r == Failure(MultipleReturned(|Matches(old(transactions), data.value.checkoutRequestId)|)) &&
                matched.None?
      ensures r.Success? <==> matched.Some?
      ensures matched.None? ==> unchanged(this)
      ensures matched.Some? ==>
                var id := matched.value;
                data.Some? && UniqueMatch(old(transactions), data.value.checkoutRequestId, id) &&
                var t := old(transactions)[id];
                if data.value.resultCode == Some(0) then
                  transactions == old(transactions)[id := Completed(t, now, data.value.receipt)] &&
                  accesses == old(accesses) + [AccessFor(id, t, old(plans)[t.planId], now)] &&
                  queue == MarkProcessed(old(queue), id, now)
                else
                  transactions == old(transactions)[id := t.(status := "failed")] &&
                  accesses == old(accesses) && queue == old(queue)
    {
      if data.None? {
        return Failure(NoPayload), None;
      }
      var cb := data.value;
      var ids := Matches(transactions, cb.checkoutRequestId);
      if ids == {} {
        return Failure(NotFound), None;
      }
      var id :| id in ids;
      if ids != {id} {
        var other :| other in ids && other != id;
        TwoMembers(ids, id, other);
        return Failure(MultipleReturned(|ids|)), None;
      }
      UniqueMatchOfMatches(transactions, cb.checkoutRequestId, id);
      var t := transactions[id];
      if cb.resultCode == Some(0) {
        transactions := transactions[id := Completed(t, now, cb.receipt)];
        accesses := accesses + [AccessFor(id, t, plans[t.planId], now)];
        queue := MarkProcessed(queue, id, now);
      } else {
        transactions := transactions[id := t.(status := "failed")];
      }
      return Success, Some(id);
    }

    /**
     * `MpesaCallbackView.post`: log the callback, process it, and mark the
     * log row processed on success or record the error; 200 or 400.
     */
    method MpesaCallback(data: Option<Callback>, now: int) returns (status: nat, r: Outcome)
      requires Valid()
      modifies this
      ensures Valid()
      ensures |callbacks| == |old(callbacks)| + 1 && callbacks[..|old(callbacks)|] == old(callbacks)
      ensures callbacks[|old(callbacks)|] ==
                CallbackRecord(data, r.Success?, if r.Failure? then Some(r.error) else None)
      ensures status == 200 <==> r.Success?
      ensures status == 400 <==> r.Failure?
    {
      var record := CallbackRecord(data, false, None);
      callbacks := callbacks + [record];
      var matched;
      r, matched := ProcessMpesaCallback(data, now);
      if r.Success? {
        callbacks := callbacks[|callbacks| - 1 := record.(processed := true)];
        status := 200;
      } else {
        callbacks := callbacks[|callbacks| - 1 := record.(processingError := Some(r.error))];
        status := 400;
      }
    }
  }

  /**
   * A callback that carries no CheckoutRequestID matches a transaction
   * whose checkout id was never set, as a card payment's is: with only one
   * such transaction, it is the one the callback updates.
   */
  lemma MissingCheckoutMatchesCard(transactions: map<string, Transaction>, id: string)
    requires id in transactions && transactions[id].checkoutRequestId.None?
    requires forall other :: other in transactions && other != id ==> transactions[other].checkoutRequestId.Some?
    ensures Matches(transactions, None) == {id}
  {
  }
}

=== FILE: payments_page.dfy ===
/**
 * The payment page's state machine (frontend/src/pages/Payments.jsx): plan
 * selection, M-Pesa phone validation, the outcome of starting a payment,
 * status polling and the card path. The page's React state is a class
 * whose fields the handlers reassign; each handler is specified by a
 * function on the whole state, taken after its awaited calls and timers
 * have completed. What the simulated back end answers, and the clock, are
 * parameters.
 */
module PaymentPage {
  import opened Wrappers
  import opened Text

  /** The notification banner: a message and its kind. */
  datatype Notice = Notice(message: string, kind: string)

  datatype PageState = PageState(
    selectedPlan: Option<string>, paymentMethod: string, phoneNumber: string,
    isProcessing: bool, paymentStatus: Option<string>, transactionId: string,
    queuePosition: Option<int>, notice: Notice, polling: bool)

  /** What starting an M-Pesa payment answered. */
  datatype StartOutcome = Started(transactionId: string, queuePosition: int) | Declined | StartThrew

  /** What one status check answered. */
  datatype CheckOutcome = Checked(status: string) | CheckThrew

  const Required := Notice("Phone Number is required", "warning")
  const Invalid := Notice("Invalid Phone Number", "warning")
  const InitiationFailed := Notice("Payment initiation failed", "error")
  const InProgress := Notice("Payment in progress", "info")

  /** The initial state of the page. */
  const Initial := PageState(None, "mpesa", "", false, None, "", None, Notice("", ""), false)

  // ---------------------------------------------------------------------
  // Phone validation

  /** `startsWith('07') || startsWith('01') && length === 10`, where `&&` binds tighter than `||`. */
  predicate IsLocalFormat(phone: string)
  {
    StartsWith(phone, "07") || (StartsWith(phone, "01") && |phone| == 10)
  }

  /** `startsWith('+254') || startsWith('254') || length === 12` */
  predicate IsInternationalFormat(phone: string)
  {
    StartsWith(phone, "+254") || StartsWith(phone, "254") || |phone| == 12
  }

  /** A '07' prefix passes at any length, while a '01' number must have ten characters. */
  lemma LocalFormatAsWritten()
    ensures IsLocalFormat("07") && IsLocalFormat("0712345678")
    ensures IsLocalFormat("0112345678") && !IsLocalFormat("011234567")
    ensures !IsInternationalFormat("07") && IsInternationalFormat("+254") && IsInternationalFormat("abcdefghijkl")
  {
    assert "07"[..2] == "07";
    assert "0712345678"[..2] == "07";
    assert "0112345678"[..2] == "01";
    assert "011234567"[..2] == "01" != "07";
    assert "+254"[..4] == "+254";
    assert "07"[..2] != "25";
  }

  /** The local format as it reads: a '07' or '01' prefix on a ten-character number. */
  predicate IsLocalFormatIntended(phone: string)
  {
    (StartsWith(phone, "07") || StartsWith(phone, "01")) && |phone| == 10
  }

  /** The intended rule accepts a local number only with ten characters, and agrees with the written one there. */
  lemma LocalIntendedNeedsTenDigits(phone: string)
    ensures IsLocalFormatIntended(phone) ==> |phone| == 10 && IsLocalFormat(phone)
    ensures |phone| == 10 ==> (IsLocalFormatIntended(phone) <==> IsLocalFormat(phone))
    ensures !IsLocalFormatIntended("07")
  {
  }

  // ---------------------------------------------------------------------
  // Handlers

  /** `handlePlanSelect`: choose the plan and forget the previous payment's status and id. */
  function SelectPlan(st: PageState, plan: string): PageState
  {
    st.(selectedPlan := Some(plan), paymentStatus := None, transactionId := "")
  }

  /** `initiateMpesaPayment`, with what the start call answered. */
  function InitiateMpesa(st: PageState, outcome: StartOutcome): PageState
  {
    if st.phoneNumber == "" then st.(notice := Required)
    else if !IsLocalFormat(st.phoneNumber) && !IsInternationalFormat(st.phoneNumber) then st.(notice := Invalid)
    else
      match outcome
      case Started(id, position) =>
        st.(isProcessing := true, transactionId := id, paymentStatus := Some("pending"),
            queuePosition := Some(position), polling := true)
      case Declined =>
        st.(paymentStatus := Some("failed"), isProcessing := false)
      case StartThrew =>
        st.(notice := InitiationFailed, paymentStatus := Some("failed"), isProcessing := false)
  }

  /** One tick of the polling interval, with what the status check answered. */
  function Tick(st: PageState, outcome: CheckOutcome): PageState
  {
    if !st.polling then st
    else
      match outcome
      case Checked(status) =>
        if status == "completed" || status == "failed" then
          st.(paymentStatus := Some(status), queuePosition := None, isProcessing := false,
              polling := false, notice := InProgress)
        else st.(notice := InProgress)
      case CheckThrew =>
        st.(polling := false, isProcessing := false)
  }

  /** `handlePayment`: M-Pesa goes through phone validation; a card payment completes when its timer fires at `now`. */
  function Pay(st: PageState, outcome: StartOutcome, now: nat): PageState
  {
    if st.paymentMethod == "mpesa" then InitiateMpesa(st, outcome)
    else st.(paymentStatus := Some("completed"), transactionId := "CARD" + IntToString(now), isProcessing := false)
  }

  // ---------------------------------------------------------------------
  // Properties of the handlers

  /** Selecting a plan clears the status and the transaction id and keeps everything else. */
  lemma SelectPlanResets(st: PageState, plan: string)
    ensures var st' := SelectPlan(st, plan);
      st'.paymentStatus.None? && st'.transactionId == "" && st'.selectedPlan == Some(plan) &&
      st' == st.(selectedPlan := st'.selectedPlan, paymentStatus := None, transactionId := "")
  {
  }

  /** Without a phone number, only the warning appears. */
  lemma EmptyPhoneOnlyWarns(st: PageState, outcome: StartOutcome)
    requires st.phoneNumber == ""
    ensures InitiateMpesa(st, outcome) == st.(notice := Required)
  {
  }

  /** A number in neither format is refused with a warning and no payment starts; a number in either format starts one. */
  lemma PhoneDecidesStart(st: PageState, outcome: StartOutcome)
    requires st.phoneNumber != ""
    ensures !IsLocalFormat(st.phoneNumber) && !IsInternationalFormat(st.phoneNumber) ==>
      InitiateMpesa(st, outcome) == st.(notice := Invalid)
    ensures IsLocalFormat(st.phoneNumber) || IsInternationalFormat(st.phoneNumber) ==>
      InitiateMpesa(st, outcome).paymentStatus in {Some("pending"), Some("failed")} &&
      (InitiateMpesa(st, outcome).polling <==> outcome.Started? || st.polling) &&
      (outcome.Started? ==> InitiateMpesa(st, outcome).transactionId == outcome.transactionId)
  {
  }

  /**
   * A tick that sees 'completed' or 'failed' records it, clears the queue
   * position and the processing flag and stops polling; any other status
   * keeps polling and changes only the message; once stopped, ticks do
   * nothing. A tick that completes leaves the message "Payment in progress".
   */
  lemma TickTransitions(st: PageState, status: string)
    requires st.polling
    ensures var st' := Tick(st, Checked(status));
      && (status == "completed" || status == "failed" ==>
            st'.paymentStatus == Some(status) && st'.queuePosition.None? && !st'.isProcessing && !st'.polling)
      && (status != "completed" && status != "failed" ==> st' == st.(notice := InProgress))
      && st'.notice == InProgress
  {
  }

  /** Polling, once stopped, stays stopped, and a stopped page ignores ticks. */
  lemma {:induction false} StoppedPollingIsFinal(st: PageState, outcomes: seq<CheckOutcome>)
    requires !st.polling
    ensures Ticks(st, outcomes) == st
  {
    if outcomes != [] {
      StoppedPollingIsFinal(st, outcomes[1..]);
    }
  }

  /** The state after a run of ticks. */
  function Ticks(st: PageState, outcomes: seq<CheckOutcome>): PageState
    decreases |outcomes|
  {
    if outcomes == [] then st else Ticks(Tick(st, outcomes[0]), outcomes[1..])
  }

  /** A tick as the page evidently means it: the final status's own message stays on screen. */
  function TickIntended(st: PageState, outcome: CheckOutcome): (st': PageState)
    ensures outcome.Checked? && st.polling && outcome.status == "completed" ==>
      st'.notice == Notice("Payment completed", "success")
    ensures outcome.Checked? && st.polling && outcome.status == "failed" ==>
      st'.notice == Notice("Payment failed", "error")
  {
    var st' := Tick(st, outcome);
    if st.polling && outcome.Checked? && outcome.status == "completed" then st'.(notice := Notice("Payment completed", "success"))
    else if st.polling && outcome.Checked? && outcome.status == "failed" then st'.(notice := Notice("Payment failed", "error"))
    else st'
  }

  /** The intended tick differs from the written one only in the message of a final status. */
  lemma TickIntendedOnlyMessage(st: PageState, outcome: CheckOutcome)
    ensures TickIntended(st, outcome).(notice := InProgress) == Tick(st, outcome).(notice := InProgress)
  {
  }

  /** The page's React state, reassigned by its handlers. */
  class Page {
    var selectedPlan: Option<string>
    var paymentMethod: string
    var phoneNumber: string
    var isProcessing: bool
    var paymentStatus: Option<string>
    var transactionId: string
    var queuePosition: Option<int>
    var notice: Notice
    var polling: bool

    function State(): PageState
      reads this
    {
      PageState(selectedPlan, paymentMethod, phoneNumber, isProcessing, paymentStatus,
                transactionId, queuePosition, notice, polling)
    }

    constructor()
      ensures State() == Initial
    {
      selectedPlan, paymentMethod, phoneNumber := None, "mpesa", "";
      isProcessing, paymentStatus, transactionId := false, None, "";
      queuePosition, notice, polling := None, Notice("", ""), false;
    }

    method HandlePlanSelect(plan: string)
      modifies this
      ensures State() == SelectPlan(old(State()), plan)
    {
      selectedPlan := Some(plan);
      paymentStatus := None;
      transactionId := "";
    }

    method InitiateMpesaPayment(outcome: StartOutcome)
      modifies this
      ensures State() == InitiateMpesa(old(State()), outcome)
    {
      if phoneNumber == "" {
        notice := Required;
        return;
      }
      var isLocal := StartsWith(phoneNumber, "07") || (StartsWith(phoneNumber, "01") && |phoneNumber| == 10);
      var isInternational := StartsWith(phoneNumber, "+254") || StartsWith(phoneNumber, "254") || |phoneNumber| == 12;
      if !isLocal && !isInternational {
        notice := Invalid;
        return;
      }
      isProcessing := true;
      paymentStatus := Some("initiating");
      match outcome {
        case Started(id, position) =>
          transactionId := id;
          paymentStatus := Some("pending");
          queuePosition := Some(position);
          polling := true;
        case Declined =>
          paymentStatus := Some("failed");
          isProcessing := false;
        case StartThrew =>
          notice := InitiationFailed;
          paymentStatus := Some("failed");
          isProcessing := false;
      }
    }

    method PollTick(outcome: CheckOutcome)
      modifies this
      ensures State() == Tick(old(State()), outcome)
    {
      if !polling {
        return;
      }
      match outcome {
        case Checked(status) =>
          if status == "completed" {
            paymentStatus := Some("completed");
            queuePosition := None;
            isProcessing := false;
            polling := false;
            notice := Notice("Payment completed", "success");
          } else if status == "failed" {
            paymentStatus := Some("failed");
            queuePosition := None;
            isProcessing := false;
            polling := false;
            notice := Notice("Payment failed", "error");
          }
          notice := InProgress;
        case CheckThrew =>
          polling := false;
          isProcessing := false;
      }
    }

    method HandlePayment(outcome: StartOutcome, now: nat)
      modifies this
      ensures State() == Pay(old(State()), outcome, now)
    {
      if paymentMethod == "mpesa" {
        InitiateMpesaPayment(outcome);
      } else {
        paymentStatus := Some("pending");
        isProcessing := true;
        paymentStatus := Some("completed");
        transactionId := "CARD" + IntToString(now);
        isProcessing := false;
      }
    }
  }
}

=== FILE: portal.dfy ===
/**
 * The captive portal's views (backend/portal/views.py): the status and
 * admin device reports, granting and revoking a MAC in the auth file, the
 * client `connect` endpoint, access-code generation and the admin API that
 * flips a device row between authenticated and blocked.
 *
 * Command outputs (`arp`, `ip neigh`) and the success of file I/O are
 * parameters; the firewall script the views start is not modelled.
 */
module Portal {
  import opened Wrappers
  import opened Text
  import opened Lists
  import Helpers
  import DeviceScanner

  /* ---------------- status ---------------- */

  /** The JSON of `status`, without the constant 'online'. */
  datatype StatusReport = StatusReport(
    connected: seq<Helpers.Device>, authenticated: seq<string>,
    totalConnected: nat, totalAuthenticated: nat)

  /**
   * `status`: the connected devices and the listed MACs, each with its
   * length. `arpOut` is the output of `arp -a`, `file` the auth file.
   */
  method Status(arpOut: Option<string>, file: Option<string>) returns (r: StatusReport)
    ensures r.connected == (if arpOut.None? then [] else Helpers.ConnectedDevices(SplitOn(arpOut.value, '\n'), file))
    ensures r.authenticated == Helpers.Existing(file)
    ensures r.totalConnected == |r.connected| && r.totalAuthenticated == |r.authenticated|
  {
    var devices := Helpers.GetConnectedDevices(arpOut, file);
    var macs := Helpers.Existing(file);
    r := StatusReport(devices, macs, |devices|, |macs|);
  }

  /**
   * Granting a MAC that is storable raises `total_authenticated` by one
   * when it was not listed, and leaves it as it was otherwise.
   */
  lemma GrantCount(file: Option<string>, mac: string)
    requires file.None? || Helpers.WellTerminated(file.value)
    requires Helpers.Storable(mac)
    ensures |Helpers.Existing(Helpers.Authenticated(file, mac))| ==
            |Helpers.Existing(file)| + (if mac in Helpers.Existing(file) then 0 else 1)
  {
    Helpers.AuthenticateLists(file, mac);
  }

  /* ---------------- admin_devices ---------------- */

  /** A scanned device with the `authenticated` key the view adds. */
  datatype MarkedDevice = MarkedDevice(ip: string, mac: string, authenticated: bool)

  function Mark(d: DeviceScanner.Scanned, file: Option<string>): MarkedDevice
  {
    MarkedDevice(d.ip, d.mac, DeviceScanner.IsAuthenticated(file, d.mac))
  }

  /** Every device marked, in order. */
  function MarkAll(devices: seq<DeviceScanner.Scanned>, file: Option<string>): (r: seq<MarkedDevice>)
    ensures |r| == |devices|
  {
    if devices == [] then []
    else MarkAll(devices[..|devices| - 1], file) + [Mark(devices[|devices| - 1], file)]
  }

  function IsMarked(): MarkedDevice -> bool
  {
    (m: MarkedDevice) => m.authenticated
  }


  /** The JSON of `admin_devices`. */
  datatype DevicesReport = DevicesReport(devices: seq<MarkedDevice>, total: nat, authenticatedCount: nat, blockedCount: int)

  /**
   * `admin_devices`: the scanner's devices, each marked with the scanner's
   * case-insensitive check, and the counts. `blocked_count` is computed as
   * the total minus the authenticated count; it is the number of devices
   * that are not authenticated.
   */
  method AdminDevices(scanner: DeviceScanner.DeviceScanner, arpOut: Option<string>, neighOut: Option<string>,
                      file: Option<string>) returns (r: DevicesReport)
    ensures r.devices == MarkAll(DeviceScanner.Scan(scanner.iface, arpOut, neighOut), file)
    ensures r.total == |r.devices|
    ensures r.authenticatedCount == Count(r.devices, IsMarked())
    ensures r.blockedCount == Count(r.devices, Not(IsMarked()))
    ensures r.authenticatedCount + r.blockedCount == r.total
  {
    var all := scanner.GetConnectedDevices(arpOut, neighOut);
    var marked := MarkDevices(all, file);
    var authenticatedCount := Count(marked, IsMarked());
    CountComplement(marked, IsMarked());
    r := DevicesReport(marked, |marked|, authenticatedCount, |marked| - authenticatedCount);
  }

  /** The loop of `admin_devices` that adds `authenticated` to each device. */
  method MarkDevices(devices: seq<DeviceScanner.Scanned>, file: Option<string>) returns (marked: seq<MarkedDevice>)
    ensures marked == MarkAll(devices, file)
  {
    marked := [];
    for i := 0 to |devices|
      invariant marked == MarkAll(devices[..i], file)
    {
      assert devices[..i + 1][..i] == devices[..i];
      marked := marked + [Mark(devices[i], file)];
    }
    assert devices[..|devices|] == devices;
  }

  /** Marking keeps each device's address and MAC and records the scanner's check. */
  lemma {:induction false} MarkAllDevices(devices: seq<DeviceScanner.Scanned>, file: Option<string>, i: nat)
    requires i < |devices|
    ensures var m := MarkAll(devices, file)[i];
            m.ip == devices[i].ip && m.mac == devices[i].mac &&
            (m.authenticated <==> DeviceScanner.IsAuthenticated(file, devices[i].mac))
  {
    if i < |devices| - 1 {
      MarkAllDevices(devices[..|devices| - 1], file, i);
    }
  }

  /* ---------------- admin_check_access ---------------- */

  function MacIs(mac: string): DeviceScanner.Scanned -> Option<DeviceScanner.Scanned>
  {
    (d: DeviceScanner.Scanned) => if d.mac == mac then Some(d) else None
  }

  /** `next((d for d in devices if d["mac"] == mac), None)`: the first device with exactly that MAC. */
  function FindDevice(devices: seq<DeviceScanner.Scanned>, mac: string): (r: Option<DeviceScanner.Scanned>)
    ensures r.Some? ==> exists i :: 0 <= i < |devices| && devices[i] == r.value && r.value.mac == mac &&
                                   forall j :: 0 <= j < i ==> devices[j].mac != mac
    ensures r.None? <==> forall i :: 0 <= i < |devices| ==> devices[i].mac != mac
  {
    FirstSome(devices, MacIs(mac))
  }

  /** The JSON of `admin_check_access`. */
  datatype AccessReport = AccessReport(mac: string, authenticated: bool, deviceInfo: Option<DeviceScanner.Scanned>, status: string)

  /**
   * `admin_check_access`: the device is looked up with an exact comparison
   * while the authentication check ignores case; the status is
   * 'authenticated' exactly when the check succeeds, 'blocked' otherwise.
   */
  method AdminCheckAccess(scanner: DeviceScanner.DeviceScanner, arpOut: Option<string>, neighOut: Option<string>,
                          file: Option<string>, mac: string) returns (r: AccessReport)
    ensures r.mac == mac
    ensures r.deviceInfo == FindDevice(DeviceScanner.Scan(scanner.iface, arpOut, neighOut), mac)
    ensures r.authenticated <==> DeviceScanner.IsAuthenticated(file, mac)
    ensures r.status == "authenticated" <==> r.authenticated
    ensures r.status == "blocked" <==> !r.authenticated
  {
    var devices := scanner.GetConnectedDevices(arpOut, neighOut);
    var info := FindDevice(devices, mac);
    var isAuthenticated := DeviceScanner.IsAuthenticated(file, mac);
    r := AccessReport(mac, isAuthenticated, info, if isAuthenticated then "authenticated" else "blocked");
  }

  /** Every scanned MAC is lower-case. */
  lemma ScannedLower(iface: string, arpOut: Option<string>, neighOut: Option<string>, d: DeviceScanner.Scanned)
    requires d in DeviceScanner.Scan(iface, arpOut, neighOut)
    ensures Lower(d.mac) == d.mac
  {
    var arp := DeviceScanner.ArpEntries(iface, SplitOn(arpOut.value, '\n'));
    if d in arp {
      DeviceScanner.ArpEntriesMembers(iface, SplitOn(arpOut.value, '\n'), d);
    } else {
      DeviceScanner.NeighEntriesMembers(SplitOn(neighOut.value, '\n'), d);
    }
  }

  /**
   * A MAC asked for with an upper-case letter never finds its device,
   * though the case-insensitive check may report it authenticated.
   */
  lemma UpperCaseQueryFindsNoDevice(iface: string, arpOut: Option<string>, neighOut: Option<string>, mac: string)
    requires Lower(mac) != mac
    ensures FindDevice(DeviceScanner.Scan(iface, arpOut, neighOut), mac).None?
  {
    var devices := DeviceScanner.Scan(iface, arpOut, neighOut);
    forall i | 0 <= i < |devices| ensures devices[i].mac != mac {
      ScannedLower(iface, arpOut, neighOut, devices[i]);
    }
  }

  /* ---------------- admin_revoke_access ---------------- */

  function KeepLine(mac: string): string -> bool
  {
    l => Strip(l) != mac
  }

  function OtherThan(mac: string): string -> bool
  {
    m => m != mac
  }

  function EqualTo(mac: string): string -> bool
  {
    m => m == mac
  }

  /** The file after `admin_revoke_access`: its lines in order, without those that strip to `mac`. */
  function Revoked(text: string, mac: string): string
  {
    Concat(Filter(FileLines(text), KeepLine(mac)))
  }

  /** Keeping lines by their stripped text, then stripping, is stripping, then keeping. */
  lemma {:induction false} StrippedKept(lines: seq<string>, mac: string)
    ensures Helpers.StrippedLines(Filter(lines, KeepLine(mac))) == Filter(Helpers.StrippedLines(lines), OtherThan(mac))
  {
    if lines != [] {
      var init, last := lines[..|lines| - 1], lines[|lines| - 1];
      var keptInit := Filter(init, KeepLine(mac));
      StrippedKept(init, mac);
      assert lines == init + [last];
      assert Filter(lines, KeepLine(mac)) == keptInit + (if KeepLine(mac)(last) then [last] else []) by {
        FilterSnoc(init, last, KeepLine(mac));
      }
      assert Helpers.StrippedLines(lines) == Helpers.StrippedLines(init) + (if Strip(last) != [] then [Strip(last)] else []) by {
        FilterMapSnoc(init, last, Helpers.NonBlank);
      }
      if KeepLine(mac)(last) {
        FilterMapSnoc(keptInit, last, Helpers.NonBlank);
      } else {
        assert keptInit + [] == keptInit;
      }
      if Strip(last) != [] {
        FilterSnoc(Helpers.StrippedLines(init), Strip(last), OtherThan(mac));
      } else {
        assert Helpers.StrippedLines(init) + [] == Helpers.StrippedLines(init);
      }
    }
  }

  /** Every kept line of a well-terminated file is a whole line. */
  lemma KeptAreLines(text: string, mac: string)
    requires Helpers.WellTerminated(text)
    ensures forall k :: 0 <= k < |Filter(FileLines(text), KeepLine(mac))| ==> IsLine(Filter(FileLines(text), KeepLine(mac))[k])
  {
    var lines := FileLines(text);
    var kept := Filter(lines, KeepLine(mac));
    FileLinesAreLines(text);
    forall k | 0 <= k < |kept| ensures IsLine(kept[k]) {
      FilterMembers(lines, KeepLine(mac), kept[k]);
    }
  }

  /**
   * Revoking removes exactly the entries equal to `mac` from the listed
   * MACs and keeps the others in order; the file stays well terminated.
   */
  lemma RevokeLists(text: string, mac: string)
    requires Helpers.WellTerminated(text)
    ensures Helpers.AuthLines(Revoked(text, mac)) == Filter(Helpers.AuthLines(text), OtherThan(mac))
    ensures Helpers.WellTerminated(Revoked(text, mac))
  {
    var kept := Filter(FileLines(text), KeepLine(mac));
    KeptAreLines(text, mac);
    FileLinesOfConcat(kept);
    ConcatLinesTerminated(kept);
    StrippedKept(FileLines(text), mac);
  }

  /** After a revoke the MAC is not listed, and every other MAC is listed as before. */
  lemma RevokeUnlists(text: string, mac: string, other: string)
    requires Helpers.WellTerminated(text)
    ensures !Helpers.IsMacAuthenticated(Some(Revoked(text, mac)), mac)
    ensures other != mac ==>
              (Helpers.IsMacAuthenticated(Some(Revoked(text, mac)), other) <==> Helpers.IsMacAuthenticated(Some(text), other))
  {
    RevokeLists(text, mac);
    FilterMembers(Helpers.AuthLines(text), OtherThan(mac), mac);
    FilterMembers(Helpers.AuthLines(text), OtherThan(mac), other);
  }

  /** `total_authenticated` drops by the number of entries equal to the revoked MAC. */
  lemma RevokeCount(text: string, mac: string)
    requires Helpers.WellTerminated(text)
    ensures |Helpers.AuthLines(Revoked(text, mac))| == |Helpers.AuthLines(text)| - Count(Helpers.AuthLines(text), EqualTo(mac))
  {
    var listed := Helpers.AuthLines(text);
    RevokeLists(text, mac);
    CountIsFilterLength(listed, OtherThan(mac));
    CountComplement(listed, OtherThan(mac));
    CountSame(listed, Not(OtherThan(mac)), EqualTo(mac));
  }

  /** Revoking a MAC the file does not list leaves the text as it is. */
  lemma RevokeAbsent(text: string, mac: string)
    requires Helpers.WellTerminated(text)
    requires mac != [] && mac !in Helpers.AuthLines(text)
    ensures Revoked(text, mac) == text
  {
    var lines := FileLines(text);
    forall i | 0 <= i < |lines| ensures KeepLine(mac)(lines[i]) {
      Helpers.StrippedLinesMembers(lines, mac);
    }
    FilterAll(lines, KeepLine(mac));
    FileLinesConcat(text);
  }

  /** Revoking a storable MAC that was just granted restores the file. */
  lemma RevokeUndoesGrant(text: string, mac: string)
    requires Helpers.WellTerminated(text)
    requires Helpers.Storable(mac) && mac !in Helpers.AuthLines(text)
    ensures Revoked(Helpers.Authenticated(Some(text), mac).value, mac) == text
  {
    var lines := FileLines(text);
    var granted := text + mac + "\n";
    assert Helpers.Authenticated(Some(text), mac).value == granted;
    assert FileLines(granted) == lines + [mac + "\n"] by {
      FileLinesAppend(text, mac);
    }
    assert !KeepLine(mac)(mac + "\n") by {
      StripNewline(mac);
    }
    assert Filter(FileLines(granted), KeepLine(mac)) == Filter(lines, KeepLine(mac)) by {
      FilterSnoc(lines, mac + "\n", KeepLine(mac));
      assert Filter(lines, KeepLine(mac)) + [] == Filter(lines, KeepLine(mac));
    }
    RevokeAbsent(text, mac);
  }

  /**
   * `admin_revoke_access`. A missing file is left alone. `ioOk` says whether
   * reading and rewriting the file succeed; a failure is the 500 answer with
   * the file as it was.
   */
  method AdminRevokeAccess(auth: Helpers.AuthFile, mac: string, ioOk: bool) returns (success: bool)
    requires auth.Valid()
    modifies auth
    ensures auth.Valid()
    ensures success <==> old(auth.text).None? || ioOk
    ensures auth.text == if old(auth.text).Some? && ioOk then Some(Revoked(old(auth.text).value, mac)) else old(auth.text)
  {
    if auth.text.Some? {
      if !ioOk {
        return false;
      }
      var written := WriteKept(FileLines(auth.text.value), mac);
      RevokeLists(auth.text.value, mac);
      auth.text := Some(written);
    }
    return true;
  }

  /** The loop of `admin_revoke_access` that writes back every line it keeps. */
  method WriteKept(lines: seq<string>, mac: string) returns (written: string)
    ensures written == Concat(Filter(lines, KeepLine(mac)))
  {
    written := "";
    for i := 0 to |lines|
      invariant written == Concat(Filter(lines[..i], KeepLine(mac)))
    {
      KeptStep(lines, i, mac);
      if Strip(lines[i]) != mac {
        written := written + lines[i];
      }
    }
    assert lines[..|lines|] == lines;
  }

  lemma KeptStep(lines: seq<string>, i: nat, mac: string)
    requires i < |lines|
    ensures Concat(Filter(lines[..i + 1], KeepLine(mac))) ==
            Concat(Filter(lines[..i], KeepLine(mac))) + (if Strip(lines[i]) != mac then lines[i] else "")
  {
    var kept := Filter(lines[..i], KeepLine(mac));
    assert lines[..i + 1][..i] == lines[..i];
    if Strip(lines[i]) != mac {
      ConcatAppend(kept, [lines[i]]);
    } else {
      assert kept + [] == kept;
    }
  }

  /**
   * `admin_grant_access`: `authenticate_mac` on the MAC of the URL; success
   * or the 400 answer.
   */
  method AdminGrantAccess(auth: Helpers.AuthFile, mac: string, readOk: bool, writeOk: bool) returns (success: bool)
    requires auth.Valid()
    modifies auth
    ensures auth.Valid()
    ensures success <==> (old(auth.text).None? || readOk) && (mac in Helpers.Existing(old(auth.text)) || writeOk)
    ensures auth.text == if success then Helpers.Authenticated(old(auth.text), mac) else old(auth.text)
    ensures success && Helpers.Storable(mac) ==> Helpers.IsMacAuthenticated(auth.text, mac)
  {
    success := auth.AuthenticateMac(mac, readOk, writeOk);
    if success && Helpers.Storable(mac) {
      Helpers.AuthenticateLists(old(auth.text), mac);
    }
  }

  /* ---------------- connect ---------------- */

  /** What `connect` answers: nothing for a request that is not a POST. */
  datatype ConnectResponse = NoResponse | Granted(clientMac: string) | Rejected

  /**
   * `connect`: `first` and `retry` are the outputs of the two `arp -n`
   * runs of `get_client_mac`; `readOk` and `writeOk` the I/O outcomes of
   * `authenticate_mac`.
   */
  method Connect(auth: Helpers.AuthFile, isPost: bool, first: Option<string>, retry: Option<string>,
                 readOk: bool, writeOk: bool) returns (r: ConnectResponse)
    requires auth.Valid()
    modifies auth
    ensures auth.Valid()
    ensures !isPost ==> r == NoResponse
    ensures isPost ==> (r.Granted? <==>
              Helpers.ClientMac(first, retry).Some? && (old(auth.text).None? || readOk) &&
              (Helpers.ClientMac(first, retry).value in Helpers.Existing(old(auth.text)) || writeOk))
    ensures isPost && !r.Granted? ==> r == Rejected
    ensures r.Granted? ==> r.clientMac == Helpers.ClientMac(first, retry).value &&
                           auth.text == Helpers.Authenticated(old(auth.text), r.clientMac) &&
                           Helpers.IsMacAuthenticated(auth.text, r.clientMac)
    ensures !r.Granted? ==> auth.text == old(auth.text)
  {
    if !isPost {
      return NoResponse;
    }
    var clientMac := Helpers.ClientMac(first, retry);
    if clientMac.Some? {
      var ok := auth.AuthenticateMac(clientMac.value, readOk, writeOk);
      if ok {
        Helpers.AuthenticateLists(old(auth.text), clientMac.value);
        return Granted(clientMac.value);
      }
    }
    return Rejected;
  }

  /* ---------------- access codes ---------------- */

  /** `(string.ascii_uppercase + string.digits)[p]` */
  function AlphabetChar(p: nat): (c: char)
    requires p < 36
    ensures 'A' <= c <= 'Z' || IsDigit(c)
  {
    if p < 26 then ('A' as int + p) as char else ('0' as int + p - 26) as char
  }

  /** The position of an upper-case letter or digit in the alphabet. */
  function AlphabetIndex(c: char): (p: nat)
    requires 'A' <= c <= 'Z' || IsDigit(c)
    ensures p < 36
  {
    if 'A' <= c <= 'Z' then c as int - 'A' as int else c as int - '0' as int + 26
  }

  lemma AlphabetRoundTrip(p: nat, c: char)
    requires p < 36 && ('A' <= c <= 'Z' || IsDigit(c))
    ensures AlphabetIndex(AlphabetChar(p)) == p
    ensures AlphabetChar(AlphabetIndex(c)) == c
  {
  }

  /** A generated code: "NET-" and eight letters or digits. */
  predicate IsAccessCode(s: string)
  {
    |s| == 12 && s[..4] == "NET-" && forall i :: 4 <= i < 12 ==> 'A' <= s[i] <= 'Z' || IsDigit(s[i])
  }

  /** The eight random choices of the alphabet, as positions. */
  predicate ValidPicks(picks: seq<nat>)
  {
    |picks| == 8 && forall i :: 0 <= i < 8 ==> picks[i] < 36
  }

  function Chars(picks: seq<nat>): (s: string)
    requires forall i :: 0 <= i < |picks| ==> picks[i] < 36
    ensures |s| == |picks| && forall i :: 0 <= i < |picks| ==> s[i] == AlphabetChar(picks[i])
  {
    if picks == [] then [] else [AlphabetChar(picks[0])] + Chars(picks[1..])
  }

  /** The code `AccessCodeAPIView.post` generates from its eight choices. */
  function AccessCode(picks: seq<nat>): (code: string)
    requires ValidPicks(picks)
    ensures IsAccessCode(code)
  {
    var code := "NET-" + Chars(picks);
    assert code[..4] == "NET-";
    code
  }

  /** The choices a code was generated from. */
  function Picks(code: string): (picks: seq<nat>)
    requires IsAccessCode(code)
    ensures ValidPicks(picks)
  {
    seq(8, i requires 0 <= i < 8 => AlphabetIndex(code[4 + i]))
  }

  /** Every code comes from exactly one choice of characters: generation and reading back are inverse. */
  lemma AccessCodeRoundTrip(picks: seq<nat>, code: string)
    requires ValidPicks(picks) && IsAccessCode(code)
    ensures Picks(AccessCode(picks)) == picks
    ensures AccessCode(Picks(code)) == code
  {
    var c := AccessCode(picks);
    forall i | 0 <= i < 8 ensures Picks(c)[i] == picks[i] {
      assert c[4 + i] == AlphabetChar(picks[i]);
    }
    var back := AccessCode(Picks(code));
    forall i | 0 <= i < 12 ensures back[i] == code[i] {
      if i < 4 {
        assert back[..4][i] == code[..4][i];
      } else {
        assert back[i] == AlphabetChar(Picks(code)[i - 4]);
      }
    }
  }

  /* ---------------- AdminAccessAPIView ---------------- */

  /** The fields of a `Device` row the view reads and writes. */
  datatype DeviceRow = DeviceRow(ip: string, authenticated: bool, authStatus: string)

  /** A `DeviceHistory` row: device MAC, event type, address and the `action` detail. */
  datatype HistoryEvent = HistoryEvent(mac: string, eventType: string, ip: string, action: string)

  /** What the device part of the answer holds, or the 404 answer. */
  datatype AccessResponse = AccessOk(mac: string, authenticated: bool, authStatus: string) | DeviceNotFound

  /** The boolean flag and the status text agree. */
  predicate Consistent(row: DeviceRow)
  {
    row.authenticated <==> row.authStatus == "authenticated"
  }

  function GrantedRow(row: DeviceRow): (r: DeviceRow)
    ensures r.ip == row.ip && r.authenticated && Consistent(r)
  {
    row.(authenticated := true, authStatus := "authenticated")
  }

  function BlockedRow(row: DeviceRow): (r: DeviceRow)
    ensures r.ip == row.ip && !r.authenticated && r.authStatus == "blocked" && Consistent(r)
  {
    row.(authenticated := false, authStatus := "blocked")
  }

  /** Only the last of several grants and revokes matters, and repeating one changes nothing. */
  lemma LastActionWins(row: DeviceRow)
    ensures GrantedRow(BlockedRow(row)) == GrantedRow(row) && BlockedRow(GrantedRow(row)) == BlockedRow(row)
    ensures GrantedRow(GrantedRow(row)) == GrantedRow(row) && BlockedRow(BlockedRow(row)) == BlockedRow(row)
  {
  }

  /** The `Device` rows keyed by their unique MAC, and the `DeviceHistory` log. */
  class DeviceTable {
    var rows: map<string, DeviceRow>
    var history: seq<HistoryEvent>

    predicate Valid()
      reads this
    {
      forall m :: m in rows ==> Consistent(rows[m])
    }

    constructor (rows: map<string, DeviceRow>)
      ensures this.rows == rows && history == []
    {
      this.rows := rows;
      history := [];
    }

    /** `AdminAccessAPIView.post`: grant a device access and log it; 404 for an unknown MAC. */
    method Grant(mac: string) returns (r: AccessResponse)
      modifies this
      ensures mac !in old(rows) ==> r == DeviceNotFound && rows == old(rows) && history == old(history)
      ensures mac in old(rows) ==>
                rows == old(rows)[mac := GrantedRow(old(rows)[mac])] &&
                history == old(history) + [HistoryEvent(mac, "access_granted", old(rows)[mac].ip, "admin_granted")] &&
                r == AccessOk(mac, true, "authenticated")
      ensures old(Valid()) ==> Valid()
    {
      if mac !in rows {
        return DeviceNotFound;
      }
      var device := GrantedRow(rows[mac]);
      rows := rows[mac := device];
      history := history + [HistoryEvent(mac, "access_granted", device.ip, "admin_granted")];
      return AccessOk(mac, device.authenticated, device.authStatus);
    }

    /** `AdminAccessAPIView.delete`: block a device and log it; 404 for an unknown MAC. */
    method Revoke(mac: string) returns (r: AccessResponse)
      modifies this
      ensures mac !in old(rows) ==> r == DeviceNotFound && rows == old(rows) && history == old(history)
      ensures mac in old(rows) ==>
                rows == old(rows)[mac := BlockedRow(old(rows)[mac])] &&
                history == old(history) + [HistoryEvent(mac, "access_revoked", old(rows)[mac].ip, "admin_revoked")] &&
                r == AccessOk(mac, false, "blocked")
      ensures old(Valid()) ==> Valid()
    {
      if mac !in rows {
        return DeviceNotFound;
      }
      var device := BlockedRow(rows[mac]);
      rows := rows[mac := device];
      history := history + [HistoryEvent(mac, "access_revoked", device.ip, "admin_revoked")];
      return AccessOk(mac, device.authenticated, device.authStatus);
    }
  }
}

=== FILE: pyvalues.dfy ===
/**
 * The JSON-like values held in the hotspot configuration, with Python's
 * truthiness, `str()` rendering and `==` (under which `True == 1`).
 */
module PyValues {
  import opened Text
  import opened Wrappers

  datatype PyVal = PyNone | PyBool(b: bool) | PyInt(i: int) | PyStr(s: string)

  /** `bool(v)` */
  predicate Truthy(v: PyVal)
  {
    match v
    case PyNone => false
    case PyBool(b) => b
    case PyInt(i) => i != 0
    case PyStr(s) => s != ""
  }

  /** `str(v)`, which is also what an f-string interpolates. */
  function Render(v: PyVal): string
  {
    match v
    case PyNone => "None"
    case PyBool(b) => if b then "True" else "False"
    case PyInt(i) => IntToString(i)
    case PyStr(s) => s
  }

  /** The integer a bool or int stands for in a numeric comparison. */
  function AsNumber(v: PyVal): Option<int>
  {
    match v
    case PyBool(b) => Some(if b then 1 else 0)
    case PyInt(i) => Some(i)
    case _ => None
  }

  /** Python `a == b` between two configuration values: numbers and booleans compare by value. */
  predicate PyEq(a: PyVal, b: PyVal)
  {
    if AsNumber(a).Some? && AsNumber(b).Some? then AsNumber(a).value == AsNumber(b).value
    else a == b
  }
}

=== FILE: service_models.dfy ===
/**
 * The rules the service-directory models carry (backend/services/models.py):
 * when a service gets its publication time, when it is available, and when
 * an advertisement is running. Times are integers (seconds); the clock
 * reading `now` is a parameter.
 */
module ServiceModels {
  import opened Wrappers

  /**
   * The fields of a `Service` row the views read and write. `tags` is the
   * stored JSON text of the tag list, which is what a database substring
   * search over that column sees.
   */
  datatype Service = Service(
    id: string, name: string, description: string, shortDescription: string, tags: string,
    providerName: string, categoryId: string, status: string, isActive: bool, isFeatured: bool,
    viewCount: nat, favoriteCount: nat, publishedAt: Option<int>)

  /** The ordering a `Service` query has when none is given. */
  const DefaultOrdering: seq<string> := ["-is_featured", "-rating", "-created_at"]

  /** `Service.save`: a published service without a publication time gets `now`; nothing else changes. */
  function Save(s: Service, now: int): (r: Service)
    ensures r.publishedAt.Some? <==> s.publishedAt.Some? || s.status == "published"
    ensures s.publishedAt.Some? ==> r.publishedAt == s.publishedAt
    ensures r == s.(publishedAt := r.publishedAt)
  {
    if s.status == "published" && s.publishedAt.None? then s.(publishedAt := Some(now)) else s
  }

  /** The publication time is set once: later saves, at any time and after any change of status, keep it. */
  lemma PublishedOnce(s: Service, t1: int, status: string, t2: int)
    requires s.status == "published"
    ensures Save(Save(s, t1).(status := status), t2).publishedAt == Save(s, t1).publishedAt
    ensures s.publishedAt.None? ==> Save(s, t1).publishedAt == Some(t1)
  {
  }

  /** A draft or archived service saved without a publication time keeps none. */
  lemma UnpublishedHasNoTime(s: Service, now: int)
    requires s.status != "published" && s.publishedAt.None?
    ensures Save(s, now).publishedAt.None?
  {
  }

  /** `Service.is_available` */
  predicate IsAvailable(s: Service)
  {
    s.status == "published" && s.isActive
  }

  /** Every available service, once saved, has a publication time. */
  lemma AvailableIsPublished(s: Service, now: int)
    requires IsAvailable(s)
    ensures IsAvailable(Save(s, now)) && Save(s, now).publishedAt.Some?
  {
  }

  /** The fields of an `Advertisement` row the model and the views read. */
  datatype Advertisement = Advertisement(
    id: string, title: string, status: string, startDate: int, endDate: int,
    maxClicks: nat, maxImpressions: nat, totalClicks: nat, totalImpressions: nat)

  /** A cap of 0 means no cap. */
  predicate UnderCap(total: nat, cap: nat)
  {
    cap == 0 || total < cap
  }

  /** `Advertisement.is_active` at time `now`. */
  predicate IsActive(ad: Advertisement, now: int)
  {
    ad.status == "active" && ad.startDate <= now <= ad.endDate &&
    UnderCap(ad.totalClicks, ad.maxClicks) && UnderCap(ad.totalImpressions, ad.maxImpressions)
  }

  /** The times an advertisement is active form one interval: no gap opens between two active times. */
  lemma ActiveTimesAreAnInterval(ad: Advertisement, t1: int, t: int, t2: int)
    requires IsActive(ad, t1) && IsActive(ad, t2) && t1 <= t <= t2
    ensures IsActive(ad, t)
  {
  }

  /** Counting more clicks or impressions never makes an inactive advertisement active. */
  lemma MoreCountsNeverActivate(ad: Advertisement, now: int, clicks: nat, impressions: nat)
    requires clicks >= ad.totalClicks && impressions >= ad.totalImpressions
    ensures IsActive(ad.(totalClicks := clicks, totalImpressions := impressions), now) ==> IsActive(ad, now)
  {
  }

  /** Once an advertisement reaches a non-zero cap it is no longer active, whatever the time. */
  lemma CapsEndCampaign(ad: Advertisement, now: int)
    ensures ad.maxImpressions > 0 && ad.totalImpressions >= ad.maxImpressions ==> !IsActive(ad, now)
    ensures ad.maxClicks > 0 && ad.totalClicks >= ad.maxClicks ==> !IsActive(ad, now)
  {
  }

  /** With both caps 0, the counts never matter. */
  lemma UncappedIgnoresCounts(ad: Advertisement, now: int, clicks: nat, impressions: nat)
    requires ad.maxClicks == 0 && ad.maxImpressions == 0
    ensures IsActive(ad, now) == IsActive(ad.(totalClicks := clicks, totalImpressions := impressions), now)
  {
  }
}

=== FILE: services.dfy ===
/**
 * The service directory's views (backend/services/views.py): the listing
 * with its filters, pagination and per-category counts, the detail view
 * that counts a view, and the favourite counters. Database rows are
 * in-memory records; the rows of a listing arrive in the order the
 * database returns them for the chosen sort keys.
 */
module Services {
  import opened Wrappers
  import opened Text
  import opened Lists
  import opened ServiceModels

  function Min(a: int, b: int): int { if a <= b then a else b }
  function Max(a: int, b: int): int { if a >= b then a else b }

  // ---------------------------------------------------------------------
  // Pagination

  const MaxPageSize: int := 50
  /** What a query set says when sliced with a negative bound. */
  const NegativeIndexing := "Negative indexing is not supported."
  /** What Python says on `n // 0`. */
  const DivisionByZero := "integer division or modulo by zero"

  /** `min(requested, 50)`: the requested page size, capped at 50. */
  function PageSize(requested: int): (size: int)
    ensures size <= MaxPageSize
    ensures size == requested || (size == MaxPageSize && requested > MaxPageSize)
  {
    if MaxPageSize < requested then MaxPageSize else requested
  }

  /** Python's `a // b`, which rounds toward negative infinity. */
  function FloorDiv(a: int, b: int): (q: int)
    requires b != 0
    ensures b > 0 ==> q * b <= a < q * b + b
    ensures b < 0 ==> q * b >= a > q * b + b
  {
    if b > 0 then a / b else (-a) / (-b)
  }

  /** `(total + size - 1) // size` */
  function TotalPages(total: nat, size: int): int
    requires size != 0
  {
    FloorDiv(total + size - 1, size)
  }

  /** For a positive page size the page count is the ceiling of total / size. */
  lemma TotalPagesCeiling(total: nat, size: int)
    requires size >= 1
    ensures TotalPages(total, size) >= 0
    ensures (TotalPages(total, size) - 1) * size < total <= TotalPages(total, size) * size
  {
    var q := TotalPages(total, size);
    assert q * size <= total + size - 1 < q * size + size;
    assert (q - 1) * size == q * size - size;
  }

  /**
   * A query-set slice `rows[start:end]`: a negative bound is refused, an
   * empty or inverted range gives no rows, and the range is clipped to the
   * rows there are.
   */
  function Slice<A>(rows: seq<A>, start: int, end: int): (r: Result<seq<A>, string>)
    ensures r.Err? <==> start < 0 || end < 0
    ensures r.Ok? ==> |r.value| == Max(0, Min(end, |rows|) - start)
    ensures r.Ok? ==> forall k :: 0 <= k < |r.value| ==> r.value[k] == rows[start + k]
  {
    if start < 0 || end < 0 then Err(NegativeIndexing)
    else if end <= start || |rows| <= start then Ok([])
    else Ok(rows[start..Min(end, |rows|)])
  }

  /** Page `page` (counted from 1) of `size` rows. */
  function Page<A>(rows: seq<A>, page: int, size: int): Result<seq<A>, string>
  {
    Slice(rows, (page - 1) * size, (page - 1) * size + size)
  }

  /** With a positive size, every page from 1 on exists and holds at most `size` rows. */
  lemma PageBounded<A>(rows: seq<A>, page: int, size: int)
    requires page >= 1 && size >= 1
    ensures Page(rows, page, size).Ok? && |Page(rows, page, size).value| <= size
  {
    assert (page - 1) * size >= 0;
  }

  /** Row `i` is on page `i / size + 1`, at position `i % size`: the pages cover the rows. */
  lemma RowOnPage<A>(rows: seq<A>, size: int, i: int)
    requires size >= 1 && 0 <= i < |rows|
    ensures var p := Page(rows, i / size + 1, size);
      p.Ok? && i % size < |p.value| && p.value[i % size] == rows[i]
  {
    var start := (i / size + 1 - 1) * size;
    assert start == (i / size) * size;
    assert start + i % size == i;
    assert start >= 0;
  }

  /** Pages past the last one are empty. */
  lemma PastLastPage<A>(rows: seq<A>, page: int, size: int)
    requires size >= 1 && page > TotalPages(|rows|, size)
    ensures Page(rows, page, size) == Ok([])
  {
    var q := TotalPages(|rows|, size);
    TotalPagesCeiling(|rows|, size);
    MulMonotone(q, page - 1, size);
  }

  lemma MulMonotone(a: int, b: int, c: nat)
    requires a <= b
    ensures a * c <= b * c
  {
  }

  // ---------------------------------------------------------------------
  // Filters and ordering

  /** Case-insensitive substring search over the searchable fields. */
  predicate MatchesSearch(s: Service, search: string)
  {
    var q := Lower(search);
    Contains(Lower(s.name), q) || Contains(Lower(s.description), q) ||
    Contains(Lower(s.shortDescription), q) || Contains(Lower(s.tags), q) ||
    Contains(Lower(s.providerName), q)
  }

  /** The test a service passes to be listed, for a category ('all' for any) and a search ('' for none). */
  function Listed(category: string, search: string): Service -> bool
  {
    s => IsAvailable(s) && (category == "all" || s.categoryId == category) &&
         (search == "" || MatchesSearch(s, search))
  }

  /** The listed services are exactly the available ones in the category that match the search, in order. */
  lemma ListedMembers(rows: seq<Service>, category: string, search: string, s: Service)
    ensures s in Filter(rows, Listed(category, search)) <==>
      s in rows && s.status == "published" && s.isActive &&
      (category == "all" || s.categoryId == category) && (search == "" || MatchesSearch(s, search))
  {
    FilterMembers(rows, Listed(category, search), s);
  }

  /** The database ordering each sort choice asks for; anything unknown means 'featured'. */
  function SortKeys(sort: string): (keys: seq<string>)
    ensures sort == "rating" ==> keys == ["-rating", "-review_count"]
    ensures sort == "newest" ==> keys == ["-created_at"]
    ensures sort == "popular" ==> keys == ["-view_count", "-click_count"]
  {
    if sort == "rating" then ["-rating", "-review_count"]
    else if sort == "newest" then ["-created_at"]
    else if sort == "popular" then ["-view_count", "-click_count"]
    else ["-is_featured", "-rating", "-created_at"]
  }

  /** An unknown sort choice gives the same order as a query with no ordering at all. */
  lemma UnknownSortIsDefault(sort: string)
    requires sort != "rating" && sort != "newest" && sort != "popular"
    ensures SortKeys(sort) == DefaultOrdering == SortKeys("featured")
  {
  }

  // ---------------------------------------------------------------------
  // Category entries

  datatype Category = Category(id: string, name: string, icon: string, isActive: bool)
  datatype CategoryEntry = CategoryEntry(id: string, name: string, count: nat)

  function IsActiveCategory(): Category -> bool
  {
    (c: Category) => c.isActive
  }

  function InCategory(id: string): Service -> bool
  {
    (s: Service) => s.categoryId == id
  }

  /** The entry for one category: its own count when no category is selected, the whole listing's otherwise. */
  function EntryFor(c: Category, listed: seq<Service>, selected: string): CategoryEntry
  {
    CategoryEntry(c.id, c.name, if selected == "all" then Count(listed, InCategory(c.id)) else |listed|)
  }

  /** The category list: 'All Services' with the listing's total, then one entry per category. */
  function CategoryEntries(cats: seq<Category>, listed: seq<Service>, selected: string): (r: seq<CategoryEntry>)
    ensures |r| == |cats| + 1
  {
    if cats == [] then [CategoryEntry("all", "All Services", |listed|)]
    else CategoryEntries(cats[..|cats| - 1], listed, selected) + [EntryFor(cats[|cats| - 1], listed, selected)]
  }

  /** Entry by entry: the head is 'all' with the total; each category shows its id, name and count. */
  lemma {:induction false} CategoryEntriesAt(cats: seq<Category>, listed: seq<Service>, selected: string, i: int)
    requires 0 <= i < |cats|
    ensures var r := CategoryEntries(cats, listed, selected);
      r[0] == CategoryEntry("all", "All Services", |listed|) &&
      r[i + 1].id == cats[i].id && r[i + 1].name == cats[i].name &&
      r[i + 1].count == (if selected == "all" then Count(listed, InCategory(cats[i].id)) else |listed|)
  {
    if i < |cats| - 1 {
      CategoryEntriesAt(cats[..|cats| - 1], listed, selected, i);
    }
    if |cats| > 1 {
      CategoryEntriesAt(cats[..|cats| - 1], listed, selected, 0);
    }
  }

  /** With a category selected, every category shows the same count: the size of the listing. */
  lemma SelectedCategoryFlattensCounts(cats: seq<Category>, listed: seq<Service>, selected: string, i: int)
    requires selected != "all" && 0 <= i <= |cats|
    ensures CategoryEntries(cats, listed, selected)[i].count == |listed|
  {
    if i > 0 {
      CategoryEntriesAt(cats, listed, selected, i - 1);
    } else if cats != [] {
      CategoryEntriesAt(cats, listed, selected, 0);
    }
  }

  /** The loop that builds the category list. */
  method CategoryCounts(cats: seq<Category>, listed: seq<Service>, selected: string) returns (entries: seq<CategoryEntry>)
    ensures entries == CategoryEntries(cats, listed, selected)
  {
    entries := [CategoryEntry("all", "All Services", |listed|)];
    var i := 0;
    while i < |cats|
      invariant 0 <= i <= |cats|
      invariant entries == CategoryEntries(cats[..i], listed, selected)
    {
      assert cats[..i + 1][..i] == cats[..i];
      entries := entries + [EntryFor(cats[i], listed, selected)];
      i := i + 1;
    }
    assert cats[..|cats|] == cats;
  }

  // ---------------------------------------------------------------------
  // Query parameters

  /**
   * `int(request.GET.get(name, default))`: the default when the parameter is
   * absent, otherwise the parse of its text (None where `int` raises).
   */
  function IntParam(text: Option<string>, default: int): (r: Option<int>)
    ensures text.None? ==> r == Some(default)
    ensures text.Some? ==> r == ParseInt(text.value)
  {
    if text.None? then Some(default) else ParseInt(text.value)
  }

  /** The text of the ValueError `int` raises on `t`. */
  function IntError(t: string): string
  {
    "invalid literal for int() with base 10: '" + t + "'"
  }

  /** The text of the ValidationError a UUID key raises on `c`. */
  function UuidError(c: string): string
  {
    "['\U{201C}" + c + "\U{201D} is not a valid UUID.']"
  }

  /** `hex.strip('{}')`: braces removed from both ends. */
  function StripBraces(s: string): (r: string)
    ensures |r| <= |s|
    ensures s != [] && s[0] !in "{}" && s[|s| - 1] !in "{}" ==> r == s
  {
    if s != [] && s[0] in "{}" then StripBraces(s[1..])
    else if s != [] && s[|s| - 1] in "{}" then StripBraces(s[..|s| - 1])
    else s
  }

  /** `hex.replace('-', '')` */
  function Unhyphenated(s: string): (r: string)
    ensures |r| <= |s|
  {
    if s == [] then [] else (if s[0] == '-' then [] else [s[0]]) + Unhyphenated(s[1..])
  }

  /**
   * `uuid.UUID(hex=c)` succeeds, which is what the category key of a
   * service asks of a filter value: with "urn:" and "uuid:" deleted, the
   * braces at either end and the hyphens removed, 32 hexadecimal digits remain.
   */
  predicate IsUuidText(c: string)
  {
    var h := Unhyphenated(StripBraces(ReplaceAll(ReplaceAll(c, "urn:", ""), "uuid:", "")));
    |h| == 32 && forall i :: 0 <= i < |h| ==> IsHexDigit(h[i])
  }

  /** A category shorter than 32 characters, such as a slug like "food", is refused. */
  lemma ShortTextIsNoUuid(c: string)
    requires |c| < 32
    ensures !IsUuidText(c)
  {
    ReplaceByNothingShortens(c, "urn:");
    ReplaceByNothingShortens(ReplaceAll(c, "urn:", ""), "uuid:");
  }

  lemma {:induction false} UnhyphenatedAppend(a: string, b: string)
    ensures Unhyphenated(a + b) == Unhyphenated(a) + Unhyphenated(b)
  {
    if a == [] {
      assert a + b == b;
    } else {
      var head := if a[0] == '-' then [] else [a[0]];
      var ab := a + b;
      assert ab[0] == a[0] && ab[1..] == a[1..] + b;
      UnhyphenatedAppend(a[1..], b);
    }
  }

  lemma {:induction false} UnhyphenatedHex(g: string)
    requires forall i :: 0 <= i < |g| ==> IsHexDigit(g[i])
    ensures Unhyphenated(g) == g
  {
    if g != [] {
      UnhyphenatedHex(g[1..]);
    }
  }

  predicate AllHex(g: string)
  {
    forall i :: 0 <= i < |g| ==> IsHexDigit(g[i])
  }

  /** The canonical 8-4-4-4-12 form of a UUID is accepted. */
  lemma CanonicalUuidAccepted(g1: string, g2: string, g3: string, g4: string, g5: string)
    requires |g1| == 8 && |g2| == 4 && |g3| == 4 && |g4| == 4 && |g5| == 12
    requires AllHex(g1) && AllHex(g2) && AllHex(g3) && AllHex(g4) && AllHex(g5)
    ensures IsUuidText(g1 + "-" + g2 + "-" + g3 + "-" + g4 + "-" + g5)
  {
    var r3 := g4 + "-" + g5;
    var r2 := g3 + "-" + r3;
    var r1 := g2 + "-" + r2;
    var c := g1 + "-" + r1;
    assert c == g1 + "-" + g2 + "-" + g3 + "-" + g4 + "-" + g5;
    UnhyphenatedHex(g5);
    HexGroupThenHyphen(g4, g5);
    HexGroupThenHyphen(g3, r3);
    HexGroupThenHyphen(g2, r2);
    HexGroupThenHyphen(g1, r1);
    var h := g1 + g2 + g3 + g4 + g5;
    assert Unhyphenated(c) == h;
    assert AllHex(h);
    HexOrHyphenJoin(g4, g5);
    HexOrHyphenJoin(g3, r3);
    HexOrHyphenJoin(g2, r2);
    HexOrHyphenJoin(g1, r1);
    assert c[0] == g1[0] && c[|c| - 1] == g5[11];
    PlainTextKept(c);
  }

  predicate HexOrHyphen(s: string)
  {
    forall i :: 0 <= i < |s| ==> s[i] == '-' || IsHexDigit(s[i])
  }

  lemma HexOrHyphenJoin(g: string, rest: string)
    requires AllHex(g) && HexOrHyphen(rest)
    ensures HexOrHyphen(g + "-" + rest)
  {
    var c := g + "-" + rest;
    forall i | 0 <= i < |c| ensures c[i] == '-' || IsHexDigit(c[i]) {
      if i < |g| { assert c[i] == g[i]; }
      else if i > |g| { assert c[i] == rest[i - |g| - 1]; }
    }
  }

  /** Text of hexadecimal digits and hyphens, starting and ending with a digit, survives the clean-up before the hyphens go. */
  lemma PlainTextKept(c: string)
    requires c != [] && IsHexDigit(c[0]) && IsHexDigit(c[|c| - 1]) && HexOrHyphen(c)
    ensures StripBraces(ReplaceAll(ReplaceAll(c, "urn:", ""), "uuid:", "")) == c
  {
    assert ':' !in c by {
      forall i | 0 <= i < |c| ensures c[i] != ':' {
        assert c[i] == '-' || IsHexDigit(c[i]);
      }
    }
    assert "urn:"[3] == ':' && "uuid:"[4] == ':';
    NotContainsChar(c, "urn:", ':');
    ReplaceAbsent(c, "urn:", "");
    NotContainsChar(c, "uuid:", ':');
    ReplaceAbsent(c, "uuid:", "");
    assert c[0] !in "{}" && c[|c| - 1] !in "{}";
  }

  /** A group of hexadecimal digits and a hyphen: the hyphen goes, the digits stay. */
  lemma HexGroupThenHyphen(g: string, rest: string)
    requires AllHex(g)
    ensures Unhyphenated(g + "-" + rest) == g + Unhyphenated(rest)
  {
    var tail := "-" + rest;
    assert g + "-" + rest == g + tail;
    UnhyphenatedAppend(g, tail);
    assert tail[0] == '-' && tail[1..] == rest;
    assert Unhyphenated(tail) == Unhyphenated(rest);
    UnhyphenatedHex(g);
  }

  // ---------------------------------------------------------------------
  // The listing

  /** The query string; `page` and `pageSize` are the raw texts, None when absent. */
  datatype Query = Query(category: string, search: string, sort: string, page: Option<string>, pageSize: Option<string>)
  datatype SearchRecord = SearchRecord(user: string, query: string, categoryId: Option<string>, resultsCount: nat)
  datatype Pagination = Pagination(page: int, pageSize: int, totalCount: nat, totalPages: int)
  datatype Listing = Listing(
    services: seq<Service>, ordering: seq<string>, categories: seq<CategoryEntry>, pagination: Pagination)

  /** The search a signed-in user's listing records, if any. */
  function Logged(user: Option<string>, q: Query, total: nat): (h: Option<SearchRecord>)
    ensures h.Some? <==> user.Some? && q.search != ""
    ensures h.Some? ==>
      h.value.query == q.search && h.value.resultsCount == total &&
      h.value.categoryId == (if q.category == "all" then None else Some(q.category))
  {
    if user.Some? && q.search != "" then
      Some(SearchRecord(user.value, q.search, if q.category != "all" then Some(q.category) else None, total))
    else None
  }

  /**
   * `DiscoverServicesView.get` on the rows of the database (in its order for
   * the sort keys) and the categories. Returns the response and the search
   * record created, if any. The two `int()` conversions come first, then
   * the category filter, which raises on a value that is not a UUID; a
   * record is created even when the page count then fails on a page size of 0.
   */
  method Discover(rows: seq<Service>, categories: seq<Category>, q: Query, user: Option<string>)
    returns (r: Result<Listing, string>, logged: Option<SearchRecord>)
    ensures IntParam(q.page, 1).None? ==> r == Err(IntError(q.page.value)) && logged == None
    ensures IntParam(q.page, 1).Some? && IntParam(q.pageSize, 12).None? ==>
      r == Err(IntError(q.pageSize.value)) && logged == None
    ensures (IntParam(q.page, 1).Some? && IntParam(q.pageSize, 12).Some? &&
             q.category != "all" && !IsUuidText(q.category)) ==>
      r == Err(UuidError(q.category)) && logged == None
    ensures (IntParam(q.page, 1).Some? && IntParam(q.pageSize, 12).Some? &&
             (q.category == "all" || IsUuidText(q.category))) ==>
      var pageNo := IntParam(q.page, 1).value;
      var size := PageSize(IntParam(q.pageSize, 12).value);
      var listed := Filter(rows, Listed(q.category, q.search));
      var page := Page(listed, pageNo, size);
      && (page.Err? ==> r == Err(NegativeIndexing) && logged == None)
      && (page.Ok? ==> logged == Logged(user, q, |listed|))
      && (page.Ok? && size == 0 ==> r == Err(DivisionByZero))
      && (page.Ok? && size != 0 ==>
            && r.Ok?
            && r.value.services == page.value
            && r.value.ordering == SortKeys(q.sort)
            && r.value.categories == CategoryEntries(Filter(categories, IsActiveCategory()), listed, q.category)
            && r.value.pagination == Pagination(pageNo, size, |listed|, TotalPages(|listed|, size)))
  {
    var pageNo := IntParam(q.page, 1);
    if pageNo.None? {
      return Err(IntError(q.page.value)), None;
    }
    var requested := IntParam(q.pageSize, 12);
    if requested.None? {
      return Err(IntError(q.pageSize.value)), None;
    }
    if q.category != "all" && !IsUuidText(q.category) {
      return Err(UuidError(q.category)), None;
    }
    r, logged := ListPage(rows, categories, q, pageNo.value, PageSize(requested.value), user);
  }

  /** The listing once the parameters are read: page `pageNo` of `size` rows. */
  method ListPage(rows: seq<Service>, categories: seq<Category>, q: Query, pageNo: int, size: int, user: Option<string>)
    returns (r: Result<Listing, string>, logged: Option<SearchRecord>)
    ensures var listed := Filter(rows, Listed(q.category, q.search));
      var page := Page(listed, pageNo, size);
      && (page.Err? ==> r == Err(NegativeIndexing) && logged == None)
      && (page.Ok? ==> logged == Logged(user, q, |listed|))
      && (page.Ok? && size == 0 ==> r == Err(DivisionByZero))
      && (page.Ok? && size != 0 ==>
            && r.Ok?
            && r.value.services == page.value
            && r.value.ordering == SortKeys(q.sort)
            && r.value.categories == CategoryEntries(Filter(categories, IsActiveCategory()), listed, q.category)
            && r.value.pagination == Pagination(pageNo, size, |listed|, TotalPages(|listed|, size)))
  {
    var listed := Filter(rows, Listed(q.category, q.search));
    var ordering := SortKeys(q.sort);
    var total := |listed|;
    var page := Page(listed, pageNo, size);
    if page.Err? {
      return Err(NegativeIndexing), None;
    }
    var entries := CategoryCounts(Filter(categories, IsActiveCategory()), listed, q.category);
    logged := Logged(user, q, total);
    if size == 0 {
      return Err(DivisionByZero), logged;
    }
    r := Ok(Listing(page.value, ordering, entries, Pagination(pageNo, size, total, TotalPages(total, size))));
  }

  // ---------------------------------------------------------------------
  // Detail and favourites

  /** The service rows and, per service id, the users who have favourited it. */
  datatype Store = Store(services: map<string, Service>, favoritedBy: map<string, set<string>>)

  function Fans(st: Store, id: string): set<string>
  {
    if id in st.favoritedBy then st.favoritedBy[id] else {}
  }

  /** Each service's counter equals its number of favourites. */
  predicate CountsAgree(st: Store)
  {
    forall id :: id in st.services ==> st.services[id].favoriteCount == |Fans(st, id)|
  }

  datatype DetailResponse = DetailOk(service: Service, isFavorited: Option<bool>) | DetailNotFound
  datatype FavoriteResponse = FavoriteOk(isFavorited: bool, favoriteCount: nat) | ServiceNotFound | LoginRequired

  /** `ServiceDetailView.get`: only an available service is shown, and showing it counts one view. */
  function View(st: Store, id: string, user: Option<string>): (DetailResponse, Store)
  {
    if id in st.services && IsAvailable(st.services[id]) then
      var s := st.services[id].(viewCount := st.services[id].viewCount + 1);
      (DetailOk(s, if user.Some? then Some(user.value in Fans(st, id)) else None),
       st.(services := st.services[id := s]))
    else (DetailNotFound, st)
  }

  /** A view raises the service's view count by exactly one and changes nothing else. */
  lemma ViewCountsOne(st: Store, id: string, user: Option<string>)
    ensures var (r, st') := View(st, id, user);
      && (r.DetailOk? <==> id in st.services && IsAvailable(st.services[id]))
      && (r.DetailOk? ==>
            && st'.services.Keys == st.services.Keys && st'.favoritedBy == st.favoritedBy
            && st'.services[id] == st.services[id].(viewCount := st.services[id].viewCount + 1)
            && r.service == st'.services[id]
            && forall other :: other in st.services && other != id ==> st'.services[other] == st.services[other])
      && (r.DetailNotFound? ==> st' == st)
  {
  }

  /** `FavoriteServiceView.post`: an available service gains the user as a fan, counted once. */
  function Favorite(st: Store, user: Option<string>, id: string): (FavoriteResponse, Store)
  {
    if user.None? then (LoginRequired, st)
    else if id !in st.services || !IsAvailable(st.services[id]) then (ServiceNotFound, st)
    else if user.value in Fans(st, id) then (FavoriteOk(true, st.services[id].favoriteCount), st)
    else
      var s := st.services[id].(favoriteCount := st.services[id].favoriteCount + 1);
      (FavoriteOk(true, s.favoriteCount),
       Store(st.services[id := s], st.favoritedBy[id := Fans(st, id) + {user.value}]))
  }

  /** `FavoriteServiceView.delete`: any existing service loses the user as a fan, the counter clamped at 0. */
  function Unfavorite(st: Store, user: Option<string>, id: string): (FavoriteResponse, Store)
  {
    if user.None? then (LoginRequired, st)
    else if id !in st.services then (ServiceNotFound, st)
    else if user.value !in Fans(st, id) then (FavoriteOk(false, st.services[id].favoriteCount), st)
    else
      var s := st.services[id].(favoriteCount := Max(0, st.services[id].favoriteCount - 1));
      (FavoriteOk(false, s.favoriteCount),
       Store(st.services[id := s], st.favoritedBy[id := Fans(st, id) - {user.value}]))
  }

  /** Adding a favourite raises the counter only when a new favourite was created. */
  lemma FavoriteCountsNewOnly(st: Store, user: string, id: string)
    requires id in st.services && IsAvailable(st.services[id])
    ensures var (r, st') := Favorite(st, Some(user), id);
      && r == FavoriteOk(true, st'.services[id].favoriteCount)
      && user in Fans(st', id)
      && st'.services[id].favoriteCount ==
         st.services[id].favoriteCount + (if user in Fans(st, id) then 0 else 1)
      && st'.services[id] == st.services[id].(favoriteCount := st'.services[id].favoriteCount)
  {
  }

  /** Removing a favourite lowers the counter, never below 0, only when a favourite was deleted. */
  lemma UnfavoriteCountsDeletedOnly(st: Store, user: string, id: string)
    requires id in st.services
    ensures var (r, st') := Unfavorite(st, Some(user), id);
      && r == FavoriteOk(false, st'.services[id].favoriteCount)
      && user !in Fans(st', id)
      && st'.services[id].favoriteCount ==
         (if user in Fans(st, id) then Max(0, st.services[id].favoriteCount - 1) else st.services[id].favoriteCount)
      && st'.services[id] == st.services[id].(favoriteCount := st'.services[id].favoriteCount)
  {
  }

  /** Favouriting twice is favouriting once. */
  lemma FavoriteIdempotent(st: Store, user: Option<string>, id: string)
    ensures Favorite(Favorite(st, user, id).1, user, id).1 == Favorite(st, user, id).1
  {
  }

  /** Unfavouriting twice is unfavouriting once. */
  lemma UnfavoriteIdempotent(st: Store, user: Option<string>, id: string)
    ensures Unfavorite(Unfavorite(st, user, id).1, user, id).1 == Unfavorite(st, user, id).1
  {
  }

  /** Removing a favourite just added restores the counter and the fans. */
  lemma UnfavoriteUndoesFavorite(st: Store, user: string, id: string)
    requires user !in Fans(st, id)
    ensures var st' := Unfavorite(Favorite(st, Some(user), id).1, Some(user), id).1;
      st'.services == st.services && Fans(st', id) == Fans(st, id)
  {
    var (_, mid) := Favorite(st, Some(user), id);
    if id in st.services && IsAvailable(st.services[id]) {
      assert Fans(mid, id) - {user} == Fans(st, id);
      assert st.services[id].(favoriteCount := st.services[id].favoriteCount) == st.services[id];
    }
  }

  /** Both views keep each counter equal to the number of favourites, so the clamp at 0 never acts. */
  lemma {:induction false} CountersStayInStep(st: Store, user: Option<string>, id: string)
    requires CountsAgree(st)
    ensures CountsAgree(Favorite(st, user, id).1)
    ensures CountsAgree(Unfavorite(st, user, id).1)
    ensures user.Some? && id in st.services && user.value in Fans(st, id) ==>
      Unfavorite(st, user, id).1.services[id].favoriteCount == st.services[id].favoriteCount - 1
  {
    var fav := Favorite(st, user, id).1;
    forall other | other in fav.services
      ensures fav.services[other].favoriteCount == |Fans(fav, other)|
    {
      if user.Some? && id in st.services && IsAvailable(st.services[id]) && user.value !in Fans(st, id) && other == id {
        assert Fans(fav, id) == Fans(st, id) + {user.value};
      }
    }
    var unf := Unfavorite(st, user, id).1;
    forall other | other in unf.services
      ensures unf.services[other].favoriteCount == |Fans(unf, other)|
    {
      if user.Some? && id in st.services && user.value in Fans(st, id) && other == id {
        assert Fans(unf, id) == Fans(st, id) - {user.value};
      }
    }
  }

  /** The service directory's rows, updated in place by the detail and favourite views. */
  class Directory {
    var services: map<string, Service>
    var favoritedBy: map<string, set<string>>

    function State(): Store
      reads this
    {
      Store(services, favoritedBy)
    }

    constructor(services: map<string, Service>)
      ensures State() == Store(services, map[])
    {
      this.services := services;
      this.favoritedBy := map[];
    }

    method ViewDetail(id: string, user: Option<string>) returns (r: DetailResponse)
      modifies this
      ensures (r, State()) == View(old(State()), id, user)
    {
      if id !in services || !IsAvailable(services[id]) {
        return DetailNotFound;
      }
      var s := services[id];
      s := s.(viewCount := s.viewCount + 1);
      services := services[id := s];
      r := DetailOk(s, if user.Some? then Some(user.value in Fans(State(), id)) else None);
    }

    method AddFavorite(user: Option<string>, id: string) returns (r: FavoriteResponse)
      modifies this
      ensures (r, State()) == Favorite(old(State()), user, id)
    {
      if user.None? {
        return LoginRequired;
      }
      if id !in services || !IsAvailable(services[id]) {
        return ServiceNotFound;
      }
      var fans := Fans(State(), id);
      var created := user.value !in fans;
      if created {
        favoritedBy := favoritedBy[id := fans + {user.value}];
        services := services[id := services[id].(favoriteCount := services[id].favoriteCount + 1)];
      }
      r := FavoriteOk(true, services[id].favoriteCount);
    }

    method RemoveFavorite(user: Option<string>, id: string) returns (r: FavoriteResponse)
      modifies this
      ensures (r, State()) == Unfavorite(old(State()), user, id)
    {
      if user.None? {
        return LoginRequired;
      }
      if id !in services {
        return ServiceNotFound;
      }
      var fans := Fans(State(), id);
      var deleted := if user.value in fans then 1 else 0;
      if deleted > 0 {
        favoritedBy := favoritedBy[id := fans - {user.value}];
        services := services[id := services[id].(favoriteCount := Max(0, services[id].favoriteCount - 1))];
      }
      r := FavoriteOk(false, services[id].favoriteCount);
    }
  }
}

=== FILE: signals.dfy ===
/**
 * Signal dispatch of the hotspot manager (backend/hotspotmanager/signals.py).
 * SIGINT and SIGUSR1 lead to a clean exit, SIGUSR2 to a fatal exit. Both
 * exits put back the handlers stored at set-up, run the cleanup once and
 * end the process. Sending a signal, the cleanup itself and the exit are
 * recorded as events rather than performed.
 */
module Signals {
  datatype Sig = SIGINT | SIGUSR1 | SIGUSR2 | SIGTERM | SIGKILL

  /** What is installed for a signal: the default action, ignore, or `handle_signal`. */
  datatype Handler = SigDefault | SigIgnore | HandleSignal

  datatype Event = SendSignal(pid: int, sig: Sig) | RestoreHandlers | RunCleanup | Exit(status: int)

  /** Where `handle_signal` sends a signal. */
  datatype Route = ToCleanExit | ToDie | Unhandled

  function RouteOf(sig: Sig): (r: Route)
  {
    if sig == SIGINT || sig == SIGUSR1 then ToCleanExit
    else if sig == SIGUSR2 then ToDie
    else Unhandled
  }

  /** The status each exit path ends the process with. */
  function ExitStatus(r: Route): int
  {
    match r
    case ToCleanExit => 0
    case ToDie => 1
    case Unhandled => 0
  }

  /**
   * The events a route produces. A clean exit from a child process tells
   * the parent with SIGUSR2; the fatal path has that call commented out.
   */
  function ExitTrail(r: Route, pid: int, ppid: int): seq<Event>
  {
    match r
    case ToCleanExit =>
      (if pid != ppid then [SendSignal(ppid, SIGUSR2)] else []) + [RestoreHandlers, RunCleanup, Exit(0)]
    case ToDie => [RestoreHandlers, RunCleanup, Exit(1)]
    case Unhandled => []
  }

  function Count(es: seq<Event>, e: Event): (n: nat)
    ensures n <= |es|
    ensures n == 0 <==> e !in es
  {
    if es == [] then 0 else (if es[0] == e then 1 else 0) + Count(es[1..], e)
  }

  lemma {:induction false} CountAppend(a: seq<Event>, b: seq<Event>, e: Event)
    ensures Count(a + b, e) == Count(a, e) + Count(b, e)
  {
    if a == [] {
      assert a + b == b;
    } else {
      assert (a + b)[0] == a[0];
      assert (a + b)[1..] == a[1..] + b;
      CountAppend(a[1..], b, e);
    }
  }

  /**
   * Dispatch: SIGINT and SIGUSR1 exit with status 0, SIGUSR2 with status 1,
   * and either way the handlers are put back before the single run of the
   * cleanup, which comes before the exit; other signals do nothing. Only a
   * clean exit of a child process signals the parent.
   */
  lemma Dispatch(sig: Sig, pid: int, ppid: int)
    ensures var t := ExitTrail(RouteOf(sig), pid, ppid);
            (t == [] <==> sig !in {SIGINT, SIGUSR1, SIGUSR2}) &&
            (t != [] ==>
              t[|t| - 1] == Exit(if sig == SIGUSR2 then 1 else 0) &&
              Count(t, RunCleanup) == 1 && Count(t, RestoreHandlers) == 1 &&
              t[|t| - 3] == RestoreHandlers && t[|t| - 2] == RunCleanup) &&
            (SendSignal(ppid, SIGUSR2) in t <==> (sig == SIGINT || sig == SIGUSR1) && pid != ppid) &&
            (forall e :: e in t && e.SendSignal? ==> e == SendSignal(ppid, SIGUSR2))
  {
    var t := ExitTrail(RouteOf(sig), pid, ppid);
    if RouteOf(sig) == ToCleanExit {
      var head: seq<Event> := if pid != ppid then [SendSignal(ppid, SIGUSR2)] else [];
      CountAppend(head, [RestoreHandlers, RunCleanup, Exit(0)], RunCleanup);
      CountAppend(head, [RestoreHandlers, RunCleanup, Exit(0)], RestoreHandlers);
    }
  }

  class SignalHandler {
    /** The handler the process has installed for each signal. */
    var installed: map<Sig, Handler>
    var originalSigint: Handler
    var originalSigusr1: Handler
    var originalSigusr2: Handler
    /** What the handler has done so far. */
    var events: seq<Event>

    /** The constructor runs `setup_signal_handlers`. */
    constructor (installed: map<Sig, Handler>)
      ensures this.installed == installed[SIGINT := HandleSignal][SIGUSR1 := HandleSignal][SIGUSR2 := HandleSignal]
      ensures originalSigint == originalSigusr1 == originalSigusr2 == HandleSignal
      ensures events == []
    {
      this.installed := installed;
      events := [];
      new;
      SetupSignalHandlers();
    }

    /**
     * Installs `handle_signal` for the three signals and only then reads
     * back the "original" handlers, so what is stored is `handle_signal`.
     */
    method SetupSignalHandlers()
      modifies this`installed, this`originalSigint, this`originalSigusr1, this`originalSigusr2
      ensures installed == old(installed)[SIGINT := HandleSignal][SIGUSR1 := HandleSignal][SIGUSR2 := HandleSignal]
      ensures originalSigint == originalSigusr1 == originalSigusr2 == HandleSignal
    {
      installed := installed[SIGINT := HandleSignal];
      installed := installed[SIGUSR1 := HandleSignal];
      installed := installed[SIGUSR2 := HandleSignal];
      originalSigint := installed[SIGINT];
      originalSigusr1 := installed[SIGUSR1];
      originalSigusr2 := installed[SIGUSR2];
    }

    method RestoreOriginals()
      modifies this`installed, this`events
      ensures installed == old(installed)[SIGINT := originalSigint][SIGUSR1 := originalSigusr1][SIGUSR2 := originalSigusr2]
      ensures events == old(events) + [RestoreHandlers]
    {
      installed := installed[SIGINT := originalSigint][SIGUSR1 := originalSigusr1][SIGUSR2 := originalSigusr2];
      events := events + [RestoreHandlers];
    }

    /** `clean_exit`; `pid` and `ppid` are what `os.getpid()` and `os.getppid()` return. */
    method CleanExit(pid: int, ppid: int)
      modifies this`installed, this`events
      ensures installed == old(installed)[SIGINT := originalSigint][SIGUSR1 := originalSigusr1][SIGUSR2 := originalSigusr2]
      ensures events == old(events) + ExitTrail(ToCleanExit, pid, ppid)
    {
      if pid != ppid {
        events := events + [SendSignal(ppid, SIGUSR2)];
      }
      RestoreOriginals();
      events := events + [RunCleanup];
      events := events + [Exit(0)];
    }

    /** `die` */
    method Die()
      modifies this`installed, this`events
      ensures installed == old(installed)[SIGINT := originalSigint][SIGUSR1 := originalSigusr1][SIGUSR2 := originalSigusr2]
      ensures events == old(events) + ExitTrail(ToDie, 0, 0)
    {
      RestoreOriginals();
      events := events + [RunCleanup];
      events := events + [Exit(1)];
    }

    /**
     * `handle_signal`. After set-up the stored handlers are `handle_signal`
     * itself, so an exit path reinstalls it rather than the handlers the
     * process started with.
     */
    method HandleSignalCall(sig: Sig, pid: int, ppid: int)
      modifies this`installed, this`events
      ensures events == old(events) + ExitTrail(RouteOf(sig), pid, ppid)
      ensures RouteOf(sig) == Unhandled ==> installed == old(installed)
      ensures RouteOf(sig) != Unhandled && originalSigint == originalSigusr1 == originalSigusr2 == HandleSignal ==>
              installed == old(installed)[SIGINT := HandleSignal][SIGUSR1 := HandleSignal][SIGUSR2 := HandleSignal]
    {
      if sig == SIGINT || sig == SIGUSR1 {
        CleanExit(pid, ppid);
      } else if sig == SIGUSR2 {
        Die();
      }
    }
  }
}

=== FILE: text.dfy ===
/**
 * The handful of Python `str` operations the core relies on: `startswith`,
 * `in`, `split()`, `split(sep)`, `strip()`, `replace`, `lower()`/`upper()`,
 * `str(int)`, and iteration over the lines of an open text file.
 * Case mapping is ASCII only; whitespace is the set `str.isspace` accepts.
 */
module Text {
  import opened Wrappers

  /** Characters `str.split()` and `str.strip()` treat as whitespace. */
  predicate IsWs(c: char)
  {
    c == ' ' || ('\t' <= c <= '\r') || ('\U{1C}' <= c <= '\U{1F}') || c == '\U{85}' ||
    c == '\U{A0}' || c == '\U{1680}' || ('\U{2000}' <= c <= '\U{200A}') ||
    c == '\U{2028}' || c == '\U{2029}' || c == '\U{202F}' || c == '\U{205F}' || c == '\U{3000}'
  }

  predicate NoWs(s: string)
  {
    forall i :: 0 <= i < |s| ==> !IsWs(s[i])
  }

  predicate IsDigit(c: char) { '0' <= c <= '9' }

  predicate IsHexDigit(c: char) { '0' <= c <= '9' || 'a' <= c <= 'f' || 'A' <= c <= 'F' }

  /** `s.startswith(p)` */
  predicate StartsWith(s: string, p: string)
  {
    |p| <= |s| && s[..|p|] == p
  }

  /** `s.endswith(p)` */
  predicate EndsWith(s: string, p: string)
  {
    |p| <= |s| && s[|s| - |p|..] == p
  }

  /** `p in s` for strings: `p` occurs somewhere in `s`. */
  predicate Contains(s: string, p: string)
    decreases |s|
  {
    StartsWith(s, p) || (|s| > 0 && Contains(s[1..], p))
  }

  lemma {:induction false} ContainsAt(s: string, p: string, i: nat)
    requires i + |p| <= |s| && s[i..i + |p|] == p
    ensures Contains(s, p)
    decreases i
  {
    if i > 0 {
      assert s[1..][i - 1..i - 1 + |p|] == s[i..i + |p|];
      ContainsAt(s[1..], p, i - 1);
    }
  }

  lemma {:induction false} ContainsWitness(s: string, p: string) returns (i: nat)
    requires Contains(s, p)
    ensures i + |p| <= |s| && s[i..i + |p|] == p
    decreases |s|
  {
    if StartsWith(s, p) {
      i := 0;
    } else {
      var j := ContainsWitness(s[1..], p);
      assert s[1..][j..j + |p|] == s[j + 1..j + 1 + |p|];
      i := j + 1;
    }
  }

  /** The blocks of a list written one after the other. */
  function Flatten<T>(blocks: seq<seq<T>>): seq<T>
  {
    if blocks == [] then [] else blocks[0] + Flatten(blocks[1..])
  }

  lemma {:induction false} FlattenMember<T>(blocks: seq<seq<T>>, e: T)
    ensures e in Flatten(blocks) <==> exists k :: 0 <= k < |blocks| && e in blocks[k]
  {
    if blocks != [] {
      FlattenMember(blocks[1..], e);
      if e in Flatten(blocks) && e !in blocks[0] {
        var k :| 0 <= k < |blocks[1..]| && e in blocks[1..][k];
        assert e in blocks[k + 1];
      }
      if exists k :: 0 <= k < |blocks| && e in blocks[k] {
        var k :| 0 <= k < |blocks| && e in blocks[k];
        if k > 0 {
          assert e in blocks[1..][k - 1];
        }
      }
    }
  }

  function Concat(parts: seq<string>): (r: string)
    ensures |parts| == 1 ==> r == parts[0]
  {
    if parts == [] then "" else parts[0] + Concat(parts[1..])
  }

  lemma {:induction false} ConcatAppend(a: seq<string>, b: seq<string>)
    ensures Concat(a + b) == Concat(a) + Concat(b)
    decreases |a|
  {
    if a == [] {
      assert a + b == b;
    } else {
      assert (a + b)[1..] == a[1..] + b;
      ConcatAppend(a[1..], b);
    }
  }

  /** `sep.join(parts)` */
  function Join(parts: seq<string>, sep: string): string
  {
    if parts == [] then ""
    else if |parts| == 1 then parts[0]
    else parts[0] + sep + Join(parts[1..], sep)
  }

  /** `s.lstrip()` */
  function StripLeft(s: string): (r: string)
    ensures |r| <= |s| && r == s[|s| - |r|..]
    ensures r == [] || !IsWs(r[0])
  {
    if s != [] && IsWs(s[0]) then StripLeft(s[1..]) else s
  }

  /** `s.rstrip()` */
  function StripRight(s: string): (r: string)
    ensures |r| <= |s| && r == s[..|r|]
    ensures r == [] || !IsWs(r[|r| - 1])
  {
    if s != [] && IsWs(s[|s| - 1]) then StripRight(s[..|s| - 1]) else s
  }

  /** `s.strip()` */
  function Strip(s: string): (r: string)
    ensures r == [] || (!IsWs(r[0]) && !IsWs(r[|r| - 1]))
  {
    StripRight(StripLeft(s))
  }

  lemma {:induction false} StripOfStripped(s: string)
    requires s == [] || (!IsWs(s[0]) && !IsWs(s[|s| - 1]))
    ensures Strip(s) == s
  {
  }

  /** `s.rstrip(c)` for a single character `c`. */
  function RStripChar(s: string, c: char): (r: string)
    ensures |r| <= |s| && r == s[..|r|]
    ensures r == [] || r[|r| - 1] != c
  {
    if s != [] && s[|s| - 1] == c then RStripChar(s[..|s| - 1], c) else s
  }

  /** `s.lstrip(c)` for a single character `c`. */
  function LStripChar(s: string, c: char): (r: string)
    ensures |r| <= |s| && r == s[|s| - |r|..]
    ensures r == [] || r[0] != c
  {
    if s != [] && s[0] == c then LStripChar(s[1..], c) else s
  }

  lemma RStripCharNone(s: string, c: char)
    requires s == [] || s[|s| - 1] != c
    ensures RStripChar(s, c) == s
  {
  }

  /** One trailing `c` after a text that does not end in `c` is removed. */
  lemma RStripCharOne(s: string, c: char)
    requires s != [] && s[|s| - 1] != c
    ensures RStripChar(s + [c], c) == s
  {
    assert (s + [c])[..|s|] == s;
    RStripCharNone(s, c);
  }

  lemma LStripCharNone(s: string, c: char)
    requires s == [] || s[0] != c
    ensures LStripChar(s, c) == s
  {
  }

  /** One leading `c` before a text that does not start with `c` is removed. */
  lemma LStripCharOne(s: string, c: char)
    requires s != [] && s[0] != c
    ensures LStripChar([c] + s, c) == s
  {
    assert ([c] + s)[1..] == s;
    LStripCharNone(s, c);
  }

  /** Length of the leading run of non-whitespace characters. */
  function TokenLen(s: string): (n: nat)
    ensures n <= |s|
    ensures forall i :: 0 <= i < n ==> !IsWs(s[i])
    ensures n == |s| || IsWs(s[n])
  {
    if s == [] || IsWs(s[0]) then 0 else 1 + TokenLen(s[1..])
  }

  /** `s.split()`: the maximal runs of non-whitespace characters, in order. */
  function Words(s: string): (r: seq<string>)
    ensures forall k :: 0 <= k < |r| ==> r[k] != [] && NoWs(r[k])
    decreases |s|
  {
    if s == [] then []
    else if IsWs(s[0]) then Words(s[1..])
    else
      var n := TokenLen(s);
      [s[..n]] + Words(s[n..])
  }

  lemma {:induction false} WordsOfWord(w: string)
    requires w != [] && NoWs(w)
    ensures Words(w) == [w]
  {
    TokenLenOfWord(w);
    assert w[..|w|] == w;
    assert w[|w|..] == [];
    assert Words(w) == [w[..|w|]] + Words(w[|w|..]);
  }

  lemma {:induction false} TokenLenOfWord(w: string)
    requires NoWs(w)
    ensures TokenLen(w) == |w|
    decreases |w|
  {
    if w != [] { TokenLenOfWord(w[1..]); }
  }

  lemma {:induction false} TokenLenPrefix(w: string, rest: string)
    requires w != [] && NoWs(w) && rest != [] && IsWs(rest[0])
    ensures TokenLen(w + rest) == |w|
    decreases |w|
  {
    if |w| > 1 {
      assert (w + rest)[1..] == w[1..] + rest;
      TokenLenPrefix(w[1..], rest);
    } else {
      assert (w + rest)[1..] == rest;
    }
  }

  /** `(w + " " + rest).split() == [w] + rest.split()` for a word `w`. */
  lemma {:induction false} WordsCons(w: string, rest: string)
    requires w != [] && NoWs(w)
    ensures Words(w + " " + rest) == [w] + Words(rest)
  {
    var s := w + " " + rest;
    TokenLenPrefix(w, " " + rest);
    assert s == w + (" " + rest);
    assert s[..|w|] == w;
    assert s[|w|..] == " " + rest;
    assert (" " + rest)[1..] == rest;
  }

  /** `s.split(sep)` for a one-character separator: never empty. */
  function SplitOn(s: string, sep: char): (r: seq<string>)
    ensures |r| >= 1
    ensures forall k :: 0 <= k < |r| ==> sep !in r[k]
    decreases |s|
  {
    if sep !in s then [s]
    else
      var i := FirstIndex(s, sep);
      [s[..i]] + SplitOn(s[i + 1..], sep)
  }

  lemma SplitOnCons(a: string, sep: char, rest: string)
    requires sep !in a
    ensures SplitOn(a + [sep] + rest, sep) == [a] + SplitOn(rest, sep)
  {
    var s := a + [sep] + rest;
    assert s[|a|] == sep;
    var i := FirstIndex(s, sep);
    assert forall j :: 0 <= j < |a| ==> s[j] == a[j] != sep;
    assert i == |a|;
    assert s[..i] == a && s[i + 1..] == rest;
  }

  function FirstIndex<T(==)>(s: seq<T>, c: T): (i: nat)
    requires c in s
    ensures i < |s| && s[i] == c && forall j :: 0 <= j < i ==> s[j] != c
  {
    if s[0] == c then 0 else 1 + FirstIndex(s[1..], c)
  }

  /**
   * `s.replace(p, rep)` for a non-empty pattern: occurrences are replaced
   * left to right without overlapping.
   */
  function ReplaceAll(s: string, p: string, rep: string): (r: string)
    requires p != []
    decreases |s|
  {
    if |s| < |p| then s
    else if s[..|p|] == p then rep + ReplaceAll(s[|p|..], p, rep)
    else [s[0]] + ReplaceAll(s[1..], p, rep)
  }

  lemma {:induction false} ReplaceAbsent(s: string, p: string, rep: string)
    requires p != [] && !Contains(s, p)
    ensures ReplaceAll(s, p, rep) == s
    decreases |s|
  {
    if |s| >= |p| {
      assert !StartsWith(s, p);
      ReplaceAbsent(s[1..], p, rep);
    }
  }

  /** Deleting every occurrence of a pattern never lengthens the text. */
  lemma {:induction false} ReplaceByNothingShortens(s: string, p: string)
    requires p != []
    ensures |ReplaceAll(s, p, "")| <= |s|
    decreases |s|
  {
    if |s| >= |p| {
      if s[..|p|] == p {
        ReplaceByNothingShortens(s[|p|..], p);
      } else {
        ReplaceByNothingShortens(s[1..], p);
      }
    }
  }

  /** ASCII `str.lower()` on one character. */
  function LowerChar(c: char): char
  {
    if 'A' <= c <= 'Z' then (c as int - 'A' as int + 'a' as int) as char else c
  }

  /** ASCII `str.upper()` on one character. */
  function UpperChar(c: char): char
  {
    if 'a' <= c <= 'z' then (c as int - 'a' as int + 'A' as int) as char else c
  }

  function Lower(s: string): (r: string)
    ensures |r| == |s| && forall i :: 0 <= i < |s| ==> r[i] == LowerChar(s[i])
  {
    if s == [] then [] else [LowerChar(s[0])] + Lower(s[1..])
  }

  function Upper(s: string): (r: string)
    ensures |r| == |s| && forall i :: 0 <= i < |s| ==> r[i] == UpperChar(s[i])
  {
    if s == [] then [] else [UpperChar(s[0])] + Upper(s[1..])
  }

  lemma LowerIdempotent(s: string)
    ensures Lower(Lower(s)) == Lower(s)
  {
  }

  function DigitChar(d: nat): char
    requires d < 10
  {
    ('0' as int + d) as char
  }

  /** `str(n)` for a natural number. */
  function NatToString(n: nat): (r: string)
    ensures r != [] && forall i :: 0 <= i < |r| ==> IsDigit(r[i])
  {
    if n < 10 then [DigitChar(n)] else NatToString(n / 10) + [DigitChar(n % 10)]
  }

  /** `str(i)` for any integer. */
  function IntToString(i: int): string
  {
    if i < 0 then "-" + NatToString(-i) else NatToString(i)
  }

  /** Value of a non-empty string of decimal digits (`int(s)`). */
  function DigitsValue(s: string): nat
    requires forall i :: 0 <= i < |s| ==> IsDigit(s[i])
  {
    if s == [] then 0 else DigitsValue(s[..|s| - 1]) * 10 + DigitValue(s[|s| - 1])
  }

  function DigitValue(c: char): nat
    requires IsDigit(c)
  {
    c as int - '0' as int
  }

  lemma {:induction false} DigitsValueOfNatToString(n: nat)
    ensures DigitsValue(NatToString(n)) == n
  {
    if n >= 10 {
      var s := NatToString(n);
      assert s[..|s| - 1] == NatToString(n / 10);
      DigitsValueOfNatToString(n / 10);
    }
  }

  predicate DigitsOrUnderscores(s: string)
  {
    forall i :: 0 <= i < |s| ==> IsDigit(s[i]) || s[i] == '_'
  }

  /**
   * A decimal literal as `int()` reads one: digits, where single
   * underscores may stand between two digits.
   */
  predicate IsDecimal(s: string)
  {
    s != [] && IsDigit(s[0]) && IsDigit(s[|s| - 1]) && DigitsOrUnderscores(s) &&
    forall i :: 0 <= i < |s| - 1 ==> !DoubleUnderscoreAt(s, i)
  }

  predicate DoubleUnderscoreAt(s: string, i: nat)
    requires i + 1 < |s|
  {
    s[i] == '_' && s[i + 1] == '_'
  }

  /** The value of the digits of `s`, the underscores skipped. */
  function DecimalValue(s: string): nat
    requires DigitsOrUnderscores(s)
  {
    if s == [] then 0
    else if s[|s| - 1] == '_' then DecimalValue(s[..|s| - 1])
    else DecimalValue(s[..|s| - 1]) * 10 + DigitValue(s[|s| - 1])
  }

  /**
   * `int(t)` for a text `t`, in base 10: surrounding whitespace, an optional
   * sign and a decimal literal; None where `int` raises ValueError.
   */
  function ParseInt(t: string): (r: Option<int>)
    ensures r.Some? ==> Strip(t) != []
    ensures r.Some? && IsDigit(Strip(t)[0]) ==> r.value >= 0
  {
    ParseLiteral(Strip(t))
  }

  /** The stripped text of `int(t)`: an optional sign and a decimal literal. */
  function ParseLiteral(s: string): (r: Option<int>)
    ensures r.Some? ==> s != []
    ensures r.Some? && IsDigit(s[0]) ==> r.value >= 0
  {
    if IsDecimal(s) then Some(DecimalValue(s))
    else if s != [] && (s[0] == '-' || s[0] == '+') && IsDecimal(s[1..]) then
      Some(if s[0] == '-' then -(DecimalValue(s[1..]) as int) else DecimalValue(s[1..]))
    else None
  }

  lemma {:induction false} DecimalValueOfDigits(s: string)
    requires forall i :: 0 <= i < |s| ==> IsDigit(s[i])
    ensures DigitsOrUnderscores(s) && DecimalValue(s) == DigitsValue(s)
  {
    if s != [] {
      DecimalValueOfDigits(s[..|s| - 1]);
    }
  }

  /** `str(n)` is a decimal literal that reads back as `n`. */
  lemma NumeralIsDecimal(n: nat)
    ensures IsDecimal(NatToString(n)) && DecimalValue(NatToString(n)) == n
  {
    DecimalValueOfDigits(NatToString(n));
    DigitsValueOfNatToString(n);
  }

  lemma DigitNotWs(c: char)
    requires IsDigit(c)
    ensures !IsWs(c)
  {
  }

  /** A decimal literal parses to its value. */
  lemma ParseIntOfDecimal(s: string)
    requires IsDecimal(s)
    ensures ParseInt(s) == Some(DecimalValue(s))
  {
    DigitNotWs(s[0]);
    DigitNotWs(s[|s| - 1]);
    StripOfStripped(s);
  }

  lemma NegatedLiteral(s: string)
    requires IsDecimal(s)
    ensures ParseLiteral("-" + s) == Some(-(DecimalValue(s) as int))
  {
    var t := "-" + s;
    assert t[0] == '-' && t[1..] == s;
  }

  /** A decimal literal after a minus sign parses to its negated value. */
  lemma ParseIntOfNegated(s: string)
    requires IsDecimal(s)
    ensures ParseInt("-" + s) == Some(-(DecimalValue(s) as int))
  {
    var t := "-" + s;
    assert t[|t| - 1] == s[|s| - 1];
    DigitNotWs(s[|s| - 1]);
    StripOfStripped(t);
    NegatedLiteral(s);
  }

  /** `int(str(n)) == n`: the parse reads back every rendered integer. */
  lemma ParseIntOfIntToString(n: int)
    ensures ParseInt(IntToString(n)) == Some(n)
  {
    if n < 0 {
      var d := NatToString(-n);
      assert IntToString(n) == "-" + d;
      NumeralIsDecimal(-n);
      ParseIntOfNegated(d);
    } else {
      assert IntToString(n) == NatToString(n);
      NumeralIsDecimal(n);
      ParseIntOfDecimal(NatToString(n));
    }
  }

  /** An underscore between digits does not change the value `int` reads. */
  lemma {:induction false} UnderscoreIgnored(a: string, b: string)
    requires DigitsOrUnderscores(a) && DigitsOrUnderscores(b)
    ensures DigitsOrUnderscores(a + "_" + b) && DigitsOrUnderscores(a + b)
    ensures DecimalValue(a + "_" + b) == DecimalValue(a + b)
    decreases |b|
  {
    if b == [] {
      assert (a + "_" + b)[..|a|] == a;
      assert a + b == a;
    } else {
      var init := b[..|b| - 1];
      UnderscoreIgnored(a, init);
      assert (a + "_" + b)[..|a + "_" + b| - 1] == a + "_" + init;
      assert (a + b)[..|a + b| - 1] == a + init;
    }
  }

  lemma JoinedDecimal(a: string, sep: string, b: string)
    requires IsDecimal(a) && IsDecimal(b) && (sep == "" || sep == "_")
    ensures IsDecimal(a + sep + b)
  {
    var u := a + sep + b;
    assert DigitsOrUnderscores(u) by {
      forall i | 0 <= i < |u| ensures IsDigit(u[i]) || u[i] == '_' {
        if i < |a| { assert u[i] == a[i]; }
        else if i >= |a| + |sep| { assert u[i] == b[i - |a| - |sep|]; }
      }
    }
    forall i | 0 <= i < |u| - 1 ensures !DoubleUnderscoreAt(u, i) {
      if i + 1 < |a| {
        assert u[i] == a[i] && u[i + 1] == a[i + 1];
        assert !DoubleUnderscoreAt(a, i);
      } else if i + 1 == |a| {
        assert u[i] == a[|a| - 1];
      } else if i < |a| + |sep| {
        assert u[i + 1] == b[0];
      } else {
        var k := i - |a| - |sep|;
        assert u[i] == b[k] && u[i + 1] == b[k + 1];
        assert !DoubleUnderscoreAt(b, k);
      }
    }
  }

  /** `int("1_000") == int("1000")`: digit groups may be separated by underscores. */
  lemma ParseIntSkipsUnderscore(a: string, b: string)
    requires IsDecimal(a) && IsDecimal(b)
    ensures ParseInt(a + "_" + b) == ParseInt(a + b)
  {
    UnderscoreIgnored(a, b);
    JoinedDecimal(a, "_", b);
    JoinedDecimal(a, "", b);
    assert a + "" + b == a + b;
    ParseIntOfDecimal(a + "_" + b);
    ParseIntOfDecimal(a + b);
  }

  /** Powers of ten, for bounding the length of `str(n)`. */
  function Pow10(k: nat): (r: nat)
    ensures r >= 1
  {
    if k == 0 then 1 else 10 * Pow10(k - 1)
  }

  /** A number is below ten to the power of the length of its decimal numeral. */
  lemma {:induction false} NumeralBound(n: nat)
    ensures n < Pow10(|NatToString(n)|)
  {
    if n >= 10 {
      NumeralBound(n / 10);
      assert |NatToString(n)| == |NatToString(n / 10)| + 1;
    }
  }

  lemma {:induction false} Pow10Monotone(a: nat, b: nat)
    requires a <= b
    ensures Pow10(a) <= Pow10(b)
    decreases b
  {
    if a < b {
      Pow10Monotone(a, b - 1);
    }
  }

  /**
   * The lines an open text file yields when iterated: each line keeps its
   * terminating '\n'; only the last one may lack it.
   */
  function FileLines(text: string): (r: seq<string>)
    decreases |text|
  {
    if text == [] then []
    else if '\n' !in text then [text]
    else
      var i := FirstIndex(text, '\n');
      [text[..i + 1]] + FileLines(text[i + 1..])
  }

  lemma {:induction false} FileLinesConcat(text: string)
    ensures Concat(FileLines(text)) == text
    decreases |text|
  {
    if text != [] && '\n' in text {
      var i := FirstIndex(text, '\n');
      FileLinesConcat(text[i + 1..]);
      assert text == text[..i + 1] + text[i + 1..];
    }
  }

  /** A text holding a '\n' iterates as its first line, then the lines of the rest. */
  lemma FileLinesCons(t: string)
    requires '\n' in t
    ensures FileLines(t) == [t[..FirstIndex(t, '\n') + 1]] + FileLines(t[FirstIndex(t, '\n') + 1..])
  {
  }

  /** A single '\n'-terminated line is one line. */
  lemma FileLinesOne(last: string)
    requires last != [] && last[|last| - 1] == '\n' && '\n' !in last[..|last| - 1]
    ensures FileLines(last) == [last]
  {
    var body := last[..|last| - 1];
    assert body + "\n" == last;
    FirstIndexPast(body, "\n");
    var i := FirstIndex(last, '\n');
    assert i == |last| - 1;
    FileLinesCons(last);
    assert last[..i + 1] == last;
    assert last[i + 1..] == [];
    assert FileLines([]) == [];
  }

  /**
   * Appending a line to a text that is empty or ends with '\n' adds exactly
   * that line to what iteration yields.
   */
  lemma FileLinesAppend(text: string, line: string)
    requires text == [] || text[|text| - 1] == '\n'
    requires '\n' !in line
    ensures FileLines(text + line + "\n") == FileLines(text) + [line + "\n"]
  {
    var last := line + "\n";
    assert last[..|last| - 1] == line;
    assert text + line + "\n" == text + last;
    FileLinesAppendLast(text, last);
  }

  lemma {:induction false} FileLinesAppendLast(text: string, last: string)
    requires text == [] || text[|text| - 1] == '\n'
    requires last != [] && last[|last| - 1] == '\n' && '\n' !in last[..|last| - 1]
    ensures FileLines(text + last) == FileLines(text) + [last]
    decreases |text|
  {
    if text == [] {
      assert text + last == last;
      FileLinesOne(last);
    } else {
      assert text[|text| - 1] == '\n';
      var i := FirstIndex(text, '\n');
      var head, rest := text[..i + 1], text[i + 1..];
      assert rest == [] || rest[|rest| - 1] == '\n' by {
        if rest != [] { assert rest[|rest| - 1] == text[|text| - 1]; }
      }
      FileLinesAppendLast(rest, last);
      FileLinesSplitAppend(text, last, i);
      calc {
        FileLines(text + last);
        [head] + FileLines(rest + last);
        [head] + (FileLines(rest) + [last]);
        ([head] + FileLines(rest)) + [last];
        FileLines(text) + [last];
      }
    }
  }

  lemma FileLinesSplitAppend(text: string, last: string, i: nat)
    requires '\n' in text && i == FirstIndex(text, '\n')
    ensures FileLines(text + last) == [text[..i + 1]] + FileLines(text[i + 1..] + last)
    ensures FileLines(text) == [text[..i + 1]] + FileLines(text[i + 1..])
  {
    FirstIndexPrefix(text, last);
    FileLinesCons(text);
    FileLinesCons(text + last);
    assert (text + last)[..i + 1] == text[..i + 1];
    assert (text + last)[i + 1..] == text[i + 1..] + last;
  }

  lemma {:induction false} FirstIndexPrefix(a: string, b: string)
    requires '\n' in a
    ensures '\n' in a + b && FirstIndex(a + b, '\n') == FirstIndex(a, '\n')
    decreases |a|
  {
    assert (a + b)[0] == a[0];
    if a[0] != '\n' {
      assert (a + b)[1..] == a[1..] + b;
      FirstIndexPrefix(a[1..], b);
    }
  }

  lemma {:induction false} FirstIndexPast(a: string, b: string)
    requires '\n' !in a && b != [] && b[0] == '\n'
    ensures '\n' in a + b && FirstIndex(a + b, '\n') == |a|
    decreases |a|
  {
    assert (a + b)[|a|] == '\n';
    if a != [] {
      assert (a + b)[1..] == a[1..] + b;
      FirstIndexPast(a[1..], b);
    }
  }

  /** Every character of an occurring pattern is a character of `s`. */
  lemma ContainsHasChars(s: string, p: string)
    requires Contains(s, p)
    ensures forall j :: 0 <= j < |p| ==> p[j] in s
  {
    var i := ContainsWitness(s, p);
    forall j | 0 <= j < |p| ensures p[j] in s {
      assert s[i..i + |p|][j] == s[i + j];
    }
  }

  /** A pattern with a character that `s` lacks does not occur in `s`. */
  lemma NotContainsChar(s: string, p: string, c: char)
    requires c in p && c !in s
    ensures !Contains(s, p)
  {
    if Contains(s, p) {
      ContainsHasChars(s, p);
    }
  }

  /** Replacing a one-character pattern distributes over concatenation. */
  lemma {:induction false} ReplaceCharAppend(a: string, b: string, c: char, rep: string)
    ensures ReplaceAll(a + b, [c], rep) == ReplaceAll(a, [c], rep) + ReplaceAll(b, [c], rep)
    decreases |a|
  {
    if a != [] {
      assert (a + b)[..1] == a[..1];
      assert (a + b)[1..] == a[1..] + b;
      ReplaceCharAppend(a[1..], b, c, rep);
    } else {
      assert a + b == b;
    }
  }

  /** `sep.join(parts).replace(sep, rep) == rep.join(parts)` when no part holds `sep`. */
  lemma {:induction false} ReplaceJoin(parts: seq<string>, sep: char, rep: string)
    requires forall k :: 0 <= k < |parts| ==> sep !in parts[k]
    ensures ReplaceAll(Join(parts, [sep]), [sep], rep) == Join(parts, rep)
    decreases |parts|
  {
    if parts != [] {
      NotContainsChar(parts[0], [sep], sep);
      ReplaceAbsent(parts[0], [sep], rep);
      if |parts| > 1 {
        var tail := Join(parts[1..], [sep]);
        assert Join(parts, [sep]) == parts[0] + ([sep] + tail);
        ReplaceSepStep(parts[0], tail, sep, rep);
        ReplaceJoin(parts[1..], sep, rep);
      }
    }
  }

  /** Replacing in a part free of `sep`, then `sep`, then a tail. */
  lemma ReplaceSepStep(head: string, tail: string, sep: char, rep: string)
    requires sep !in head
    ensures ReplaceAll(head + ([sep] + tail), [sep], rep) == head + rep + ReplaceAll(tail, [sep], rep)
  {
    NotContainsChar(head, [sep], sep);
    ReplaceAbsent(head, [sep], rep);
    ReplaceCharAppend(head, [sep] + tail, sep, rep);
    ReplaceCharAppend([sep], tail, sep, rep);
    assert ReplaceAll([sep], [sep], rep) == rep + ReplaceAll([], [sep], rep);
  }

  /** `" ".join(words).split() == words` for whitespace-free, non-empty words. */
  lemma {:induction false} WordsOfJoin(words: seq<string>)
    requires forall k :: 0 <= k < |words| ==> words[k] != [] && NoWs(words[k])
    ensures Words(Join(words, " ")) == words
    decreases |words|
  {
    if |words| == 1 {
      WordsOfWord(words[0]);
    } else if |words| > 1 {
      WordsCons(words[0], Join(words[1..], " "));
      WordsOfJoin(words[1..]);
    }
  }

  lemma {:induction false} JoinNoChar(parts: seq<string>, sep: string, c: char)
    requires c !in sep && forall k :: 0 <= k < |parts| ==> c !in parts[k]
    ensures c !in Join(parts, sep)
    decreases |parts|
  {
    if |parts| > 1 {
      JoinNoChar(parts[1..], sep, c);
    }
  }

  lemma {:induction false} JoinNoWs(parts: seq<string>, sep: string)
    requires NoWs(sep) && forall k :: 0 <= k < |parts| ==> NoWs(parts[k])
    ensures NoWs(Join(parts, sep))
    decreases |parts|
  {
    if |parts| > 1 {
      JoinNoWs(parts[1..], sep);
      var t := Join(parts[1..], sep);
      assert Join(parts, sep) == parts[0] + sep + t;
    }
  }

  /** A join starts with the first part and ends with the last one. */
  lemma {:induction false} JoinEnds(parts: seq<string>, sep: string)
    requires parts != []
    ensures var j := Join(parts, sep);
            |parts[0]| <= |j| && j[..|parts[0]|] == parts[0] &&
            |parts[|parts| - 1]| <= |j| && j[|j| - |parts[|parts| - 1]|..] == parts[|parts| - 1]
    decreases |parts|
  {
    if |parts| > 1 {
      JoinEnds(parts[1..], sep);
      var t := Join(parts[1..], sep);
      assert Join(parts, sep) == parts[0] + sep + t;
      assert parts[1..][|parts[1..]| - 1] == parts[|parts| - 1];
    }
  }

  /** Splitting a join on its one-character separator gives the parts back. */
  lemma {:induction false} SplitOnJoin(parts: seq<string>, sep: char)
    requires parts != [] && forall k :: 0 <= k < |parts| ==> sep !in parts[k]
    ensures SplitOn(Join(parts, [sep]), sep) == parts
    decreases |parts|
  {
    if |parts| > 1 {
      SplitOnJoin(parts[1..], sep);
      SplitOnCons(parts[0], sep, Join(parts[1..], [sep]));
      assert Join(parts, [sep]) == parts[0] + [sep] + Join(parts[1..], [sep]);
      assert parts == [parts[0]] + parts[1..];
    }
  }

  /** A join whose first part starts and whose last part ends with a non-blank is left alone by the strip. */
  lemma JoinStripped(parts: seq<string>, sep: string)
    requires parts != [] && parts[0] != [] && parts[|parts| - 1] != []
    requires !IsWs(parts[0][0]) && !IsWs(parts[|parts| - 1][|parts[|parts| - 1]| - 1])
    ensures Strip(Join(parts, sep)) == Join(parts, sep)
  {
    var j := Join(parts, sep);
    var first := parts[0];
    var last := parts[|parts| - 1];
    JoinEnds(parts, sep);
    assert j[0] == first[0] by { assert j[..|first|][0] == j[0]; }
    assert j[|j| - 1] == last[|last| - 1] by { assert j[|j| - |last|..][|last| - 1] == j[|j| - 1]; }
    StripOfStripped(j);
  }

  /** Parts with non-blank outer ends and no separator come back from splitting their stripped join. */
  lemma SplitStrippedJoin(parts: seq<string>, sep: char)
    requires parts != [] && parts[0] != [] && parts[|parts| - 1] != []
    requires !IsWs(parts[0][0]) && !IsWs(parts[|parts| - 1][|parts[|parts| - 1]| - 1])
    requires forall k :: 0 <= k < |parts| ==> sep !in parts[k]
    ensures SplitOn(Strip(Join(parts, [sep])), sep) == parts
  {
    JoinStripped(parts, [sep]);
    SplitOnJoin(parts, sep);
  }

  /** A string with non-blank ends, followed by a newline, strips back to itself. */
  lemma StripNewline(s: string)
    requires s != [] && !IsWs(s[0]) && !IsWs(s[|s| - 1])
    ensures Strip(s + "\n") == s
  {
    var t := s + "\n";
    assert t[0] == s[0];
    assert StripLeft(t) == t;
    assert t[..|t| - 1] == s;
    assert StripRight(t) == StripRight(s);
  }

  /** One line as iterating a file yields it: ending in its only '\n'. */
  predicate IsLine(l: string)
  {
    l != [] && l[|l| - 1] == '\n' && '\n' !in l[..|l| - 1]
  }

  /** A text that is empty or ends with '\n' iterates as whole lines. */
  lemma {:induction false} FileLinesAreLines(text: string)
    requires text == [] || text[|text| - 1] == '\n'
    ensures forall k :: 0 <= k < |FileLines(text)| ==> IsLine(FileLines(text)[k])
    decreases |text|
  {
    if text != [] {
      var rest := FirstLineSplit(text);
      FileLinesAreLines(rest);
    }
  }

  /** A non-empty text ending in '\n' is a whole first line, then a rest that is empty or ends in '\n'. */
  lemma FirstLineSplit(text: string) returns (rest: string)
    requires text != [] && text[|text| - 1] == '\n'
    ensures |rest| < |text| && (rest == [] || rest[|rest| - 1] == '\n')
    ensures exists head :: IsLine(head) && FileLines(text) == [head] + FileLines(rest)
  {
    assert text[|text| - 1] in text;
    var i := FirstIndex(text, '\n');
    var head := text[..i + 1];
    rest := text[i + 1..];
    assert IsLine(head) by {
      assert head[..|head| - 1] == text[..i];
    }
    assert rest == [] || rest[|rest| - 1] == '\n' by {
      if rest != [] { assert rest[|rest| - 1] == text[|text| - 1]; }
    }
    FileLinesCons(text);
  }

  /** Whole lines written one after another iterate back as the same lines. */
  lemma {:induction false} FileLinesOfConcat(ls: seq<string>)
    requires forall k :: 0 <= k < |ls| ==> IsLine(ls[k])
    ensures FileLines(Concat(ls)) == ls
    decreases |ls|
  {
    if ls != [] {
      FileLinesOfConcat(ls[1..]);
      FileLinesLineFirst(ls[0], Concat(ls[1..]));
      assert ls == [ls[0]] + ls[1..];
    }
  }

  /** A whole line in front of a text iterates as that line, then the text's lines. */
  lemma FileLinesLineFirst(l: string, rest: string)
    requires IsLine(l)
    ensures FileLines(l + rest) == [l] + FileLines(rest)
  {
    var body := l[..|l| - 1];
    assert l + rest == body + ("\n" + rest);
    FirstIndexPast(body, "\n" + rest);
    FileLinesCons(l + rest);
    assert (l + rest)[..|body| + 1] == l;
    assert (l + rest)[|body| + 1..] == rest;
  }

  /** Whole lines concatenate to a text that is empty or ends with '\n'. */
  lemma {:induction false} ConcatLinesTerminated(ls: seq<string>)
    requires forall k :: 0 <= k < |ls| ==> IsLine(ls[k])
    ensures Concat(ls) == [] || Concat(ls)[|Concat(ls)| - 1] == '\n'
    decreases |ls|
  {
    if ls != [] {
      ConcatLinesTerminated(ls[1..]);
      var l := ls[0];
      var rest := Concat(ls[1..]);
      assert (l + rest)[|l + rest| - 1] == if rest == [] then l[|l| - 1] else rest[|rest| - 1];
    }
  }

  lemma NotStartsWith(s: string, p: string)
    requires p != [] && s != [] && s[0] != p[0]
    ensures !StartsWith(s, p)
  {
    if |p| <= |s| { assert s[..|p|][0] == s[0]; }
  }
}

=== FILE: wrappers.dfy ===
/** Option and Result, used wherever the source returns None or raises. */
module Wrappers {
  datatype Option<T> = None | Some(value: T)

  datatype Result<T, E> = Ok(value: T) | Err(error: E)
  {
    predicate IsOk() { Ok? }
  }
}
